=== FILE: README.md ===
# tolmach, modelled in Dafny

tolmach is a command-line tool that turns a video link into a written
report. `tolmach transcribe <url>` runs a five-stage pipeline:

1. **detect**: pick the video provider (YouTube) that handles the URL.
2. **download**: fetch the audio track as WAV with `yt-dlp`.
3. **transcribe**: run `whisper-cli` on the audio, parse its JSON output
   into timed, scored segments, and drop the segments the recogniser
   typically invents (hallucinations).
4. **report**: render a Russian-language prompt from the metadata and the
   transcript, and complete it through a language-model router.
5. **save**: write the report as Markdown under a dated, slugged file name.

Each stage emits `started`, `progress`, `completed` and `failed` events
through one callback. The first failing stage ends the run with a pipeline
error that names it. With `--no-llm` the command stops after
transcription and saves the plain transcript instead. In that mode it
reuses and fills a transcription cache keyed by a hash of the audio path
and the model.

Around the pipeline sit the configuration and the dependency check:
- The configuration is built from defaults, a JSON file, environment
  variables and command-line flags, and checked against a schema.
- The dependency check refuses to go on when a required program is missing.
- `tolmach config set` edits the configuration file.

The model is one Dafny module per source component. The modules are pure
functions over immutable datatypes. Everything the program does through
the outside world becomes a parameter:
- what a process printed and whether it failed;
- what reading a path yields;
- the SHA-256 digest;
- the JSON text codec;
- the clock readings;
- the environment variables;
- the Claude provider's completion.

An operation that can throw returns an `Outcome` (returned or thrown). A
rejected promise is a thrown outcome. A run of the pipeline is observed as
a trace: the events in emission order, the calls made on collaborators and
on the filesystem, and how the run ended.

Module map:
- `Wrappers`, `Text`, `Paths`, `Json`, `Filesystem`: shared vocabulary.
  This is the result type, string and path helpers, decoded JSON values,
  and files as a map from paths to read results.
- `Errors`, `Events`: the error taxonomy and the progress protocol.
- `Transcript`, `Video`, `Llm`, `Report`: the domain values and their
  validating constructors.
- `Hallucination`, `WhisperOutput`, `WhisperTranscriber`, `Process`: the
  speech-recognition adapter.
- `Registry`, `YouTube`: the video providers.
- `Router`, `MockProvider`, `Prompt`: the language-model side.
- `Orchestrator`, `PipelineTrace`, `PipelineOutcome`: the pipeline run and
  the shape of its traces.
- `Cache`, `Config`, `Dependency`: infrastructure.
- `ConfigCommand`, `TranscribeCommand`: the two commands that do work.

## Model

| member | source | states |
|---|---|---|
| Errors.CodeSetsClosedAndDistinct | src/shared/errors.ts:1-34 | Each subsystem has exactly its listed codes (4 video, 4 transcription, 4 LLM, 2 pipeline), and within a subsystem no two codes spell the same string |
| Errors.CodeIdentifiesKind | src/shared/errors.ts:1-87 | Two domain errors with the same code string have the same class name and the same code |
| Events.Relabel | src/domain/pipeline/pipeline.orchestrator.ts:80-82 | Forwarding a collaborator's events under a stage label keeps every event and changes only its label |
| Events.StageNamesDistinct | src/domain/pipeline/pipeline-event.ts:3-9 | The five stage names are pairwise distinct, so a label identifies its stage |
| Transcript.NewSegment | src/domain/transcription/transcription-segment.ts:13-21 | A segment is built exactly when start >= 0, end >= start and 0 <= confidence <= 1; the first violated check decides the error message; the text is stored as given |
| Transcript.NewSegmentRebuilds | src/domain/transcription/transcription-segment.ts:13-21 | Valid segments are exactly the constructor's results: rebuilding one from its fields gives it back |
| Transcript.SegmentDuration | src/domain/transcription/transcription-segment.ts:29-31 | A valid segment's duration is non-negative and spans start to end |
| Transcript.AverageConfidenceInUnitInterval | src/domain/transcription/transcription-result.ts:24-43 | The duration-weighted mean confidence of valid segments lies in [0, 1] |
| Transcript.WeightedMeanOfConstant | src/domain/transcription/transcription-result.ts:24-43 | When all segments share one confidence c and some duration, the mean is c, so it is a true weighted mean |
| Transcript.CalculateAverageConfidence | src/domain/transcription/transcription-result.ts:24-43 | The one-pass loop computes the weighted mean of the recursive definition, and stays in [0, 1] for valid segments |
| Transcript.DurationIsLastEnd | src/domain/transcription/transcription-result.ts:18-21 | The result's duration is the last segment's end (0 when empty); for chronological segments it bounds every end |
| Transcript.DurationIsNotMaximum | src/domain/transcription/transcription-result.ts:18-21 | For out-of-order segments the duration is not the largest end time |
| Transcript.FullTextOfCleanSegments | src/domain/transcription/transcription-result.ts:16 | When every segment text is non-empty and trimmed, the full text is the space-joined texts and the final trim removes nothing |
| Hallucination.NewFilter | src/domain/transcription/hallucination.filter.ts:3-25 | The phrase set is the lower-cased custom list when one is given, otherwise the lower-cased defaults |
| Hallucination.FilterSegments | src/domain/transcription/hallucination.filter.ts:51-55 | Every kept segment is an input segment that is not flagged, and every unflagged input segment is kept |
| Hallucination.FilterIsSubsequence | src/domain/transcription/hallucination.filter.ts:51-55 | Filtering only deletes: the kept segments keep their relative order |
| Hallucination.FilterCounts | src/domain/transcription/hallucination.filter.ts:51-55 | Each segment occurs in the output as often as in the input when unflagged, and never when flagged |
| Hallucination.FilterIdempotent | src/domain/transcription/hallucination.filter.ts:51-55 | Filtering twice is filtering once |
| Hallucination.FilterConcat | src/domain/transcription/hallucination.filter.ts:51-55 | Filtering distributes over concatenation, segment by segment |
| Hallucination.BlankIsHallucination | src/domain/transcription/hallucination.filter.ts:27-31 | A blank text is always flagged, whatever the phrase list |
| Hallucination.EmptyPhraseFlagsEverything | src/domain/transcription/hallucination.filter.ts:33-36 | An empty phrase in the list flags every text |
| Hallucination.ListedPhraseIsFlagged | src/domain/transcription/hallucination.filter.ts:21-36 | A text containing a listed phrase is flagged however either is cased |
| Hallucination.ShortTextMatchesNoPhrase | src/domain/transcription/hallucination.filter.ts:33-36 | A text shorter than every phrase matches none |
| Hallucination.DefaultPhrasesAreLong | src/domain/transcription/hallucination.filter.ts:3-12 | Every default phrase has at least twelve characters |
| Hallucination.TwoCharacterWordPasses | src/domain/transcription/hallucination.filter.ts:27-49 | A two-character word with no white space and no foreign character passes the default filter |
| Hallucination.ShortWordsPass | src/domain/transcription/hallucination.filter.ts:27-49 | "OK" and "Hi" pass the default filter |
| Hallucination.SoundCaptionExample | src/domain/transcription/hallucination.filter.ts:38-40 | An all-capitals Cyrillic caption is flagged by the caption rule |
| Hallucination.RepetitionExample | src/domain/transcription/hallucination.filter.ts:14-44 | "la la la la la" is flagged by the repetition rule |
| Hallucination.ForeignScriptExample | src/domain/transcription/hallucination.filter.ts:15-48 | Chinese text is flagged by the foreign-script rule |
| Hallucination.ClosingPhraseExample | src/domain/transcription/hallucination.filter.ts:3-36 | A default closing phrase matches regardless of case |
| Hallucination.CustomListReplacesDefaults | src/domain/transcription/hallucination.filter.ts:21-25 | A custom list replaces the defaults rather than extending them |
| Hallucination.CustomPhraseExample | src/domain/transcription/hallucination.filter.ts:21-36 | With a custom list, its phrase is found inside a longer text |
| Hallucination.DefaultPhraseNotInCustomList | src/domain/transcription/hallucination.filter.ts:21-36 | With a custom list, a default phrase no longer matches by phrase |
| WhisperOutput.SegmentConfidence | src/domain/transcription/whisper-output.parser.ts:90-96 | A segment's confidence is 0 without tokens, a probability when the token probabilities are, and v when every token has probability v |
| WhisperOutput.Parse | src/domain/transcription/whisper-output.parser.ts:51-88 | Invalid JSON and an invalid structure become parse-failed errors (the first keeping the syntax error as cause); a segment the constructor rejects makes the call throw with the first rejected segment's message; otherwise one trimmed segment per entry, in order, and the language or "unknown" |
| WhisperOutput.ParseDescribeRoundTrip | src/domain/transcription/whisper-output.parser.ts:51-96 | Parsing the document that describes valid, trimmed segments gives back exactly those segments and the language |
| WhisperOutput.MinimalDocumentExample | src/domain/transcription/whisper-output.parser.ts:75-88 | A segment without tokens gets confidence 0, its text is trimmed, and a missing language is "unknown" |
| WhisperOutput.ReversedSegmentThrows | src/domain/transcription/whisper-output.parser.ts:75-83 | A segment ending before it starts makes parsing throw the constructor's message rather than return a parse failure |
| WhisperTranscriber.ResolveModelPath | src/domain/transcription/whisper.transcriber.ts:113-120 | An absolute path or a `.bin` name is used as given; any other name becomes `<dir>/ggml-<name>.bin`, where the directory is the given model directory or `~/.tolmach/models` |
| WhisperTranscriber.ResolveModelPathIdempotent | src/domain/transcription/whisper.transcriber.ts:113-120 | Resolving a resolved model path changes nothing |
| WhisperTranscriber.ModelNameExample | src/domain/transcription/whisper.transcriber.ts:113-120 | "large-v3-turbo" resolves to `/home/user/models/ggml-large-v3-turbo.bin`; an absolute path is kept |
| WhisperTranscriber.OutputPrefixOfRecording | src/domain/transcription/whisper.transcriber.ts:27-29 | For audio saved as `<title>.wav` in the working directory, the output prefix is `<title>` in that directory |
| WhisperTranscriber.BuildArgs | src/domain/transcription/whisper.transcriber.ts:94-111 | The six fixed arguments come first, then `-m` and the resolved model when a model is named, then `-l` and the language when it is set and not `auto` |
| WhisperTranscriber.AutoLanguageOmitted | src/domain/transcription/whisper.transcriber.ts:106-108 | Automatic language detection passes no `-l` |
| WhisperTranscriber.ProgressLineRoundTrip | src/domain/transcription/whisper.transcriber.ts:12-41 | Parsing the line the recogniser prints for n percent gives n back |
| WhisperTranscriber.NoProgressWordNoPercent | src/domain/transcription/whisper.transcriber.ts:12-41 | A line without the word `progress` reports no progress |
| WhisperTranscriber.TranscribeOutcome | src/domain/transcription/whisper.transcriber.ts:45-91 | Errors are checked in order: process failure, missing output file, read failure, parse failure or throw, and every returned error is a transcription error. Otherwise the language is kept and the segments are exactly the parsed ones with the flagged ones removed, every copy of a kept segment included, in order |
| WhisperTranscriber.TranscribeArguments | src/domain/transcription/whisper.transcriber.ts:23-111 | The recogniser is run as `-f <audio> --output-json-full -pp -of <prefix>`, with `-m <resolved model>` next when a model is named and `-l <language>` last when one is chosen; every forwarded event is a progress event labelled with the recogniser |
| WhisperTranscriber.TranscribeEnds | src/domain/transcription/whisper.transcriber.ts:23-92 | A failed process is a transcription-failed error wrapping the process error; a missing `<prefix>.json` is a parse-failed error naming that path; a parsed output gives its language and its segments minus the hallucinations; every error returned is a transcription error |
| Process.LineEventsConcat | src/infrastructure/process.runner.ts:102-126 | The events of consecutive lines are the first lines' events followed by the rest's, so nothing is reordered, merged or dropped across lines |
| Process.LineEventsOfOneLine | src/infrastructure/process.runner.ts:102-126 | A single line yields its progress event when the parser reads a percentage from it, and nothing otherwise |
| Process.LineEventsAppend | src/infrastructure/process.runner.ts:102-126 | One more output line appends exactly that line's event: one event per parsing line, in order, repeats included |
| Process.LineEventsComeFromLines | src/infrastructure/process.runner.ts:102-126 | Every event carries a percentage read from some line |
| Process.LineEventsCoverLines | src/infrastructure/process.runner.ts:102-126 | Every line that parses yields its event |
| Process.ChunkEventsConcat | src/infrastructure/process.runner.ts:102-126 | Output arriving in two batches gives the events of each batch, in order |
| Video.NewVideoMetadata | src/domain/video/video-metadata.ts:17-32 | Metadata is built exactly when the trimmed title is non-empty, the duration is non-negative and the URL is not blank; the first failure decides the message; title and author are stored trimmed |
| Video.NewVideoMetadataRebuilds | src/domain/video/video-metadata.ts:17-32 | Valid metadata is exactly what the constructor produces |
| Video.ClockDecomposition | src/domain/video/video-metadata.ts:35-44 | The seconds split into hours, minutes below 60 and seconds below 60 without loss |
| Video.FormattedDurationRoundTrip | src/domain/video/video-metadata.ts:35-44 | Reading a formatted duration (`M:SS` or `H:MM:SS`) back gives the seconds, so the rendering loses nothing |
| Video.FormattedDurationExamples | src/domain/video/video-metadata.ts:35-44 | 45 s, 754 s, 3661 s and 0 s render as `0:45`, `12:34`, `1:01:01` and `0:00` |
| Video.NewDownloadedVideo | src/domain/video/downloaded-video.ts:8-22 | A downloaded video is built exactly when the audio path is not blank and the size is non-negative, with the matching error otherwise; the path is stored untrimmed |
| Registry.FindProvider | src/domain/video/video-provider.registry.ts:12-22 | Succeeds exactly when some provider accepts the URL, and then returns the first such provider; otherwise a provider-not-found error naming the URL |
| Registry.RegisteredProviders | src/domain/video/video-provider.registry.ts:24-26 | The providers' names in registration order |
| Registry.FindProviderIsFirstMatch | src/domain/video/video-provider.registry.ts:12-22 | The provider at the first accepting position is the one found |
| Registry.PrependedProvider | src/domain/video/video-provider.registry.ts:12-22 | A provider registered in front wins every URL it accepts and changes nothing for the others |
| Registry.AppendedProvider | src/domain/video/video-provider.registry.ts:12-22 | A provider registered last never changes a URL that already has a provider |
| YouTube.AlternativeAnywhere | src/domain/video/providers/youtube.provider.ts:11-34 | A URL containing any alternative of the URL pattern anywhere is handled |
| YouTube.WatchUrlHandled | src/domain/video/providers/youtube.provider.ts:11-34 | A watch URL is handled |
| YouTube.OtherSitesRejected | src/domain/video/providers/youtube.provider.ts:11-34 | Vimeo and other sites are rejected |
| YouTube.NoYNoYouTube | src/domain/video/providers/youtube.provider.ts:11-34 | A URL without the letter y is never handled |
| YouTube.DownloadLineRoundTrip | src/domain/video/providers/youtube.provider.ts:14-88 | Parsing a printed `[download]` progress line gives back its percentage |
| YouTube.NoDownloadTagNoPercent | src/domain/video/providers/youtube.provider.ts:14-88 | A line without `[download]` reports no progress |
| YouTube.DownloadPercentExample | src/domain/video/providers/youtube.provider.ts:14-88 | An actual downloader line reads as 45.2 |
| YouTube.ExtractMetadata | src/domain/video/providers/youtube.provider.ts:36-74 | A failed dump gives a metadata-failed error with the process error as cause; text that is not JSON or mistyped fields give the fixed message with the thrown error as cause; otherwise the metadata constructor's result on title, uploader, duration and page URL |
| YouTube.DownloadCommand | src/domain/video/providers/youtube.provider.ts:90-110 | The downloader's WAV extraction arguments, the output template in the output directory, then the URL |
| YouTube.Download | src/domain/video/providers/youtube.provider.ts:76-133 | A metadata error is returned unchanged and nothing is downloaded; a failed download is a download-failed error; otherwise the video at `<title>.wav` with the metadata and the measured size, or 0 when it cannot be read |
| YouTube.AudioPathNotBlank | src/domain/video/providers/youtube.provider.ts:122-124 | The expected audio path is never blank |
| YouTube.DownloadedVideoAccepted | src/domain/video/providers/youtube.provider.ts:122-132 | The downloaded-video constructor accepts what a successful download builds, so download never throws after the metadata |
| YouTube.AudioPathNamesTitle | src/domain/video/providers/youtube.provider.ts:122-124 | The recording's base name without `.wav` is the title |
| YouTube.ProviderAccepts | src/domain/video/providers/youtube.provider.ts:11-34 | The registered provider is named `youtube`, accepts any URL containing `youtube.com/watch`, and rejects any URL without the letter y |
| YouTube.ProviderDownloads | src/domain/video/providers/youtube.provider.ts:76-133 | The registered download asks for the metadata first, fails only with metadata-failed or download-failed errors, and on success gives valid metadata from this provider and a recording `<title>.wav` in the output directory that the downloaded-video constructor accepts |
| Llm.NewLlmResponse | src/domain/llm/llm-response.ts:19-24 | A response is built exactly when content and provider are not blank, content first; every field is stored as given |
| Llm.NewLlmResponseRebuilds | src/domain/llm/llm-response.ts:19-24 | Valid responses are exactly the constructor's results |
| MockProvider.MockTotalTokens | src/domain/llm/providers/mock.provider.ts:26-45 | A mock response's total token count covers prompt and response at four characters a token and over-counts by less than two tokens |
| MockProvider.NewMock | src/domain/llm/providers/mock.provider.ts:16-19 | A fresh mock has an empty call log and the given or default response |
| MockProvider.EstimateTokens | src/domain/llm/providers/mock.provider.ts:32-33 | The estimate is the least t with 4t >= n, so it is a quarter of the length rounded up |
| MockProvider.Complete | src/domain/llm/providers/mock.provider.ts:26-45 | The call is logged first; the response carries the fixed content, the mock's name, the requested or default model, the estimated tokens, no cost and 1 ms; a blank response throws after logging |
| MockProvider.CallLogRecordsEveryPrompt | src/domain/llm/providers/mock.provider.ts:21-30 | After a series of completions the log holds the old calls followed by one entry per prompt, in order, and the response is unchanged |
| MockProvider.TokenEstimateExamples | src/domain/llm/providers/mock.provider.ts:32-33 | 5 characters estimate to 2 tokens, the default response to 5, the empty prompt to 0 |
| Router.KeyOrderDistinct | src/domain/llm/llm-router.ts:11-53 | The listed provider names are distinct |
| Router.ProviderMap | src/domain/llm/llm-router.ts:11-19 | A name maps to the last provider registered under it |
| Router.NewRouter | src/domain/llm/llm-router.ts:11-26 | An empty list is rejected, then an unregistered default; without an explicit default the first provider's name is used |
| Router.Complete | src/domain/llm/llm-router.ts:28-45 | The requested provider, else the default, answers with its outcome unchanged; an unknown name gives a provider-not-found error |
| Router.NotFoundMessageNamesAll | src/domain/llm/llm-router.ts:33-41 | The not-found message names the requested provider and every registered one |
| Router.GetProvider | src/domain/llm/llm-router.ts:47-49 | A provider is found exactly for registered names, and it is the one the map holds under that name |
| Router.ListedIffRegistered | src/domain/llm/llm-router.ts:47-53 | For a built router, lookup succeeds exactly for listed names, each listed once, and the default is listed |
| Router.LaterDuplicateWins | src/domain/llm/llm-router.ts:11-19 | With duplicate names the later provider wins lookup |
| Router.DefaultRoutesToFirstName | src/domain/llm/llm-router.ts:11-45 | Without an explicit default, a completion with no requested provider reaches the provider the first name maps to |
| Prompt.Round | src/domain/llm/prompts/video-report.prompt.ts:19 | Rounds to the nearest integer, halves up |
| Prompt.ConfidencePercentBounds | src/domain/llm/prompts/video-report.prompt.ts:19 | A confidence in [0, 1] is shown as a percentage in [0, 100] |
| Prompt.RenderShowsEverything | src/domain/llm/prompts/video-report.prompt.ts:7-38 | The prompt shows the title, author, duration, URL, language, confidence percentage and full transcript, and all five report headings |
| Report.IsoDateShape | src/domain/pipeline/pipeline-report.ts:42 | A date with a four-digit year renders as `YYYY-MM-DD` |
| Report.NewPipelineReport | src/domain/pipeline/pipeline-report.ts:10-19 | The report stores content, metadata and response unchanged, stamped with the clock's date |
| Report.ToMarkdown | src/domain/pipeline/pipeline-report.ts:21-34 | The Markdown ends with the report's content |
| Report.MarkdownShowsEverything | src/domain/pipeline/pipeline-report.ts:21-34 | The Markdown opens with the title as a heading and shows author, duration, URL, model, provider, date and content |
| Report.SlugShape | src/domain/pipeline/pipeline-report.ts:37-41 | A slug has at most 80 characters, all kept characters or single dashes, and never starts with a dash |
| Report.OutputFileNameShape | src/domain/pipeline/pipeline-report.ts:36-45 | The file name has at most 94 characters, ends with `.md`, and contains no punctuation beyond dashes and the dot |
| Report.SlugKeepsTitleCharacters | src/domain/pipeline/pipeline-report.ts:37-41 | The slug's kept characters are a prefix of the lower-cased title's, in order; when the dash-collapsed title fits 80 characters the slug keeps all of them |
| Report.SlugIdempotent | src/domain/pipeline/pipeline-report.ts:37-41 | The slug of a slug is itself unless the cut left a trailing dash |
| Orchestrator.StageFailure | src/domain/pipeline/pipeline.orchestrator.ts:56-66 | A stage failure is a stage-failed pipeline error naming the stage, with the stage's message and its error as cause |
| Orchestrator.Failing | src/domain/pipeline/pipeline.orchestrator.ts:56-66 | A failing stage ends the run with its `failed` event and its pipeline error, nothing written |
| Orchestrator.TranscriberOptions | src/domain/pipeline/pipeline.orchestrator.ts:16-106 | The chosen model or `large-v3-turbo`, the chosen language or `auto`, output in the temporary directory, no model directory |
| Orchestrator.LlmOptions | src/domain/pipeline/pipeline.orchestrator.ts:136-139 | Only the chosen provider and model are passed to the router |
| Orchestrator.OutputDir | src/domain/pipeline/pipeline.orchestrator.ts:165-167 | The report goes to the chosen path when non-empty, else to `~/.tolmach/reports` |
| Orchestrator.Run | src/domain/pipeline/pipeline.orchestrator.ts:40-69 | Events and calls never go back to an earlier stage; an error result is exactly one stage's failure; a success ends by writing the report's Markdown to the returned path, and its content is the model's answer |
| Orchestrator.DownloadStage | src/domain/pipeline/pipeline.orchestrator.ts:71-95 | Same stage-order, failure and saved-report guarantees from the download stage on |
| Orchestrator.TranscribeStage | src/domain/pipeline/pipeline.orchestrator.ts:97-126 | Same guarantees from the transcription stage on |
| Orchestrator.ReportStage | src/domain/pipeline/pipeline.orchestrator.ts:128-162 | Same guarantees from the report stage on |
| Orchestrator.SaveStage | src/domain/pipeline/pipeline.orchestrator.ts:164-177 | The save stage always completes, and its last call writes the Markdown under the report's file name |
| PipelineOutcome.SucceedsIffStagesSucceed | src/domain/pipeline/pipeline.orchestrator.ts:40-177 | A run returns a result exactly when a provider is found and the download, transcription and completion each succeed on the previous stage's output; the result then names the written report |
| PipelineTrace.MilestonesConcat | src/domain/pipeline/pipeline.orchestrator.ts:40-177 | The non-progress events of a concatenation are the concatenated ones |
| PipelineTrace.WalkConcat | src/domain/pipeline/pipeline.orchestrator.ts:40-177 | Walking through the stages in two legs is walking once |
| PipelineTrace.FailedAtUnique | src/domain/pipeline/pipeline.orchestrator.ts:56-66 | A failed run's error names exactly one stage |
| PipelineTrace.RunMilestones | src/domain/pipeline/pipeline.orchestrator.ts:40-177 | Leaving forwarded progress aside, a run's events walk the stages in order. On success all five are started and completed. On failure the stages before it are completed, then the failing stage is started and failed. When a collaborator throws, the walk stops at its stage |
| Cache.CacheKey | src/infrastructure/cache.manager.ts:69-75 | The key is at most 16 characters and a prefix of the digest of `audioPath:model` |
| Cache.CachePath | src/infrastructure/cache.manager.ts:26-27 | The entry's path ends with `<key>.json` |
| Cache.FromCached | src/infrastructure/cache.manager.ts:41-43 | A stored segment is rebuilt exactly when the segment constructor accepts it, and then stores back unchanged |
| Cache.Get | src/infrastructure/cache.manager.ts:25-48 | Nothing when the entry is missing, unreadable, not a record or holds a rejected segment; otherwise the stored language and segments |
| Cache.Set | src/infrastructure/cache.manager.ts:50-67 | A successful write stores the record for the pair and leaves every other entry alone; a failed write changes nothing and is not reported |
| Cache.SetThenGet | src/infrastructure/cache.manager.ts:25-67 | Reading back what was stored gives the same transcription result |
| Cache.CachedAtIrrelevant | src/infrastructure/cache.manager.ts:54-63 | The write time does not affect what is read back |
| Cache.SetReplaces | src/infrastructure/cache.manager.ts:50-67 | A second store for the same pair replaces the first |
| Cache.FailedWriteSilent | src/infrastructure/cache.manager.ts:65-66 | After a failed write a lookup sees what was there before |
| Cache.CachePathInjective | src/infrastructure/cache.manager.ts:27-52 | Different keys give different paths |
| Cache.OtherModelMisses | src/infrastructure/cache.manager.ts:25-75 | A store under one model is invisible to a lookup under another when the keys differ |
| Cache.SharedEntryIsCollision | src/infrastructure/cache.manager.ts:69-75 | Two different models give different hashed strings for one recording, so their entries coincide only when the digests collide in the first sixteen characters |
| Cache.JoinedPairsShareKey | src/infrastructure/cache.manager.ts:69-75 | A path containing `:` can share a key with a model containing it |
| Dependency.Check | src/infrastructure/dependency.checker.ts:24-33 | A program is available exactly when its probe succeeds; the version is then the first output line, trimmed |
| Dependency.FirstLineIsFirstPiece | src/infrastructure/dependency.checker.ts:31 | The first-line rule agrees with splitting on line feeds |
| Dependency.CheckAll | src/infrastructure/dependency.checker.ts:9-22 | One status per required program, in order, available exactly when its probe succeeds |
| Dependency.Missing | src/infrastructure/dependency.checker.ts:37 | The names of exactly the unavailable programs; empty exactly when all are available |
| Dependency.MissingOrder | src/infrastructure/dependency.checker.ts:37-40 | Missing names keep the order of the statuses |
| Dependency.EnsureRequired | src/infrastructure/dependency.checker.ts:35-47 | Fails exactly when some required probe fails, with the message listing the missing names; otherwise all statuses, all available |
| Dependency.MessageNamesMissing | src/infrastructure/dependency.checker.ts:39-43 | The error message names every program whose probe failed |
| Dependency.NothingInstalled | src/infrastructure/dependency.checker.ts:9-47 | With nothing installed, yt-dlp, ffmpeg and whisper-cli are listed in that order |
| Config.StringField | src/config/default.config.ts:3-29 | An absent string field takes its default; a present one must be a string and is taken as is |
| Config.ParseLlm | src/config/default.config.ts:3-9 | The llm section: a known provider (default claude-agent), an optional model, a positive whole token limit (default 4096), a temperature in [0, 2] (default 0), a report language (default ru) |
| Config.ParseConfig | src/config/default.config.ts:31-37 | Each section is parsed from its object, or from nothing when absent; the result meets the constraints |
| Config.DefaultsFromEmpty | src/config/default.config.ts:41 | The schema applied to nothing gives the default configuration |
| Config.MissingSectionsDefault | src/config/default.config.ts:31-37 | A missing section is filled with its defaults |
| Config.UnknownProviderRejected | src/config/default.config.ts:4 | A provider other than the two known names is rejected |
| Config.ConfigJsonRoundTrip | src/config/default.config.ts:3-37 | A configuration is accepted back unchanged from its JSON form exactly when it meets the constraints |
| Config.EnvSections | src/infrastructure/config.manager.ts:71-125 | Each section of the environment object comes from its own variables |
| Config.EnvBindingsApplied | src/infrastructure/config.manager.ts:71-125 | Each string variable, when set and non-empty, lands at its field; otherwise the field is absent |
| Config.EnvSectionsOmitted | src/infrastructure/config.manager.ts:71-125 | A section appears exactly when one of its variables is set |
| Config.CacheSwitch | src/infrastructure/config.manager.ts:117-119 | A defined cache switch counts even when empty, and only `true` turns the cache on |
| Config.DeepMerge | src/infrastructure/config.manager.ts:163-191 | Keys of both sides; target-only keys are kept; the source wins unless both hold objects, which merge recursively |
| Config.DeepMergeBoth | src/infrastructure/config.manager.ts:176-183 | Where both sides hold objects the result is their merge |
| Config.DeepMergeEmpty | src/infrastructure/config.manager.ts:163-191 | Merging nothing in changes nothing |
| Config.DeepMergeIntoEmpty | src/infrastructure/config.manager.ts:163-191 | Merging into nothing gives the source |
| Config.DeepMergeIdempotent | src/infrastructure/config.manager.ts:163-191 | Merging an object with itself changes nothing |
| Config.DeepMergeLookup | src/infrastructure/config.manager.ts:163-191 | A field reached through merged sections is the source's when present, else the target's |
| Config.OverrideSection | src/infrastructure/config.manager.ts:133-157 | Overriding adds or replaces one section and leaves every other section alone |
| Config.MergedProvider | src/infrastructure/config.manager.ts:127-161 | The merged provider field is the command line's, else the environment's, else the file's |
| Config.ProviderPrecedence | src/infrastructure/config.manager.ts:24-161 | The provider in effect: command line over environment over file over the default |
| Config.MergedOutputDir | src/infrastructure/config.manager.ts:127-161 | The merged report directory is the command line's, else the environment's, else the file's |
| Config.OutputDirPrecedence | src/infrastructure/config.manager.ts:24-161 | The report directory in effect: command line over environment over file over the default |
| Config.FileConfig | src/infrastructure/config.manager.ts:53-69 | A missing or unreadable configuration file counts as an empty object |
| Config.SaveIsShallow | src/infrastructure/config.manager.ts:42-47 | Saving merges at the top level only: each updated section replaces the stored one whole and the other sections stay |
| Config.Current | src/infrastructure/config.manager.ts:35-40 | The loaded configuration, or the not-loaded error exactly when nothing was loaded |
| Config.Load | src/infrastructure/config.manager.ts:24-33 | The merged sources through the schema; on success the state holds the result, on failure it is unchanged |
| Config.LoadDefaults | src/infrastructure/config.manager.ts:24-33 | With no file, no variables and no overrides, loading gives the defaults |
| ConfigCommand.ParseKey | src/cli/commands/config.command.ts:20-27 | A key is accepted exactly when it has one dot, and splits into dot-free halves around it |
| ConfigCommand.ParseKeyRoundTrip | src/cli/commands/config.command.ts:20-27 | Any dot-free section and parameter make a key that splits back into them |
| ConfigCommand.DecimalParts | src/cli/commands/config.command.ts:35 | A value is digits-point-digits exactly when it splits into two digit runs around one point |
| ConfigCommand.CoerceValue | src/cli/commands/config.command.ts:31-35 | `true` and `false` become booleans, digit runs integers, digits-point-digits decimals, and anything else stays the string |
| ConfigCommand.IntegerValueRoundTrip | src/cli/commands/config.command.ts:34 | A printed natural number is stored as that number |
| ConfigCommand.DecimalValueRoundTrip | src/cli/commands/config.command.ts:35 | A printed decimal is stored as its exact value |
| ConfigCommand.Update | src/cli/commands/config.command.ts:28-38 | The update holds exactly one section with exactly one parameter |
| ConfigCommand.SetCommand | src/cli/commands/config.command.ts:15-42 | A schema failure while loading aborts; a malformed key assigns exit code 1 and writes nothing; otherwise the coerced value is saved under the key's section |
| ConfigCommand.SetReplacesSection | src/cli/commands/config.command.ts:15-42 | After a successful write the file's section holds only the new parameter and every other section is unchanged |
| TranscribeCommand.Overrides | src/cli/commands/transcribe.command.ts:37-42 | `--llm-provider` beats `--provider`; model, language and output are passed through |
| TranscribeCommand.TranscriberOptions | src/cli/commands/transcribe.command.ts:180-190 | The configured model and language, the working directory, and the configured model directory with `~` expanded |
| TranscribeCommand.NamedLikeReport | src/cli/commands/transcribe.command.ts:211-215 | The transcript is named like the same video's report on the same day, with `.txt` in place of `.md` |
| TranscribeCommand.TranscriptText | src/cli/commands/transcribe.command.ts:216-220 | The file starts with the header and ends with the full text |
| TranscribeCommand.HeaderShown | src/cli/commands/transcribe.command.ts:216-220 | Title, author, duration, language and segment count all appear in the file |
| TranscribeCommand.CachedResult | src/cli/commands/transcribe.command.ts:173-178 | Without a cache there is never a hit; with one, the cache's lookup for the audio and the configured model |
| TranscribeCommand.StoreResult | src/cli/commands/transcribe.command.ts:204 | With a cache the fresh result is stored under the audio and the configured model; without one nothing happens |
| TranscribeCommand.SettledOutput | src/cli/commands/transcribe.command.ts:122-232 | In every transcript-only run a file is written, and the working directory removed, exactly when the run finished |
| TranscribeCommand.RunTranscriptionOnly | src/cli/commands/transcribe.command.ts:122-232 | Events stay in stage order; a failed stage ends with a `failed` event and exit code 1 before anything is written; a finished run writes the transcript, then removes the working directory |
| TranscribeCommand.DownloadPart | src/cli/commands/transcribe.command.ts:151-167 | Download guarantees: ordered events, nothing written on failure, save last on success |
| TranscribeCommand.TranscribePart | src/cli/commands/transcribe.command.ts:173-205 | Transcription guarantees: ordered events, nothing written on failure, save last on success |
| TranscribeCommand.SavePart | src/cli/commands/transcribe.command.ts:207-231 | The save stage always completes, writing the transcript to the dated, slugged `.txt` path and then removing the working directory |
| TranscribeCommand.CacheHit | src/cli/commands/transcribe.command.ts:173-178 | On a hit the stage completes with the from-cache message, the transcriber is not called, the cache is not written, and the cached result is saved |
| TranscribeCommand.CacheMissTranscribes | src/cli/commands/transcribe.command.ts:180-190 | On a miss the transcriber is called on the audio with the command's options and its events are forwarded under the stage's label |
| TranscribeCommand.MissSucceeded | src/cli/commands/transcribe.command.ts:198-221 | A fresh result completes the stage, is stored, and is saved |
| TranscribeCommand.MissStores | src/cli/commands/transcribe.command.ts:198-221 | The fresh result is stored under the audio and model and is the one saved |
| TranscribeCommand.MissFailureStoresNothing | src/cli/commands/transcribe.command.ts:191-197 | A transcriber error stores nothing, ends with its `failed` event and exit code 1, and leaves the working directory |
| TranscribeCommand.NoCacheAlwaysTranscribes | src/cli/commands/transcribe.command.ts:66-190 | Without a cache the transcriber always runs and nothing is stored |
| TranscribeCommand.SecondRunHits | src/cli/commands/transcribe.command.ts:173-204 | After a run stored its result, a second run on the same audio and model does not call the transcriber and saves the same text |
| TranscribeCommand.CacheFor | src/cli/commands/transcribe.command.ts:66-68 | The cache exists exactly when enabled, in the configured directory with `~` expanded |
| TranscribeCommand.LlmProviders | src/cli/commands/transcribe.command.ts:75-78 | The Claude agent and a mock are registered, in that order |
| TranscribeCommand.RouterAlwaysBuilt | src/cli/commands/transcribe.command.ts:75-81 | Every provider name the schema admits is registered, so building the router never fails here |
| TranscribeCommand.PipelineOptionsFor | src/cli/commands/transcribe.command.ts:83-104 | The pipeline receives the URL, the configured model, language and provider, and the `--output` flag |
| TranscribeCommand.ReportDirIgnoresConfig | src/cli/commands/transcribe.command.ts:83-104 | In report mode the configured output directory plays no part: the report goes to `--output` or the default reports directory |
| TranscribeCommand.RunCommand | src/cli/commands/transcribe.command.ts:31-120 | A schema failure aborts; a missing program gives exit code 1; `--no-llm` runs the transcript-only path with a cache exactly when enabled; otherwise the pipeline runs with the router and options above |
| TranscribeCommand.ExitStatus | src/cli/commands/transcribe.command.ts:30-120 | The process exits with status 1 for a reported failure and for anything thrown, and with 0 exactly when the transcript-only run finishes or the pipeline returns a report |
| TranscribeCommand.CommandExitStatus | src/cli/commands/transcribe.command.ts:30-120 | The command exits with 0 exactly when the configuration loads, every required program is present and the chosen run finishes |
| Paths.JoinPath | src/infrastructure/cache.manager.ts:27 | Two non-empty segments are joined with exactly one separator; an empty segment is dropped |
| Paths.ResolvePath | src/cli/commands/transcribe.command.ts:66-68 | A leading `~/` becomes the home directory; any other path is unchanged |
| Paths.ResolvePathIdempotent | src/cli/commands/transcribe.command.ts:66-68 | With an absolute home, resolving twice is resolving once |
| Paths.BasenameOfJoin | src/domain/transcription/whisper.transcriber.ts:27-29 | The base name of `<dir>/<name><ext>` without `ext` is `name` |
| Wrappers.MapResult | src/shared/result.test.ts:42-60 | A success value is mapped and an error passes through untouched |
| Wrappers.FlatMapResult | src/shared/result.test.ts:62-90 | A success is chained to the next step; the first error wins |
| Wrappers.MapUntilError | src/domain/transcription/whisper-output.parser.ts:75-83 | Each element is mapped in order; the first error aborts the mapping and is the result |

## Left out

- Decoding JSON text and the schema library's error reports: the parsers
  receive decoded documents, classified as invalid JSON, structurally
  invalid, or well-formed. Error texts stand in for the library's
  messages, and only the first rejected field is reported.
- The distinction between a thrown schema error and a thrown `Error`:
  both are an error string.
- A configuration file whose JSON is not an object is read as an empty
  object. The model does not represent object spreads of arrays or
  primitives.
- Loading `.env` files, logging, and the terminal progress display with
  its summary lines. They are I/O only.
- `configShowCommand` and `configPathCommand` only print
  `Config.Load`'s result and `Config.ConfigPath`.
- `ensureDir` failures: a failed `mkdir` rejects and the rejection
  propagates to every caller as a thrown outcome, but the model assumes
  directory creation always succeeds.
- IEEE doubles: confidences, temperatures and parsed decimals are exact
  reals. `parseFloat` rounding and floating-point sums are not modelled.
- Segment times: whisper's offsets, segment start and end times, and the
  cached segments' times are whole milliseconds. The output schema, the
  segment type and the cache record accept any number, so a fractional
  time is stored as given by the program but cannot be represented here.
  The recogniser writes whole milliseconds.
- Unicode case mapping and white space: `LowerChar` maps only ASCII, the
  Latin-1 capitals U+00C0 to U+00DE, the Greek capitals U+0391 to U+03A9
  and the Cyrillic capitals U+0400 to U+042F. `IsUpper`, which stands in
  for `\p{Lu}`, covers the same letters, so capitals of other scripts
  (for example "ĀĒĪŌ") are flagged by the caption rule of
  hallucination.filter.ts but not by the model.
- UTF-16 code units: JavaScript's `length` and a regular expression
  without the `u` flag work on UTF-16 code units, the model on code
  points. `MockProvider.EstimateTokens`, the caption rule's length check
  and the repetition rule (`Hallucination.RepeatsAt`,
  `Hallucination.RepetitionRule`) therefore differ for characters outside
  the Basic Multilingual Plane. Four emoji estimate to 2 tokens in the
  program and to 1 in the model. "😀😀😀😀" is flagged by the program,
  whose `(.{2,})` captures the two surrogates of one emoji, and is kept by
  the model, whose unit must be at least two code points.
- `path.join` normalisation of `..` and repeated separators.
- Years above 9999 in ISO date strings.
- The process runner's spawning, timeouts and exit codes. A process is
  what it printed, in chunks, and whether it failed.
- The Claude agent provider: its completion is a parameter.
- SHA-256: the digest is a parameter.
- Concurrency: `Promise.all` in the dependency check is modelled as a
  sequential map, and the result is the same.
- Clock readings, temporary-directory names and the cache's time stamp
  are parameters.
- Hallucination.RepetitionExample: the repetition rule is stated over
  the trimmed text. A line terminator inside the repeated unit blocks the
  match, as the pattern's `.` does, but other regular-expression
  backtracking details are abstracted. Units are counted in code points,
  not UTF-16 code units (see the UTF-16 line above).
- YouTube.ExtractMetadata: the duration is a whole number of seconds.
  yt-dlp's `duration` is only cast, so it may be fractional, null or
  absent. The program accepts those values (`undefined < 0` is false),
  `formattedDuration` floors a fractional one and renders a missing one
  as `NaN:NaN`. The model admits none of these inputs.
- Report.SlugShape: the slug's character class covers ASCII, the basic
  Cyrillic block and the characters whose case folding lands in it. It
  does not cover every Unicode case-insensitive match.

## Where the sources disagree

The command file `transcribe.command.ts` does not match the components it
wires together. The model follows the components as written:

- It constructs the dependency checker with two arguments and passes the
  model path to `ensureRequired`. The checker takes one argument and
  checks a fixed list, which is what `Dependency` models.
- It passes the cache manager as a sixth constructor argument to the
  orchestrator. The orchestrator has no cache, so in report mode the
  cache is never used.
- It passes `whisperModelDir`, `reportLanguage` and `outputDir` in the
  pipeline options, but the orchestrator's options have no such fields.
  In report mode the configured output directory is therefore ignored.
  The report goes to `--output` or `~/.tolmach/reports`, as
  `TranscribeCommand.ReportDirIgnoresConfig` states. The orchestrator's
  transcriber options also carry no model directory.

=== FILE: cache.dfy ===
/** The transcription cache: one JSON record per (audio path, model) pair,
    stored under a key taken from a hash of the pair.  The hash, the JSON
    text codec and the filesystem are parameters: the hash is any function
    from strings to hex digests, the codec a pair of functions, and the
    store a map from paths to what reading them yields. */
module Cache {

  import opened Wrappers
  import opened Text
  import opened Errors
  import opened Paths
  import opened Transcript
  import opened Filesystem

  /** Number of hex digits of the digest kept in a key. */
  const KeyLength := 16

  /** One segment as the record stores it. */
  datatype CachedSegment = CachedSegment(text: string, startMs: int, endMs: int, confidence: real)

  /** The stored record; `cachedAt` is the write time as an ISO 8601 string. */
  datatype CachedTranscription = CachedTranscription(segments: seq<CachedSegment>, language: string, cachedAt: string)

  /** What parsing a stored text produced: not JSON, JSON without a
      segment array, or the segments and language it holds. */
  datatype CacheDecoded =
    | NotJson
    | NoSegments
    | Record(segments: seq<CachedSegment>, language: string)

  /** `JSON.stringify` and `JSON.parse` for cache records. */
  datatype Codec = Codec(encode: CachedTranscription -> string, decode: string -> CacheDecoded)

  /** Parsing what was written gives back its segments and language; the
      property of JSON text the cache relies on. */
  ghost predicate RoundTrips(codec: Codec) {
    forall c :: codec.decode(codec.encode(c)) == Record(c.segments, c.language)
  }

  /** JavaScript's `slice(0, n)`: at most the first `n` characters. */
  function Prefix(s: string, n: nat): (r: string)
    ensures |r| == if |s| < n then |s| else n
    ensures r <= s
  {
    if |s| <= n then s else s[..n]
  }

  /** `buildKey`: the first sixteen hex digits of the digest of
      `audioPath:model`. */
  function CacheKey(hash: string -> string, audioPath: string, model: string): (k: string)
    ensures |k| <= KeyLength
    ensures k <= hash(audioPath + ":" + model)
  {
    Prefix(hash(audioPath + ":" + model), KeyLength)
  }

  /** Where the entry for a pair lives: `<cacheDir>/<key>.json`. */
  function CachePath(cacheDir: string, key: string): (p: string)
    ensures EndsWith(p, key + ".json")
  {
    JoinEndsWith(cacheDir, key + ".json");
    JoinPath(cacheDir, key + ".json")
  }

  /** A segment as `set` stores it. */
  function ToCached(s: Segment): (c: CachedSegment)
    ensures c.text == s.text && c.startMs == s.startMs && c.endMs == s.endMs && c.confidence == s.confidence
  {
    CachedSegment(s.text, s.startMs, s.endMs, s.confidence)
  }

  function ToCachedAll(segments: seq<Segment>): (r: seq<CachedSegment>)
    ensures |r| == |segments| && forall i :: 0 <= i < |r| ==> r[i] == ToCached(segments[i])
  {
    seq(|segments|, i requires 0 <= i < |segments| => ToCached(segments[i]))
  }

  /** A stored segment rebuilt through the segment constructor. */
  function FromCached(c: CachedSegment): (r: Result<Segment, string>)
    ensures r.Ok? <==> ValidSegment(Segment(c.text, c.startMs, c.endMs, c.confidence))
    ensures r.Ok? ==> ToCached(r.value) == c
  {
    NewSegment(c.text, c.startMs, c.endMs, c.confidence)
  }

  /** `get`: the stored result for the pair, or nothing when the entry is
      missing, unreadable, not JSON, without segments, or holds a segment
      the constructor rejects.  It never fails. */
  function Get(files: Files, hash: string -> string, codec: Codec, cacheDir: string,
               audioPath: string, model: string): (r: Option<TranscriptionResult>)
    ensures var path := CachePath(cacheDir, CacheKey(hash, audioPath, model));
            && (path !in files ==> r.None?)
            && (path in files && files[path].Err? ==> r.None?)
            && (path in files && files[path].Ok? && !codec.decode(files[path].value).Record? ==> r.None?)
            && (r.Some? ==>
                  && path in files && files[path].Ok?
                  && var d := codec.decode(files[path].value);
                  && d.Record?
                  && r.value.language == d.language
                  && ToCachedAll(r.value.segments) == d.segments
                  && AllValid(r.value.segments))
            && (path in files && files[path].Ok? && codec.decode(files[path].value).Record? ==>
                  var d := codec.decode(files[path].value);
                  r.Some? <==> forall i :: 0 <= i < |d.segments| ==> FromCached(d.segments[i]).Ok?)
  {
    var path := CachePath(cacheDir, CacheKey(hash, audioPath, model));
    if path !in files then None
    else
      match files[path]
      case Err(_) => None
      case Ok(content) =>
        match codec.decode(content)
        case NotJson => None
        case NoSegments => None
        case Record(stored, language) =>
          match MapUntilError(stored, FromCached)
          case Err(_) => None
          case Ok(segments) =>
            assert ToCachedAll(segments) == stored;
            Some(TranscriptionResult(segments, language))
  }

  /** `set`: writes the record for the pair, replacing any previous entry.
      The write's outcome is not inspected: when it fails the files are
      left as they were and nothing is reported. */
  function Set(files: Files, hash: string -> string, codec: Codec, cacheDir: string,
               audioPath: string, model: string, result: TranscriptionResult,
               cachedAt: string, writeSucceeds: bool): (f: Files)
    ensures var path := CachePath(cacheDir, CacheKey(hash, audioPath, model));
            && (writeSucceeds ==>
                  (path in f && f[path].Ok?
                   && codec.decode(f[path].value) == codec.decode(codec.encode(
                        CachedTranscription(ToCachedAll(result.segments), result.language, cachedAt)))))
            && (forall p :: p in files && p != path ==> p in f && f[p] == files[p])
            && (forall p :: p in f && p != path ==> p in files)
            && (!writeSucceeds ==> f == files)
  {
    var path := CachePath(cacheDir, CacheKey(hash, audioPath, model));
    var record := CachedTranscription(ToCachedAll(result.segments), result.language, cachedAt);
    WriteFile(files, path, codec.encode(record), writeSucceeds)
  }

  /** Reading back what was stored for a pair gives the same result: the
      same language and, segment by segment, the same text, times and
      confidence, hence the same full text, duration and confidence. */
  lemma SetThenGet(files: Files, hash: string -> string, codec: Codec, cacheDir: string,
                   audioPath: string, model: string, result: TranscriptionResult, cachedAt: string)
    requires RoundTrips(codec)
    requires AllValid(result.segments)
    ensures Get(Set(files, hash, codec, cacheDir, audioPath, model, result, cachedAt, true),
                hash, codec, cacheDir, audioPath, model) == Some(result)
  {
    var path := CachePath(cacheDir, CacheKey(hash, audioPath, model));
    var stored := ToCachedAll(result.segments);
    var record := CachedTranscription(stored, result.language, cachedAt);
    var f := Set(files, hash, codec, cacheDir, audioPath, model, result, cachedAt, true);
    assert f[path] == Ok(codec.encode(record));
    assert codec.decode(codec.encode(record)) == Record(stored, result.language);
    forall i | 0 <= i < |stored| ensures FromCached(stored[i]).Ok? {
      assert ValidSegment(result.segments[i]);
    }
    var r := Get(f, hash, codec, cacheDir, audioPath, model);
    assert r.Some?;
    var segments := r.value.segments;
    assert |segments| == |result.segments|;
    forall i | 0 <= i < |segments| ensures segments[i] == result.segments[i] {
      assert ToCached(segments[i]) == ToCached(result.segments[i]);
    }
    assert segments == result.segments;
    assert r.value.language == result.language;
  }

  /** The write time has no effect on what `get` returns. */
  lemma CachedAtIrrelevant(files: Files, hash: string -> string, codec: Codec, cacheDir: string,
                           audioPath: string, model: string, result: TranscriptionResult, t1: string, t2: string)
    requires RoundTrips(codec)
    ensures Get(Set(files, hash, codec, cacheDir, audioPath, model, result, t1, true), hash, codec, cacheDir, audioPath, model)
         == Get(Set(files, hash, codec, cacheDir, audioPath, model, result, t2, true), hash, codec, cacheDir, audioPath, model)
  {
    var path := CachePath(cacheDir, CacheKey(hash, audioPath, model));
    var f1 := Set(files, hash, codec, cacheDir, audioPath, model, result, t1, true);
    var f2 := Set(files, hash, codec, cacheDir, audioPath, model, result, t2, true);
    assert codec.decode(f1[path].value) == codec.decode(f2[path].value);
  }

  /** A second `set` for the same pair replaces the first. */
  lemma SetReplaces(files: Files, hash: string -> string, codec: Codec, cacheDir: string,
                    audioPath: string, model: string, r1: TranscriptionResult, r2: TranscriptionResult,
                    t1: string, t2: string)
    ensures Set(Set(files, hash, codec, cacheDir, audioPath, model, r1, t1, true), hash, codec, cacheDir, audioPath, model, r2, t2, true)
         == Set(files, hash, codec, cacheDir, audioPath, model, r2, t2, true)
  {
  }

  /** A failed write is silent and changes nothing, so a later `get` sees
      what was there before. */
  lemma FailedWriteSilent(files: Files, hash: string -> string, codec: Codec, cacheDir: string,
                          audioPath: string, model: string, result: TranscriptionResult, cachedAt: string)
    ensures Get(Set(files, hash, codec, cacheDir, audioPath, model, result, cachedAt, false), hash, codec, cacheDir, audioPath, model)
         == Get(files, hash, codec, cacheDir, audioPath, model)
  {
  }

  /** The hashed strings of two models for one path differ. */
  lemma HashInputsDiffer(audioPath: string, m1: string, m2: string)
    requires m1 != m2
    ensures audioPath + ":" + m1 != audioPath + ":" + m2
  {
    var a, b := audioPath + ":" + m1, audioPath + ":" + m2;
    assert a[|audioPath| + 1..] == m1;
    assert b[|audioPath| + 1..] == m2;
  }

  /** Two different models can share an entry for one recording only
      through a collision: their hashed strings differ, yet the digests
      agree on the first sixteen characters. */
  lemma SharedEntryIsCollision(hash: string -> string, audioPath: string, m1: string, m2: string)
    requires m1 != m2
    ensures var a, b := audioPath + ":" + m1, audioPath + ":" + m2;
            && a != b
            && (CacheKey(hash, audioPath, m1) == CacheKey(hash, audioPath, m2) <==>
                  Prefix(hash(a), KeyLength) == Prefix(hash(b), KeyLength))
  {
    HashInputsDiffer(audioPath, m1, m2);
  }

  /** Distinct keys live at distinct paths. */
  lemma CachePathInjective(cacheDir: string, k1: string, k2: string)
    requires k1 != k2
    ensures CachePath(cacheDir, k1) != CachePath(cacheDir, k2)
  {
    var a, b := k1 + ".json", k2 + ".json";
    assert a[..|a| - 5] == k1;
    assert b[..|b| - 5] == k2;
    JoinPathSplits(cacheDir, a);
    JoinPathSplits(cacheDir, b);
    var p1, p2 := CachePath(cacheDir, k1), CachePath(cacheDir, k2);
    var n := |JoinPrefix(cacheDir)|;
    assert p1[n..] == a;
    assert p2[n..] == b;
  }

  /** Storing under one model is invisible to a lookup under another,
      provided the two keys differ; by `SharedEntryIsCollision` they can
      only agree through a truncated-hash collision. */
  lemma OtherModelMisses(files: Files, hash: string -> string, codec: Codec, cacheDir: string,
                         audioPath: string, m1: string, m2: string, result: TranscriptionResult, cachedAt: string)
    requires CacheKey(hash, audioPath, m1) != CacheKey(hash, audioPath, m2)
    ensures Get(Set(files, hash, codec, cacheDir, audioPath, m1, result, cachedAt, true), hash, codec, cacheDir, audioPath, m2)
         == Get(files, hash, codec, cacheDir, audioPath, m2)
  {
    CachePathInjective(cacheDir, CacheKey(hash, audioPath, m1), CacheKey(hash, audioPath, m2));
  }

  /** The key depends only on the joined string, so a path containing the
      separator can share an entry with a model containing it. */
  lemma JoinedPairsShareKey(hash: string -> string, path: string, model: string, rest: string)
    ensures CacheKey(hash, path + ":" + model, rest) == CacheKey(hash, path, model + ":" + rest)
  {
    assert (path + ":" + model) + ":" + rest == path + ":" + (model + ":" + rest);
  }
}

=== FILE: config.dfy ===
/** The configuration: the schema with its defaults and constraints, the
    mapping of environment variables, the deep merge of file and
    environment values, command-line overrides, saving, and the loaded
    state.  The home directory, the environment, the files and the JSON
    codec are parameters. */
module Config {

  import opened Wrappers
  import opened Paths
  import opened Json
  import opened Filesystem

  // ---------------------------------------------------------------------
  // The schema

  datatype LlmProviderName = ClaudeAgent | Mock

  function ProviderNameString(p: LlmProviderName): string {
    match p
    case ClaudeAgent => "claude-agent"
    case Mock => "mock"
  }

  datatype LlmConfig = LlmConfig(
    provider: LlmProviderName,
    model: Option<string>,
    maxTokens: nat,
    temperature: real,
    reportLanguage: string)

  datatype WhisperConfig = WhisperConfig(model: string, language: string, binaryPath: string, modelDir: string)
  datatype OutputConfig = OutputConfig(dir: string)
  datatype CacheConfig = CacheConfig(enabled: bool, dir: string)
  datatype TempConfig = TempConfig(dir: string)

  datatype TolmachConfig = TolmachConfig(
    llm: LlmConfig,
    whisper: WhisperConfig,
    output: OutputConfig,
    cache: CacheConfig,
    temp: TempConfig)

  /** The schema's field constraints: a positive whole token limit and a
      temperature between 0 and 2. */
  predicate ValidConfig(c: TolmachConfig) {
    c.llm.maxTokens > 0 && 0.0 <= c.llm.temperature <= 2.0
  }

  const DefaultLlm := LlmConfig(ClaudeAgent, None, 4096, 0.0, "ru")
  const DefaultWhisper := WhisperConfig("large-v3-turbo", "auto", "whisper-cli", "~/.tolmach/models")
  const DefaultOutput := OutputConfig("~/.tolmach/reports")
  const DefaultCache := CacheConfig(true, "~/.tolmach/cache")
  const DefaultTemp := TempConfig("~/.tolmach/tmp")

  /** `DEFAULT_CONFIG`. */
  const DefaultConfig := TolmachConfig(DefaultLlm, DefaultWhisper, DefaultOutput, DefaultCache, DefaultTemp)

  /** A string field: its default when absent, a string as given, anything
      else rejected with the field's name. */
  function StringField(fields: JsonObject, key: string, default: string): (r: Result<string, string>)
    ensures key !in fields ==> r == Ok(default)
    ensures key in fields ==> (r.Ok? <==> fields[key].JString?)
    ensures key in fields && r.Ok? ==> fields[key] == JString(r.value)
  {
    if key !in fields then Ok(default)
    else
      match fields[key]
      case JString(s) => Ok(s)
      case _ => Err(key)
  }

  /** A whole number. */
  predicate IsInteger(n: real) {
    n.Floor as real == n
  }

  /** The `llm` section: the provider must be one of the two names, the
      model is optional, the token limit a positive integer and the
      temperature within [0, 2]. */
  function ParseLlm(fields: JsonObject): (r: Result<LlmConfig, string>)
    ensures r.Ok? ==> r.value.maxTokens > 0 && 0.0 <= r.value.temperature <= 2.0
    ensures r.Ok? ==> if "provider" in fields then fields["provider"] == JString(ProviderNameString(r.value.provider))
                      else r.value.provider == ClaudeAgent
    ensures r.Ok? ==> if "model" in fields then r.value.model.Some? && fields["model"] == JString(r.value.model.value)
                      else r.value.model.None?
    ensures r.Ok? ==> if "maxTokens" in fields then fields["maxTokens"] == JNumber(r.value.maxTokens as real)
                      else r.value.maxTokens == 4096
    ensures r.Ok? ==> if "temperature" in fields then fields["temperature"] == JNumber(r.value.temperature)
                      else r.value.temperature == 0.0
    ensures r.Ok? ==> if "reportLanguage" in fields then fields["reportLanguage"] == JString(r.value.reportLanguage)
                      else r.value.reportLanguage == "ru"
  {
    var provider :-
      if "provider" !in fields then Ok(ClaudeAgent)
      else if fields["provider"] == JString("claude-agent") then Ok(ClaudeAgent)
      else if fields["provider"] == JString("mock") then Ok(Mock)
      else Err("llm.provider");
    var model :-
      if "model" !in fields then Ok(None)
      else if fields["model"].JString? then Ok(Some(fields["model"].s))
      else Err("llm.model");
    var maxTokens :-
      if "maxTokens" !in fields then Ok(4096)
      else if fields["maxTokens"].JNumber? && IsInteger(fields["maxTokens"].n) && fields["maxTokens"].n > 0.0
      then Ok(fields["maxTokens"].n.Floor as nat)
      else Err("llm.maxTokens");
    var temperature :-
      if "temperature" !in fields then Ok(0.0)
      else if fields["temperature"].JNumber? && 0.0 <= fields["temperature"].n <= 2.0 then Ok(fields["temperature"].n)
      else Err("llm.temperature");
    var reportLanguage :- StringField(fields, "reportLanguage", "ru");
    Ok(LlmConfig(provider, model, maxTokens, temperature, reportLanguage))
  }

  function ParseWhisper(fields: JsonObject): (r: Result<WhisperConfig, string>)
    ensures "model" !in fields && r.Ok? ==> r.value.model == "large-v3-turbo"
    ensures "model" in fields && r.Ok? ==> fields["model"] == JString(r.value.model)
  {
    var model :- StringField(fields, "model", "large-v3-turbo");
    var language :- StringField(fields, "language", "auto");
    var binaryPath :- StringField(fields, "binaryPath", "whisper-cli");
    var modelDir :- StringField(fields, "modelDir", "~/.tolmach/models");
    Ok(WhisperConfig(model, language, binaryPath, modelDir))
  }

  function ParseOutput(fields: JsonObject): (r: Result<OutputConfig, string>)
    ensures "dir" !in fields ==> r == Ok(DefaultOutput)
    ensures "dir" in fields && r.Ok? ==> fields["dir"] == JString(r.value.dir)
  {
    var dir :- StringField(fields, "dir", "~/.tolmach/reports");
    Ok(OutputConfig(dir))
  }

  function ParseCache(fields: JsonObject): (r: Result<CacheConfig, string>)
    ensures "enabled" in fields && r.Ok? ==> fields["enabled"] == JBool(r.value.enabled)
    ensures "enabled" !in fields && r.Ok? ==> r.value.enabled
  {
    var enabled :-
      if "enabled" !in fields then Ok(true)
      else if fields["enabled"].JBool? then Ok(fields["enabled"].b)
      else Err("cache.enabled");
    var dir :- StringField(fields, "dir", "~/.tolmach/cache");
    Ok(CacheConfig(enabled, dir))
  }

  function ParseTemp(fields: JsonObject): (r: Result<TempConfig, string>)
    ensures "dir" !in fields ==> r == Ok(DefaultTemp)
  {
    var dir :- StringField(fields, "dir", "~/.tolmach/tmp");
    Ok(TempConfig(dir))
  }

  /** A section: an absent one is parsed as an empty object, which gives
      all its defaults; a value that is not an object is rejected. */
  function Section<T>(root: JsonObject, key: string, parse: JsonObject -> Result<T, string>): (r: Result<T, string>)
    ensures key !in root ==> r == parse(map[])
    ensures key in root && root[key].JObject? ==> r == parse(root[key].fields)
    ensures key in root && !root[key].JObject? ==> r.Err?
  {
    if key !in root then parse(map[])
    else
      match root[key]
      case JObject(fields) => parse(fields)
      case _ => Err(key)
  }

  /** The fields a section contributes when it is an object or absent. */
  function SectionInput(root: JsonObject, key: string): JsonObject {
    if key in root && root[key].JObject? then root[key].fields else map[]
  }

  /** `TolmachConfigSchema.parse`: each section in turn; keys the schema
      does not name are ignored. */
  function ParseConfig(root: JsonObject): (r: Result<TolmachConfig, string>)
    ensures r.Ok? ==> ValidConfig(r.value)
    ensures r.Ok? ==> ParseLlm(SectionInput(root, "llm")) == Ok(r.value.llm)
    ensures r.Ok? ==> ParseWhisper(SectionInput(root, "whisper")) == Ok(r.value.whisper)
    ensures r.Ok? ==> ParseOutput(SectionInput(root, "output")) == Ok(r.value.output)
    ensures r.Ok? ==> ParseCache(SectionInput(root, "cache")) == Ok(r.value.cache)
    ensures r.Ok? ==> ParseTemp(SectionInput(root, "temp")) == Ok(r.value.temp)
  {
    var llm :- Section(root, "llm", ParseLlm);
    var whisper :- Section(root, "whisper", ParseWhisper);
    var output :- Section(root, "output", ParseOutput);
    var cache :- Section(root, "cache", ParseCache);
    var temp :- Section(root, "temp", ParseTemp);
    Ok(TolmachConfig(llm, whisper, output, cache, temp))
  }

  /** The schema applied to nothing gives the defaults, which satisfy the
      constraints. */
  lemma DefaultsFromEmpty()
    ensures ParseConfig(map[]) == Ok(DefaultConfig)
    ensures ValidConfig(DefaultConfig)
  {
    assert ParseLlm(map[]) == Ok(DefaultLlm);
    assert ParseWhisper(map[]) == Ok(DefaultWhisper);
    assert ParseCache(map[]) == Ok(DefaultCache);
  }

  /** A section missing from the input is filled entirely with its defaults. */
  lemma MissingSectionsDefault(root: JsonObject)
    requires ParseConfig(root).Ok?
    ensures "llm" !in root ==> ParseConfig(root).value.llm == DefaultLlm
    ensures "whisper" !in root ==> ParseConfig(root).value.whisper == DefaultWhisper
    ensures "output" !in root ==> ParseConfig(root).value.output == DefaultOutput
    ensures "cache" !in root ==> ParseConfig(root).value.cache == DefaultCache
    ensures "temp" !in root ==> ParseConfig(root).value.temp == DefaultTemp
  {
    DefaultsFromEmpty();
  }

  /** A provider other than the two known names is rejected. */
  lemma UnknownProviderRejected(root: JsonObject, name: string)
    requires "llm" in root && root["llm"].JObject? && "provider" in root["llm"].fields
    requires root["llm"].fields["provider"] == JString(name)
    requires name != "claude-agent" && name != "mock"
    ensures ParseConfig(root).Err?
  {
  }

  /** The configuration written back as JSON, as `config show` prints it;
      an unset model is left out. */
  function ConfigJson(c: TolmachConfig): JsonObject {
    map["llm" := JObject(LlmJson(c.llm)),
        "whisper" := JObject(map["model" := JString(c.whisper.model), "language" := JString(c.whisper.language),
                                 "binaryPath" := JString(c.whisper.binaryPath), "modelDir" := JString(c.whisper.modelDir)]),
        "output" := JObject(map["dir" := JString(c.output.dir)]),
        "cache" := JObject(map["enabled" := JBool(c.cache.enabled), "dir" := JString(c.cache.dir)]),
        "temp" := JObject(map["dir" := JString(c.temp.dir)])]
  }

  function LlmJson(l: LlmConfig): JsonObject {
    var fields := map["provider" := JString(ProviderNameString(l.provider)),
                      "maxTokens" := JNumber(l.maxTokens as real),
                      "temperature" := JNumber(l.temperature),
                      "reportLanguage" := JString(l.reportLanguage)];
    if l.model.Some? then fields["model" := JString(l.model.value)] else fields
  }

  /** Every configuration meeting the constraints is accepted back from its
      JSON form unchanged, and only those are. */
  lemma ConfigJsonRoundTrip(c: TolmachConfig)
    ensures ParseConfig(ConfigJson(c)) == Ok(c) <==> ValidConfig(c)
  {
    if ValidConfig(c) {
      LlmJsonRoundTrip(c.llm);
      WhisperJsonRoundTrip(c.whisper);
      CacheJsonRoundTrip(c.cache);
      ParseFromSections(ConfigJson(c), c);
    }
  }

  /** Each section present and parsed to a configuration's part gives that
      configuration. */
  lemma ParseFromSections(root: JsonObject, c: TolmachConfig)
    requires "llm" in root && root["llm"].JObject? && ParseLlm(root["llm"].fields) == Ok(c.llm)
    requires "whisper" in root && root["whisper"].JObject? && ParseWhisper(root["whisper"].fields) == Ok(c.whisper)
    requires "output" in root && root["output"].JObject? && ParseOutput(root["output"].fields) == Ok(c.output)
    requires "cache" in root && root["cache"].JObject? && ParseCache(root["cache"].fields) == Ok(c.cache)
    requires "temp" in root && root["temp"].JObject? && ParseTemp(root["temp"].fields) == Ok(c.temp)
    ensures ParseConfig(root) == Ok(c)
  {
  }

  lemma LlmJsonRoundTrip(l: LlmConfig)
    requires l.maxTokens > 0 && 0.0 <= l.temperature <= 2.0
    ensures ParseLlm(LlmJson(l)) == Ok(l)
  {
    assert (l.maxTokens as real).Floor == l.maxTokens;
  }

  lemma WhisperJsonRoundTrip(w: WhisperConfig)
    ensures ParseWhisper(map["model" := JString(w.model), "language" := JString(w.language),
                             "binaryPath" := JString(w.binaryPath), "modelDir" := JString(w.modelDir)]) == Ok(w)
  {
  }

  lemma CacheJsonRoundTrip(c: CacheConfig)
    ensures ParseCache(map["enabled" := JBool(c.enabled), "dir" := JString(c.dir)]) == Ok(c)
  {
  }

  // ---------------------------------------------------------------------
  // The environment

  type Env = map<string, string>

  /** A variable counts when it is defined and not empty. */
  predicate IsSet(env: Env, name: string) {
    name in env && env[name] != ""
  }

  /** Sets `key` to the variable's value when the variable is set. */
  function PutVar(fields: JsonObject, key: string, env: Env, name: string): JsonObject {
    if IsSet(env, name) then fields[key := JString(env[name])] else fields
  }

  /** Adds a section only when it has some field. */
  function PutSection(root: JsonObject, key: string, fields: JsonObject): JsonObject {
    if |fields| > 0 then root[key := JObject(fields)] else root
  }

  function LlmEnv(env: Env): JsonObject {
    PutVar(PutVar(PutVar(map[], "provider", env, "LLM_PROVIDER"), "model", env, "LLM_MODEL"),
           "reportLanguage", env, "LLM_REPORT_LANGUAGE")
  }

  function WhisperEnv(env: Env): JsonObject {
    PutVar(PutVar(PutVar(PutVar(map[], "model", env, "WHISPER_MODEL"), "language", env, "WHISPER_LANGUAGE"),
                  "binaryPath", env, "WHISPER_BINARY"),
           "modelDir", env, "WHISPER_MODEL_DIR")
  }

  function OutputEnv(env: Env): JsonObject {
    PutVar(map[], "dir", env, "TOLMACH_OUTPUT_DIR")
  }

  /** The cache switch counts whenever defined, even empty, and only the
      exact text `true` turns the cache on. */
  function CacheEnv(env: Env): JsonObject {
    var fields := PutVar(map[], "dir", env, "TOLMACH_CACHE_DIR");
    if "TOLMACH_CACHE_ENABLED" in env then fields["enabled" := JBool(env["TOLMACH_CACHE_ENABLED"] == "true")]
    else fields
  }

  /** `loadEnvConfig`. */
  function EnvConfig(env: Env): JsonObject {
    PutSection(PutSection(PutSection(PutSection(map[], "llm", LlmEnv(env)), "whisper", WhisperEnv(env)),
                          "output", OutputEnv(env)),
               "cache", CacheEnv(env))
  }

  /** Which variable feeds which field. */
  datatype EnvBinding = EnvBinding(variable: string, section: string, key: string)

  const StringBindings: seq<EnvBinding> := [
    EnvBinding("LLM_PROVIDER", "llm", "provider"),
    EnvBinding("LLM_MODEL", "llm", "model"),
    EnvBinding("LLM_REPORT_LANGUAGE", "llm", "reportLanguage"),
    EnvBinding("WHISPER_MODEL", "whisper", "model"),
    EnvBinding("WHISPER_LANGUAGE", "whisper", "language"),
    EnvBinding("WHISPER_BINARY", "whisper", "binaryPath"),
    EnvBinding("WHISPER_MODEL_DIR", "whisper", "modelDir"),
    EnvBinding("TOLMACH_OUTPUT_DIR", "output", "dir"),
    EnvBinding("TOLMACH_CACHE_DIR", "cache", "dir")
  ]

  /** The field a binding names in a configuration object, if present. */
  function Lookup(root: JsonObject, section: string, key: string): Option<Json> {
    if section in root && root[section].JObject? && key in root[section].fields
    then Some(root[section].fields[key])
    else None
  }

  /** A key's value in an object, if present. */
  function Field(fields: JsonObject, key: string): Option<Json> {
    if key in fields then Some(fields[key]) else None
  }

  lemma PutVarField(fields: JsonObject, key: string, env: Env, name: string, k: string)
    ensures Field(PutVar(fields, key, env, name), k)
            == if k == key && IsSet(env, name) then Some(JString(env[name])) else Field(fields, k)
  {
  }

  lemma PutSectionOther(root: JsonObject, key: string, fields: JsonObject, section: string, k: string)
    requires section != key
    ensures Lookup(PutSection(root, key, fields), section, k) == Lookup(root, section, k)
  {
  }

  lemma PutSectionSame(root: JsonObject, key: string, fields: JsonObject, k: string)
    requires key !in root
    ensures Lookup(PutSection(root, key, fields), key, k) == Field(fields, k)
  {
  }

  /** Where each section of the environment's object comes from. */
  lemma EnvSections(env: Env, k: string)
    ensures Lookup(EnvConfig(env), "llm", k) == Field(LlmEnv(env), k)
    ensures Lookup(EnvConfig(env), "whisper", k) == Field(WhisperEnv(env), k)
    ensures Lookup(EnvConfig(env), "output", k) == Field(OutputEnv(env), k)
    ensures Lookup(EnvConfig(env), "cache", k) == Field(CacheEnv(env), k)
  {
    EnvLlmSection(env, k);
    EnvWhisperSection(env, k);
    EnvOutputSection(env, k);
    EnvCacheSection(env, k);
  }

  lemma EnvLlmSection(env: Env, k: string)
    ensures Lookup(EnvConfig(env), "llm", k) == Field(LlmEnv(env), k)
  {
    var r1 := PutSection(map[], "llm", LlmEnv(env));
    var r2 := PutSection(r1, "whisper", WhisperEnv(env));
    var r3 := PutSection(r2, "output", OutputEnv(env));
    PutSectionSame(map[], "llm", LlmEnv(env), k);
    PutSectionOther(r1, "whisper", WhisperEnv(env), "llm", k);
    PutSectionOther(r2, "output", OutputEnv(env), "llm", k);
    PutSectionOther(r3, "cache", CacheEnv(env), "llm", k);
  }

  lemma EnvWhisperSection(env: Env, k: string)
    ensures Lookup(EnvConfig(env), "whisper", k) == Field(WhisperEnv(env), k)
  {
    var r1 := PutSection(map[], "llm", LlmEnv(env));
    var r2 := PutSection(r1, "whisper", WhisperEnv(env));
    var r3 := PutSection(r2, "output", OutputEnv(env));
    PutSectionSame(r1, "whisper", WhisperEnv(env), k);
    PutSectionOther(r2, "output", OutputEnv(env), "whisper", k);
    PutSectionOther(r3, "cache", CacheEnv(env), "whisper", k);
  }

  lemma EnvOutputSection(env: Env, k: string)
    ensures Lookup(EnvConfig(env), "output", k) == Field(OutputEnv(env), k)
  {
    var r1 := PutSection(map[], "llm", LlmEnv(env));
    var r2 := PutSection(r1, "whisper", WhisperEnv(env));
    var r3 := PutSection(r2, "output", OutputEnv(env));
    PutSectionSame(r2, "output", OutputEnv(env), k);
    PutSectionOther(r3, "cache", CacheEnv(env), "output", k);
  }

  lemma EnvCacheSection(env: Env, k: string)
    ensures Lookup(EnvConfig(env), "cache", k) == Field(CacheEnv(env), k)
  {
    var r1 := PutSection(map[], "llm", LlmEnv(env));
    var r2 := PutSection(r1, "whisper", WhisperEnv(env));
    var r3 := PutSection(r2, "output", OutputEnv(env));
    PutSectionSame(r3, "cache", CacheEnv(env), k);
  }

  /** Each string variable, when set, lands at its field; when unset its
      field is absent. */
  lemma EnvBindingsApplied(env: Env)
    ensures forall i :: 0 <= i < |StringBindings| ==>
              Lookup(EnvConfig(env), StringBindings[i].section, StringBindings[i].key)
              == if IsSet(env, StringBindings[i].variable) then Some(JString(env[StringBindings[i].variable])) else None
  {
    forall i | 0 <= i < |StringBindings|
      ensures Lookup(EnvConfig(env), StringBindings[i].section, StringBindings[i].key)
              == if IsSet(env, StringBindings[i].variable) then Some(JString(env[StringBindings[i].variable])) else None
    {
      if i < 3 {
        LlmBindingApplied(env, i);
      } else if i < 7 {
        WhisperBindingApplied(env, i);
      } else {
        PathBindingApplied(env, i);
      }
    }
  }

  lemma LlmBindingApplied(env: Env, i: nat)
    requires i < 3
    ensures Lookup(EnvConfig(env), StringBindings[i].section, StringBindings[i].key)
            == if IsSet(env, StringBindings[i].variable) then Some(JString(env[StringBindings[i].variable])) else None
  {
    EnvLlmSection(env, StringBindings[i].key);
    if i == 0 { LlmEnvProvider(env); }
    else if i == 1 { LlmEnvModel(env); }
    else { LlmEnvLanguage(env); }
  }

  lemma WhisperBindingApplied(env: Env, i: nat)
    requires 3 <= i < 7
    ensures Lookup(EnvConfig(env), StringBindings[i].section, StringBindings[i].key)
            == if IsSet(env, StringBindings[i].variable) then Some(JString(env[StringBindings[i].variable])) else None
  {
    EnvWhisperSection(env, StringBindings[i].key);
    if i == 3 { WhisperEnvModel(env); }
    else if i == 4 { WhisperEnvLanguage(env); }
    else if i == 5 { WhisperEnvBinary(env); }
    else { WhisperEnvModelDir(env); }
  }

  lemma PathBindingApplied(env: Env, i: nat)
    requires 7 <= i < 9
    ensures Lookup(EnvConfig(env), StringBindings[i].section, StringBindings[i].key)
            == if IsSet(env, StringBindings[i].variable) then Some(JString(env[StringBindings[i].variable])) else None
  {
    if i == 7 {
      EnvOutputSection(env, "dir");
      PutVarField(map[], "dir", env, "TOLMACH_OUTPUT_DIR", "dir");
    } else {
      EnvCacheSection(env, "dir");
      CacheEnvDir(env);
    }
  }

  lemma LlmEnvProvider(env: Env)
    ensures Field(LlmEnv(env), "provider") == if IsSet(env, "LLM_PROVIDER") then Some(JString(env["LLM_PROVIDER"])) else None
  {
    var f1 := PutVar(map[], "provider", env, "LLM_PROVIDER");
    var f2 := PutVar(f1, "model", env, "LLM_MODEL");
    PutVarField(f2, "reportLanguage", env, "LLM_REPORT_LANGUAGE", "provider");
    PutVarField(f1, "model", env, "LLM_MODEL", "provider");
    PutVarField(map[], "provider", env, "LLM_PROVIDER", "provider");
  }

  lemma LlmEnvModel(env: Env)
    ensures Field(LlmEnv(env), "model") == if IsSet(env, "LLM_MODEL") then Some(JString(env["LLM_MODEL"])) else None
  {
    var f1 := PutVar(map[], "provider", env, "LLM_PROVIDER");
    var f2 := PutVar(f1, "model", env, "LLM_MODEL");
    PutVarField(f2, "reportLanguage", env, "LLM_REPORT_LANGUAGE", "model");
    PutVarField(f1, "model", env, "LLM_MODEL", "model");
    PutVarField(map[], "provider", env, "LLM_PROVIDER", "model");
  }

  lemma LlmEnvLanguage(env: Env)
    ensures Field(LlmEnv(env), "reportLanguage")
            == if IsSet(env, "LLM_REPORT_LANGUAGE") then Some(JString(env["LLM_REPORT_LANGUAGE"])) else None
  {
    var f1 := PutVar(map[], "provider", env, "LLM_PROVIDER");
    var f2 := PutVar(f1, "model", env, "LLM_MODEL");
    PutVarField(f2, "reportLanguage", env, "LLM_REPORT_LANGUAGE", "reportLanguage");
    PutVarField(f1, "model", env, "LLM_MODEL", "reportLanguage");
    PutVarField(map[], "provider", env, "LLM_PROVIDER", "reportLanguage");
  }

  /** The whisper section's fields, one step per variable. */
  lemma WhisperEnvSteps(env: Env, k: string)
    ensures var f1 := PutVar(map[], "model", env, "WHISPER_MODEL");
            var f2 := PutVar(f1, "language", env, "WHISPER_LANGUAGE");
            var f3 := PutVar(f2, "binaryPath", env, "WHISPER_BINARY");
            && Field(WhisperEnv(env), k) == (if k == "modelDir" && IsSet(env, "WHISPER_MODEL_DIR")
                                             then Some(JString(env["WHISPER_MODEL_DIR"])) else Field(f3, k))
            && Field(f3, k) == (if k == "binaryPath" && IsSet(env, "WHISPER_BINARY")
                                then Some(JString(env["WHISPER_BINARY"])) else Field(f2, k))
            && Field(f2, k) == (if k == "language" && IsSet(env, "WHISPER_LANGUAGE")
                                then Some(JString(env["WHISPER_LANGUAGE"])) else Field(f1, k))
            && Field(f1, k) == (if k == "model" && IsSet(env, "WHISPER_MODEL")
                                then Some(JString(env["WHISPER_MODEL"])) else None)
  {
    var f1 := PutVar(map[], "model", env, "WHISPER_MODEL");
    var f2 := PutVar(f1, "language", env, "WHISPER_LANGUAGE");
    var f3 := PutVar(f2, "binaryPath", env, "WHISPER_BINARY");
    PutVarField(f3, "modelDir", env, "WHISPER_MODEL_DIR", k);
    PutVarField(f2, "binaryPath", env, "WHISPER_BINARY", k);
    PutVarField(f1, "language", env, "WHISPER_LANGUAGE", k);
    PutVarField(map[], "model", env, "WHISPER_MODEL", k);
  }

  lemma WhisperEnvModel(env: Env)
    ensures Field(WhisperEnv(env), "model") == if IsSet(env, "WHISPER_MODEL") then Some(JString(env["WHISPER_MODEL"])) else None
  {
    WhisperEnvSteps(env, "model");
  }

  lemma WhisperEnvLanguage(env: Env)
    ensures Field(WhisperEnv(env), "language") == if IsSet(env, "WHISPER_LANGUAGE") then Some(JString(env["WHISPER_LANGUAGE"])) else None
  {
    WhisperEnvSteps(env, "language");
  }

  lemma WhisperEnvBinary(env: Env)
    ensures Field(WhisperEnv(env), "binaryPath") == if IsSet(env, "WHISPER_BINARY") then Some(JString(env["WHISPER_BINARY"])) else None
  {
    WhisperEnvSteps(env, "binaryPath");
  }

  lemma WhisperEnvModelDir(env: Env)
    ensures Field(WhisperEnv(env), "modelDir") == if IsSet(env, "WHISPER_MODEL_DIR") then Some(JString(env["WHISPER_MODEL_DIR"])) else None
  {
    WhisperEnvSteps(env, "modelDir");
  }

  lemma CacheEnvDir(env: Env)
    ensures Field(CacheEnv(env), "dir") == if IsSet(env, "TOLMACH_CACHE_DIR") then Some(JString(env["TOLMACH_CACHE_DIR"])) else None
  {
    PutVarField(map[], "dir", env, "TOLMACH_CACHE_DIR", "dir");
  }

  /** A section appears exactly when one of its variables is set. */
  lemma EnvSectionsOmitted(env: Env)
    ensures "llm" in EnvConfig(env) <==> IsSet(env, "LLM_PROVIDER") || IsSet(env, "LLM_MODEL") || IsSet(env, "LLM_REPORT_LANGUAGE")
    ensures "output" in EnvConfig(env) <==> IsSet(env, "TOLMACH_OUTPUT_DIR")
    ensures "cache" in EnvConfig(env) <==> IsSet(env, "TOLMACH_CACHE_DIR") || "TOLMACH_CACHE_ENABLED" in env
    ensures EnvConfig(env).Keys <= {"llm", "whisper", "output", "cache"}
  {
    EnvSectionKeys(env);
    LlmEnvPresent(env);
    CacheEnvPresent(env);
  }

  /** A section is present exactly when its object has some field. */
  lemma EnvSectionKeys(env: Env)
    ensures "llm" in EnvConfig(env) <==> |LlmEnv(env)| > 0
    ensures "output" in EnvConfig(env) <==> |OutputEnv(env)| > 0
    ensures "cache" in EnvConfig(env) <==> |CacheEnv(env)| > 0
    ensures EnvConfig(env).Keys <= {"llm", "whisper", "output", "cache"}
  {
  }

  lemma LlmEnvPresent(env: Env)
    ensures |LlmEnv(env)| > 0 <==> IsSet(env, "LLM_PROVIDER") || IsSet(env, "LLM_MODEL") || IsSet(env, "LLM_REPORT_LANGUAGE")
  {
  }

  lemma CacheEnvPresent(env: Env)
    ensures |CacheEnv(env)| > 0 <==> IsSet(env, "TOLMACH_CACHE_DIR") || "TOLMACH_CACHE_ENABLED" in env
  {
  }

  /** The cache switch: defined means set, and on only for `true`. */
  lemma CacheSwitch(env: Env)
    ensures "TOLMACH_CACHE_ENABLED" in env ==>
              Lookup(EnvConfig(env), "cache", "enabled") == Some(JBool(env["TOLMACH_CACHE_ENABLED"] == "true"))
    ensures "TOLMACH_CACHE_ENABLED" !in env ==> Lookup(EnvConfig(env), "cache", "enabled").None?
  {
  }

  // ---------------------------------------------------------------------
  // Merging

  /** `deepMerge(target, source)`: every key of either; where both hold
      plain objects they are merged recursively, otherwise the source's
      value wins, arrays included; keys only in the target are kept. */
  function DeepMerge(target: JsonObject, source: JsonObject): (r: JsonObject)
    decreases JObject(source)
    ensures r.Keys == target.Keys + source.Keys
    ensures forall k :: k in target && k !in source ==> r[k] == target[k]
    ensures forall k :: k in source && !(source[k].JObject? && k in target && target[k].JObject?) ==> r[k] == source[k]
  {
    map k | k in target.Keys + source.Keys ::
      if k in source then
        if source[k].JObject? && k in target && target[k].JObject?
        then JObject(DeepMerge(target[k].fields, source[k].fields))
        else source[k]
      else target[k]
  }

  /** Where both sides hold objects, the merged value is their merge. */
  lemma DeepMergeBoth(target: JsonObject, source: JsonObject, k: string)
    requires k in source && source[k].JObject? && k in target && target[k].JObject?
    ensures DeepMerge(target, source)[k] == JObject(DeepMerge(target[k].fields, source[k].fields))
  {
  }

  /** Merging nothing in changes nothing. */
  lemma DeepMergeEmpty(target: JsonObject)
    ensures DeepMerge(target, map[]) == target
  {
  }

  /** Merging into nothing gives the source. */
  lemma {:induction false} DeepMergeIntoEmpty(source: JsonObject)
    ensures DeepMerge(map[], source) == source
  {
  }

  /** Merging an object with itself changes nothing. */
  lemma {:induction false} DeepMergeIdempotent(m: JsonObject)
    decreases JObject(m)
    ensures DeepMerge(m, m) == m
  {
    forall k | k in m && m[k].JObject?
      ensures DeepMerge(m[k].fields, m[k].fields) == m[k].fields
    {
      DeepMergeIdempotent(m[k].fields);
    }
  }

  /** A field reached through two merged sections: the source's when it
      has one, else the target's. */
  lemma DeepMergeLookup(target: JsonObject, source: JsonObject, section: string, key: string)
    requires section in source ==> source[section].JObject?
    requires section in target ==> target[section].JObject?
    requires Lookup(source, section, key).Some? ==> !Lookup(source, section, key).value.JObject?
    ensures Lookup(DeepMerge(target, source), section, key)
            == if Lookup(source, section, key).Some? then Lookup(source, section, key) else Lookup(target, section, key)
  {
    var r := DeepMerge(target, source);
    if section in source && section in target {
      DeepMergeBoth(target, source, section);
      var inner := DeepMerge(target[section].fields, source[section].fields);
      assert r[section] == JObject(inner);
    } else if section in source {
      assert r[section] == source[section];
    } else if section in target {
      assert r[section] == target[section];
    } else {
      assert section !in r;
    }
  }

  /** The command-line overrides; only non-empty values count. */
  datatype CliOverrides = CliOverrides(
    llmProvider: Option<string>,
    llmModel: Option<string>,
    whisperModel: Option<string>,
    language: Option<string>,
    outputDir: Option<string>)

  predicate Given(o: Option<string>) {
    o.Some? && o.value != ""
  }

  function Override(fields: JsonObject, key: string, o: Option<string>): JsonObject {
    if Given(o) then fields[key := JString(o.value)] else fields
  }

  /** `merged[key] ?? {}`: an absent or null section is an empty object, a
      plain object is itself; anything else has no fields to set. */
  function SectionFields(root: JsonObject, key: string): Option<JsonObject> {
    if key !in root || root[key].JNull? then Some(map[])
    else if root[key].JObject? then Some(root[key].fields)
    else None
  }

  /** Applies two overrides to a section that is an object (or absent);
      a section of another kind is left for the schema to reject. */
  function OverrideSection(root: JsonObject, key: string, k1: string, o1: Option<string>, k2: string, o2: Option<string>): (r: JsonObject)
    ensures key in r && r.Keys == root.Keys + {key}
    ensures forall k :: k in root && k != key ==> r[k] == root[k]
  {
    match SectionFields(root, key)
    case Some(fields) => root[key := JObject(Override(Override(fields, k1, o1), k2, o2))]
    case None => root
  }

  lemma OverrideOther(root: JsonObject, key: string, k1: string, o1: Option<string>, k2: string, o2: Option<string>,
                      section: string, k: string)
    requires section != key
    ensures Lookup(OverrideSection(root, key, k1, o1, k2, o2), section, k) == Lookup(root, section, k)
  {
  }

  lemma OverrideFirst(root: JsonObject, key: string, k1: string, o1: Option<string>, k2: string, o2: Option<string>)
    requires k1 != k2 || !Given(o2)
    requires key in root ==> root[key].JObject?
    ensures Lookup(OverrideSection(root, key, k1, o1, k2, o2), key, k1)
            == if Given(o1) then Some(JString(o1.value)) else Lookup(root, key, k1)
  {
    var fields := SectionFields(root, key).value;
    var f1 := Override(fields, k1, o1);
    assert Field(Override(f1, k2, o2), k1) == Field(f1, k1);
  }

  /** `merge`: file values under environment values under command-line
      values. */
  function Merge(file: JsonObject, env: JsonObject, cli: Option<CliOverrides>): JsonObject {
    ApplyOverrides(DeepMerge(file, env), cli)
  }

  /** The command-line values over the merged file and environment. */
  function ApplyOverrides(merged: JsonObject, cli: Option<CliOverrides>): JsonObject {
    match cli
    case None => merged
    case Some(o) =>
      var withLlm := OverrideSection(merged, "llm", "provider", o.llmProvider, "model", o.llmModel);
      var withWhisper := OverrideSection(withLlm, "whisper", "model", o.whisperModel, "language", o.language);
      if Given(o.outputDir) then OverrideSection(withWhisper, "output", "dir", o.outputDir, "dir", None)
      else withWhisper
  }

  /** The schema result of the merged sources, as `load` computes it. */
  function Resolve(file: JsonObject, envVars: Env, cli: Option<CliOverrides>): Result<TolmachConfig, string> {
    ParseConfig(Merge(file, EnvConfig(envVars), cli))
  }

  /** Every section of the environment's object is an object. */
  lemma EnvSectionsAreObjects(env: Env)
    ensures forall k :: k in EnvConfig(env) ==> EnvConfig(env)[k].JObject?
  {
    var r1 := PutSection(map[], "llm", LlmEnv(env));
    var r2 := PutSection(r1, "whisper", WhisperEnv(env));
    var r3 := PutSection(r2, "output", OutputEnv(env));
    PutSectionKeepsObjects(map[], "llm", LlmEnv(env));
    PutSectionKeepsObjects(r1, "whisper", WhisperEnv(env));
    PutSectionKeepsObjects(r2, "output", OutputEnv(env));
    PutSectionKeepsObjects(r3, "cache", CacheEnv(env));
  }

  lemma PutSectionKeepsObjects(root: JsonObject, key: string, fields: JsonObject)
    requires forall k :: k in root ==> root[k].JObject?
    ensures forall k :: k in PutSection(root, key, fields) ==> PutSection(root, key, fields)[k].JObject?
  {
  }

  /** The provider the schema yields from a merged object. */
  lemma ResolvedProvider(root: JsonObject)
    requires ParseConfig(root).Ok?
    ensures var p := ProviderNameString(ParseConfig(root).value.llm.provider);
            match Lookup(root, "llm", "provider")
            case Some(v) => v == JString(p)
            case None => p == "claude-agent"
  {
    if "llm" in root {
      assert root["llm"].JObject?;
    }
  }

  /** The report directory the schema yields from a merged object. */
  lemma ResolvedOutputDir(root: JsonObject)
    requires ParseConfig(root).Ok?
    ensures var d := ParseConfig(root).value.output.dir;
            match Lookup(root, "output", "dir")
            case Some(v) => v == JString(d)
            case None => d == "~/.tolmach/reports"
  {
    if "output" in root {
      assert root["output"].JObject?;
    }
  }

  /** The provider field after merging: command line, else environment,
      else file. */
  lemma MergedProvider(file: JsonObject, envVars: Env, cli: Option<CliOverrides>)
    requires "llm" in file ==> file["llm"].JObject?
    ensures Lookup(Merge(file, EnvConfig(envVars), cli), "llm", "provider")
            == if cli.Some? && Given(cli.value.llmProvider) then Some(JString(cli.value.llmProvider.value))
               else if IsSet(envVars, "LLM_PROVIDER") then Some(JString(envVars["LLM_PROVIDER"]))
               else Lookup(file, "llm", "provider")
  {
    EnvOverFileProvider(file, envVars);
    CliOverProvider(DeepMerge(file, EnvConfig(envVars)), cli);
  }

  /** The environment's provider over the file's. */
  lemma EnvOverFileProvider(file: JsonObject, envVars: Env)
    requires "llm" in file ==> file["llm"].JObject?
    ensures var merged := DeepMerge(file, EnvConfig(envVars));
            && ("llm" in merged ==> merged["llm"].JObject?)
            && Lookup(merged, "llm", "provider")
               == if IsSet(envVars, "LLM_PROVIDER") then Some(JString(envVars["LLM_PROVIDER"])) else Lookup(file, "llm", "provider")
  {
    var env := EnvConfig(envVars);
    EnvLlmSection(envVars, "provider");
    LlmEnvProvider(envVars);
    EnvSectionsAreObjects(envVars);
    DeepMergeLookup(file, env, "llm", "provider");
  }

  /** The command line's provider over the merged one. */
  lemma CliOverProvider(merged: JsonObject, cli: Option<CliOverrides>)
    requires "llm" in merged ==> merged["llm"].JObject?
    ensures Lookup(ApplyOverrides(merged, cli), "llm", "provider")
            == if cli.Some? && Given(cli.value.llmProvider) then Some(JString(cli.value.llmProvider.value))
               else Lookup(merged, "llm", "provider")
  {
    if cli.Some? {
      var o := cli.value;
      var withLlm := OverrideSection(merged, "llm", "provider", o.llmProvider, "model", o.llmModel);
      OverrideFirst(merged, "llm", "provider", o.llmProvider, "model", o.llmModel);
      var withWhisper := OverrideSection(withLlm, "whisper", "model", o.whisperModel, "language", o.language);
      OverrideOther(withLlm, "whisper", "model", o.whisperModel, "language", o.language, "llm", "provider");
      if Given(o.outputDir) {
        OverrideOther(withWhisper, "output", "dir", o.outputDir, "dir", None, "llm", "provider");
      }
    }
  }

  /** The provider name in effect: a command-line provider beats the
      environment's, which beats the file's, which beats the default. */
  lemma ProviderPrecedence(file: JsonObject, envVars: Env, cli: Option<CliOverrides>)
    requires "llm" in file ==> file["llm"].JObject?
    requires Resolve(file, envVars, cli).Ok?
    ensures var p := ProviderNameString(Resolve(file, envVars, cli).value.llm.provider);
            && (cli.Some? && Given(cli.value.llmProvider) ==> p == cli.value.llmProvider.value)
            && (!(cli.Some? && Given(cli.value.llmProvider)) && IsSet(envVars, "LLM_PROVIDER") ==> p == envVars["LLM_PROVIDER"])
            && (!(cli.Some? && Given(cli.value.llmProvider)) && !IsSet(envVars, "LLM_PROVIDER") ==>
                  match Lookup(file, "llm", "provider")
                  case Some(v) => v == JString(p)
                  case None => p == "claude-agent")
  {
    MergedProvider(file, envVars, cli);
    ResolvedProvider(Merge(file, EnvConfig(envVars), cli));
  }

  /** The output-directory field after merging: command line, else
      environment, else file. */
  lemma MergedOutputDir(file: JsonObject, envVars: Env, cli: Option<CliOverrides>)
    requires "output" in file ==> file["output"].JObject?
    ensures Lookup(Merge(file, EnvConfig(envVars), cli), "output", "dir")
            == if cli.Some? && Given(cli.value.outputDir) then Some(JString(cli.value.outputDir.value))
               else if IsSet(envVars, "TOLMACH_OUTPUT_DIR") then Some(JString(envVars["TOLMACH_OUTPUT_DIR"]))
               else Lookup(file, "output", "dir")
  {
    EnvOverFileOutputDir(file, envVars);
    CliOverOutputDir(DeepMerge(file, EnvConfig(envVars)), cli);
  }

  /** The environment's report directory over the file's. */
  lemma EnvOverFileOutputDir(file: JsonObject, envVars: Env)
    requires "output" in file ==> file["output"].JObject?
    ensures var merged := DeepMerge(file, EnvConfig(envVars));
            && ("output" in merged ==> merged["output"].JObject?)
            && Lookup(merged, "output", "dir")
               == if IsSet(envVars, "TOLMACH_OUTPUT_DIR") then Some(JString(envVars["TOLMACH_OUTPUT_DIR"]))
                  else Lookup(file, "output", "dir")
  {
    var env := EnvConfig(envVars);
    EnvOutputSection(envVars, "dir");
    PutVarField(map[], "dir", envVars, "TOLMACH_OUTPUT_DIR", "dir");
    EnvSectionsAreObjects(envVars);
    DeepMergeLookup(file, env, "output", "dir");
  }

  /** The command line's report directory over the merged one. */
  lemma CliOverOutputDir(merged: JsonObject, cli: Option<CliOverrides>)
    requires "output" in merged ==> merged["output"].JObject?
    ensures Lookup(ApplyOverrides(merged, cli), "output", "dir")
            == if cli.Some? && Given(cli.value.outputDir) then Some(JString(cli.value.outputDir.value))
               else Lookup(merged, "output", "dir")
  {
    if cli.Some? {
      var o := cli.value;
      var withLlm := OverrideSection(merged, "llm", "provider", o.llmProvider, "model", o.llmModel);
      OverrideOther(merged, "llm", "provider", o.llmProvider, "model", o.llmModel, "output", "dir");
      var withWhisper := OverrideSection(withLlm, "whisper", "model", o.whisperModel, "language", o.language);
      OverrideOther(withLlm, "whisper", "model", o.whisperModel, "language", o.language, "output", "dir");
      if Given(o.outputDir) {
        OverrideFirst(withWhisper, "output", "dir", o.outputDir, "dir", None);
      }
    }
  }

  /** The report directory in effect: a command-line directory beats the
      environment's, which beats the file's, which beats the default. */
  lemma OutputDirPrecedence(file: JsonObject, envVars: Env, cli: Option<CliOverrides>)
    requires "output" in file ==> file["output"].JObject?
    requires Resolve(file, envVars, cli).Ok?
    ensures var d := Resolve(file, envVars, cli).value.output.dir;
            && (cli.Some? && Given(cli.value.outputDir) ==> d == cli.value.outputDir.value)
            && (!(cli.Some? && Given(cli.value.outputDir)) && IsSet(envVars, "TOLMACH_OUTPUT_DIR") ==> d == envVars["TOLMACH_OUTPUT_DIR"])
            && (!(cli.Some? && Given(cli.value.outputDir)) && !IsSet(envVars, "TOLMACH_OUTPUT_DIR") ==>
                  match Lookup(file, "output", "dir")
                  case Some(v) => v == JString(d)
                  case None => d == "~/.tolmach/reports")
  {
    MergedOutputDir(file, envVars, cli);
    ResolvedOutputDir(Merge(file, EnvConfig(envVars), cli));
  }

  // ---------------------------------------------------------------------
  // The stored file and the loaded state

  /** `~/.tolmach/config.json`. */
  function ConfigPath(home: string): string {
    JoinPath(JoinPath(home, ".tolmach"), "config.json")
  }

  /** `loadFileConfig`: a missing or unreadable file, text that is not
      JSON, or JSON that is not an object all count as an empty object. */
  function FileConfig(files: Files, home: string, codec: JsonCodec): (r: JsonObject)
    ensures ConfigPath(home) !in files ==> r == map[]
    ensures ConfigPath(home) in files && files[ConfigPath(home)].Err? ==> r == map[]
  {
    var path := ConfigPath(home);
    if path !in files then map[]
    else
      match files[path]
      case Err(_) => map[]
      case Ok(text) =>
        match codec.decode(text)
        case Some(JObject(fields)) => fields
        case _ => map[]
  }

  /** `save`: the stored object with each top-level section of the update
      put in place of the stored one; the write's outcome is not inspected. */
  function Save(files: Files, home: string, codec: JsonCodec, update: JsonObject, writeSucceeds: bool): Files {
    WriteFile(files, ConfigPath(home), codec.encode(JObject(FileConfig(files, home, codec) + update)), writeSucceeds)
  }

  /** Saving merges at the top level only: each section of the update
      replaces the stored section whole, and the other sections stay. */
  lemma SaveIsShallow(files: Files, home: string, codec: JsonCodec, update: JsonObject)
    requires JsonRoundTrips(codec)
    ensures var stored := FileConfig(Save(files, home, codec, update, true), home, codec);
            && stored.Keys == FileConfig(files, home, codec).Keys + update.Keys
            && (forall k :: k in update ==> stored[k] == update[k])
            && (forall k :: k in FileConfig(files, home, codec) && k !in update ==> stored[k] == FileConfig(files, home, codec)[k])
  {
    var merged := JObject(FileConfig(files, home, codec) + update);
    assert codec.decode(codec.encode(merged)) == Some(merged);
  }

  /** The manager's state: the configuration once loaded. */
  datatype Manager = Manager(loaded: Option<TolmachConfig>)

  const NotLoadedMessage := "Config not loaded. Call load() first."

  /** `current`: the loaded configuration, or the not-loaded error. */
  function Current(m: Manager): (r: Result<TolmachConfig, string>)
    ensures r.Err? <==> m.loaded.None?
    ensures r.Err? ==> r.error == NotLoadedMessage
  {
    match m.loaded
    case Some(c) => Ok(c)
    case None => Err(NotLoadedMessage)
  }

  /** `load`: the merged sources through the schema; on success the state
      holds the result, on a schema failure (which `load` throws) the state
      is unchanged. */
  function Load(m: Manager, files: Files, home: string, codec: JsonCodec, envVars: Env, cli: Option<CliOverrides>)
    : (r: (Manager, Result<TolmachConfig, string>))
    ensures r.1 == Resolve(FileConfig(files, home, codec), envVars, cli)
    ensures r.1.Ok? ==> Current(r.0) == r.1
    ensures r.1.Err? ==> r.0 == m
  {
    var result := Resolve(FileConfig(files, home, codec), envVars, cli);
    match result
    case Ok(c) => (Manager(Some(c)), result)
    case Err(_) => (m, result)
  }

  /** With no file, no variables and no overrides, `load` gives the defaults. */
  lemma LoadDefaults(m: Manager, files: Files, home: string, codec: JsonCodec)
    requires ConfigPath(home) !in files
    ensures Load(m, files, home, codec, map[], None).1 == Ok(DefaultConfig)
  {
    ResolveNothing();
  }

  /** Nothing in the file, the environment or on the command line resolves
      to the defaults. */
  lemma ResolveNothing()
    ensures Resolve(map[], map[], None) == Ok(DefaultConfig)
  {
    DefaultsFromEmpty();
    EmptyEnvironment();
    DeepMergeEmpty(map[]);
  }

  lemma EmptyEnvironment()
    ensures EnvConfig(map[]) == map[]
  {
  }
}

=== FILE: config_command.dfy ===
/** `tolmach config set <key> <value>`: the key names one parameter of
    one section, the value is read as a boolean, a number or a string, and
    the stored file gets `{section: {param: value}}` merged into it. */
module ConfigCommand {

  import opened Wrappers
  import opened Text
  import opened Json
  import opened Filesystem
  import opened Config

  /** The two halves of a `section.param` key, when it has exactly one dot. */
  function ParseKey(key: string): (r: Option<(string, string)>)
    ensures r.Some? <==> Count(key, '.') == 1
    ensures r.Some? ==> r.value.0 + "." + r.value.1 == key
    ensures r.Some? ==> '.' !in r.value.0 && '.' !in r.value.1
  {
    var parts := Split(key, '.');
    SplitLength(key, '.');
    SplitJoin(key, '.');
    if |parts| == 2 then
      assert Join(parts, ".") == parts[0] + "." + parts[1];
      Some((parts[0], parts[1]))
    else None
  }

  /** Every dot-free section and parameter name makes a key that parses back. */
  lemma ParseKeyRoundTrip(section: string, param: string)
    requires '.' !in section && '.' !in param
    ensures ParseKey(section + "." + param) == Some((section, param))
  {
    SplitAtFirst(section, '.', param);
    assert Split(param, '.') == [param];
  }

  /** `/^\d+$/`: one or more ASCII digits. */
  predicate IsIntegerText(s: string) {
    |s| > 0 && AllDigits(s)
  }

  /** `/^\d+\.\d+$/`: the digits before and after the point. */
  function DecimalParts(s: string): (r: Option<(string, string)>)
    ensures r.Some? ==> IsIntegerText(r.value.0) && IsIntegerText(r.value.1)
    ensures r.Some? ==> s == r.value.0 + "." + r.value.1
    ensures r.Some? ==> forall i :: 0 <= i < |s| ==> IsDigit(s[i]) || s[i] == '.'
    ensures r.Some? ==> |s| > 0 && IsDigit(s[0]) && !AllDigits(s)
    ensures r.None? ==> forall a, b :: IsIntegerText(a) && IsIntegerText(b) ==> s != a + "." + b
  {
    match ParseKey(s)
    case Some((a, b)) =>
      if IsIntegerText(a) && IsIntegerText(b) then
        DecimalCharacters(a, b);
        Some((a, b))
      else
        NoDecimalSplit(s);
        None
    case None =>
      NoDecimalSplit(s);
      None
  }

  /** A string whose key split is not two digit runs is no `digits.digits`. */
  lemma NoDecimalSplit(s: string)
    requires ParseKey(s).Some? ==> !(IsIntegerText(ParseKey(s).value.0) && IsIntegerText(ParseKey(s).value.1))
    ensures forall a, b :: IsIntegerText(a) && IsIntegerText(b) ==> s != a + "." + b
  {
    forall a, b | IsIntegerText(a) && IsIntegerText(b) ensures s != a + "." + b {
      DigitsAreDotFree(a);
      DigitsAreDotFree(b);
      ParseKeyRoundTrip(a, b);
    }
  }

  lemma DigitsAreDotFree(s: string)
    requires AllDigits(s)
    ensures '.' !in s
  {
    forall i | 0 <= i < |s| ensures s[i] != '.' {
      assert IsDigit(s[i]);
    }
  }

  lemma DecimalCharacters(a: string, b: string)
    requires IsIntegerText(a) && IsIntegerText(b)
    ensures var s := a + "." + b;
            && (forall i :: 0 <= i < |s| ==> IsDigit(s[i]) || s[i] == '.')
            && IsDigit(s[0]) && !AllDigits(s)
  {
    var s := a + "." + b;
    forall i | 0 <= i < |s| ensures IsDigit(s[i]) || s[i] == '.' {
      if i < |a| {
        assert s[i] == a[i];
      } else if i > |a| {
        assert s[i] == b[i - |a| - 1];
      }
    }
    assert s[0] == a[0];
    assert s[|a|] == '.';
  }

  /** The value stored for a command-line string: `true` and `false` as
      booleans, digits as an integer, digits-point-digits as a decimal, and
      anything else as the string itself. */
  function CoerceValue(value: string): (r: Json)
    ensures r == JBool(true) <==> value == "true"
    ensures r == JBool(false) <==> value == "false"
    ensures r.JNumber? <==> IsIntegerText(value) || DecimalParts(value).Some?
    ensures IsIntegerText(value) ==> r == JNumber(DigitsToNat(value) as real)
    ensures r.JNumber? ==> r.n >= 0.0
    ensures r.JString? ==> r.s == value
    ensures value != "true" && value != "false"
            && (exists i :: 0 <= i < |value| && !IsDigit(value[i]) && value[i] != '.')
            ==> r == JString(value)
    ensures !r.JNull? && !r.JArray? && !r.JObject?
  {
    if value == "true" then
      assert !IsDigit(value[0]);
      JBool(true)
    else if value == "false" then
      assert !IsDigit(value[0]);
      JBool(false)
    else if IsIntegerText(value) then JNumber(DigitsToNat(value) as real)
    else
      match DecimalParts(value)
      case Some((whole, frac)) => JNumber(DecimalValue(whole, frac))
      case None => JString(value)
  }

  /** A printed natural number is stored as that number. */
  lemma IntegerValueRoundTrip(n: nat)
    ensures CoerceValue(NatToString(n)) == JNumber(n as real)
  {
    NatToStringRoundTrip(n);
  }

  /** A printed decimal `whole.frac` is stored as its exact value. */
  lemma DecimalValueRoundTrip(whole: nat, frac: nat)
    ensures CoerceValue(NatToString(whole) + "." + NatToString(frac))
         == JNumber(whole as real + frac as real / Pow10(|NatToString(frac)|) as real)
  {
    NatToStringRoundTrip(whole);
    NatToStringRoundTrip(frac);
    CoerceDecimal(NatToString(whole), NatToString(frac), whole, frac);
  }

  /** Digits, a point and digits are stored as the decimal they spell. */
  lemma CoerceDecimal(a: string, b: string, whole: nat, frac: nat)
    requires IsIntegerText(a) && IsIntegerText(b) && DigitsToNat(a) == whole && DigitsToNat(b) == frac
    ensures CoerceValue(a + "." + b) == JNumber(whole as real + frac as real / Pow10(|b|) as real)
  {
    var s := a + "." + b;
    DigitsAreDotFree(a);
    DigitsAreDotFree(b);
    ParseKeyRoundTrip(a, b);
    assert DecimalParts(s) == Some((a, b));
    assert s != "true" && s != "false" by {
      assert IsDigit(s[0]);
    }
  }

  /** The object `save` receives: the one parameter inside its section. */
  function Update(section: string, param: string, value: string): (u: JsonObject)
    ensures u.Keys == {section}
    ensures u[section] == JObject(map[param := CoerceValue(value)])
  {
    map[section := JObject(map[param := CoerceValue(value)])]
  }

  /** What the command ends with: `load` threw (the schema rejected the
      merged configuration), the key was malformed (exit code 1, nothing
      written), or the update was handed to `save`. */
  datatype SetOutcome =
    | LoadFailed(error: string)
    | BadKey
    | Saved(files: Files, value: Json)

  /** The value the command assigns to `process.exitCode`: 1 for a
      malformed key, otherwise unset (0).  A failed `load` is not assigned a
      code: it rejects the command's promise instead. */
  function AssignedExitCode(o: SetOutcome): nat {
    match o
    case BadKey => 1
    case _ => 0
  }

  /** `configSetCommand`. */
  function SetCommand(files: Files, home: string, codec: JsonCodec, envVars: Env,
                      key: string, value: string, writeSucceeds: bool): (o: SetOutcome)
    ensures o.LoadFailed? <==> Resolve(FileConfig(files, home, codec), envVars, None).Err?
    ensures o.BadKey? <==> Resolve(FileConfig(files, home, codec), envVars, None).Ok? && Count(key, '.') != 1
    ensures o.Saved? ==> o.value == CoerceValue(value)
    ensures o.Saved? ==>
              exists section, param :: section + "." + param == key
                && o.files == Save(files, home, codec, Update(section, param, value), writeSucceeds)
    ensures AssignedExitCode(o) == 1 <==> o.BadKey?
  {
    match Resolve(FileConfig(files, home, codec), envVars, None)
    case Err(e) => LoadFailed(e)
    case Ok(_) =>
      match ParseKey(key)
      case None => BadKey
      case Some((section, param)) =>
        Saved(Save(files, home, codec, Update(section, param, value), writeSucceeds), CoerceValue(value))
  }

  /** After a successful write, the file holds the new section with the one
      parameter and nothing else in it, and every other section unchanged. */
  lemma SetReplacesSection(files: Files, home: string, codec: JsonCodec, envVars: Env,
                           section: string, param: string, value: string)
    requires JsonRoundTrips(codec)
    requires '.' !in section && '.' !in param
    requires Resolve(FileConfig(files, home, codec), envVars, None).Ok?
    ensures var o := SetCommand(files, home, codec, envVars, section + "." + param, value, true);
            && o.Saved?
            && var stored := FileConfig(o.files, home, codec);
            && section in stored
            && stored[section] == JObject(map[param := CoerceValue(value)])
            && stored.Keys == FileConfig(files, home, codec).Keys + {section}
            && forall k :: k in FileConfig(files, home, codec) && k != section ==> stored[k] == FileConfig(files, home, codec)[k]
  {
    ParseKeyRoundTrip(section, param);
    SaveIsShallow(files, home, codec, Update(section, param, value));
  }
}

=== FILE: dependency.dfy ===
/** The external programs tolmach needs, how each is probed, and the check
    that refuses to go on when one is missing.  Running a probe is a
    parameter: it maps a command line to the standard output of a run that
    succeeded, or to the process error. */
module Dependency {

  import opened Wrappers
  import opened Text
  import opened Errors

  /** A program and the arguments that make it print something and exit. */
  datatype Requirement = Requirement(name: string, command: string, args: seq<string>)

  /** `REQUIRED_DEPENDENCIES`, in the order they are reported. */
  const Required: seq<Requirement> := [
    Requirement("yt-dlp", "yt-dlp", ["--version"]),
    Requirement("ffmpeg", "ffmpeg", ["-version"]),
    Requirement("whisper-cli", "whisper-cli", ["--help"])
  ]

  /** Running one command line: its standard output, or why it failed. */
  type Probe = (string, seq<string>) -> Result<string, Error>

  datatype DependencyStatus = DependencyStatus(name: string, available: bool, version: Option<string>)

  /** `split("\n")[0]`: everything before the first line feed. */
  function FirstLine(s: string): (r: string)
    ensures r <= s && '\n' !in r
    ensures |r| == |s| || s[|r|] == '\n'
  {
    match IndexOf(s, '\n')
    case None => s
    case Some(i) => s[..i]
  }

  /** `check`: a failed probe makes the program unavailable with no
      version; a successful one makes it available, its version the first
      output line without surrounding white space. */
  function Check(probe: Probe, name: string, command: string, args: seq<string>): (s: DependencyStatus)
    ensures s.name == name
    ensures s.available <==> probe(command, args).Ok?
    ensures s.version.Some? <==> s.available
    ensures s.available ==>
              exists line :: line <= probe(command, args).value && '\n' !in line
                && (|line| == |probe(command, args).value| || probe(command, args).value[|line|] == '\n')
                && s.version.value == Trim(line)
  {
    match probe(command, args)
    case Err(_) => DependencyStatus(name, false, None)
    case Ok(stdout) => DependencyStatus(name, true, Some(Trim(FirstLine(stdout))))
  }

  /** The first-line rule agrees with the split the program performs. */
  lemma FirstLineIsFirstPiece(s: string)
    ensures FirstLine(s) == Split(s, '\n')[0]
  {
  }

  /** A single-line output is its own version, trimmed. */
  lemma SingleLineVersion(probe: Probe, name: string, command: string, args: seq<string>)
    requires probe(command, args).Ok? && '\n' !in probe(command, args).value
    ensures Check(probe, name, command, args).version == Some(Trim(probe(command, args).value))
  {
  }

  /** `checkAll`: one status per required program, in order. */
  function CheckAll(probe: Probe): (r: seq<DependencyStatus>)
    ensures |r| == |Required|
    ensures forall i :: 0 <= i < |r| ==> r[i].name == Required[i].name
    ensures forall i :: 0 <= i < |r| ==> (r[i].available <==> probe(Required[i].command, Required[i].args).Ok?)
  {
    seq(|Required|, i requires 0 <= i < |Required| =>
      Check(probe, Required[i].name, Required[i].command, Required[i].args))
  }

  /** The names of the unavailable programs, in order. */
  function Missing(statuses: seq<DependencyStatus>): (r: seq<string>)
    ensures |r| <= |statuses|
    ensures |r| == 0 <==> forall i :: 0 <= i < |statuses| ==> statuses[i].available
    ensures forall n :: n in r <==> exists i :: 0 <= i < |statuses| && !statuses[i].available && statuses[i].name == n
  {
    if |statuses| == 0 then []
    else
      var rest := Missing(statuses[1..]);
      assert forall i :: 1 <= i < |statuses| ==> statuses[i] == statuses[1..][i - 1];
      if statuses[0].available then rest else [statuses[0].name] + rest
  }

  /** Missing names keep the order of the statuses they come from. */
  lemma {:induction false} MissingOrder(statuses: seq<DependencyStatus>, i: nat, j: nat)
    requires i < j < |statuses|
    requires !statuses[i].available && !statuses[j].available
    ensures exists a, b :: 0 <= a < b < |Missing(statuses)|
              && Missing(statuses)[a] == statuses[i].name && Missing(statuses)[b] == statuses[j].name
  {
    var rest := Missing(statuses[1..]);
    if i == 0 {
      assert statuses[1..][j - 1] == statuses[j];
      assert statuses[j].name in rest;
      var b :| 0 <= b < |rest| && rest[b] == statuses[j].name;
      var m := Missing(statuses);
      assert m == [statuses[0].name] + rest;
      assert m[0] == statuses[i].name && m[b + 1] == statuses[j].name;
      assert 0 <= 0 < b + 1 < |m|;
    } else {
      MissingOrder(statuses[1..], i - 1, j - 1);
      var a, b :| 0 <= a < b < |rest| && rest[a] == statuses[1..][i - 1].name && rest[b] == statuses[1..][j - 1].name;
      if statuses[0].available {
        assert Missing(statuses) == rest;
      } else {
        assert Missing(statuses) == [statuses[0].name] + rest;
        assert Missing(statuses)[a + 1] == rest[a] && Missing(statuses)[b + 1] == rest[b];
      }
    }
  }

  function MissingMessage(names: seq<string>): string {
    "Missing required dependencies: " + Join(names, ", ") + ". Install them before using tolmach."
  }

  /** `ensureRequired`: the statuses when every program is available,
      otherwise the error naming the missing ones. */
  function EnsureRequired(probe: Probe): (r: Result<seq<DependencyStatus>, string>)
    ensures r.Err? <==> exists i :: 0 <= i < |Required| && probe(Required[i].command, Required[i].args).Err?
    ensures r.Ok? ==> r.value == CheckAll(probe) && forall i :: 0 <= i < |r.value| ==> r.value[i].available
    ensures r.Err? ==> r.error == MissingMessage(Missing(CheckAll(probe)))
  {
    var statuses := CheckAll(probe);
    var missing := Missing(statuses);
    AllAvailable(probe);
    if |missing| > 0 then Err(MissingMessage(missing)) else Ok(statuses)
  }

  lemma AllAvailable(probe: Probe)
    ensures |Missing(CheckAll(probe))| == 0
            <==> forall i :: 0 <= i < |Required| ==> probe(Required[i].command, Required[i].args).Ok?
  {
    var statuses := CheckAll(probe);
    assert forall i :: 0 <= i < |statuses| ==> (statuses[i].available <==> probe(Required[i].command, Required[i].args).Ok?);
  }

  /** The error names every program whose probe failed. */
  lemma MessageNamesMissing(probe: Probe, i: nat)
    requires i < |Required| && probe(Required[i].command, Required[i].args).Err?
    ensures EnsureRequired(probe).Err?
    ensures Contains(EnsureRequired(probe).error, Required[i].name)
  {
    var missing := Missing(CheckAll(probe));
    FailedProbeListed(probe, i);
    var k :| 0 <= k < |missing| && missing[k] == Required[i].name;
    MessageNamesEach(missing, k);
  }

  /** A program whose probe failed is among the missing names. */
  lemma FailedProbeListed(probe: Probe, i: nat)
    requires i < |Required| && probe(Required[i].command, Required[i].args).Err?
    ensures Required[i].name in Missing(CheckAll(probe))
  {
    var statuses := CheckAll(probe);
    assert !statuses[i].available && statuses[i].name == Required[i].name;
  }

  /** The message names each of the names it is built from. */
  lemma MessageNamesEach(names: seq<string>, k: nat)
    requires k < |names|
    ensures Contains(MissingMessage(names), names[k])
  {
    var joined := Join(names, ", ");
    JoinContainsPart(names, ", ", k);
    ContainsInfix("Missing required dependencies: ", joined, ". Install them before using tolmach.");
    ContainsTransitive(MissingMessage(names), joined, names[k]);
  }

  /** When nothing is available, every name is listed, in order. */
  lemma {:induction false} AllMissing(statuses: seq<DependencyStatus>)
    requires forall i :: 0 <= i < |statuses| ==> !statuses[i].available
    ensures Missing(statuses) == seq(|statuses|, i requires 0 <= i < |statuses| => statuses[i].name)
  {
    if |statuses| > 0 {
      AllMissing(statuses[1..]);
    }
  }

  /** With nothing installed, all three names are listed in order. */
  lemma NothingInstalled(probe: Probe)
    requires forall i :: 0 <= i < |Required| ==> probe(Required[i].command, Required[i].args).Err?
    ensures EnsureRequired(probe)
         == Err(MissingMessage(["yt-dlp", "ffmpeg", "whisper-cli"]))
  {
    var statuses := CheckAll(probe);
    AllMissing(statuses);
    var names := ["yt-dlp", "ffmpeg", "whisper-cli"];
    assert Missing(statuses) == names;
    assert probe(Required[0].command, Required[0].args).Err?;
    assert EnsureRequired(probe) == Err(MissingMessage(names));
  }
}

=== FILE: errors.dfy ===
/** The domain error taxonomy: four subsystem error kinds, each with a
    closed set of stable codes, a message and an optional cause.  `Plain`
    stands for any other error object that can appear as a cause (a failed
    process, a filesystem error). */
module Errors {

  import opened Wrappers

  datatype VideoCode = ProviderNotFound | DownloadFailed | MetadataFailed | InvalidUrl
  datatype TranscriptionCode = WhisperNotFound | TranscriptionFailed | InvalidAudio | ParseFailed
  datatype LlmCode = ProviderNotFound | CompletionFailed | EmptyResponse | Timeout
  datatype PipelineCode = StageFailed | Aborted

  function VideoCodeString(c: VideoCode): string {
    match c
    case ProviderNotFound => "VIDEO_PROVIDER_NOT_FOUND"
    case DownloadFailed => "VIDEO_DOWNLOAD_FAILED"
    case MetadataFailed => "VIDEO_METADATA_FAILED"
    case InvalidUrl => "VIDEO_INVALID_URL"
  }

  function TranscriptionCodeString(c: TranscriptionCode): string {
    match c
    case WhisperNotFound => "TRANSCRIPTION_WHISPER_NOT_FOUND"
    case TranscriptionFailed => "TRANSCRIPTION_FAILED"
    case InvalidAudio => "TRANSCRIPTION_INVALID_AUDIO"
    case ParseFailed => "TRANSCRIPTION_PARSE_FAILED"
  }

  function LlmCodeString(c: LlmCode): string {
    match c
    case ProviderNotFound => "LLM_PROVIDER_NOT_FOUND"
    case CompletionFailed => "LLM_COMPLETION_FAILED"
    case EmptyResponse => "LLM_EMPTY_RESPONSE"
    case Timeout => "LLM_TIMEOUT"
  }

  function PipelineCodeString(c: PipelineCode): string {
    match c
    case StageFailed => "PIPELINE_STAGE_FAILED"
    case Aborted => "PIPELINE_ABORTED"
  }

  datatype Error =
    | Plain(name: string, message: string, cause: Option<Error>)
    | VideoError(videoCode: VideoCode, message: string, cause: Option<Error>)
    | TranscriptionError(transcriptionCode: TranscriptionCode, message: string, cause: Option<Error>)
    | LlmError(llmCode: LlmCode, message: string, cause: Option<Error>)
    | PipelineError(pipelineCode: PipelineCode, stageName: string, message: string, cause: Option<Error>)
  {
    /** An instance of the abstract base class every domain error extends. */
    predicate IsTolmachError() {
      !Plain?
    }

    /** The `name` property: the concrete class name. */
    function Name(): string {
      match this
      case Plain(n, _, _) => n
      case VideoError(_, _, _) => "VideoError"
      case TranscriptionError(_, _, _) => "TranscriptionError"
      case LlmError(_, _, _) => "LlmError"
      case PipelineError(_, _, _, _) => "PipelineError"
    }

    /** The `code` property of a domain error. */
    function Code(): string
      requires IsTolmachError()
    {
      match this
      case VideoError(c, _, _) => VideoCodeString(c)
      case TranscriptionError(c, _, _) => TranscriptionCodeString(c)
      case LlmError(c, _, _) => LlmCodeString(c)
      case PipelineError(c, _, _, _) => PipelineCodeString(c)
    }
  }

  /** Every code of each subsystem, in declaration order. */
  const VideoCodes: seq<VideoCode> := [VideoCode.ProviderNotFound, DownloadFailed, MetadataFailed, InvalidUrl]
  const TranscriptionCodes: seq<TranscriptionCode> := [WhisperNotFound, TranscriptionFailed, InvalidAudio, ParseFailed]
  const LlmCodes: seq<LlmCode> := [LlmCode.ProviderNotFound, CompletionFailed, EmptyResponse, Timeout]
  const PipelineCodes: seq<PipelineCode> := [StageFailed, Aborted]

  /** The code lists are complete and each subsystem's codes spell distinct
      strings: 4 video, 4 transcription, 4 LLM and 2 pipeline codes. */
  lemma CodeSetsClosedAndDistinct()
    ensures |VideoCodes| == 4 && |TranscriptionCodes| == 4 && |LlmCodes| == 4 && |PipelineCodes| == 2
    ensures forall c: VideoCode :: c in VideoCodes
    ensures forall c: TranscriptionCode :: c in TranscriptionCodes
    ensures forall c: LlmCode :: c in LlmCodes
    ensures forall c: PipelineCode :: c in PipelineCodes
    ensures forall a: VideoCode, b: VideoCode :: VideoCodeString(a) == VideoCodeString(b) ==> a == b
    ensures forall a: TranscriptionCode, b: TranscriptionCode ::
              TranscriptionCodeString(a) == TranscriptionCodeString(b) ==> a == b
    ensures forall a: LlmCode, b: LlmCode :: LlmCodeString(a) == LlmCodeString(b) ==> a == b
    ensures forall a: PipelineCode, b: PipelineCode :: PipelineCodeString(a) == PipelineCodeString(b) ==> a == b
  {
    forall c: VideoCode ensures c in VideoCodes {
      match c
      case ProviderNotFound => assert VideoCodes[0] == c;
      case DownloadFailed => assert VideoCodes[1] == c;
      case MetadataFailed => assert VideoCodes[2] == c;
      case InvalidUrl => assert VideoCodes[3] == c;
    }
    forall c: TranscriptionCode ensures c in TranscriptionCodes {
      match c
      case WhisperNotFound => assert TranscriptionCodes[0] == c;
      case TranscriptionFailed => assert TranscriptionCodes[1] == c;
      case InvalidAudio => assert TranscriptionCodes[2] == c;
      case ParseFailed => assert TranscriptionCodes[3] == c;
    }
    forall c: LlmCode ensures c in LlmCodes {
      match c
      case ProviderNotFound => assert LlmCodes[0] == c;
      case CompletionFailed => assert LlmCodes[1] == c;
      case EmptyResponse => assert LlmCodes[2] == c;
      case Timeout => assert LlmCodes[3] == c;
    }
    forall c: PipelineCode ensures c in PipelineCodes {
      match c
      case StageFailed => assert PipelineCodes[0] == c;
      case Aborted => assert PipelineCodes[1] == c;
    }
    forall x: VideoCode, y: VideoCode | VideoCodeString(x) == VideoCodeString(y) ensures x == y {
      VideoCodeInjective(x, y);
    }
    forall x: TranscriptionCode, y: TranscriptionCode | TranscriptionCodeString(x) == TranscriptionCodeString(y)
      ensures x == y
    {
      TranscriptionCodeInjective(x, y);
    }
    forall x: LlmCode, y: LlmCode | LlmCodeString(x) == LlmCodeString(y) ensures x == y {
      LlmCodeInjective(x, y);
    }
    forall x: PipelineCode, y: PipelineCode | PipelineCodeString(x) == PipelineCodeString(y) ensures x == y {
      PipelineCodeInjective(x, y);
    }
  }

  /** A code string identifies the error's subsystem and code: no two
      domain errors of different kind or code share a code string. */
  lemma CodeIdentifiesKind(a: Error, b: Error)
    requires a.IsTolmachError() && b.IsTolmachError()
    requires a.Code() == b.Code()
    ensures a.Name() == b.Name()
    ensures a.VideoError? ==> a.videoCode == b.videoCode
    ensures a.TranscriptionError? ==> a.transcriptionCode == b.transcriptionCode
    ensures a.LlmError? ==> a.llmCode == b.llmCode
    ensures a.PipelineError? ==> a.pipelineCode == b.pipelineCode
  {
    CodeInitial(a);
    CodeInitial(b);
    match a
    case VideoError(c, _, _) => VideoCodeInjective(c, b.videoCode);
    case TranscriptionError(c, _, _) => TranscriptionCodeInjective(c, b.transcriptionCode);
    case LlmError(c, _, _) => LlmCodeInjective(c, b.llmCode);
    case PipelineError(c, _, _, _) => PipelineCodeInjective(c, b.pipelineCode);
  }

  /** The first letter of a code string names the subsystem. */
  lemma CodeInitial(e: Error)
    requires e.IsTolmachError()
    ensures |e.Code()| > 0
    ensures e.Code()[0] == (match e
                            case VideoError(_, _, _) => 'V'
                            case TranscriptionError(_, _, _) => 'T'
                            case LlmError(_, _, _) => 'L'
                            case _ => 'P')
  {
  }

  lemma VideoCodeInjective(x: VideoCode, y: VideoCode)
    requires VideoCodeString(x) == VideoCodeString(y)
    ensures x == y
  {
    if x.DownloadFailed? || x.MetadataFailed? {
      assert VideoCodeString(x)[6] == VideoCodeString(y)[6];
    }
  }

  lemma TranscriptionCodeInjective(x: TranscriptionCode, y: TranscriptionCode)
    requires TranscriptionCodeString(x) == TranscriptionCodeString(y)
    ensures x == y
  {
    assert |TranscriptionCodeString(x)| == |TranscriptionCodeString(y)|;
  }

  lemma LlmCodeInjective(x: LlmCode, y: LlmCode)
    requires LlmCodeString(x) == LlmCodeString(y)
    ensures x == y
  {
    assert |LlmCodeString(x)| == |LlmCodeString(y)|;
  }

  lemma PipelineCodeInjective(x: PipelineCode, y: PipelineCode)
    requires PipelineCodeString(x) == PipelineCodeString(y)
    ensures x == y
  {
    assert |PipelineCodeString(x)| == |PipelineCodeString(y)|;
  }
}

=== FILE: events.dfy ===
/** The progress protocol: the single event shape every stage emits through
    one callback, and the five pipeline stage names. */
module Events {

  import opened Wrappers

  datatype Status = Started | Progress | Completed | Failed

  function StatusName(s: Status): string {
    match s
    case Started => "started"
    case Progress => "progress"
    case Completed => "completed"
    case Failed => "failed"
  }

  datatype Stage = Detect | Download | Transcribe | Report | Save

  /** The stage label carried by events. */
  function StageName(s: Stage): string {
    match s
    case Detect => "detect"
    case Download => "download"
    case Transcribe => "transcribe"
    case Report => "report"
    case Save => "save"
  }

  /** The stages in execution order. */
  const StageOrder: seq<Stage> := [Detect, Download, Transcribe, Report, Save]

  datatype ProgressEvent = ProgressEvent(
    stage: string,
    status: Status,
    percent: Option<real>,
    message: Option<string>,
    elapsed: Option<int>)

  function Event(stage: Stage, status: Status): ProgressEvent {
    ProgressEvent(StageName(stage), status, None, None, None)
  }

  function EventWithMessage(stage: Stage, status: Status, message: string): ProgressEvent {
    ProgressEvent(StageName(stage), status, None, Some(message), None)
  }

  /** `{ ...event, stage }`: every field kept, the stage overwritten. */
  function Relabel(events: seq<ProgressEvent>, stage: Stage): (r: seq<ProgressEvent>)
    ensures |r| == |events|
    ensures forall i :: 0 <= i < |r| ==>
              r[i].stage == StageName(stage) && r[i] == events[i].(stage := StageName(stage))
  {
    seq(|events|, i requires 0 <= i < |events| => events[i].(stage := StageName(stage)))
  }

  /** Stage labels are distinct, so a label names exactly one stage. */
  lemma StageNamesDistinct(a: Stage, b: Stage)
    requires StageName(a) == StageName(b)
    ensures a == b
  {
    assert StageName(a)[0] == StageName(b)[0];
    if a.Detect? || a.Download? {
      assert StageName(a)[1] == StageName(b)[1];
    }
  }
}

=== FILE: filesystem.dfy ===
/** The filesystem as the program observes it: a present path maps to what
    reading it yields, a read error included.  Directory creation is not
    modelled. */
module Filesystem {

  import opened Wrappers
  import opened Errors

  type Files = map<string, Result<string, Error>>

  /** `writeFile`, whose outcome callers do not inspect: a successful write
      replaces the file's contents, a failed one changes nothing. */
  function WriteFile(files: Files, path: string, content: string, succeeds: bool): (f: Files)
    ensures succeeds ==> path in f && f[path] == Ok(content)
    ensures forall p :: p != path ==> (p in f <==> p in files)
    ensures forall p :: p in files && p != path ==> f[p] == files[p]
    ensures !succeeds ==> f == files
  {
    if succeeds then files[path := Ok(content)] else files
  }
}

=== FILE: hallucination.dfy ===
/** The hallucination filter: a heuristic that recognises segment texts the
    speech recogniser typically invents (closing phrases, sound captions,
    loops, stray foreign script) and removes those segments. */
module Hallucination {

  import opened Wrappers
  import opened Text
  import opened Transcript

  /** The built-in closing phrases, used when no custom list is given. */
  const DefaultPhrases: seq<string> := [
    "продолжение следует",
    "спасибо за просмотр",
    "подписывайтесь на канал",
    "ставьте лайки",
    "thanks for watching",
    "subscribe to the channel",
    "subtitles by",
    "thank you for watching"
  ]

  /** A filter is its set of known phrases, stored lower-cased. */
  datatype Filter = Filter(phrases: set<string>)

  /** The constructor: the custom list replaces (does not extend) the
      defaults, and every phrase is lower-cased once, here. */
  function NewFilter(custom: Option<seq<string>>): (f: Filter)
    ensures forall p :: p in f.phrases <==>
              exists i :: 0 <= i < |custom.GetOr(DefaultPhrases)| && p == ToLower(custom.GetOr(DefaultPhrases)[i])
  {
    var list := custom.GetOr(DefaultPhrases);
    Filter(set i | 0 <= i < |list| :: ToLower(list[i]))
  }

  /** Rule 2: the lower-cased text contains a known phrase. */
  predicate PhraseRule(f: Filter, trimmed: string) {
    exists p :: p in f.phrases && Contains(ToLower(trimmed), p)
  }

  /** Rule 3: longer than three characters and made only of upper-case
      letters and white space (a caption such as a sound description). */
  predicate SoundRule(trimmed: string) {
    |trimmed| > 3 && forall i :: 0 <= i < |trimmed| ==> IsUpper(trimmed[i]) || IsWhitespace(trimmed[i])
  }

  /** A run at `i` of four consecutive copies of a `len`-character unit that
      contains no line terminator: one match of a group of at least two
      arbitrary characters followed by three or more repetitions of it.
      Characters are code points; the program's pattern has no `u` flag and
      so counts UTF-16 code units, which lets one astral character form a
      two-unit group there but not here. */
  predicate RepeatsAt(t: string, i: nat, len: nat) {
    && len >= 2
    && i + 4 * len <= |t|
    && (forall k :: i <= k < i + len ==> !IsLineTerminator(t[k]))
    && (forall k :: i + len <= k < i + 4 * len ==> t[k] == t[k - len])
  }

  /** Rule 4: some unit repeats four or more times in a row. */
  predicate RepetitionRule(trimmed: string) {
    exists i: nat, len: nat :: i < |trimmed| && len <= |trimmed| && RepeatsAt(trimmed, i, len)
  }

  /** Greek and Coptic, CJK ideographs and extension A, Arabic, Hiragana and Katakana. */
  predicate IsForeign(c: char) {
    || '\U{0370}' <= c <= '\U{03FF}'
    || '\U{4E00}' <= c <= '\U{9FFF}'
    || '\U{0600}' <= c <= '\U{06FF}'
    || '\U{3040}' <= c <= '\U{30FF}'
    || '\U{3400}' <= c <= '\U{4DBF}'
  }

  /** Rule 5: some character belongs to a foreign script. */
  predicate ForeignRule(trimmed: string) {
    exists i :: 0 <= i < |trimmed| && IsForeign(trimmed[i])
  }

  /** `isHallucination`: the rules are tried in order on the trimmed text;
      rule 1 flags a blank text. */
  predicate IsHallucination(f: Filter, text: string) {
    var t := Trim(text);
    || |t| == 0
    || PhraseRule(f, t)
    || SoundRule(t)
    || RepetitionRule(t)
    || ForeignRule(t)
  }

  /** The segments whose text `flagged` does not hold of, in their original order. */
  function KeepUnflagged(segments: seq<Segment>, flagged: string -> bool): (r: seq<Segment>)
    ensures |r| <= |segments|
    ensures forall i :: 0 <= i < |r| ==> r[i] in segments && !flagged(r[i].text)
    ensures forall s :: s in segments && !flagged(s.text) ==> s in r
  {
    if |segments| == 0 then []
    else
      var rest := KeepUnflagged(segments[1..], flagged);
      if flagged(segments[0].text) then rest else [segments[0]] + rest
  }

  /** `filterSegments`: the segments whose text is not flagged, in their original order. */
  function FilterSegments(f: Filter, segments: seq<Segment>): (r: seq<Segment>)
    ensures |r| <= |segments|
    ensures forall i :: 0 <= i < |r| ==> r[i] in segments && !IsHallucination(f, r[i].text)
    ensures forall s :: s in segments && !IsHallucination(f, s.text) ==> s in r
  {
    KeepUnflagged(segments, text => IsHallucination(f, text))
  }

  /** `a` is obtained from `b` by deleting elements. */
  predicate IsSubsequence<T(==)>(a: seq<T>, b: seq<T>)
    decreases |b|
  {
    if |a| == 0 then true
    else if |b| == 0 then false
    else if a[0] == b[0] then IsSubsequence(a[1..], b[1..])
    else IsSubsequence(a, b[1..])
  }

  /** The kept segments keep their relative order: filtering only deletes. */
  lemma FilterIsSubsequence(f: Filter, segments: seq<Segment>)
    ensures IsSubsequence(FilterSegments(f, segments), segments)
  {
    KeepIsSubsequence(segments, text => IsHallucination(f, text));
  }

  lemma {:induction false} KeepIsSubsequence(segments: seq<Segment>, flagged: string -> bool)
    ensures IsSubsequence(KeepUnflagged(segments, flagged), segments)
  {
    if |segments| > 0 {
      KeepIsSubsequence(segments[1..], flagged);
      var rest := KeepUnflagged(segments[1..], flagged);
      if flagged(segments[0].text) {
        SubsequenceOfTail(rest, segments);
      } else {
        assert ([segments[0]] + rest)[1..] == rest;
      }
    }
  }

  lemma {:induction false} SubsequenceOfTail<T>(a: seq<T>, b: seq<T>)
    requires |b| > 0 && IsSubsequence(a, b[1..])
    ensures IsSubsequence(a, b)
    decreases |b|, 0
  {
    if |a| > 0 && a[0] == b[0] {
      SubsequenceDropHead(a, b[1..]);
    }
  }

  lemma {:induction false} SubsequenceDropHead<T>(a: seq<T>, c: seq<T>)
    requires |a| > 0 && IsSubsequence(a, c)
    ensures IsSubsequence(a[1..], c)
    decreases |c|, 1
  {
    if a[0] == c[0] {
      SubsequenceOfTail(a[1..], c);
    } else {
      SubsequenceDropHead(a, c[1..]);
      SubsequenceOfTail(a[1..], c);
    }
  }

  /** Each segment occurs in the output exactly as often as in the input
      when its text is clean, and not at all otherwise. */
  lemma FilterCounts(f: Filter, segments: seq<Segment>)
    ensures forall s :: multiset(FilterSegments(f, segments))[s]
                        == if IsHallucination(f, s.text) then 0 else multiset(segments)[s]
  {
    var flagged := text => IsHallucination(f, text);
    forall s {
      KeepCount(segments, flagged, s);
    }
  }

  lemma {:induction false} KeepCount(segments: seq<Segment>, flagged: string -> bool, s: Segment)
    ensures multiset(KeepUnflagged(segments, flagged))[s] == if flagged(s.text) then 0 else multiset(segments)[s]
  {
    if |segments| > 0 {
      var head, tail := segments[0], segments[1..];
      KeepCount(tail, flagged, s);
      assert segments == [head] + tail;
      var rest := KeepUnflagged(tail, flagged);
      if !flagged(head.text) {
        assert multiset([head] + rest) == multiset([head]) + multiset(rest);
      }
    }
  }

  /** Filtering a filtered sequence removes nothing more. */
  lemma FilterIdempotent(f: Filter, segments: seq<Segment>)
    ensures FilterSegments(f, FilterSegments(f, segments)) == FilterSegments(f, segments)
  {
    KeepIdempotent(segments, text => IsHallucination(f, text));
  }

  lemma {:induction false} KeepIdempotent(segments: seq<Segment>, flagged: string -> bool)
    ensures KeepUnflagged(KeepUnflagged(segments, flagged), flagged) == KeepUnflagged(segments, flagged)
  {
    if |segments| > 0 {
      KeepIdempotent(segments[1..], flagged);
      var rest := KeepUnflagged(segments[1..], flagged);
      if !flagged(segments[0].text) {
        assert ([segments[0]] + rest)[1..] == rest;
      }
    }
  }

  /** Filtering works segment by segment: it distributes over concatenation. */
  lemma FilterConcat(f: Filter, a: seq<Segment>, b: seq<Segment>)
    ensures FilterSegments(f, a + b) == FilterSegments(f, a) + FilterSegments(f, b)
  {
    KeepConcat(a, b, text => IsHallucination(f, text));
  }

  lemma {:induction false} KeepConcat(a: seq<Segment>, b: seq<Segment>, flagged: string -> bool)
    ensures KeepUnflagged(a + b, flagged) == KeepUnflagged(a, flagged) + KeepUnflagged(b, flagged)
  {
    if |a| == 0 {
      assert a + b == b;
    } else {
      assert (a + b)[0] == a[0] && (a + b)[1..] == a[1..] + b;
      KeepConcat(a[1..], b, flagged);
    }
  }

  /** An empty phrase in the list makes every text a hallucination. */
  lemma EmptyPhraseFlagsEverything(f: Filter, text: string)
    requires "" in f.phrases
    ensures IsHallucination(f, text)
  {
    ContainsEmpty(ToLower(Trim(text)));
  }

  /** Blank text (empty or only white space) is always flagged, whatever the phrases. */
  lemma BlankIsHallucination(f: Filter, text: string)
    requires AllWhitespace(text)
    ensures IsHallucination(f, text)
  {
  }

  /** A text containing a listed phrase is flagged however either is cased. */
  lemma ListedPhraseIsFlagged(custom: seq<string>, i: nat, text: string)
    requires i < |custom|
    requires Contains(ToLower(Trim(text)), ToLower(custom[i]))
    ensures IsHallucination(NewFilter(Some(custom)), text)
  {
    var f := NewFilter(Some(custom));
    assert ToLower(custom[i]) in f.phrases;
  }

  /** A text shorter than every known phrase contains none of them. */
  lemma ShortTextMatchesNoPhrase(f: Filter, t: string)
    requires forall p :: p in f.phrases ==> |p| > |t|
    ensures !PhraseRule(f, t)
  {
    forall p | p in f.phrases ensures !Contains(ToLower(t), p) {
      if Contains(ToLower(t), p) {
        ContainsLength(ToLower(t), p);
      }
    }
  }

  /** Every default phrase is at least twelve characters long. */
  lemma DefaultPhrasesAreLong()
    ensures forall p :: p in NewFilter(None).phrases ==> |p| >= 12
  {
    forall p | p in NewFilter(None).phrases ensures |p| >= 12 {
      var i :| 0 <= i < |DefaultPhrases| && p == ToLower(DefaultPhrases[i]);
    }
  }

  /** A two-character word with no white space and no foreign character
      passes the default filter: it is too short for every default phrase,
      for the caption rule and for the repetition rule. */
  lemma TwoCharacterWordPasses(t: string)
    requires |t| == 2
    requires !IsWhitespace(t[0]) && !IsWhitespace(t[1])
    requires !IsForeign(t[0]) && !IsForeign(t[1])
    ensures !IsHallucination(NewFilter(None), t)
  {
    TrimNoop(t);
    DefaultFilterMissesShort(t);
    ShortTextDoesNotRepeat(t);
    assert !ForeignRule(t) by {
      forall i | 0 <= i < |t| ensures !IsForeign(t[i]) {
        assert i == 0 || i == 1;
      }
    }
    assert !SoundRule(t);
    NoRuleApplies(NewFilter(None), t);
  }

  /** A text that is its own trim, not blank, and that no rule flags, passes. */
  lemma NoRuleApplies(f: Filter, t: string)
    requires Trim(t) == t && |t| > 0
    requires !PhraseRule(f, t) && !SoundRule(t) && !RepetitionRule(t) && !ForeignRule(t)
    ensures !IsHallucination(f, t)
  {
  }

  /** A text shorter than every default phrase contains none of them. */
  lemma DefaultFilterMissesShort(t: string)
    requires |t| < 12
    ensures !PhraseRule(NewFilter(None), t)
  {
    DefaultPhrasesAreLong();
    ShortTextMatchesNoPhrase(NewFilter(None), t);
  }

  /** Four copies of a unit of at least two characters need eight characters. */
  lemma ShortTextDoesNotRepeat(t: string)
    requires |t| < 8
    ensures !RepetitionRule(t)
  {
  }

  /** Short upper-case words pass the default filter. */
  lemma ShortWordsPass()
    ensures !IsHallucination(NewFilter(None), "OK")
    ensures !IsHallucination(NewFilter(None), "Hi")
  {
    LetterPairPasses('O', 'K');
    LetterPairPasses('H', 'i');
  }

  /** Two Latin letters pass the default filter. */
  lemma LetterPairPasses(a: char, b: char)
    requires ('A' <= a <= 'Z' || 'a' <= a <= 'z') && ('A' <= b <= 'Z' || 'a' <= b <= 'z')
    ensures !IsHallucination(NewFilter(None), [a, b])
  {
    TwoCharacterWordPasses([a, b]);
  }

  /** A text that one of the last three rules flags once trimmed is a
      hallucination, whatever the phrase list. */
  lemma FlaggedByRule(f: Filter, text: string)
    requires SoundRule(Trim(text)) || RepetitionRule(Trim(text)) || ForeignRule(Trim(text))
    ensures IsHallucination(f, text)
  {
  }

  /** An all-capitals caption is flagged by the caption rule, whatever the phrase list. */
  lemma SoundCaptionExample(f: Filter)
    ensures SoundRule("МУЗЫКА") && IsHallucination(f, "МУЗЫКА")
  {
    CaptionIsUpper();
    TrimNoop("МУЗЫКА");
    FlaggedByRule(f, "МУЗЫКА");
  }

  lemma CaptionIsUpper()
    ensures SoundRule("МУЗЫКА")
  {
    var t := "МУЗЫКА";
    forall i | 0 <= i < |t| ensures IsUpper(t[i]) {
      assert '\U{0410}' <= t[i] <= '\U{042F}';
    }
  }

  /** A repeated syllable is flagged by the repetition rule, whatever the phrase list. */
  lemma RepetitionExample(f: Filter)
    ensures RepetitionRule("la la la la la") && IsHallucination(f, "la la la la la")
  {
    var t := "la la la la la";
    LaRepeats();
    assert RepetitionRule(t) by {
      assert 0 < |t| && 3 <= |t| && RepeatsAt(t, 0, 3);
    }
    TrimNoop(t);
    FlaggedByRule(f, t);
  }

  lemma LaRepeats()
    ensures RepeatsAt("la la la la la", 0, 3)
  {
    var t := "la la la la la";
    assert t[..3] == "la ";
  }

  /** Chinese text is flagged by the foreign-script rule, whatever the phrase list. */
  lemma ForeignScriptExample(f: Filter)
    ensures ForeignRule("这是中文") && IsHallucination(f, "这是中文")
  {
    ChineseIsForeign();
    TrimNoop("这是中文");
    FlaggedByRule(f, "这是中文");
  }

  lemma ChineseIsForeign()
    ensures ForeignRule("这是中文")
  {
    var t := "这是中文";
    assert IsForeign(t[0]);
  }

  /** A default closing phrase is found whatever its case. */
  lemma ClosingPhraseExample()
    ensures PhraseRule(NewFilter(None), "Thanks for watching")
  {
    var p := "thanks for watching";
    ClosingPhraseLowered();
    var f := NewFilter(None);
    assert DefaultPhrases[4] == p;
    assert p in f.phrases;
    ContainsInfix("", p, "");
    assert "" + p + "" == p;
  }

  lemma ClosingPhraseLowered()
    ensures ToLower("thanks for watching") == "thanks for watching"
    ensures ToLower("Thanks for watching") == "thanks for watching"
  {
    var p := "thanks for watching";
    var t := "Thanks for watching";
    forall i | 0 <= i < |p| ensures LowerChar(p[i]) == p[i] {
      assert p[i] == ' ' || 'a' <= p[i] <= 'z';
    }
    assert ToLower(p) == p;
    forall i | 0 <= i < |t| ensures LowerChar(t[i]) == p[i] {
      if i > 0 {
        assert t[i] == p[i];
      }
    }
    assert ToLower(t) == p;
  }

  /** A custom list replaces the defaults: its phrases are the only ones. */
  lemma CustomListReplacesDefaults()
    ensures NewFilter(Some(["custom phrase"])).phrases == {"custom phrase"}
  {
    var f := NewFilter(Some(["custom phrase"]));
    assert ToLower("custom phrase") == "custom phrase";
    forall p ensures p in f.phrases <==> p == "custom phrase" {
      if p == "custom phrase" {
        assert p == ToLower(["custom phrase"][0]);
      }
    }
  }

  /** With the custom list, a text holding the custom phrase is flagged by phrase. */
  lemma CustomPhraseExample()
    ensures PhraseRule(NewFilter(Some(["custom phrase"])), "This has custom phrase in it")
  {
    CustomListReplacesDefaults();
    var t := "This has custom phrase in it";
    var lower := ToLower(t);
    var p := "custom phrase";
    forall k | 0 <= k < |p| ensures lower[9..][k] == p[k] {
      assert t[9 + k] == p[k];
    }
    assert lower[9..][..|p|] == p;
    assert StartsWith(lower[9..], p);
  }

  /** With the custom list, a default closing phrase no longer matches by phrase. */
  lemma DefaultPhraseNotInCustomList()
    ensures !PhraseRule(NewFilter(Some(["custom phrase"])), "спасибо за просмотр")
  {
    CustomListReplacesDefaults();
    var lower := ToLower("спасибо за просмотр");
    forall i | 0 <= i < |lower| ensures lower[i] != 'c' {
      assert lower[i] == LowerChar("спасибо за просмотр"[i]);
    }
    AbsentFirstCharacter(lower, "custom phrase");
  }

}

=== FILE: json.dfy ===
/** JSON values as the program handles them once parsed, and the text
    codec (`JSON.stringify` / `JSON.parse`) as a pair of functions.  Objects
    are maps: the order of their keys is not modelled. */
module Json {

  import opened Wrappers

  datatype Json =
    | JNull
    | JBool(b: bool)
    | JNumber(n: real)
    | JString(s: string)
    | JArray(items: seq<Json>)
    | JObject(fields: map<string, Json>)

  /** A plain object's fields. */
  type JsonObject = map<string, Json>

  /** Turning values into text and text back into values; `decode` yields
      nothing for text that is not JSON. */
  datatype JsonCodec = JsonCodec(encode: Json -> string, decode: string -> Option<Json>)

  /** Parsing what was written gives the value back. */
  ghost predicate JsonRoundTrips(codec: JsonCodec) {
    forall j :: codec.decode(codec.encode(j)) == Some(j)
  }
}

=== FILE: llm.dfy ===
/** Language-model completions: the validated response value, the
    completion options, and a provider as a function from prompt and
    options to how the call ends. */
module Llm {

  import opened Wrappers
  import opened Text
  import opened Errors

  /** A completion.  Token counts and duration are whole numbers; the cost
      is a real number. */
  datatype LlmResponse = LlmResponse(
    content: string,
    model: string,
    provider: string,
    inputTokens: int,
    outputTokens: int,
    costUsd: real,
    durationMs: int)
  {
    /** `totalTokens`. */
    function TotalTokens(): int {
      inputTokens + outputTokens
    }
  }

  const EmptyContentMessage := "LLM response content must not be empty"
  const EmptyProviderMessage := "Provider must not be empty"

  predicate ValidResponse(r: LlmResponse) {
    Trim(r.content) != "" && Trim(r.provider) != ""
  }

  /** The response constructor: blank content, then a blank provider name,
      is rejected; every field is stored exactly as given (content and model
      are not trimmed, the model may be empty). */
  function NewLlmResponse(content: string, model: string, provider: string, inputTokens: int, outputTokens: int,
                          costUsd: real, durationMs: int): (r: Result<LlmResponse, string>)
    ensures r.Ok? <==> Trim(content) != "" && Trim(provider) != ""
    ensures Trim(content) == "" ==> r == Err(EmptyContentMessage)
    ensures Trim(content) != "" && Trim(provider) == "" ==> r == Err(EmptyProviderMessage)
    ensures r.Ok? ==> ValidResponse(r.value)
    ensures r.Ok? ==> && r.value.content == content && r.value.model == model && r.value.provider == provider
                      && r.value.inputTokens == inputTokens && r.value.outputTokens == outputTokens
                      && r.value.costUsd == costUsd && r.value.durationMs == durationMs
                      && r.value.TotalTokens() - r.value.outputTokens == inputTokens
  {
    if Trim(content) == "" then Err(EmptyContentMessage)
    else if Trim(provider) == "" then Err(EmptyProviderMessage)
    else Ok(LlmResponse(content, model, provider, inputTokens, outputTokens, costUsd, durationMs))
  }

  /** Under a provider name that is not blank, only blank content is rejected. */
  lemma NewLlmResponseNamed(content: string, model: string, provider: string, inputTokens: int, outputTokens: int,
                            costUsd: real, durationMs: int)
    requires Trim(provider) != ""
    ensures NewLlmResponse(content, model, provider, inputTokens, outputTokens, costUsd, durationMs)
            == if Trim(content) == "" then Err(EmptyContentMessage)
               else Ok(LlmResponse(content, model, provider, inputTokens, outputTokens, costUsd, durationMs))
  {
  }

  /** Constructing from a valid response's own fields gives it back. */
  lemma NewLlmResponseRebuilds(r: LlmResponse)
    requires ValidResponse(r)
    ensures NewLlmResponse(r.content, r.model, r.provider, r.inputTokens, r.outputTokens, r.costUsd, r.durationMs) == Ok(r)
  {
  }

  /** Completion options, all optional, together with the provider name the
      router reads from the same object. */
  datatype CompletionOptions = CompletionOptions(
    model: Option<string>,
    maxTokens: Option<int>,
    temperature: Option<real>,
    systemPrompt: Option<string>,
    provider: Option<string>)

  /** A provider: its name and how a completion call ends. */
  datatype LlmProvider = LlmProvider(
    name: string,
    complete: (string, Option<CompletionOptions>) -> Outcome<Result<LlmResponse, Error>>)
}

=== FILE: mock_provider.dfy ===
/** The mock language-model provider: answers every prompt with one fixed
    response, keeps a log of the calls it received, and estimates token
    counts as a quarter of the character count, rounded up. */
module MockProvider {

  import opened Wrappers
  import opened Text
  import opened Errors
  import opened Llm

  const MockName := "mock"
  const DefaultResponse := "Mock LLM response"
  const DefaultModel := "mock-model"

  /** One logged call: the prompt and the options exactly as passed. */
  datatype MockCall = MockCall(prompt: string, options: Option<CompletionOptions>)

  /** The provider's state: its fixed response and the calls so far. */
  datatype Mock = Mock(response: string, calls: seq<MockCall>)

  /** A fresh mock; without a response the default one is used. */
  function NewMock(response: Option<string>): (m: Mock)
    ensures m.calls == []
    ensures m.response == response.GetOr(DefaultResponse)
  {
    Mock(response.GetOr(DefaultResponse), [])
  }

  /** `Math.ceil(n / 4)`: the fewest tokens of four characters that cover `n`. */
  function EstimateTokens(n: nat): (t: nat)
    ensures 4 * t >= n && (t == 0 || 4 * (t - 1) < n)
    ensures n > 0 ==> t > 0
  {
    (n + 3) / 4
  }

  /** `complete`: the call is logged first; then the response is built with
      the estimated token counts, no cost and a duration of 1 ms.  A blank
      configured response makes the response constructor throw, after the
      call was logged. */
  function Complete(m: Mock, prompt: string, options: Option<CompletionOptions>): (r: (Mock, Outcome<Result<LlmResponse, Error>>))
    ensures r.0 == m.(calls := m.calls + [MockCall(prompt, options)])
    ensures r.1.Thrown? <==> Trim(m.response) == ""
    ensures r.1.Thrown? ==> r.1.message == EmptyContentMessage
    ensures r.1.Returned? ==>
              && r.1.value.Ok?
              && var resp := r.1.value.value;
                 && resp.content == m.response && resp.provider == MockName
                 && resp.model == (if options.Some? && options.value.model.Some? then options.value.model.value else DefaultModel)
                 && resp.inputTokens == EstimateTokens(|prompt|) && resp.outputTokens == EstimateTokens(|m.response|)
                 && resp.costUsd == 0.0 && resp.durationMs == 1
  {
    var logged := m.(calls := m.calls + [MockCall(prompt, options)]);
    var model := if options.Some? && options.value.model.Some? then options.value.model.value else DefaultModel;
    MockResponseBuilt(m.response, model, EstimateTokens(|prompt|), EstimateTokens(|m.response|));
    match NewLlmResponse(m.response, model, MockName, EstimateTokens(|prompt|), EstimateTokens(|m.response|), 0.0, 1)
    case Err(message) => (logged, Thrown(message))
    case Ok(resp) => (logged, Returned(Ok(resp)))
  }

  /** A mock response's total token count covers the prompt and the
      response at four characters a token, over-counting by less than two
      tokens. */
  lemma MockTotalTokens(m: Mock, prompt: string, options: Option<CompletionOptions>)
    ensures var r := Complete(m, prompt, options).1;
            r.Returned? ==>
              && r.value.Ok?
              && 4 * r.value.value.TotalTokens() >= |prompt| + |m.response|
              && 4 * r.value.value.TotalTokens() < |prompt| + |m.response| + 8
  {
    var r := Complete(m, prompt, options).1;
    if r.Returned? {
      assert r.value.value.TotalTokens() == EstimateTokens(|prompt|) + EstimateTokens(|m.response|);
    }
  }

  /** The response constructor under the mock's name fails only on blank content. */
  lemma MockResponseBuilt(content: string, model: string, inputTokens: int, outputTokens: int)
    ensures NewLlmResponse(content, model, MockName, inputTokens, outputTokens, 0.0, 1)
            == if Trim(content) == "" then Err(EmptyContentMessage)
               else Ok(LlmResponse(content, model, MockName, inputTokens, outputTokens, 0.0, 1))
  {
    MockNameIsTrimmed();
    NewLlmResponseNamed(content, model, MockName, inputTokens, outputTokens, 0.0, 1);
  }

  lemma MockNameIsTrimmed()
    ensures Trim(MockName) == MockName != ""
  {
    assert MockName[0] == 'm' && MockName[|MockName| - 1] == 'k';
    TrimNoop(MockName);
  }

  /** The mock seen as a provider by the router: a fresh mock's answer. */
  function AsProvider(response: string): (p: LlmProvider)
    ensures p.name == MockName
    ensures forall prompt, options :: p.complete(prompt, options) == Complete(Mock(response, []), prompt, options).1
  {
    LlmProvider(MockName, (prompt, options) => Complete(Mock(response, []), prompt, options).1)
  }

  /** Prompts sent one after another, each without options. */
  function CompleteAll(m: Mock, prompts: seq<string>): Mock
    decreases |prompts|
  {
    if |prompts| == 0 then m else CompleteAll(Complete(m, prompts[0], None).0, prompts[1..])
  }

  /** The log records every call, in order, and nothing else; the
      response never changes. */
  lemma {:induction false} CallLogRecordsEveryPrompt(m: Mock, prompts: seq<string>)
    ensures CompleteAll(m, prompts).response == m.response
    ensures |CompleteAll(m, prompts).calls| == |m.calls| + |prompts|
    ensures CompleteAll(m, prompts).calls[..|m.calls|] == m.calls
    ensures forall i :: 0 <= i < |prompts| ==> CompleteAll(m, prompts).calls[|m.calls| + i] == MockCall(prompts[i], None)
    decreases |prompts|
  {
    if |prompts| > 0 {
      var next := Complete(m, prompts[0], None).0;
      CallLogRecordsEveryPrompt(next, prompts[1..]);
      var final := CompleteAll(m, prompts);
      assert final == CompleteAll(next, prompts[1..]);
      assert final.calls[..|next.calls|] == next.calls;
      assert final.calls[..|m.calls|] == next.calls[..|m.calls|];
      forall i | 0 <= i < |prompts| ensures final.calls[|m.calls| + i] == MockCall(prompts[i], None) {
        if i == 0 {
          assert final.calls[|m.calls|] == next.calls[|m.calls|];
        } else {
          assert prompts[1..][i - 1] == prompts[i];
        }
      }
    }
  }

  /** "Hello" (5 characters) estimates to two tokens, the default
      response (17 characters) to five, and the empty text to none. */
  lemma TokenEstimateExamples()
    ensures EstimateTokens(|"Hello"|) == 2
    ensures EstimateTokens(|DefaultResponse|) == 5
    ensures EstimateTokens(0) == 0
  {
  }
}

=== FILE: orchestrator.dfy ===
/** The pipeline: detect the video provider, download the audio, transcribe
    it, generate the report through the language model, save it.  The
    stages run strictly in that order; each is announced by a `started`
    event and closed by a `completed` one, the events of the download and
    the transcription are forwarded under the stage's own label, and the
    first failing stage ends the run with a pipeline error naming it.

    The collaborators (the provider registry, the transcriber, the router,
    the prompt template) are values; the filesystem is observed through the
    calls the run makes; the clock readings are parameters. */
module Orchestrator {

  import opened Wrappers
  import opened Text
  import opened Errors
  import opened Events
  import opened Paths
  import opened Transcript
  import opened Video
  import opened Registry
  import opened Llm
  import Router
  import Prompt
  import R = Report
  import W = WhisperTranscriber

  datatype PipelineOptions = PipelineOptions(
    url: string,
    whisperModel: Option<string>,
    language: Option<string>,
    llmProvider: Option<string>,
    llmModel: Option<string>,
    outputPath: Option<string>)

  /** What one transcriber call did: the events it reported and how it ended. */
  datatype TranscriberRun = TranscriberRun(
    events: seq<ProgressEvent>,
    outcome: Outcome<Result<TranscriptionResult, Error>>)

  /** The orchestrator's collaborators. */
  datatype Collaborators = Collaborators(
    providers: seq<VideoProvider>,
    transcribe: (string, W.TranscriptionOptions) -> TranscriberRun,
    router: Router.LlmRouter,
    render: Prompt.PromptContext -> string)

  /** The system temporary directory, the home directory, and the clock
      readings: at the start, when the temporary directory is named, at the
      end, and the date the report is stamped with. */
  datatype Environment = Environment(
    tmpRoot: string,
    home: string,
    startedAt: int,
    tempStamp: nat,
    finishedAt: int,
    today: R.CalendarDate)

  /** An effect on a collaborator or on the filesystem. */
  datatype Effect =
    | EnsureDir(path: string)
    | DownloadVideo(provider: string, url: string, outputDir: string)
    | TranscribeAudio(audioPath: string, transcriberOptions: W.TranscriptionOptions)
    | CompletePrompt(prompt: string, llmOptions: CompletionOptions)
    | WriteFile(path: string, content: string)

  /** An effect together with the stage that was running when it happened. */
  datatype Call = Call(stage: Stage, effect: Effect)

  datatype PipelineResult = PipelineResult(report: R.PipelineReport, outputPath: string, totalDurationMs: int)

  /** One run as observed: the events in emission order, the calls in the
      order they were made, and how the run ended (a rejected promise is a
      thrown outcome). */
  datatype RunTrace = RunTrace(
    events: seq<ProgressEvent>,
    calls: seq<Call>,
    outcome: Outcome<Result<PipelineResult, Error>>)

  const DefaultWhisperModel := "large-v3-turbo"
  const DefaultLanguage := "auto"
  const DefaultReportsDir := "~/.tolmach/reports"

  /** The position of a stage in the pipeline. */
  function Rank(s: Stage): (r: nat)
    ensures r < 5
  {
    match s
    case Detect => 0
    case Download => 1
    case Transcribe => 2
    case Report => 3
    case Save => 4
  }

  /** The position of the stage an event label names; 5 for any other label. */
  function LabelRank(name: string): (r: int)
    ensures forall s :: name == StageName(s) ==> r == Rank(s)
  {
    if name == StageName(Detect) then 0
    else if name == StageName(Download) then 1
    else if name == StageName(Transcribe) then 2
    else if name == StageName(Report) then 3
    else if name == StageName(Save) then 4
    else 5
  }

  /** Event labels never go back to an earlier stage. */
  predicate EventsOrdered(events: seq<ProgressEvent>) {
    forall i, j :: 0 <= i < j < |events| ==> LabelRank(events[i].stage) <= LabelRank(events[j].stage)
  }

  /** No event is labelled with a stage after `s`. */
  predicate EventsWithin(events: seq<ProgressEvent>, s: Stage) {
    forall i :: 0 <= i < |events| ==> LabelRank(events[i].stage) <= Rank(s)
  }

  /** Calls never go back to an earlier stage. */
  predicate CallsOrdered(calls: seq<Call>) {
    forall i, j :: 0 <= i < j < |calls| ==> Rank(calls[i].stage) <= Rank(calls[j].stage)
  }

  /** No call is made during a stage after `s`. */
  predicate CallsWithin(calls: seq<Call>, s: Stage) {
    forall i :: 0 <= i < |calls| ==> Rank(calls[i].stage) <= Rank(s)
  }

  /** No file is written. */
  predicate NoWrites(calls: seq<Call>) {
    forall i :: 0 <= i < |calls| ==> !calls[i].effect.WriteFile?
  }

  /** Events and calls of a run never go back to an earlier stage. */
  predicate InStageOrder(t: RunTrace) {
    EventsOrdered(t.events) && CallsOrdered(t.calls)
  }

  /** Nothing of a run belongs to a stage after `s`. */
  predicate StopsAt(t: RunTrace, s: Stage) {
    EventsWithin(t.events, s) && CallsWithin(t.calls, s)
  }

  /** Appending events of stage `s` to events that go no further keeps the order. */
  lemma AppendEvents(a: seq<ProgressEvent>, b: seq<ProgressEvent>, s: Stage)
    requires EventsOrdered(a) && EventsWithin(a, s)
    requires forall i :: 0 <= i < |b| ==> b[i].stage == StageName(s)
    ensures EventsOrdered(a + b) && EventsWithin(a + b, s)
  {
    var ab := a + b;
    forall i | 0 <= i < |ab| ensures LabelRank(ab[i].stage) <= Rank(s) {
      if i >= |a| {
        assert ab[i] == b[i - |a|];
      }
    }
    forall i, j | 0 <= i < j < |ab| ensures LabelRank(ab[i].stage) <= LabelRank(ab[j].stage) {
      if j >= |a| {
        assert ab[j] == b[j - |a|];
      }
    }
  }

  /** Appending calls of stage `s` to calls that go no further keeps the order. */
  lemma AppendCalls(a: seq<Call>, b: seq<Call>, s: Stage)
    requires CallsOrdered(a) && CallsWithin(a, s)
    requires forall i :: 0 <= i < |b| ==> b[i].stage == s
    ensures CallsOrdered(a + b) && CallsWithin(a + b, s)
  {
    var ab := a + b;
    forall i | 0 <= i < |ab| ensures Rank(ab[i].stage) <= Rank(s) {
      if i >= |a| {
        assert ab[i] == b[i - |a|];
      }
    }
    forall i, j | 0 <= i < j < |ab| ensures Rank(ab[i].stage) <= Rank(ab[j].stage) {
      if j >= |a| {
        assert ab[j] == b[j - |a|];
      }
    }
  }

  /** What a run has done before stage `s` starts or while it runs: events
      and calls in stage order up to `s`, and no file written. */
  predicate ReachedStage(events: seq<ProgressEvent>, calls: seq<Call>, s: Stage) {
    && EventsOrdered(events) && EventsWithin(events, s)
    && CallsOrdered(calls) && CallsWithin(calls, s)
    && NoWrites(calls)
  }

  /** A run moves on to stage `s` (or stays in its stage) with events and
      calls of that stage only, none of them a file write. */
  lemma Advance(events: seq<ProgressEvent>, calls: seq<Call>, newEvents: seq<ProgressEvent>, newCalls: seq<Call>,
                from: Stage, s: Stage)
    requires ReachedStage(events, calls, from) && Rank(from) <= Rank(s)
    requires forall i :: 0 <= i < |newEvents| ==> newEvents[i].stage == StageName(s)
    requires forall i :: 0 <= i < |newCalls| ==> newCalls[i].stage == s && !newCalls[i].effect.WriteFile?
    ensures ReachedStage(events + newEvents, calls + newCalls, s)
  {
    AppendEvents(events, newEvents, s);
    AppendCalls(calls, newCalls, s);
    var all := calls + newCalls;
    assert forall i :: |calls| <= i < |all| ==> all[i] == newCalls[i - |calls|];
  }

  /** Closing stage `from` and starting stage `to`, with no calls in between. */
  lemma CloseAndStart(events: seq<ProgressEvent>, calls: seq<Call>, from: Stage, to: Stage)
    requires ReachedStage(events, calls, from) && Rank(from) <= Rank(to)
    ensures ReachedStage(events + [Event(from, Completed)] + [Event(to, Started)], calls, to)
  {
    Advance(events, calls, [Event(from, Completed)], [], from, from);
    assert calls + [] == calls;
    Advance(events + [Event(from, Completed)], calls, [Event(to, Started)], [], from, to);
  }

  /** A finished run: in stage order, and an error result is the failure of
      one stage. */
  predicate Settled(t: RunTrace) {
    && InStageOrder(t)
    && (t.outcome.Returned? && t.outcome.value.Err? ==> exists s :: FailedAt(t, s))
  }

  /** A successful run: its last event closes the save stage, its last call
      writes the report's Markdown to the returned path (the report's file
      name in the output directory), the report's content is the model's
      answer, and the duration is the clock difference. */
  predicate SavedReport(t: RunTrace, env: Environment, options: PipelineOptions) {
    && t.outcome.Returned? && t.outcome.value.Ok?
    && var r := t.outcome.value.value;
    && r.outputPath == JoinPath(OutputDir(env, options), R.OutputFileName(r.report))
    && r.report.content == r.report.llmResponse.content
    && r.totalDurationMs == env.finishedAt - env.startedAt
    && |t.events| > 0 && t.events[|t.events| - 1] == Event(Save, Completed)
    && |t.calls| > 0 && t.calls[|t.calls| - 1] == Call(Save, WriteFile(r.outputPath, R.ToMarkdown(r.report)))
  }

  /** The temporary directory of the run, named after the clock. */
  function TempDir(env: Environment): string {
    JoinPath(env.tmpRoot, "tolmach-" + NatToString(env.tempStamp))
  }

  /** The error a failing stage is wrapped in: the stage's name, its
      message, and the stage's error as the cause. */
  function StageFailure(stage: Stage, cause: Error): (e: Error)
    ensures e.PipelineError? && e.pipelineCode == StageFailed && e.stageName == StageName(stage)
    ensures e.message == cause.message && e.cause == Some(cause)
  {
    PipelineError(StageFailed, StageName(stage), cause.message, Some(cause))
  }

  /** A run that failed at stage `s`: the pipeline error for that stage,
      announced by a last `failed` event with its message, with nothing of
      a later stage and no file written. */
  predicate FailedAt(t: RunTrace, s: Stage) {
    && t.outcome.Returned? && t.outcome.value.Err?
    && (var e := t.outcome.value.error;
        e.PipelineError? && e.cause.Some? && e == StageFailure(s, e.cause.value))
    && |t.events| > 0 && t.events[|t.events| - 1] == EventWithMessage(s, Failed, t.outcome.value.error.message)
    && StopsAt(t, s)
    && NoWrites(t.calls)
  }

  /** Ends the run at a failing stage. */
  function Failing(stage: Stage, cause: Error, events: seq<ProgressEvent>, calls: seq<Call>): (t: RunTrace)
    requires ReachedStage(events, calls, stage)
    ensures t.events == events + [EventWithMessage(stage, Failed, cause.message)] && t.calls == calls
    ensures t.outcome == Returned(Err(StageFailure(stage, cause)))
    ensures Settled(t) && FailedAt(t, stage)
  {
    AppendEvents(events, [EventWithMessage(stage, Failed, cause.message)], stage);
    var t := RunTrace(events + [EventWithMessage(stage, Failed, cause.message)], calls, Returned(Err(StageFailure(stage, cause))));
    assert FailedAt(t, stage);
    t
  }

  /** The transcriber options: the chosen model or `large-v3-turbo`, the
      chosen language or `auto`, the temporary directory for output, and no
      model directory. */
  function TranscriberOptions(options: PipelineOptions, tempDir: string): (o: W.TranscriptionOptions)
    ensures o.model == options.whisperModel.GetOr(DefaultWhisperModel)
    ensures o.language == options.language.GetOr(DefaultLanguage)
    ensures o.outputDir == tempDir && o.modelDir.None?
  {
    W.TranscriptionOptions(options.whisperModel.GetOr(DefaultWhisperModel), options.language.GetOr(DefaultLanguage),
                           tempDir, None)
  }

  /** The completion options: the chosen provider and model, nothing else. */
  function LlmOptions(options: PipelineOptions): (o: CompletionOptions)
    ensures o.provider == options.llmProvider && o.model == options.llmModel
    ensures o.maxTokens.None? && o.temperature.None? && o.systemPrompt.None?
  {
    CompletionOptions(options.llmModel, None, None, None, options.llmProvider)
  }

  /** Where the report goes: the chosen path when it is non-empty, the
      default reports directory otherwise. */
  function OutputDir(env: Environment, options: PipelineOptions): (d: string)
    ensures options.outputPath.Some? && options.outputPath.value != "" ==> d == options.outputPath.value
    ensures options.outputPath.None? || options.outputPath.value == "" ==> d == ResolvePath(env.home, DefaultReportsDir)
  {
    if options.outputPath.Some? && options.outputPath.value != "" then options.outputPath.value
    else ResolvePath(env.home, DefaultReportsDir)
  }

  /** `run`. */
  function Run(c: Collaborators, env: Environment, options: PipelineOptions): (t: RunTrace)
    ensures Settled(t)
    ensures t.outcome.Returned? && t.outcome.value.Ok? ==> SavedReport(t, env, options)
  {
    var started := [Event(Detect, Started)];
    assert ReachedStage(started, [], Detect);
    match FindProvider(c.providers, options.url)
    case Err(e) => Failing(Detect, e, started, [])
    case Ok(provider) =>
      var closed := [EventWithMessage(Detect, Completed, provider.name)];
      Advance(started, [], closed, [], Detect, Detect);
      Advance(started + closed, [], [Event(Download, Started)], [], Detect, Download);
      DownloadStage(c, env, options, provider, started + closed + [Event(Download, Started)])
  }

  /** Stage 2: the temporary directory is created and the provider downloads into it. */
  function DownloadStage(c: Collaborators, env: Environment, options: PipelineOptions, provider: VideoProvider,
                         events: seq<ProgressEvent>): (t: RunTrace)
    requires ReachedStage(events, [], Download)
    ensures Settled(t)
    ensures t.outcome.Returned? && t.outcome.value.Ok? ==> SavedReport(t, env, options)
  {
    var tempDir := TempDir(env);
    var run := provider.download(options.url, tempDir);
    var forwarded := events + Relabel(run.events, Download);
    var calls := [Call(Download, EnsureDir(tempDir)), Call(Download, DownloadVideo(provider.name, options.url, tempDir))];
    Advance(events, [], Relabel(run.events, Download), calls, Download, Download);
    assert [] + calls == calls;
    match run.result
    case Err(e) => Failing(Download, e, forwarded, calls)
    case Ok(video) =>
      var closed := [Event(Download, Completed)];
      Advance(forwarded, calls, closed, [], Download, Download);
      assert calls + [] == calls;
      Advance(forwarded + closed, calls, [Event(Transcribe, Started)], [], Download, Transcribe);
      TranscribeStage(c, env, options, video, forwarded + closed + [Event(Transcribe, Started)], calls)
  }

  /** Stage 3: the transcriber runs on the downloaded audio. */
  function TranscribeStage(c: Collaborators, env: Environment, options: PipelineOptions, video: DownloadedVideo,
                           events: seq<ProgressEvent>, calls: seq<Call>): (t: RunTrace)
    requires ReachedStage(events, calls, Transcribe)
    ensures Settled(t)
    ensures t.outcome.Returned? && t.outcome.value.Ok? ==> SavedReport(t, env, options)
  {
    var transcriberOptions := TranscriberOptions(options, TempDir(env));
    var run := c.transcribe(video.audioPath, transcriberOptions);
    var forwarded := events + Relabel(run.events, Transcribe);
    var calls' := calls + [Call(Transcribe, TranscribeAudio(video.audioPath, transcriberOptions))];
    Advance(events, calls, Relabel(run.events, Transcribe), [Call(Transcribe, TranscribeAudio(video.audioPath, transcriberOptions))],
            Transcribe, Transcribe);
    match run.outcome
    case Thrown(m) => RunTrace(forwarded, calls', Thrown(m))
    case Returned(Err(e)) => Failing(Transcribe, e, forwarded, calls')
    case Returned(Ok(transcription)) =>
      var closed := [Event(Transcribe, Completed)];
      Advance(forwarded, calls', closed, [], Transcribe, Transcribe);
      assert calls' + [] == calls';
      Advance(forwarded + closed, calls', [Event(Report, Started)], [], Transcribe, Report);
      ReportStage(c, env, options, video, transcription, forwarded + closed + [Event(Report, Started)], calls')
  }

  /** Stage 4: the prompt is rendered and completed through the router. */
  function ReportStage(c: Collaborators, env: Environment, options: PipelineOptions, video: DownloadedVideo,
                       transcription: TranscriptionResult, events: seq<ProgressEvent>, calls: seq<Call>): (t: RunTrace)
    requires ReachedStage(events, calls, Report)
    ensures Settled(t)
    ensures t.outcome.Returned? && t.outcome.value.Ok? ==> SavedReport(t, env, options)
  {
    var prompt := c.render(Prompt.PromptContext(video.metadata, transcription));
    var llmOptions := LlmOptions(options);
    var calls' := calls + [Call(Report, CompletePrompt(prompt, llmOptions))];
    Advance(events, calls, [], [Call(Report, CompletePrompt(prompt, llmOptions))], Report, Report);
    assert events + [] == events;
    match Router.Complete(c.router, prompt, Some(llmOptions))
    case Thrown(m) => RunTrace(events, calls', Thrown(m))
    case Returned(Err(e)) => Failing(Report, e, events, calls')
    case Returned(Ok(response)) =>
      var report := R.NewPipelineReport(response.content, video.metadata, response, env.today);
      var closed := [Event(Report, Completed)];
      Advance(events, calls', closed, [], Report, Report);
      assert calls' + [] == calls';
      Advance(events + closed, calls', [Event(Save, Started)], [], Report, Save);
      SaveStage(env, options, report, events + closed + [Event(Save, Started)], calls')
  }

  /** Stage 5: the Markdown is written under the report's file name; the
      write's own result is not inspected, so this stage always completes. */
  function SaveStage(env: Environment, options: PipelineOptions, report: R.PipelineReport,
                     events: seq<ProgressEvent>, calls: seq<Call>): (t: RunTrace)
    requires ReachedStage(events, calls, Save)
    requires report.content == report.llmResponse.content
    ensures Settled(t)
    ensures t.outcome.Returned? && t.outcome.value.Ok? ==> SavedReport(t, env, options)
  {
    var dir := OutputDir(env, options);
    var path := JoinPath(dir, R.OutputFileName(report));
    var markdown := R.ToMarkdown(report);
    var result := PipelineResult(report, path, env.finishedAt - env.startedAt);
    SaveTraceSettles(events, calls, dir, path, markdown, result);
    RunTrace(events + [Event(Save, Completed)], calls + [Call(Save, EnsureDir(dir)), Call(Save, WriteFile(path, markdown))],
             Returned(Ok(result)))
  }

  /** Closing the save stage after a run that reached it, with its two
      calls, keeps the run in stage order and ends it on the write. */
  lemma SaveTraceSettles(events: seq<ProgressEvent>, calls: seq<Call>, dir: string, path: string, markdown: string,
                         result: PipelineResult)
    requires ReachedStage(events, calls, Save)
    ensures var t := RunTrace(events + [Event(Save, Completed)],
                              calls + [Call(Save, EnsureDir(dir)), Call(Save, WriteFile(path, markdown))],
                              Returned(Ok(result)));
            && Settled(t)
            && |t.events| > 0 && t.events[|t.events| - 1] == Event(Save, Completed)
            && |t.calls| > 0 && t.calls[|t.calls| - 1] == Call(Save, WriteFile(path, markdown))
  {
    var writes := [Call(Save, EnsureDir(dir)), Call(Save, WriteFile(path, markdown))];
    AppendEvents(events, [Event(Save, Completed)], Save);
    AppendCalls(calls, writes, Save);
    assert (calls + writes)[|calls + writes| - 1] == writes[1];
  }
}

=== FILE: paths.dfy ===
/** POSIX path helpers in the simple form the program needs: joining two
    segments with one separator, the last component without an extension,
    absoluteness, and expansion of a leading `~/` to the home directory. */
module Paths {

  import opened Wrappers
  import opened Text

  /** `join(a, b)` for segments that need no normalisation. */
  function JoinPath(a: string, b: string): (r: string)
    ensures a != "" && b != "" && !EndsWith(a, "/") ==> r == a + "/" + b
    ensures a != "" && EndsWith(a, "/") && b != "" ==> r == a + b
    ensures a == "" && b != "" ==> r == b
    ensures b == "" && a != "" ==> r == a
  {
    if a == "" && b == "" then "."
    else if a == "" then b
    else if b == "" then a
    else if a[|a| - 1] == '/' then a + b
    else a + "/" + b
  }

  /** Position of the last `c` in `s`, if any. */
  function LastIndexOf(s: string, c: char): (r: Option<nat>)
    ensures r.None? <==> c !in s
    ensures r.Some? ==> r.value < |s| && s[r.value] == c && c !in s[r.value + 1..]
  {
    if |s| == 0 then None
    else if s[|s| - 1] == c then Some(|s| - 1)
    else
      match LastIndexOf(s[..|s| - 1], c)
      case None => None
      case Some(i) =>
        assert s[i + 1..] == s[..|s| - 1][i + 1..] + [s[|s| - 1]];
        Some(i)
  }

  /** The last path component: everything after the last `/`. */
  function LastComponent(path: string): (r: string)
    ensures '/' !in r && EndsWith(path, r)
  {
    match LastIndexOf(path, '/')
    case None => path
    case Some(i) => path[i + 1..]
  }

  /** `basename(path, ext)`: the last component, with `ext` removed when it
      ends with `ext` and is longer than it. */
  function Basename(path: string, ext: string): (r: string)
    ensures '/' !in r
  {
    var base := LastComponent(path);
    if |ext| < |base| && EndsWith(base, ext) then base[..|base| - |ext|] else base
  }

  /** `isAbsolute(p)`: starts at the root. */
  predicate IsAbsolute(p: string) {
    |p| > 0 && p[0] == '/'
  }

  /** `resolvePath`: a leading `~/` becomes the home directory; any other
      path is returned unchanged. */
  function ResolvePath(home: string, p: string): (r: string)
    ensures StartsWith(p, "~/") ==> r == home + p[1..]
    ensures !StartsWith(p, "~/") ==> r == p
  {
    if |p| >= 2 && p[0] == '~' && p[1] == '/' then
      assert p[..2] == "~/";
      home + p[1..]
    else
      assert !StartsWith(p, "~/") by {
        if |p| >= 2 { assert p[..2][0] == p[0] && p[..2][1] == p[1]; }
      }
      p
  }

  /** The last component of a joined path is the file name joined in. */
  lemma LastComponentOfJoin(dir: string, name: string)
    requires dir != "" && name != "" && '/' !in name
    ensures LastComponent(JoinPath(dir, name)) == name
  {
    var j := JoinPath(dir, name);
    var k := |j| - |name|;
    assert j[k - 1] == '/';
    assert j[k..] == name;
  }

  /** Taking the base name of a file joined into a directory under
      `name + ext` recovers `name`: the output prefix of a recording saved
      as `<title>.wav` is the title. */
  lemma BasenameOfJoin(dir: string, name: string, ext: string)
    requires dir != "" && name != "" && '/' !in name && '/' !in ext
    ensures Basename(JoinPath(dir, name + ext), ext) == name
  {
    LastComponentOfJoin(dir, name + ext);
    var base := name + ext;
    assert base[|base| - |ext|..] == ext;
    assert base[..|base| - |ext|] == name;
  }

  /** Expanding `~/` is idempotent when the home directory is absolute. */
  lemma ResolvePathIdempotent(home: string, p: string)
    requires IsAbsolute(home)
    ensures ResolvePath(home, ResolvePath(home, p)) == ResolvePath(home, p)
  {
    var r := ResolvePath(home, p);
    if |p| >= 2 && p[0] == '~' && p[1] == '/' {
      assert r[0] == '/';
    }
  }

  /** What `JoinPath(dir, b)` puts before a non-empty segment `b`. */
  function JoinPrefix(dir: string): string {
    if dir == "" then "" else if dir[|dir| - 1] == '/' then dir else dir + "/"
  }

  /** Joining a non-empty segment appends it to a prefix fixed by the directory. */
  lemma JoinPathSplits(dir: string, b: string)
    requires b != ""
    ensures JoinPath(dir, b) == JoinPrefix(dir) + b
  {
  }

  /** A non-empty segment joined onto a directory ends the joined path. */
  lemma JoinEndsWith(a: string, b: string)
    requires b != ""
    ensures EndsWith(JoinPath(a, b), b)
  {
    var j := JoinPath(a, b);
    assert j[|j| - |b|..] == b;
  }
}

=== FILE: pipeline_outcome.dfy ===
/** When a pipeline run succeeds: exactly when every collaborator does, the
    provider lookup, the download, the transcription and the completion,
    each on what the stage before it produced.  Saving cannot fail. */
module PipelineOutcome {

  import opened Wrappers
  import opened Errors
  import opened Events
  import opened Video
  import opened Transcript
  import opened Registry
  import opened Orchestrator
  import Router
  import Prompt

  /** The completion of the rendered prompt succeeds. */
  predicate ReportSucceeds(c: Collaborators, options: PipelineOptions, video: DownloadedVideo,
                           transcription: TranscriptionResult) {
    var prompt := c.render(Prompt.PromptContext(video.metadata, transcription));
    var answer := Router.Complete(c.router, prompt, Some(LlmOptions(options)));
    answer.Returned? && answer.value.Ok?
  }

  /** The transcription succeeds, and so does everything after it. */
  predicate TranscribeSucceeds(c: Collaborators, env: Environment, options: PipelineOptions, video: DownloadedVideo) {
    var run := c.transcribe(video.audioPath, TranscriberOptions(options, TempDir(env)));
    run.outcome.Returned? && run.outcome.value.Ok? && ReportSucceeds(c, options, video, run.outcome.value.value)
  }

  /** The download succeeds, and so does everything after it. */
  predicate DownloadSucceeds(c: Collaborators, env: Environment, options: PipelineOptions, provider: VideoProvider) {
    var run := provider.download(options.url, TempDir(env));
    run.result.Ok? && TranscribeSucceeds(c, env, options, run.result.value)
  }

  /** A provider handles the URL, and every later stage succeeds. */
  predicate StagesSucceed(c: Collaborators, env: Environment, options: PipelineOptions) {
    var found := FindProvider(c.providers, options.url);
    found.Ok? && DownloadSucceeds(c, env, options, found.value)
  }

  predicate Succeeded(t: RunTrace) {
    t.outcome.Returned? && t.outcome.value.Ok?
  }

  lemma ReportOutcome(c: Collaborators, env: Environment, options: PipelineOptions, video: DownloadedVideo,
                      transcription: TranscriptionResult, events: seq<ProgressEvent>, calls: seq<Call>)
    requires ReachedStage(events, calls, Report)
    ensures Succeeded(ReportStage(c, env, options, video, transcription, events, calls))
            <==> ReportSucceeds(c, options, video, transcription)
  {
  }

  lemma TranscribeOutcome(c: Collaborators, env: Environment, options: PipelineOptions, video: DownloadedVideo,
                          events: seq<ProgressEvent>, calls: seq<Call>)
    requires ReachedStage(events, calls, Transcribe)
    ensures Succeeded(TranscribeStage(c, env, options, video, events, calls))
            <==> TranscribeSucceeds(c, env, options, video)
  {
    var transcriberOptions := TranscriberOptions(options, TempDir(env));
    var run := c.transcribe(video.audioPath, transcriberOptions);
    var forwarded := events + Relabel(run.events, Transcribe);
    var call := Call(Transcribe, TranscribeAudio(video.audioPath, transcriberOptions));
    Advance(events, calls, Relabel(run.events, Transcribe), [call], Transcribe, Transcribe);
    if run.outcome.Returned? && run.outcome.value.Ok? {
      var closed := [Event(Transcribe, Completed)];
      Advance(forwarded, calls + [call], closed, [], Transcribe, Transcribe);
      assert calls + [call] + [] == calls + [call];
      Advance(forwarded + closed, calls + [call], [Event(Report, Started)], [], Transcribe, Report);
      ReportOutcome(c, env, options, video, run.outcome.value.value,
                    forwarded + closed + [Event(Report, Started)], calls + [call]);
    }
  }

  lemma DownloadOutcome(c: Collaborators, env: Environment, options: PipelineOptions, provider: VideoProvider,
                        events: seq<ProgressEvent>)
    requires ReachedStage(events, [], Download)
    ensures Succeeded(DownloadStage(c, env, options, provider, events)) <==> DownloadSucceeds(c, env, options, provider)
  {
    var tempDir := TempDir(env);
    var run := provider.download(options.url, tempDir);
    var forwarded := events + Relabel(run.events, Download);
    var calls := [Call(Download, EnsureDir(tempDir)), Call(Download, DownloadVideo(provider.name, options.url, tempDir))];
    Advance(events, [], Relabel(run.events, Download), calls, Download, Download);
    assert [] + calls == calls;
    if run.result.Ok? {
      var closed := [Event(Download, Completed)];
      Advance(forwarded, calls, closed, [], Download, Download);
      assert calls + [] == calls;
      Advance(forwarded + closed, calls, [Event(Transcribe, Started)], [], Download, Transcribe);
      TranscribeOutcome(c, env, options, run.result.value, forwarded + closed + [Event(Transcribe, Started)], calls);
    }
  }

  /** A run returns a result exactly when every stage succeeds; the result
      then names the written report (see `SavedReport`). */
  lemma SucceedsIffStagesSucceed(c: Collaborators, env: Environment, options: PipelineOptions)
    ensures Succeeded(Run(c, env, options)) <==> StagesSucceed(c, env, options)
    ensures Succeeded(Run(c, env, options)) ==> SavedReport(Run(c, env, options), env, options)
  {
    var started := [Event(Detect, Started)];
    assert ReachedStage(started, [], Detect);
    match FindProvider(c.providers, options.url)
    case Err(_) =>
    case Ok(provider) =>
      var closed := [EventWithMessage(Detect, Completed, provider.name)];
      Advance(started, [], closed, [], Detect, Detect);
      Advance(started + closed, [], [Event(Download, Started)], [], Detect, Download);
      DownloadOutcome(c, env, options, provider, started + closed + [Event(Download, Started)]);
  }
}

=== FILE: pipeline_trace.dfy ===
/** The shape of a pipeline run's progress trace.  Leaving aside the
    progress events the download and the transcription forward, a run is a
    walk through the stages: `detect started`, then for each stage passed
    its `completed` event and the next stage's `started` event, and finally
    either `save completed`, or the failing stage's `failed` event, or
    nothing more when a collaborator threw. */
module PipelineTrace {

  import opened Wrappers
  import opened Errors
  import opened Events
  import opened Video
  import opened Transcript
  import opened Registry
  import opened Llm
  import opened Orchestrator
  import Router
  import Prompt
  import R = Report

  /** The events of a trace that are not progress reports, in order. */
  function Milestones(events: seq<ProgressEvent>): (m: seq<ProgressEvent>)
    ensures |m| <= |events|
    ensures forall i :: 0 <= i < |m| ==> m[i].status != Progress
  {
    if |events| == 0 then []
    else
      var last := events[|events| - 1];
      Milestones(events[..|events| - 1]) + (if last.status == Progress then [] else [last])
  }

  /** Only progress reports. */
  predicate ProgressOnly(events: seq<ProgressEvent>) {
    forall i :: 0 <= i < |events| ==> events[i].status == Progress
  }

  /** Milestones of a concatenation are the concatenated milestones. */
  lemma {:induction false} MilestonesConcat(a: seq<ProgressEvent>, b: seq<ProgressEvent>)
    ensures Milestones(a + b) == Milestones(a) + Milestones(b)
  {
    if |b| == 0 {
      assert a + b == a;
    } else {
      var ab := a + b;
      var init := b[..|b| - 1];
      assert ab[..|ab| - 1] == a + init;
      assert ab[|ab| - 1] == b[|b| - 1];
      MilestonesConcat(a, init);
    }
  }

  /** A run of events none of which is a progress report is its own milestones. */
  lemma {:induction false} MilestonesOfMilestones(events: seq<ProgressEvent>)
    requires forall i :: 0 <= i < |events| ==> events[i].status != Progress
    ensures Milestones(events) == events
  {
    if |events| > 0 {
      MilestonesOfMilestones(events[..|events| - 1]);
      assert events[..|events| - 1] + [events[|events| - 1]] == events;
    }
  }

  /** Progress reports leave no milestones, whatever they are relabelled to. */
  lemma {:induction false} ForwardedProgressVanishes(events: seq<ProgressEvent>, s: Stage)
    requires ProgressOnly(events)
    ensures Milestones(Relabel(events, s)) == []
  {
    var r := Relabel(events, s);
    if |events| > 0 {
      var init := events[..|events| - 1];
      ForwardedProgressVanishes(init, s);
      assert r[..|r| - 1] == Relabel(init, s);
    }
  }

  /** The stage at a position of the pipeline. */
  function StageAt(i: nat): (s: Stage)
    requires i < 5
    ensures Rank(s) == i
  {
    StageOrder[i]
  }

  /** The event closing the stage at position `i`; detection's names the provider. */
  function Completion(i: nat, provider: string): ProgressEvent
    requires i < 5
  {
    if i == 0 then EventWithMessage(Detect, Completed, provider) else Event(StageAt(i), Completed)
  }

  /** The milestones of moving on from inside stage `lo` to inside stage
      `hi`: each stage passed is completed and the next one started. */
  function Walk(lo: nat, hi: nat, provider: string): (w: seq<ProgressEvent>)
    requires lo <= hi < 5
    decreases hi - lo
    ensures |w| == 2 * (hi - lo)
  {
    if lo == hi then []
    else [Completion(lo, provider), Event(StageAt(lo + 1), Started)] + Walk(lo + 1, hi, provider)
  }

  /** Walking in two legs is walking once. */
  lemma {:induction false} WalkConcat(a: nat, b: nat, c: nat, provider: string)
    requires a <= b <= c < 5
    ensures Walk(a, b, provider) + Walk(b, c, provider) == Walk(a, c, provider)
    decreases b - a
  {
    if a < b {
      var step := [Completion(a, provider), Event(StageAt(a + 1), Started)];
      var rest, tail := Walk(a + 1, b, provider), Walk(b, c, provider);
      calc {
        Walk(a, b, provider) + tail;
        (step + rest) + tail;
        step + (rest + tail);
        { WalkConcat(a + 1, b, c, provider); }
        step + Walk(a + 1, c, provider);
        Walk(a, c, provider);
      }
    } else {
      assert Walk(a, b, provider) == [];
      assert [] + Walk(b, c, provider) == Walk(b, c, provider);
    }
  }

  /** A stage's error names exactly one stage. */
  lemma FailedAtUnique(t: RunTrace, s: Stage, s': Stage)
    requires FailedAt(t, s) && FailedAt(t, s')
    ensures s == s'
  {
    StageNamesDistinct(s, s');
  }

  /** On success the run walks from stage `k` to the save stage and completes it. */
  predicate SucceedsFrom(t: RunTrace, base: seq<ProgressEvent>, k: nat, provider: string)
    requires k < 5
  {
    t.outcome.Returned? && t.outcome.value.Ok? ==>
      Milestones(t.events) == base + Walk(k, 4, provider) + [Event(Save, Completed)]
  }

  /** On an error the run walks from stage `k` to some stage and reports that stage's failure. */
  predicate FailsFrom(t: RunTrace, base: seq<ProgressEvent>, k: nat, provider: string)
    requires k < 5
  {
    t.outcome.Returned? && t.outcome.value.Err? ==>
      exists s :: k <= Rank(s)
        && Milestones(t.events) == base + Walk(k, Rank(s), provider) + [EventWithMessage(s, Failed, t.outcome.value.error.message)]
  }

  /** When a collaborator throws the run has walked from stage `k` to the stage that called it. */
  predicate ThrowsFrom(t: RunTrace, base: seq<ProgressEvent>, k: nat, provider: string)
    requires k < 5
  {
    t.outcome.Thrown? ==> exists s :: k <= Rank(s) < 4 && Milestones(t.events) == base + Walk(k, Rank(s), provider)
  }

  /** How a run continues from inside stage `k`, given the milestones
      `base` already emitted: on success, on the failure of a stage, and
      when a collaborator throws. */
  predicate ContinuesFrom(t: RunTrace, base: seq<ProgressEvent>, k: nat, provider: string)
    requires k < 5
  {
    SucceedsFrom(t, base, k, provider) && FailsFrom(t, base, k, provider) && ThrowsFrom(t, base, k, provider)
  }

  /** The download and transcription forward only progress reports, as the
      downloader and recogniser adapters do. */
  ghost predicate ForwardsProgressOnly(c: Collaborators, env: Environment, options: PipelineOptions) {
    && (forall i :: 0 <= i < |c.providers| ==> ProgressOnly(c.providers[i].download(options.url, TempDir(env)).events))
    && (forall audio :: ProgressOnly(c.transcribe(audio, TranscriberOptions(options, TempDir(env))).events))
  }

  /** A failing stage ends the walk at that stage with its `failed` event. */
  lemma FailingContinues(stage: Stage, cause: Error, events: seq<ProgressEvent>, calls: seq<Call>, provider: string)
    requires ReachedStage(events, calls, stage)
    ensures ContinuesFrom(Failing(stage, cause, events, calls), Milestones(events), Rank(stage), provider)
  {
    var t := Failing(stage, cause, events, calls);
    var failed := EventWithMessage(stage, Failed, cause.message);
    assert Milestones(t.events) == Milestones(events) + [failed] by {
      MilestonesConcat(events, [failed]);
      MilestonesOfMilestones([failed]);
    }
    assert Walk(Rank(stage), Rank(stage), provider) == [];
    assert t.outcome.value.error.message == cause.message;
    assert Milestones(events) + [] == Milestones(events);
  }

  /** A collaborator that throws ends the walk inside its stage. */
  lemma ThrownContinues(events: seq<ProgressEvent>, calls: seq<Call>, message: string, stage: Stage, provider: string)
    requires Rank(stage) < 4
    ensures ContinuesFrom(RunTrace(events, calls, Thrown(message)), Milestones(events), Rank(stage), provider)
  {
    assert Milestones(events) == Milestones(events) + Walk(Rank(stage), Rank(stage), provider);
  }

  /** The milestones of closing stage `k` and starting the next are the walk's first step. */
  lemma StepMilestones(events: seq<ProgressEvent>, k: nat, provider: string)
    requires k < 4
    ensures Milestones(events + [Completion(k, provider), Event(StageAt(k + 1), Started)])
            == Milestones(events) + Walk(k, k + 1, provider)
  {
    var step := [Completion(k, provider), Event(StageAt(k + 1), Started)];
    MilestonesConcat(events, step);
    MilestonesOfMilestones(step);
    assert Walk(k + 1, k + 1, provider) == [];
  }

  lemma StepSucceeds(t: RunTrace, base: seq<ProgressEvent>, k: nat, provider: string)
    requires k < 4
    requires SucceedsFrom(t, base + Walk(k, k + 1, provider), k + 1, provider)
    ensures SucceedsFrom(t, base, k, provider)
  {
    WalkConcat(k, k + 1, 4, provider);
  }

  lemma StepFails(t: RunTrace, base: seq<ProgressEvent>, k: nat, provider: string)
    requires k < 4
    requires FailsFrom(t, base + Walk(k, k + 1, provider), k + 1, provider)
    ensures FailsFrom(t, base, k, provider)
  {
    if t.outcome.Returned? && t.outcome.value.Err? {
      var s :| k + 1 <= Rank(s)
        && Milestones(t.events) == base + Walk(k, k + 1, provider) + Walk(k + 1, Rank(s), provider)
                                   + [EventWithMessage(s, Failed, t.outcome.value.error.message)];
      var failed := [EventWithMessage(s, Failed, t.outcome.value.error.message)];
      WalkStepAhead(base, k, Rank(s), provider, failed);
      assert k <= Rank(s) && Milestones(t.events) == base + Walk(k, Rank(s), provider) + failed;
    }
  }

  lemma StepThrows(t: RunTrace, base: seq<ProgressEvent>, k: nat, provider: string)
    requires k < 4
    requires ThrowsFrom(t, base + Walk(k, k + 1, provider), k + 1, provider)
    ensures ThrowsFrom(t, base, k, provider)
  {
    if t.outcome.Thrown? {
      var s :| k + 1 <= Rank(s) < 4 && Milestones(t.events) == base + Walk(k, k + 1, provider) + Walk(k + 1, Rank(s), provider);
      WalkStepAhead(base, k, Rank(s), provider, []);
    }
  }

  /** A first step followed by the rest of a walk is the whole walk, whatever comes before and after. */
  lemma WalkStepAhead(base: seq<ProgressEvent>, k: nat, j: nat, provider: string, last: seq<ProgressEvent>)
    requires k < j < 5
    ensures base + Walk(k, k + 1, provider) + Walk(k + 1, j, provider) + last == base + Walk(k, j, provider) + last
    ensures base + Walk(k, k + 1, provider) + Walk(k + 1, j, provider) == base + Walk(k, j, provider)
  {
    var w1, w2 := Walk(k, k + 1, provider), Walk(k + 1, j, provider);
    WalkConcat(k, k + 1, j, provider);
    calc {
      base + w1 + w2;
      base + (w1 + w2);
      base + Walk(k, j, provider);
    }
  }

  /** Closing stage `k` and starting the next one is the first step of the walk. */
  lemma StepContinues(t: RunTrace, events: seq<ProgressEvent>, k: nat, provider: string)
    requires k < 4
    requires ContinuesFrom(t, Milestones(events + [Completion(k, provider), Event(StageAt(k + 1), Started)]), k + 1, provider)
    ensures ContinuesFrom(t, Milestones(events), k, provider)
  {
    StepMilestones(events, k, provider);
    var base := Milestones(events);
    StepSucceeds(t, base, k, provider);
    StepFails(t, base, k, provider);
    StepThrows(t, base, k, provider);
  }

  /** Closing stage `from` and starting the next stage `to` is the first step of the walk. */
  lemma ClosedAndStarted(t: RunTrace, events: seq<ProgressEvent>, from: Stage, to: Stage, provider: string)
    requires 0 < Rank(from) && Rank(to) == Rank(from) + 1
    requires ContinuesFrom(t, Milestones(events + [Event(from, Completed)] + [Event(to, Started)]), Rank(to), provider)
    ensures ContinuesFrom(t, Milestones(events), Rank(from), provider)
  {
    var k := Rank(from);
    assert StageAt(k) == from && StageAt(k + 1) == to;
    assert events + [Event(from, Completed)] + [Event(to, Started)]
        == events + [Completion(k, provider), Event(StageAt(k + 1), Started)];
    StepContinues(t, events, k, provider);
  }

  /** Forwarded progress reports leave the walk unchanged. */
  lemma ForwardedContinues(t: RunTrace, events: seq<ProgressEvent>, forwarded: seq<ProgressEvent>, s: Stage,
                           k: nat, provider: string)
    requires k < 5 && ProgressOnly(forwarded)
    requires ContinuesFrom(t, Milestones(events + Relabel(forwarded, s)), k, provider)
    ensures ContinuesFrom(t, Milestones(events), k, provider)
  {
    ForwardedProgressVanishes(forwarded, s);
    MilestonesConcat(events, Relabel(forwarded, s));
    assert Milestones(events) + [] == Milestones(events);
  }

  lemma SaveContinues(env: Environment, options: PipelineOptions, report: R.PipelineReport,
                      events: seq<ProgressEvent>, calls: seq<Call>, provider: string)
    requires ReachedStage(events, calls, Save)
    requires report.content == report.llmResponse.content
    ensures ContinuesFrom(SaveStage(env, options, report, events, calls), Milestones(events), 4, provider)
  {
    SavedContinues(SaveStage(env, options, report, events, calls), events, provider);
  }

  /** A run that closes the save stage and returns a result ends the walk there. */
  lemma SavedContinues(t: RunTrace, events: seq<ProgressEvent>, provider: string)
    requires t.events == events + [Event(Save, Completed)]
    requires t.outcome.Returned? && t.outcome.value.Ok?
    ensures ContinuesFrom(t, Milestones(events), 4, provider)
  {
    var closed := [Event(Save, Completed)];
    calc {
      Milestones(t.events);
      { MilestonesConcat(events, closed); }
      Milestones(events) + Milestones(closed);
      { MilestonesOfMilestones(closed); }
      Milestones(events) + closed;
      { assert Walk(4, 4, provider) == []; }
      Milestones(events) + Walk(4, 4, provider) + closed;
    }
  }

  /** After a completion: the report stage closes and saving starts. */
  lemma ReportDone(env: Environment, options: PipelineOptions, report: R.PipelineReport,
                   events: seq<ProgressEvent>, calls: seq<Call>, provider: string)
    requires ReachedStage(events, calls, Report)
    requires report.content == report.llmResponse.content
    ensures var next := events + [Event(Report, Completed)] + [Event(Save, Started)];
            ContinuesFrom(SaveStage(env, options, report, next, calls), Milestones(events), 3, provider)
  {
    var next := events + [Event(Report, Completed)] + [Event(Save, Started)];
    CloseAndStart(events, calls, Report, Save);
    SaveContinues(env, options, report, next, calls, provider);
    ClosedAndStarted(SaveStage(env, options, report, next, calls), events, Report, Save, provider);
  }

  lemma ReportContinues(c: Collaborators, env: Environment, options: PipelineOptions, video: DownloadedVideo,
                        transcription: TranscriptionResult, events: seq<ProgressEvent>, calls: seq<Call>, provider: string)
    requires ReachedStage(events, calls, Report)
    ensures ContinuesFrom(ReportStage(c, env, options, video, transcription, events, calls), Milestones(events), 3, provider)
  {
    var t := ReportStage(c, env, options, video, transcription, events, calls);
    var prompt := c.render(Prompt.PromptContext(video.metadata, transcription));
    var llmOptions := LlmOptions(options);
    var call := Call(Report, CompletePrompt(prompt, llmOptions));
    Advance(events, calls, [], [call], Report, Report);
    assert events + [] == events;
    match Router.Complete(c.router, prompt, Some(llmOptions))
    case Thrown(m) =>
      ThrownContinues(events, calls + [call], m, Report, provider);
    case Returned(Err(e)) =>
      FailingContinues(Report, e, events, calls + [call], provider);
    case Returned(Ok(response)) =>
      var report := R.NewPipelineReport(response.content, video.metadata, response, env.today);
      ReportDone(env, options, report, events, calls + [call], provider);
  }

  /** After a transcription: the stage closes and the report stage starts. */
  lemma TranscribeDone(c: Collaborators, env: Environment, options: PipelineOptions, video: DownloadedVideo,
                       transcription: TranscriptionResult, events: seq<ProgressEvent>, calls: seq<Call>, provider: string)
    requires ReachedStage(events, calls, Transcribe)
    ensures var next := events + [Event(Transcribe, Completed)] + [Event(Report, Started)];
            ContinuesFrom(ReportStage(c, env, options, video, transcription, next, calls), Milestones(events), 2, provider)
  {
    var next := events + [Event(Transcribe, Completed)] + [Event(Report, Started)];
    CloseAndStart(events, calls, Transcribe, Report);
    ReportContinues(c, env, options, video, transcription, next, calls, provider);
    ClosedAndStarted(ReportStage(c, env, options, video, transcription, next, calls), events, Transcribe, Report, provider);
  }

  /** The transcription stage continues the walk from the events it has forwarded. */
  lemma TranscribeForwarded(c: Collaborators, env: Environment, options: PipelineOptions, video: DownloadedVideo,
                            events: seq<ProgressEvent>, calls: seq<Call>, provider: string)
    requires ReachedStage(events, calls, Transcribe)
    ensures var run := c.transcribe(video.audioPath, TranscriberOptions(options, TempDir(env)));
            ContinuesFrom(TranscribeStage(c, env, options, video, events, calls),
                          Milestones(events + Relabel(run.events, Transcribe)), 2, provider)
  {
    var run := c.transcribe(video.audioPath, TranscriberOptions(options, TempDir(env)));
    match run.outcome
    case Thrown(_) => TranscribeThrew(c, env, options, video, events, calls, provider, run);
    case Returned(Err(_)) => TranscribeFailed(c, env, options, video, events, calls, provider, run);
    case Returned(Ok(_)) => TranscribeSucceeded(c, env, options, video, events, calls, provider, run);
  }

  lemma TranscribeThrew(c: Collaborators, env: Environment, options: PipelineOptions, video: DownloadedVideo,
                        events: seq<ProgressEvent>, calls: seq<Call>, provider: string, run: TranscriberRun)
    requires ReachedStage(events, calls, Transcribe)
    requires run == c.transcribe(video.audioPath, TranscriberOptions(options, TempDir(env))) && run.outcome.Thrown?
    ensures ContinuesFrom(TranscribeStage(c, env, options, video, events, calls),
                          Milestones(events + Relabel(run.events, Transcribe)), 2, provider)
  {
    var transcriberOptions := TranscriberOptions(options, TempDir(env));
    var forwarded := events + Relabel(run.events, Transcribe);
    var call := Call(Transcribe, TranscribeAudio(video.audioPath, transcriberOptions));
    assert TranscribeStage(c, env, options, video, events, calls) == RunTrace(forwarded, calls + [call], Thrown(run.outcome.message));
    ThrownContinues(forwarded, calls + [call], run.outcome.message, Transcribe, provider);
  }

  lemma TranscribeFailed(c: Collaborators, env: Environment, options: PipelineOptions, video: DownloadedVideo,
                         events: seq<ProgressEvent>, calls: seq<Call>, provider: string, run: TranscriberRun)
    requires ReachedStage(events, calls, Transcribe)
    requires run == c.transcribe(video.audioPath, TranscriberOptions(options, TempDir(env)))
    requires run.outcome.Returned? && run.outcome.value.Err?
    ensures ContinuesFrom(TranscribeStage(c, env, options, video, events, calls),
                          Milestones(events + Relabel(run.events, Transcribe)), 2, provider)
  {
    var transcriberOptions := TranscriberOptions(options, TempDir(env));
    var forwarded := events + Relabel(run.events, Transcribe);
    var call := Call(Transcribe, TranscribeAudio(video.audioPath, transcriberOptions));
    Advance(events, calls, Relabel(run.events, Transcribe), [call], Transcribe, Transcribe);
    var e := run.outcome.value.error;
    assert TranscribeStage(c, env, options, video, events, calls) == Failing(Transcribe, e, forwarded, calls + [call]);
    FailingContinues(Transcribe, e, forwarded, calls + [call], provider);
  }

  lemma TranscribeSucceeded(c: Collaborators, env: Environment, options: PipelineOptions, video: DownloadedVideo,
                            events: seq<ProgressEvent>, calls: seq<Call>, provider: string, run: TranscriberRun)
    requires ReachedStage(events, calls, Transcribe)
    requires run == c.transcribe(video.audioPath, TranscriberOptions(options, TempDir(env)))
    requires run.outcome.Returned? && run.outcome.value.Ok?
    ensures ContinuesFrom(TranscribeStage(c, env, options, video, events, calls),
                          Milestones(events + Relabel(run.events, Transcribe)), 2, provider)
  {
    var transcriberOptions := TranscriberOptions(options, TempDir(env));
    var forwarded := events + Relabel(run.events, Transcribe);
    var call := Call(Transcribe, TranscribeAudio(video.audioPath, transcriberOptions));
    Advance(events, calls, Relabel(run.events, Transcribe), [call], Transcribe, Transcribe);
    var transcription := run.outcome.value.value;
    TranscribeDone(c, env, options, video, transcription, forwarded, calls + [call], provider);
  }

  lemma TranscribeContinues(c: Collaborators, env: Environment, options: PipelineOptions, video: DownloadedVideo,
                            events: seq<ProgressEvent>, calls: seq<Call>, provider: string)
    requires ReachedStage(events, calls, Transcribe)
    requires ForwardsProgressOnly(c, env, options)
    ensures ContinuesFrom(TranscribeStage(c, env, options, video, events, calls), Milestones(events), 2, provider)
  {
    var run := c.transcribe(video.audioPath, TranscriberOptions(options, TempDir(env)));
    assert ProgressOnly(run.events);
    TranscribeForwarded(c, env, options, video, events, calls, provider);
    ForwardedContinues(TranscribeStage(c, env, options, video, events, calls), events, run.events, Transcribe, 2, provider);
  }

  /** After a download: the stage closes and the transcription starts. */
  lemma DownloadDone(c: Collaborators, env: Environment, options: PipelineOptions, video: DownloadedVideo,
                     events: seq<ProgressEvent>, calls: seq<Call>, provider: string)
    requires ReachedStage(events, calls, Download)
    requires ForwardsProgressOnly(c, env, options)
    ensures var next := events + [Event(Download, Completed)] + [Event(Transcribe, Started)];
            ContinuesFrom(TranscribeStage(c, env, options, video, next, calls), Milestones(events), 1, provider)
  {
    var next := events + [Event(Download, Completed)] + [Event(Transcribe, Started)];
    CloseAndStart(events, calls, Download, Transcribe);
    TranscribeContinues(c, env, options, video, next, calls, provider);
    ClosedAndStarted(TranscribeStage(c, env, options, video, next, calls), events, Download, Transcribe, provider);
  }

  lemma DownloadContinues(c: Collaborators, env: Environment, options: PipelineOptions, provider: VideoProvider,
                          events: seq<ProgressEvent>)
    requires ReachedStage(events, [], Download)
    requires ForwardsProgressOnly(c, env, options)
    requires ProgressOnly(provider.download(options.url, TempDir(env)).events)
    ensures ContinuesFrom(DownloadStage(c, env, options, provider, events), Milestones(events), 1, provider.name)
  {
    var run := provider.download(options.url, TempDir(env));
    if run.result.Err? {
      DownloadFailed(c, env, options, provider, events, run);
    } else {
      DownloadSucceeded(c, env, options, provider, events, run);
    }
    ForwardedContinues(DownloadStage(c, env, options, provider, events), events, run.events, Download, 1, provider.name);
  }

  lemma DownloadFailed(c: Collaborators, env: Environment, options: PipelineOptions, provider: VideoProvider,
                       events: seq<ProgressEvent>, run: DownloadRun)
    requires ReachedStage(events, [], Download)
    requires run == provider.download(options.url, TempDir(env)) && run.result.Err?
    ensures ContinuesFrom(DownloadStage(c, env, options, provider, events),
                          Milestones(events + Relabel(run.events, Download)), 1, provider.name)
  {
    var tempDir := TempDir(env);
    var forwarded := events + Relabel(run.events, Download);
    var calls := [Call(Download, EnsureDir(tempDir)), Call(Download, DownloadVideo(provider.name, options.url, tempDir))];
    Advance(events, [], Relabel(run.events, Download), calls, Download, Download);
    assert [] + calls == calls;
    FailingContinues(Download, run.result.error, forwarded, calls, provider.name);
  }

  lemma DownloadSucceeded(c: Collaborators, env: Environment, options: PipelineOptions, provider: VideoProvider,
                          events: seq<ProgressEvent>, run: DownloadRun)
    requires ReachedStage(events, [], Download)
    requires ForwardsProgressOnly(c, env, options)
    requires run == provider.download(options.url, TempDir(env)) && run.result.Ok?
    ensures ContinuesFrom(DownloadStage(c, env, options, provider, events),
                          Milestones(events + Relabel(run.events, Download)), 1, provider.name)
  {
    var tempDir := TempDir(env);
    var forwarded := events + Relabel(run.events, Download);
    var calls := [Call(Download, EnsureDir(tempDir)), Call(Download, DownloadVideo(provider.name, options.url, tempDir))];
    Advance(events, [], Relabel(run.events, Download), calls, Download, Download);
    assert [] + calls == calls;
    DownloadDone(c, env, options, run.result.value, forwarded, calls, provider.name);
  }

  /** The provider a run detects, or none. */
  function DetectedName(c: Collaborators, options: PipelineOptions): string {
    match FindProvider(c.providers, options.url)
    case Ok(p) => p.name
    case Err(_) => ""
  }

  /** Whenever the adapters forward only progress reports, the milestones
      of a run are the walk through the stages: all five started and
      completed in order on success; the stages before the failing one,
      then its `started` and `failed` events, on failure; and the stages
      up to the throwing one when a collaborator throws. */
  lemma RunMilestones(c: Collaborators, env: Environment, options: PipelineOptions)
    requires ForwardsProgressOnly(c, env, options)
    ensures ContinuesFrom(Run(c, env, options), [Event(Detect, Started)], 0, DetectedName(c, options))
  {
    match FindProvider(c.providers, options.url)
    case Err(e) =>
      NothingDetected(c, env, options, e);
    case Ok(provider) =>
      DetectedContinues(c, env, options, provider);
  }

  /** Without a provider for the URL, the run fails in detection. */
  lemma NothingDetected(c: Collaborators, env: Environment, options: PipelineOptions, e: Error)
    requires FindProvider(c.providers, options.url) == Err(e)
    ensures ContinuesFrom(Run(c, env, options), [Event(Detect, Started)], 0, "")
  {
    var started := [Event(Detect, Started)];
    assert ReachedStage(started, [], Detect);
    MilestonesOfMilestones(started);
    FailingContinues(Detect, e, started, [], "");
  }

  /** Once a provider is detected, the run closes detection and continues
      the walk from the download stage. */
  lemma DetectedContinues(c: Collaborators, env: Environment, options: PipelineOptions, provider: VideoProvider)
    requires ForwardsProgressOnly(c, env, options)
    requires FindProvider(c.providers, options.url) == Ok(provider)
    ensures ContinuesFrom(Run(c, env, options), [Event(Detect, Started)], 0, provider.name)
  {
    var name := provider.name;
    var next := [Event(Detect, Started)] + [EventWithMessage(Detect, Completed, name)] + [Event(Download, Started)];
    DetectionClosed(name);
    FoundProviderForwardsProgress(c, env, options, provider);
    DownloadContinues(c, env, options, provider, next);
    DetectionStep(DownloadStage(c, env, options, provider, next), name);
  }

  /** Detection closed with the provider's name, the download stage is reached. */
  lemma DetectionClosed(name: string)
    ensures ReachedStage([Event(Detect, Started)] + [EventWithMessage(Detect, Completed, name)] + [Event(Download, Started)],
                         [], Download)
  {
    var started := [Event(Detect, Started)];
    assert ReachedStage(started, [], Detect);
    Advance(started, [], [EventWithMessage(Detect, Completed, name)], [], Detect, Detect);
    Advance(started + [EventWithMessage(Detect, Completed, name)], [], [Event(Download, Started)], [], Detect, Download);
  }

  /** The provider found for the URL is one of the registered ones, so it forwards only progress. */
  lemma FoundProviderForwardsProgress(c: Collaborators, env: Environment, options: PipelineOptions, provider: VideoProvider)
    requires ForwardsProgressOnly(c, env, options)
    requires FindProvider(c.providers, options.url) == Ok(provider)
    ensures ProgressOnly(provider.download(options.url, TempDir(env)).events)
  {
    var k :| 0 <= k < |c.providers| && c.providers[k] == provider;
  }

  /** Closing detection and starting the download is the walk's first step. */
  lemma DetectionStep(t: RunTrace, name: string)
    requires ContinuesFrom(t, Milestones([Event(Detect, Started)] + [EventWithMessage(Detect, Completed, name)]
                                         + [Event(Download, Started)]), 1, name)
    ensures ContinuesFrom(t, [Event(Detect, Started)], 0, name)
  {
    var started := [Event(Detect, Started)];
    assert started + [EventWithMessage(Detect, Completed, name)] + [Event(Download, Started)]
        == started + [Completion(0, name), Event(StageAt(1), Started)];
    MilestonesOfMilestones(started);
    StepContinues(t, started, 0, name);
  }

}

=== FILE: process.dfy ===
/** External processes as the rest of the program observes them: the
    command line it asks for, the output chunks the process wrote, whether
    it failed, and the progress events derived line by line from the
    output.  Spawning and waiting are not modelled. */
module Process {

  import opened Wrappers
  import opened Text
  import opened Errors
  import opened Events

  /** A requested command line and its working directory. */
  datatype Command = Command(program: string, args: seq<string>, cwd: Option<string>)

  /** One process as observed: the output chunks in arrival order and, for
      a non-zero exit or a failure to start, the process error. */
  datatype ProcessRun = ProcessRun(chunks: seq<string>, failure: Option<Error>)

  /** The progress event a parsed percentage becomes. */
  function ProgressOf(command: string, percent: real): ProgressEvent {
    ProgressEvent(command, Progress, Some(percent), None, None)
  }

  /** The progress events of some output lines: one per line the parser
      reads a percentage from, in order. */
  function LineEvents(command: string, lines: seq<string>, parse: string -> Option<real>): (r: seq<ProgressEvent>)
    ensures |r| <= |lines|
    ensures forall i :: 0 <= i < |r| ==> r[i].stage == command && r[i].status == Progress && r[i].percent.Some?
    ensures (forall i :: 0 <= i < |lines| ==> parse(lines[i]).None?) ==> r == []
  {
    if |lines| == 0 then []
    else
      var first := match parse(lines[0])
        case Some(p) => [ProgressOf(command, p)]
        case None => [];
      first + LineEvents(command, lines[1..], parse)
  }

  /** Every event of `LineEvents` carries a percentage the parser read
      from one of the lines. */
  lemma {:induction false} LineEventsComeFromLines(command: string, lines: seq<string>, parse: string -> Option<real>)
    ensures forall e :: e in LineEvents(command, lines, parse) ==>
              exists i :: 0 <= i < |lines| && parse(lines[i]).Some? && e == ProgressOf(command, parse(lines[i]).value)
  {
    if |lines| > 0 {
      LineEventsComeFromLines(command, lines[1..], parse);
      var rest := LineEvents(command, lines[1..], parse);
      forall e | e in LineEvents(command, lines, parse)
        ensures exists i :: 0 <= i < |lines| && parse(lines[i]).Some? && e == ProgressOf(command, parse(lines[i]).value)
      {
        if e in rest {
          var j :| 0 <= j < |lines[1..]| && parse(lines[1..][j]).Some? && e == ProgressOf(command, parse(lines[1..][j]).value);
          assert lines[1..][j] == lines[j + 1];
        } else {
          assert parse(lines[0]).Some? && e == ProgressOf(command, parse(lines[0]).value);
        }
      }
    }
  }

  /** Every line the parser reads a percentage from yields its event. */
  lemma {:induction false} LineEventsCoverLines(command: string, lines: seq<string>, parse: string -> Option<real>)
    ensures forall i :: 0 <= i < |lines| && parse(lines[i]).Some? ==>
              ProgressOf(command, parse(lines[i]).value) in LineEvents(command, lines, parse)
  {
    if |lines| > 0 {
      LineEventsCoverLines(command, lines[1..], parse);
      forall i | 0 <= i < |lines| && parse(lines[i]).Some?
        ensures ProgressOf(command, parse(lines[i]).value) in LineEvents(command, lines, parse)
      {
        if i > 0 {
          assert lines[i] == lines[1..][i - 1];
        }
      }
    }
  }

  /** The events one line contributes: its progress event when the parser
      reads a percentage from it, otherwise none. */
  function LineEvent(command: string, line: string, parse: string -> Option<real>): seq<ProgressEvent> {
    if parse(line).Some? then [ProgressOf(command, parse(line).value)] else []
  }

  /** The events of consecutive lines are the events of the first lines
      followed by those of the rest: nothing is reordered, merged or
      dropped across lines. */
  lemma {:induction false} LineEventsConcat(command: string, a: seq<string>, b: seq<string>, parse: string -> Option<real>)
    ensures LineEvents(command, a + b, parse) == LineEvents(command, a, parse) + LineEvents(command, b, parse)
  {
    if |a| > 0 {
      assert (a + b)[1..] == a[1..] + b;
      assert (a + b)[0] == a[0];
      LineEventsConcat(command, a[1..], b, parse);
    } else {
      assert a + b == b;
    }
  }

  /** A single line yields exactly its own event, or none. */
  lemma LineEventsOfOneLine(command: string, line: string, parse: string -> Option<real>)
    ensures LineEvents(command, [line], parse) == LineEvent(command, line, parse)
  {
    assert [line][1..] == [];
  }

  /** One more line appends exactly that line's event: with
      `LineEventsConcat` this pins the events to one per parsing line, in
      line order, repeats included. */
  lemma LineEventsAppend(command: string, lines: seq<string>, line: string, parse: string -> Option<real>)
    ensures LineEvents(command, lines + [line], parse) == LineEvents(command, lines, parse) + LineEvent(command, line, parse)
  {
    LineEventsConcat(command, lines, [line], parse);
    LineEventsOfOneLine(command, line, parse);
  }

  /** The progress events of the output as it arrives: each chunk is split
      into lines on its own, so a line cut across two chunks is read as
      two partial lines. */
  function ChunkEvents(command: string, chunks: seq<string>, parse: string -> Option<real>): (r: seq<ProgressEvent>)
    ensures forall i :: 0 <= i < |r| ==> r[i].stage == command && r[i].status == Progress && r[i].percent.Some?
  {
    if |chunks| == 0 then [] else LineEvents(command, Split(chunks[0], '\n'), parse) + ChunkEvents(command, chunks[1..], parse)
  }

  /** Output arriving in two batches produces the events of each batch, in
      order. */
  lemma {:induction false} ChunkEventsConcat(command: string, a: seq<string>, b: seq<string>, parse: string -> Option<real>)
    ensures ChunkEvents(command, a + b, parse) == ChunkEvents(command, a, parse) + ChunkEvents(command, b, parse)
  {
    if |a| > 0 {
      assert (a + b)[1..] == a[1..] + b;
      ChunkEventsConcat(command, a[1..], b, parse);
    } else {
      assert a + b == b;
    }
  }
}

=== FILE: prompt.dfy ===
/** The video-report prompt: a fixed Russian-language instruction text
    with the video's metadata, the transcription's language and confidence
    and the full transcript text filled in. */
module Prompt {

  import opened Wrappers
  import opened Text
  import opened Video
  import opened Transcript

  const TemplateName := "video-report"

  /** What the prompt is rendered from. */
  datatype PromptContext = PromptContext(metadata: VideoMetadata, transcription: TranscriptionResult)

  /** `Math.round`: the nearest integer, halves rounded up. */
  function Round(x: real): (n: int)
    ensures x - 0.5 < n as real <= x + 0.5
  {
    (x + 0.5).Floor
  }

  /** The confidence as a whole percentage. */
  function ConfidencePercent(confidence: real): int {
    Round(confidence * 100.0)
  }

  /** A confidence in [0, 1] is shown as a percentage in [0, 100]. */
  lemma ConfidencePercentBounds(confidence: real)
    requires 0.0 <= confidence <= 1.0
    ensures 0 <= ConfidencePercent(confidence) <= 100
  {
  }

  const Heading1 := "Краткое содержание"
  const Heading2 := "Ключевые темы"
  const Heading3 := "Основные тезисы"
  const Heading4 := "Цитаты"
  const Heading5 := "Заключение"

  const Intro := "Ты — аналитик видеоконтента. Проанализируй транскрипцию видео и создай структурированный отчёт в формате Markdown.\n\n## Информация о видео\n\n- **Название:** "
  const AuthorLabel := "\n- **Автор:** "
  const DurationLabel := "\n- **Длительность:** "
  const UrlLabel := "\n- **URL:** "
  const LanguageLabel := "\n- **Язык транскрипции:** "
  const ConfidenceLabel := "\n- **Уверенность транскрипции:** "
  const TranscriptHeading := "%\n\n## Транскрипция\n\n"
  const Instructions := "\n\n---\n\n## Инструкции\n\nСоздай отчёт на том же языке, что и транскрипция, со следующей структурой:\n\n1. **"
  const Item1 := "** (3–5 предложений) — основная суть видео\n2. **"
  const Item2 := "** — маркированный список основных тем/разделов\n3. **"
  const Item3 := "** — нумерованный список ключевых идей и выводов\n4. **"
  const Item4 := "** — 3–5 наиболее значимых цитат из транскрипции (дословно)\n5. **"
  const Closing := "** — краткий итог и основной вывод\n\nПиши ёмко, но информативно. Не добавляй информацию, которой нет в транскрипции."

  /** The prompt's pieces in order: fixed text alternating with the
      filled-in values. */
  function Pieces(title: string, author: string, duration: string, url: string,
                  language: string, percent: string, fullText: string): seq<string>
  {
    [Intro, title, AuthorLabel, author, DurationLabel, duration, UrlLabel, url, LanguageLabel, language,
     ConfidenceLabel, percent, TranscriptHeading, fullText, Instructions,
     Heading1, Item1, Heading2, Item2, Heading3, Item3, Heading4, Item4, Heading5, Closing]
  }

  /** The values a context fills in. */
  function ContextPieces(context: PromptContext): seq<string>
  {
    var m := context.metadata;
    var t := context.transcription;
    Pieces(m.title, m.author, FormattedDuration(m.durationSeconds), m.url, t.language,
           IntToString(ConfidencePercent(t.AverageConfidence())), t.FullText())
  }

  /** `render`: the pieces joined. */
  function Render(context: PromptContext): string
  {
    Join(ContextPieces(context), "")
  }

  /** Each filled-in value and each heading occurs in the joined pieces. */
  lemma PieceShown(title: string, author: string, duration: string, url: string,
                    language: string, percent: string, fullText: string, k: nat)
    requires k < 25
    ensures var parts := Pieces(title, author, duration, url, language, percent, fullText);
            Contains(Join(parts, ""), parts[k])
  {
    JoinContainsPart(Pieces(title, author, duration, url, language, percent, fullText), "", k);
  }

  lemma TitleShown(title: string, author: string, duration: string, url: string,
                    language: string, percent: string, fullText: string)
    ensures Contains(Join(Pieces(title, author, duration, url, language, percent, fullText), ""), title)
  {
    PieceShown(title, author, duration, url, language, percent, fullText, 1);
  }

  lemma AuthorShown(title: string, author: string, duration: string, url: string,
                    language: string, percent: string, fullText: string)
    ensures Contains(Join(Pieces(title, author, duration, url, language, percent, fullText), ""), author)
  {
    PieceShown(title, author, duration, url, language, percent, fullText, 3);
  }

  lemma DurationShown(title: string, author: string, duration: string, url: string,
                    language: string, percent: string, fullText: string)
    ensures Contains(Join(Pieces(title, author, duration, url, language, percent, fullText), ""), duration)
  {
    PieceShown(title, author, duration, url, language, percent, fullText, 5);
  }

  lemma UrlShown(title: string, author: string, duration: string, url: string,
                    language: string, percent: string, fullText: string)
    ensures Contains(Join(Pieces(title, author, duration, url, language, percent, fullText), ""), url)
  {
    PieceShown(title, author, duration, url, language, percent, fullText, 7);
  }

  lemma LanguageShown(title: string, author: string, duration: string, url: string,
                    language: string, percent: string, fullText: string)
    ensures Contains(Join(Pieces(title, author, duration, url, language, percent, fullText), ""), language)
  {
    PieceShown(title, author, duration, url, language, percent, fullText, 9);
  }

  lemma FullTextShown(title: string, author: string, duration: string, url: string,
                    language: string, percent: string, fullText: string)
    ensures Contains(Join(Pieces(title, author, duration, url, language, percent, fullText), ""), fullText)
  {
    PieceShown(title, author, duration, url, language, percent, fullText, 13);
  }

  lemma Heading1Shown(title: string, author: string, duration: string, url: string,
                    language: string, percent: string, fullText: string)
    ensures Contains(Join(Pieces(title, author, duration, url, language, percent, fullText), ""), Heading1)
  {
    PieceShown(title, author, duration, url, language, percent, fullText, 15);
  }

  lemma Heading2Shown(title: string, author: string, duration: string, url: string,
                    language: string, percent: string, fullText: string)
    ensures Contains(Join(Pieces(title, author, duration, url, language, percent, fullText), ""), Heading2)
  {
    PieceShown(title, author, duration, url, language, percent, fullText, 17);
  }

  lemma Heading3Shown(title: string, author: string, duration: string, url: string,
                    language: string, percent: string, fullText: string)
    ensures Contains(Join(Pieces(title, author, duration, url, language, percent, fullText), ""), Heading3)
  {
    PieceShown(title, author, duration, url, language, percent, fullText, 19);
  }

  lemma Heading4Shown(title: string, author: string, duration: string, url: string,
                    language: string, percent: string, fullText: string)
    ensures Contains(Join(Pieces(title, author, duration, url, language, percent, fullText), ""), Heading4)
  {
    PieceShown(title, author, duration, url, language, percent, fullText, 21);
  }

  lemma Heading5Shown(title: string, author: string, duration: string, url: string,
                    language: string, percent: string, fullText: string)
    ensures Contains(Join(Pieces(title, author, duration, url, language, percent, fullText), ""), Heading5)
  {
    PieceShown(title, author, duration, url, language, percent, fullText, 23);
  }

  lemma MetadataShown(title: string, author: string, duration: string, url: string,
                    language: string, percent: string, fullText: string)
    ensures var r := Join(Pieces(title, author, duration, url, language, percent, fullText), "");
            Contains(r, title) && Contains(r, author) && Contains(r, duration) && Contains(r, url)
  {
    TitleShown(title, author, duration, url, language, percent, fullText);
    AuthorShown(title, author, duration, url, language, percent, fullText);
    DurationShown(title, author, duration, url, language, percent, fullText);
    UrlShown(title, author, duration, url, language, percent, fullText);
  }

  lemma TranscriptionShown(title: string, author: string, duration: string, url: string,
                    language: string, percent: string, fullText: string)
    ensures var r := Join(Pieces(title, author, duration, url, language, percent, fullText), "");
            Contains(r, language) && Contains(r, percent + "%") && Contains(r, fullText)
  {
    var parts := Pieces(title, author, duration, url, language, percent, fullText);
    LanguageShown(title, author, duration, url, language, percent, fullText);
    FullTextShown(title, author, duration, url, language, percent, fullText);
    assert StartsWith(TranscriptHeading, "%");
    PercentFollowsNumber(parts);
  }

  lemma HeadingsShown(title: string, author: string, duration: string, url: string,
                    language: string, percent: string, fullText: string)
    ensures var r := Join(Pieces(title, author, duration, url, language, percent, fullText), "");
            Contains(r, Heading1) && Contains(r, Heading2) && Contains(r, Heading3)
            && Contains(r, Heading4) && Contains(r, Heading5)
  {
    Heading1Shown(title, author, duration, url, language, percent, fullText);
    Heading2Shown(title, author, duration, url, language, percent, fullText);
    Heading3Shown(title, author, duration, url, language, percent, fullText);
    Heading4Shown(title, author, duration, url, language, percent, fullText);
    Heading5Shown(title, author, duration, url, language, percent, fullText);
  }

  /** The rendered prompt shows the video's title, author, duration and URL,
      the transcription's language, its confidence as a percentage, the
      full transcript text, and the five report headings. */
  lemma RenderShowsEverything(context: PromptContext)
    ensures var r := Render(context);
            var m := context.metadata;
            var t := context.transcription;
            && Contains(r, m.title) && Contains(r, m.author) && Contains(r, FormattedDuration(m.durationSeconds))
            && Contains(r, m.url) && Contains(r, t.language)
            && Contains(r, IntToString(ConfidencePercent(t.AverageConfidence())) + "%")
            && Contains(r, t.FullText())
            && Contains(r, Heading1) && Contains(r, Heading2) && Contains(r, Heading3)
            && Contains(r, Heading4) && Contains(r, Heading5)
  {
    var m := context.metadata;
    var t := context.transcription;
    var d := FormattedDuration(m.durationSeconds);
    var p := IntToString(ConfidencePercent(t.AverageConfidence()));
    MetadataShown(m.title, m.author, d, m.url, t.language, p, t.FullText());
    TranscriptionShown(m.title, m.author, d, m.url, t.language, p, t.FullText());
    HeadingsShown(m.title, m.author, d, m.url, t.language, p, t.FullText());
  }

  /** The number and the percent sign are adjacent. */
  lemma PercentFollowsNumber(parts: seq<string>)
    requires |parts| > 12 && StartsWith(parts[12], "%")
    ensures Contains(Join(parts, ""), parts[11] + "%")
  {
    var glued := parts[..11] + [parts[11] + parts[12]] + parts[13..];
    JoinGlue(parts, 11);
    JoinContainsPart(glued, "", 11);
    assert glued[11] == parts[11] + parts[12];
    var rest := parts[12][1..];
    assert parts[11] + parts[12] == (parts[11] + "%") + rest;
    ContainsInfix("", parts[11] + "%", rest);
    assert "" + (parts[11] + "%") + rest == glued[11];
    ContainsTransitive(Join(glued, ""), glued[11], parts[11] + "%");
  }
}

=== FILE: registry.dfy ===
/** Video providers and the registry that picks one for a URL.  A provider
    is its name, the URL test it applies, and what a download through it
    does, observed as a value: the commands it ran, the progress events it
    forwarded, and the downloaded video or the error. */
module Registry {

  import opened Wrappers
  import opened Errors
  import opened Events
  import opened Video
  import opened Process

  /** What one download call did and produced. */
  datatype DownloadRun = DownloadRun(
    calls: seq<Command>,
    events: seq<ProgressEvent>,
    result: Result<DownloadedVideo, Error>)

  /** A video provider: its name, its URL test, and its download as a
      function of the URL and the output directory. */
  datatype VideoProvider = VideoProvider(
    name: string,
    canHandle: string -> bool,
    download: (string, string) -> DownloadRun)

  const NoProviderPrefix := "No provider found for URL: "

  /** The error for a URL no provider handles. */
  function NoProviderError(url: string): Error {
    VideoError(VideoCode.ProviderNotFound, NoProviderPrefix + url, None)
  }

  /** `findProvider`: the first registered provider whose URL test accepts
      the URL; a provider-not-found error when there is none. */
  function FindProvider(providers: seq<VideoProvider>, url: string): (r: Result<VideoProvider, Error>)
    ensures r.Ok? <==> exists i :: 0 <= i < |providers| && providers[i].canHandle(url)
    ensures r.Err? ==> r.error == NoProviderError(url)
    ensures r.Ok? ==> exists i :: 0 <= i < |providers| && providers[i] == r.value && r.value.canHandle(url)
                                  && forall j :: 0 <= j < i ==> !providers[j].canHandle(url)
  {
    if |providers| == 0 then Err(NoProviderError(url))
    else if providers[0].canHandle(url) then Ok(providers[0])
    else
      var r := FindProvider(providers[1..], url);
      assert forall i :: 1 <= i < |providers| ==> providers[i] == providers[1..][i - 1];
      r
  }

  /** `registeredProviders`: the providers' names in registration order. */
  function RegisteredProviders(providers: seq<VideoProvider>): (names: seq<string>)
    ensures |names| == |providers|
    ensures forall i :: 0 <= i < |providers| ==> names[i] == providers[i].name
  {
    seq(|providers|, i requires 0 <= i < |providers| => providers[i].name)
  }

  /** The provider found is unique in the sense that matters: it is the one
      at the first position whose test accepts the URL. */
  lemma FindProviderIsFirstMatch(providers: seq<VideoProvider>, url: string, i: nat)
    requires i < |providers| && providers[i].canHandle(url)
    requires forall j :: 0 <= j < i ==> !providers[j].canHandle(url)
    ensures FindProvider(providers, url) == Ok(providers[i])
  {
    var r := FindProvider(providers, url);
    var k :| 0 <= k < |providers| && providers[k] == r.value && r.value.canHandle(url)
             && forall j :: 0 <= j < k ==> !providers[j].canHandle(url);
    assert k == i;
  }

  /** Registering a provider in front of others takes precedence for every
      URL it accepts and changes nothing for the URLs it rejects. */
  lemma PrependedProvider(p: VideoProvider, providers: seq<VideoProvider>, url: string)
    ensures p.canHandle(url) ==> FindProvider([p] + providers, url) == Ok(p)
    ensures !p.canHandle(url) ==> FindProvider([p] + providers, url) == FindProvider(providers, url)
  {
    assert ([p] + providers)[1..] == providers;
  }

  /** Registering a provider after others never changes a URL that already
      has a provider. */
  lemma {:induction false} AppendedProvider(providers: seq<VideoProvider>, p: VideoProvider, url: string)
    requires FindProvider(providers, url).Ok?
    ensures FindProvider(providers + [p], url) == FindProvider(providers, url)
  {
    assert |providers| > 0;
    if !providers[0].canHandle(url) {
      assert (providers + [p])[1..] == providers[1..] + [p];
      AppendedProvider(providers[1..], p, url);
    }
  }
}

=== FILE: report.dfy ===
/** The pipeline's report: the generated content with the video metadata
    and the language-model response it came from, rendered as Markdown
    under a header, and saved under a file name built from the generation
    date and a slug of the title. */
module Report {

  import opened Wrappers
  import opened Text
  import opened Video
  import opened Llm

  /** The calendar date of a timestamp (the clock is a parameter). */
  datatype CalendarDate = CalendarDate(year: nat, month: nat, day: nat)

  /** Dates `toISOString` writes with a four-digit year. */
  predicate ValidDate(d: CalendarDate) {
    d.year <= 9999 && 1 <= d.month <= 12 && 1 <= d.day <= 31
  }

  /** The `YYYY-MM-DD` part of the ISO 8601 rendering. */
  function IsoDate(d: CalendarDate): string {
    PadStart(NatToString(d.year), 4, '0') + "-" + PadStart(NatToString(d.month), 2, '0') + "-"
    + PadStart(NatToString(d.day), 2, '0')
  }

  /** Ten characters: digits with dashes at positions 4 and 7. */
  predicate DateText(s: string) {
    && |s| == 10 && s[4] == '-' && s[7] == '-'
    && forall i :: 0 <= i < 10 && i != 4 && i != 7 ==> IsDigit(s[i])
  }

  /** A valid date renders as `YYYY-MM-DD`. */
  lemma IsoDateShape(d: CalendarDate)
    requires ValidDate(d)
    ensures DateText(IsoDate(d))
  {
    assert Pow10(4) == 10000 && Pow10(2) == 100;
    PaddedNumber(d.year, 4);
    PaddedNumber(d.month, 2);
    PaddedNumber(d.day, 2);
    DashedShape(PadStart(NatToString(d.year), 4, '0'), PadStart(NatToString(d.month), 2, '0'),
                PadStart(NatToString(d.day), 2, '0'));
  }

  /** A number below `10^w`, zero-padded to `w`, is exactly `w` digits. */
  lemma PaddedNumber(n: nat, w: nat)
    requires 1 <= w && n < Pow10(w)
    ensures |PadStart(NatToString(n), w, '0')| == w && AllDigits(PadStart(NatToString(n), w, '0'))
  {
    NatToStringLength(n, w);
    PaddedDigits(NatToString(n), w);
  }

  lemma DashedShape(y: string, m: string, dd: string)
    requires |y| == 4 && |m| == 2 && |dd| == 2 && AllDigits(y) && AllDigits(m) && AllDigits(dd)
    ensures DateText(y + "-" + m + "-" + dd)
  {
    var s := y + "-" + m + "-" + dd;
    forall i | 0 <= i < 10 && i != 4 && i != 7 ensures IsDigit(s[i]) {
      if i < 4 {
        assert s[i] == y[i];
      } else if i < 7 {
        assert s[i] == m[i - 5];
      } else {
        assert s[i] == dd[i - 8];
      }
    }
  }

  /** Zero-padding digits gives digits. */
  lemma PaddedDigits(s: string, width: nat)
    requires AllDigits(s)
    ensures AllDigits(PadStart(s, width, '0'))
  {
    var r := PadStart(s, width, '0');
    forall i | 0 <= i < |r| ensures IsDigit(r[i]) {
      if i >= |r| - |s| {
        assert r[i] == r[|r| - |s|..][i - (|r| - |s|)];
      }
    }
  }

  /** A generated report; the generation date is taken when it is built. */
  datatype PipelineReport = PipelineReport(
    content: string,
    metadata: VideoMetadata,
    llmResponse: LlmResponse,
    generatedAt: CalendarDate)

  /** The report constructor stores everything unchanged; `now` is the clock's date. */
  function NewPipelineReport(content: string, metadata: VideoMetadata, llmResponse: LlmResponse, now: CalendarDate): (r: PipelineReport)
    ensures r.content == content && r.metadata == metadata && r.llmResponse == llmResponse && r.generatedAt == now
  {
    PipelineReport(content, metadata, llmResponse, now)
  }

  const AuthorLine := "\n\n> **Автор:** "
  const DurationLine := "\n> **Длительность:** "
  const SourceLine := "\n> **Источник:** "
  const ModelLine := "\n> **Модель:** "
  const DateLine := ")\n> **Дата генерации:** "
  const HeaderEnd := "\n\n---\n\n"

  /** The header's pieces in order. */
  function HeaderPieces(r: PipelineReport): seq<string>
  {
    ["# " + r.metadata.title, AuthorLine, r.metadata.author, DurationLine, FormattedDuration(r.metadata.durationSeconds),
     SourceLine, r.metadata.url, ModelLine, r.llmResponse.model, " (", r.llmResponse.provider,
     DateLine, IsoDate(r.generatedAt), HeaderEnd]
  }

  /** `toMarkdown`: the header, then the content. */
  function ToMarkdown(r: PipelineReport): (md: string)
    ensures EndsWith(md, r.content)
  {
    var header := Join(HeaderPieces(r), "");
    assert (header + r.content)[|header|..] == r.content;
    header + r.content
  }

  /** The Markdown opens with the title as a level-one heading and shows
      the author, the duration, the source URL, the model and provider, the
      generation date, and the content. */
  lemma MarkdownShowsEverything(r: PipelineReport)
    ensures var md := ToMarkdown(r);
            && StartsWith(md, "# " + r.metadata.title)
            && Contains(md, r.metadata.author) && Contains(md, FormattedDuration(r.metadata.durationSeconds))
            && Contains(md, r.metadata.url) && Contains(md, r.llmResponse.model)
            && Contains(md, r.llmResponse.provider) && Contains(md, IsoDate(r.generatedAt))
            && Contains(md, r.content)
  {
    MarkdownStartsWithTitle(r);
    AuthorShown(r);
    DurationShown(r);
    UrlShown(r);
    ModelShown(r);
    ProviderShown(r);
    DateShown(r);
    ContentShown(r);
  }

  lemma MarkdownStartsWithTitle(r: PipelineReport)
    ensures StartsWith(ToMarkdown(r), "# " + r.metadata.title)
  {
    var parts := HeaderPieces(r);
    var header := Join(parts, "");
    JoinStartsWithFirst(parts, "");
    assert ToMarkdown(r)[..|parts[0]|] == header[..|parts[0]|];
  }

  lemma AuthorShown(r: PipelineReport)
    ensures Contains(ToMarkdown(r), r.metadata.author)
  {
    HeaderShown(r, 2, r.metadata.author);
  }

  lemma DurationShown(r: PipelineReport)
    ensures Contains(ToMarkdown(r), FormattedDuration(r.metadata.durationSeconds))
  {
    HeaderShown(r, 4, FormattedDuration(r.metadata.durationSeconds));
  }

  lemma UrlShown(r: PipelineReport)
    ensures Contains(ToMarkdown(r), r.metadata.url)
  {
    HeaderShown(r, 6, r.metadata.url);
  }

  lemma ModelShown(r: PipelineReport)
    ensures Contains(ToMarkdown(r), r.llmResponse.model)
  {
    HeaderShown(r, 8, r.llmResponse.model);
  }

  lemma ProviderShown(r: PipelineReport)
    ensures Contains(ToMarkdown(r), r.llmResponse.provider)
  {
    HeaderShown(r, 10, r.llmResponse.provider);
  }

  lemma DateShown(r: PipelineReport)
    ensures Contains(ToMarkdown(r), IsoDate(r.generatedAt))
  {
    HeaderShown(r, 12, IsoDate(r.generatedAt));
  }

  lemma ContentShown(r: PipelineReport)
    ensures Contains(ToMarkdown(r), r.content)
  {
    var header := Join(HeaderPieces(r), "");
    ContainsInfix(header, r.content, "");
    assert header + r.content + "" == ToMarkdown(r);
  }

  /** A header piece occurs in the Markdown. */
  lemma HeaderShown(r: PipelineReport, k: nat, piece: string)
    requires k < 14 && HeaderPieces(r)[k] == piece
    ensures Contains(ToMarkdown(r), piece)
  {
    PieceShown(HeaderPieces(r), r.content, k, piece);
  }

  /** A piece of a joined header occurs in the header followed by any text. */
  lemma PieceShown(pieces: seq<string>, content: string, k: nat, piece: string)
    requires k < |pieces| && pieces[k] == piece
    ensures Contains(Join(pieces, "") + content, piece)
  {
    var header := Join(pieces, "");
    JoinContainsPart(pieces, "", k);
    var i :| 0 <= i <= |header| && StartsWith(header[i..], piece);
    assert (header + content)[i..][..|piece|] == header[i..][..|piece|];
  }

  /** The characters the title pattern keeps, `[a-zа-яё0-9]` matched
      case-insensitively with Unicode case folding: the class's letters in
      either case, the digits, and the characters whose case folding is a
      letter of the class (long s, the Kelvin sign, and the historic
      Cyrillic letter variants U+1C80 to U+1C86). */
  predicate SlugChar(c: char) {
    || 'a' <= c <= 'z' || 'A' <= c <= 'Z' || '0' <= c <= '9'
    || '\U{0430}' <= c <= '\U{044F}' || '\U{0410}' <= c <= '\U{042F}'
    || c == '\U{0451}' || c == '\U{0401}'
    || c == '\U{017F}' || c == '\U{212A}'
    || '\U{1C80}' <= c <= '\U{1C86}'
  }

  /** The characters a slug is made of: kept characters and dashes. */
  predicate SlugText(s: string) {
    forall i :: 0 <= i < |s| ==> SlugChar(s[i]) || s[i] == '-'
  }

  /** No two dashes in a row. */
  predicate NoDoubleDash(s: string) {
    forall i :: 0 <= i < |s| - 1 ==> !(s[i] == '-' && s[i + 1] == '-')
  }

  /** The kept characters of a string, in order. */
  function Kept(s: string): (k: string)
    ensures forall i :: 0 <= i < |k| ==> SlugChar(k[i])
  {
    if |s| == 0 then ""
    else if SlugChar(s[0]) then [s[0]] + Kept(s[1..])
    else Kept(s[1..])
  }

  /** Replaces each maximal run of characters outside the class with one
      dash; `inRun` tells whether such a run was already being replaced. */
  function CollapseRuns(s: string, inRun: bool): (r: string)
    ensures SlugText(r) && NoDoubleDash(r)
    ensures inRun ==> |r| == 0 || r[0] != '-'
    ensures Kept(r) == Kept(s)
    ensures |r| <= |s|
  {
    if |s| == 0 then ""
    else if SlugChar(s[0]) then
      var rest := CollapseRuns(s[1..], false);
      assert ([s[0]] + rest)[1..] == rest;
      [s[0]] + rest
    else if inRun then CollapseRuns(s[1..], true)
    else
      var rest := CollapseRuns(s[1..], true);
      assert ("-" + rest)[1..] == rest;
      "-" + rest
  }

  /** Drops leading dashes. */
  function DropLeadingDashes(s: string): (r: string)
    ensures |r| <= |s| && r == s[|s| - |r|..]
    ensures |r| == 0 || r[0] != '-'
  {
    if |s| > 0 && s[0] == '-' then DropLeadingDashes(s[1..]) else s
  }

  /** Drops trailing dashes. */
  function DropTrailingDashes(s: string): (r: string)
    ensures |r| <= |s| && r == s[..|r|]
    ensures |r| == 0 || r[|r| - 1] != '-'
  {
    if |s| > 0 && s[|s| - 1] == '-' then DropTrailingDashes(s[..|s| - 1]) else s
  }

  const MaxSlugLength := 80

  /** The slug of a title: lower-cased, runs of other characters replaced
      by one dash, dashes trimmed at both ends, then cut to 80 characters. */
  function Slug(title: string): string {
    var collapsed := CollapseRuns(ToLower(title), false);
    var trimmed := DropTrailingDashes(DropLeadingDashes(collapsed));
    if |trimmed| <= MaxSlugLength then trimmed else trimmed[..MaxSlugLength]
  }

  /** Dash structure survives taking a part of a string. */
  lemma SliceKeepsShape(s: string, i: nat, j: nat)
    requires i <= j <= |s| && SlugText(s) && NoDoubleDash(s)
    ensures SlugText(s[i..j]) && NoDoubleDash(s[i..j])
  {
    var t := s[i..j];
    assert forall k :: 0 <= k < |t| ==> t[k] == s[i + k];
  }

  /** Before the cut: kept characters and single dashes, with no dash at
      either end. */
  lemma TrimmedShape(title: string)
    ensures var t := DropTrailingDashes(DropLeadingDashes(CollapseRuns(ToLower(title), false)));
            && SlugText(t) && NoDoubleDash(t) && (|t| == 0 || (t[0] != '-' && t[|t| - 1] != '-'))
  {
    TrimKeepsShape(CollapseRuns(ToLower(title), false));
  }

  /** Trimming the dashes at both ends keeps the dash structure. */
  lemma TrimKeepsShape(collapsed: string)
    requires SlugText(collapsed) && NoDoubleDash(collapsed)
    ensures var t := DropTrailingDashes(DropLeadingDashes(collapsed));
            && SlugText(t) && NoDoubleDash(t) && (|t| == 0 || (t[0] != '-' && t[|t| - 1] != '-'))
  {
    var lead := DropLeadingDashes(collapsed);
    var trimmed := DropTrailingDashes(lead);
    SliceKeepsShape(collapsed, |collapsed| - |lead|, |collapsed|);
    SliceKeepsShape(lead, 0, |trimmed|);
    if |trimmed| > 0 {
      assert trimmed[0] == lead[0];
    }
  }

  /** A slug is at most 80 characters of kept characters and single dashes,
      and never starts with a dash (it may end with one after the cut). */
  lemma SlugShape(title: string)
    ensures var s := Slug(title);
            && |s| <= MaxSlugLength && SlugText(s) && NoDoubleDash(s)
            && (|s| == 0 || s[0] != '-')
  {
    var trimmed := DropTrailingDashes(DropLeadingDashes(CollapseRuns(ToLower(title), false)));
    TrimmedShape(title);
    if |trimmed| > MaxSlugLength {
      SliceKeepsShape(trimmed, 0, MaxSlugLength);
      assert trimmed[..MaxSlugLength][0] == trimmed[0];
    }
  }

  /** `outputFileName`: the generation date, a dash, the slug and `.md`. */
  function OutputFileName(r: PipelineReport): string {
    IsoDate(r.generatedAt) + "-" + Slug(r.metadata.title) + ".md"
  }

  /** The characters a file name is built from. */
  predicate FileNameChar(c: char) {
    SlugChar(c) || c == '-' || c == '.'
  }

  /** The file name is at most 94 characters long, ends with `.md`, and is
      built only from digits, dashes, kept characters and the extension:
      punctuation such as `!`, `@` or `#` never survives. */
  lemma OutputFileNameShape(r: PipelineReport)
    requires ValidDate(r.generatedAt)
    ensures var f := OutputFileName(r);
            && |f| <= 94 && EndsWith(f, ".md")
            && '!' !in f && '@' !in f && '#' !in f
            && forall i :: 0 <= i < |f| ==> FileNameChar(f[i])
  {
    var d := IsoDate(r.generatedAt);
    var s := Slug(r.metadata.title);
    IsoDateShape(r.generatedAt);
    SlugShape(r.metadata.title);
    FileNameText(d, s);
    assert OutputFileName(r) == d + "-" + s + ".md";
    NoPunctuation(OutputFileName(r));
  }

  lemma NoPunctuation(f: string)
    requires forall i :: 0 <= i < |f| ==> FileNameChar(f[i])
    ensures '!' !in f && '@' !in f && '#' !in f
  {
    assert !FileNameChar('!') && !FileNameChar('@') && !FileNameChar('#');
  }

  lemma FileNameText(d: string, s: string)
    requires DateText(d) && SlugText(s)
    ensures var f := d + "-" + s + ".md";
            && EndsWith(f, ".md") && forall i :: 0 <= i < |f| ==> FileNameChar(f[i])
  {
    var f := d + "-" + s + ".md";
    forall i | 0 <= i < |f| ensures FileNameChar(f[i]) {
      if i < 10 {
        assert f[i] == d[i];
      } else if i == 10 {
      } else if i < 11 + |s| {
        assert f[i] == s[i - 11];
      } else {
        assert f[i] == ".md"[i - 11 - |s|];
      }
    }
    assert f[|f| - 3..] == ".md";
  }

  /** The slug keeps the lower-cased title's kept characters in order: the
      dash runs and the trimmed dashes add or remove none of them, so the
      slug's kept characters are a prefix of the title's, and all of them
      when the collapsed title already fits the 80-character cut. */
  lemma SlugKeepsTitleCharacters(title: string)
    ensures Kept(Slug(title)) <= Kept(ToLower(title))
    ensures |CollapseRuns(ToLower(title), false)| <= MaxSlugLength ==> Kept(Slug(title)) == Kept(ToLower(title))
  {
    var collapsed := CollapseRuns(ToLower(title), false);
    var lead := DropLeadingDashes(collapsed);
    var trimmed := DropTrailingDashes(lead);
    KeptDropLeading(collapsed);
    KeptDropTrailing(lead);
    assert Kept(trimmed) == Kept(ToLower(title));
    if |trimmed| > MaxSlugLength {
      KeptPrefix(trimmed, MaxSlugLength);
    }
  }

  /** The kept characters of a concatenation are those of each part. */
  lemma {:induction false} KeptConcat(a: string, b: string)
    ensures Kept(a + b) == Kept(a) + Kept(b)
  {
    if |a| > 0 {
      assert (a + b)[0] == a[0];
      assert (a + b)[1..] == a[1..] + b;
      KeptConcat(a[1..], b);
    } else {
      assert a + b == b;
    }
  }

  /** Cutting a string keeps a prefix of its kept characters. */
  lemma KeptPrefix(s: string, n: nat)
    requires n <= |s|
    ensures Kept(s[..n]) <= Kept(s)
  {
    assert s == s[..n] + s[n..];
    KeptConcat(s[..n], s[n..]);
  }

  /** Dashes are not kept, so dropping leading ones keeps every kept character. */
  lemma {:induction false} KeptDropLeading(s: string)
    ensures Kept(DropLeadingDashes(s)) == Kept(s)
  {
    if |s| > 0 && s[0] == '-' {
      KeptDropLeading(s[1..]);
    }
  }

  /** Dropping trailing dashes keeps every kept character. */
  lemma {:induction false} KeptDropTrailing(s: string)
    ensures Kept(DropTrailingDashes(s)) == Kept(s)
    decreases |s|
  {
    if |s| > 0 && s[|s| - 1] == '-' {
      var init := s[..|s| - 1];
      KeptDropTrailing(init);
      assert s == init + "-";
      KeptConcat(init, "-");
      assert Kept("-") == "";
    }
  }

  /** A string already in slug form (kept characters and single dashes, no
      dash where a run was already being replaced) is left alone by the run
      replacement. */
  lemma {:induction false} CollapseFixed(s: string, inRun: bool)
    requires SlugText(s) && NoDoubleDash(s) && (inRun ==> |s| == 0 || s[0] != '-')
    ensures CollapseRuns(s, inRun) == s
  {
    if |s| > 0 {
      var rest := s[1..];
      SliceKeepsShape(s, 1, |s|);
      if SlugChar(s[0]) {
        CollapseFixed(rest, false);
      } else {
        assert |rest| > 0 ==> rest[0] == s[1] && !(s[0] == '-' && s[1] == '-');
        CollapseFixed(rest, true);
      }
      assert [s[0]] + rest == s;
    }
  }

  /** Dashes and characters that are their own lower case. */
  predicate Lowered(s: string) {
    forall i :: 0 <= i < |s| ==> s[i] == '-' || LowerChar(s[i]) == s[i]
  }

  /** The run replacement emits only dashes and characters of its input,
      so lower-cased text stays lower-cased. */
  lemma {:induction false} CollapseKeepsLowered(s: string, inRun: bool)
    requires Lowered(s)
    ensures Lowered(CollapseRuns(s, inRun))
  {
    if |s| > 0 {
      var rest := s[1..];
      assert Lowered(rest) by {
        assert forall i :: 0 <= i < |rest| ==> rest[i] == s[i + 1];
      }
      if SlugChar(s[0]) {
        CollapseKeepsLowered(rest, false);
        assert ([s[0]] + rest)[1..] == rest;
      } else {
        CollapseKeepsLowered(rest, true);
      }
    }
  }

  /** Lower-casing twice is lower-casing once. */
  lemma LowerCharIdempotent(c: char)
    ensures LowerChar(LowerChar(c)) == LowerChar(c)
  {
  }

  /** Every character of a slug is a dash or its own lower case. */
  lemma SlugFromLowered(title: string)
    ensures Lowered(Slug(title))
  {
    LoweredFixed(title);
    CollapseKeepsLowered(ToLower(title), false);
    TrimKeepsLowered(CollapseRuns(ToLower(title), false));
  }

  /** Trimming and cutting take characters from the string, so lower-cased
      text stays lower-cased. */
  lemma TrimKeepsLowered(collapsed: string)
    requires Lowered(collapsed)
    ensures var trimmed := DropTrailingDashes(DropLeadingDashes(collapsed));
            Lowered(if |trimmed| <= MaxSlugLength then trimmed else trimmed[..MaxSlugLength])
  {
    var lead := DropLeadingDashes(collapsed);
    var trimmed := DropTrailingDashes(lead);
    var s := if |trimmed| <= MaxSlugLength then trimmed else trimmed[..MaxSlugLength];
    forall i | 0 <= i < |s| ensures s[i] == '-' || LowerChar(s[i]) == s[i] {
      assert s[i] == trimmed[i];
      assert trimmed[i] == lead[i];
      assert lead[i] == collapsed[|collapsed| - |lead| + i];
    }
  }

  /** A lower-cased string is its own lower case. */
  lemma LoweredFixed(title: string)
    ensures Lowered(ToLower(title))
  {
    var lower := ToLower(title);
    forall i | 0 <= i < |lower| ensures lower[i] == '-' || LowerChar(lower[i]) == lower[i] {
      LowerCharIdempotent(title[i]);
    }
  }

  /** Taking the slug of a slug changes nothing unless the cut left a dash
      at its end: slugs are the fixed points of the rule. */
  lemma SlugIdempotent(title: string)
    requires var s := Slug(title); |s| == 0 || s[|s| - 1] != '-'
    ensures Slug(Slug(title)) == Slug(title)
  {
    SlugShape(title);
    SlugFromLowered(title);
    SlugFormFixed(Slug(title));
  }

  /** A string in slug form with no dash at either end is its own slug. */
  lemma SlugFormFixed(s: string)
    requires |s| <= MaxSlugLength && SlugText(s) && NoDoubleDash(s) && Lowered(s)
    requires |s| == 0 || (s[0] != '-' && s[|s| - 1] != '-')
    ensures Slug(s) == s
  {
    assert ToLower(s) == s;
    CollapseFixed(s, false);
    assert DropLeadingDashes(s) == s;
    assert DropTrailingDashes(s) == s;
  }
}

=== FILE: router.dfy ===
/** The language-model router: providers registered by name (a later
    provider with the same name replaces an earlier one in lookup, as a
    JavaScript `Map` built from the list does), a default provider checked
    at construction, and dispatch by name without fallback. */
module Router {

  import opened Wrappers
  import opened Text
  import opened Errors
  import opened Llm

  /** The position of the first provider named `n`, if any. */
  function FirstNamed(providers: seq<LlmProvider>, n: string): (r: Option<nat>)
    ensures r.None? <==> forall i :: 0 <= i < |providers| ==> providers[i].name != n
    ensures r.Some? ==> r.value < |providers| && providers[r.value].name == n
                        && forall j :: 0 <= j < r.value ==> providers[j].name != n
  {
    if |providers| == 0 then None
    else
      var init := providers[..|providers| - 1];
      assert forall i :: 0 <= i < |init| ==> init[i] == providers[i];
      match FirstNamed(init, n)
      case Some(i) => Some(i)
      case None => if providers[|providers| - 1].name == n then Some(|providers| - 1) else None
  }

  /** The names in first-occurrence order, each once: the key order of a
      `Map` built from the list. */
  function KeyOrder(providers: seq<LlmProvider>): (keys: seq<string>)
    ensures forall n :: n in keys <==> FirstNamed(providers, n).Some?
    ensures forall i, j :: 0 <= i < j < |keys| ==>
              FirstNamed(providers, keys[i]).Some? && FirstNamed(providers, keys[j]).Some?
              && FirstNamed(providers, keys[i]).value < FirstNamed(providers, keys[j]).value
  {
    if |providers| == 0 then []
    else
      var init := providers[..|providers| - 1];
      var prev := KeyOrder(init);
      var name := providers[|providers| - 1].name;
      assert forall n :: FirstNamed(init, n).Some? ==> FirstNamed(providers, n) == FirstNamed(init, n);
      if name in prev then prev else prev + [name]
  }

  /** Listed names are distinct. */
  lemma KeyOrderDistinct(providers: seq<LlmProvider>)
    ensures forall i, j :: 0 <= i < j < |KeyOrder(providers)| ==> KeyOrder(providers)[i] != KeyOrder(providers)[j]
  {
  }

  /** The position of the last provider named `n`, if any. */
  function LastNamed(providers: seq<LlmProvider>, n: string): (r: Option<nat>)
    ensures r.None? <==> forall i :: 0 <= i < |providers| ==> providers[i].name != n
    ensures r.Some? ==> r.value < |providers| && providers[r.value].name == n
                        && forall j :: r.value < j < |providers| ==> providers[j].name != n
  {
    if |providers| == 0 then None
    else if providers[|providers| - 1].name == n then Some(|providers| - 1)
    else
      var init := providers[..|providers| - 1];
      assert forall i :: 0 <= i < |init| ==> init[i] == providers[i];
      LastNamed(init, n)
  }

  /** The name-to-provider map: for each name, the last provider carrying it. */
  function ProviderMap(providers: seq<LlmProvider>): (m: map<string, LlmProvider>)
    ensures forall n :: n in m <==> LastNamed(providers, n).Some?
    ensures forall n :: n in m ==> m[n] == providers[LastNamed(providers, n).value]
  {
    if |providers| == 0 then map[]
    else
      var init := providers[..|providers| - 1];
      var last := providers[|providers| - 1];
      var prev := ProviderMap(init);
      var m := prev[last.name := last];
      assert forall n :: n != last.name ==> LastNamed(providers, n) == LastNamed(init, n);
      m
  }

  datatype LlmRouter = LlmRouter(providers: map<string, LlmProvider>, keys: seq<string>, defaultName: string)

  const NoProvidersMessage := "At least one LLM provider must be registered"

  function DefaultNotFoundMessage(name: string): string {
    "Default provider \"" + name + "\" not found"
  }

  /** The router constructor: an empty list, then an unregistered default,
      is rejected; without an explicit default the first provider's name is
      used. */
  function NewRouter(providers: seq<LlmProvider>, defaultName: Option<string>): (r: Result<LlmRouter, string>)
    ensures |providers| == 0 ==> r == Err(NoProvidersMessage)
    ensures |providers| > 0 ==>
              var d := defaultName.GetOr(providers[0].name);
              && (r.Ok? <==> LastNamed(providers, d).Some?)
              && (r.Err? ==> r.error == DefaultNotFoundMessage(d))
              && (r.Ok? ==> r.value.defaultName == d && r.value.defaultName in r.value.providers)
    ensures r.Ok? ==> r.value.providers == ProviderMap(providers) && r.value.keys == KeyOrder(providers)
  {
    if |providers| == 0 then Err(NoProvidersMessage)
    else
      var m := ProviderMap(providers);
      var d := defaultName.GetOr(providers[0].name);
      if d !in m then Err(DefaultNotFoundMessage(d))
      else Ok(LlmRouter(m, KeyOrder(providers), d))
  }

  /** The name a completion is routed to: the requested provider, or the default. */
  function RoutedName(router: LlmRouter, options: Option<CompletionOptions>): string {
    if options.Some? && options.value.provider.Some? then options.value.provider.value else router.defaultName
  }

  const NotFoundPrefix := "LLM provider \""
  const AvailableInfix := "\" not found. Available: "

  /** The error for a name no provider is registered under. */
  function ProviderNotFoundError(router: LlmRouter, name: string): Error {
    LlmError(LlmCode.ProviderNotFound, NotFoundPrefix + name + AvailableInfix + Join(router.keys, ", "), None)
  }

  /** `complete`: the routed provider's outcome, unchanged and with the
      options passed through; a provider-not-found error when the name is
      not registered. */
  function Complete(router: LlmRouter, prompt: string, options: Option<CompletionOptions>): (r: Outcome<Result<LlmResponse, Error>>)
    ensures var name := RoutedName(router, options);
            && (name in router.providers ==> r == router.providers[name].complete(prompt, options))
            && (name !in router.providers ==> r == Returned(Err(ProviderNotFoundError(router, name))))
  {
    var name := RoutedName(router, options);
    if name in router.providers then router.providers[name].complete(prompt, options)
    else Returned(Err(ProviderNotFoundError(router, name)))
  }

  /** The not-found message names the requested provider and every
      registered one. */
  lemma NotFoundMessageNamesAll(router: LlmRouter, name: string)
    ensures Contains(ProviderNotFoundError(router, name).message, name)
    ensures forall k :: 0 <= k < |router.keys| ==> Contains(ProviderNotFoundError(router, name).message, router.keys[k])
  {
    var listed := Join(router.keys, ", ");
    ContainsInfix(NotFoundPrefix, name, AvailableInfix + listed);
    assert NotFoundPrefix + name + (AvailableInfix + listed) == ProviderNotFoundError(router, name).message;
    forall k | 0 <= k < |router.keys|
      ensures Contains(ProviderNotFoundError(router, name).message, router.keys[k])
    {
      JoinContainsPart(router.keys, ", ", k);
      ContainsExtendLeft(NotFoundPrefix + name + AvailableInfix, listed, router.keys[k]);
    }
  }

  /** `getProvider`: the provider registered under the name, if any. */
  function GetProvider(router: LlmRouter, name: string): (r: Option<LlmProvider>)
    ensures r.Some? <==> name in router.providers
    ensures r.Some? ==> r.value == router.providers[name]
  {
    if name in router.providers then Some(router.providers[name]) else None
  }

  /** `registeredProviders`. */
  function RegisteredProviders(router: LlmRouter): seq<string> {
    router.keys
  }

  /** For a constructed router, lookup succeeds exactly for the listed
      names, each listed once, and the default is always listed. */
  lemma ListedIffRegistered(providers: seq<LlmProvider>, defaultName: Option<string>, name: string)
    requires NewRouter(providers, defaultName).Ok?
    ensures var router := NewRouter(providers, defaultName).value;
            && (GetProvider(router, name).Some? <==> name in RegisteredProviders(router))
            && router.defaultName in RegisteredProviders(router)
            && forall i, j :: 0 <= i < j < |RegisteredProviders(router)| ==>
                 RegisteredProviders(router)[i] != RegisteredProviders(router)[j]
  {
    KeyOrderDistinct(providers);
    assert LastNamed(providers, name).Some? <==> FirstNamed(providers, name).Some?;
  }

  /** With duplicate names the later provider wins lookup. */
  lemma LaterDuplicateWins(providers: seq<LlmProvider>, i: nat)
    requires i < |providers|
    requires forall j :: i < j < |providers| ==> providers[j].name != providers[i].name
    ensures ProviderMap(providers)[providers[i].name] == providers[i]
  {
    var n := providers[i].name;
    var k := LastNamed(providers, n).value;
    assert k == i;
  }

  /** A router built without an explicit default always reaches its first
      registered name's provider when no provider is requested. */
  lemma DefaultRoutesToFirstName(providers: seq<LlmProvider>, prompt: string)
    requires |providers| > 0
    ensures NewRouter(providers, None).Ok?
    ensures Complete(NewRouter(providers, None).value, prompt, None)
            == ProviderMap(providers)[providers[0].name].complete(prompt, None)
  {
  }
}

=== FILE: text.dfy ===
/** String helpers with the semantics of the JavaScript string methods the
    program relies on: `trim`, `includes`, `startsWith`, `endsWith`,
    `split`, `join`, `padStart`, `String(n)`, `parseInt` on digit strings,
    and per-character `toLowerCase`.  Strings are sequences of characters;
    one character stands for one Unicode code point, so lengths, and the
    matches of regular expressions without the `u` flag, differ from
    JavaScript's UTF-16 code units outside the Basic Multilingual Plane. */
module Text {

  import opened Wrappers

  /** The characters JavaScript's `trim` and the regular-expression class
      `\s` treat as white space: WhiteSpace and LineTerminator of section
      12.2 and 12.3 of ECMA-262 (the Zs category written out). */
  predicate IsWhitespace(c: char) {
    || c == '\t' || c == '\n' || c == '\U{000B}' || c == '\U{000C}' || c == '\r'
    || c == ' ' || c == '\U{00A0}' || c == '\U{1680}'
    || ('\U{2000}' <= c <= '\U{200A}')
    || c == '\U{2028}' || c == '\U{2029}' || c == '\U{202F}' || c == '\U{205F}'
    || c == '\U{3000}' || c == '\U{FEFF}'
  }

  /** Line terminators: the characters the regular-expression `.` does not match. */
  predicate IsLineTerminator(c: char) {
    c == '\n' || c == '\r' || c == '\U{2028}' || c == '\U{2029}'
  }

  predicate AllWhitespace(s: string) {
    forall i :: 0 <= i < |s| ==> IsWhitespace(s[i])
  }

  /** Drops leading white space. */
  function TrimStart(s: string): (r: string)
    ensures |r| <= |s| && r == s[|s| - |r|..]
    ensures forall i :: 0 <= i < |s| - |r| ==> IsWhitespace(s[i])
    ensures |r| > 0 ==> !IsWhitespace(r[0])
  {
    if |s| > 0 && IsWhitespace(s[0]) then TrimStart(s[1..]) else s
  }

  /** Drops trailing white space. */
  function TrimEnd(s: string): (r: string)
    ensures |r| <= |s| && r == s[..|r|]
    ensures forall i :: |r| <= i < |s| ==> IsWhitespace(s[i])
    ensures |r| > 0 ==> !IsWhitespace(r[|r| - 1])
  {
    if |s| > 0 && IsWhitespace(s[|s| - 1]) then TrimEnd(s[..|s| - 1]) else s
  }

  /** `s.trim()`: the longest infix of `s` that neither starts nor ends with
      white space, obtained by removing white space at both ends only. */
  function Trim(s: string): (r: string)
    ensures |r| <= |s|
    ensures r == "" <==> AllWhitespace(s)
    ensures |r| > 0 ==> !IsWhitespace(r[0]) && !IsWhitespace(r[|r| - 1])
    ensures forall i :: 0 <= i < |r| ==> r[i] in s
  {
    var a := TrimStart(s);
    var r := TrimEnd(a);
    TrimAllWhitespace(s, a, r);
    r
  }

  lemma TrimAllWhitespace(s: string, a: string, r: string)
    requires a == TrimStart(s) && r == TrimEnd(a)
    ensures r == "" <==> AllWhitespace(s)
  {
    if r == "" {
      assert a == "";
    }
  }

  /** Trimming a string that has no white space at either end changes nothing. */
  lemma TrimNoop(s: string)
    requires |s| > 0 ==> !IsWhitespace(s[0]) && !IsWhitespace(s[|s| - 1])
    ensures Trim(s) == s
  {
  }

  /** A leading blank in front of an already trimmed text is removed. */
  lemma TrimLeadingBlank(s: string)
    requires |s| > 0 && !IsWhitespace(s[0]) && !IsWhitespace(s[|s| - 1])
    ensures Trim([' '] + s) == s
  {
    var t := [' '] + s;
    assert t[1..] == s;
    assert TrimStart(t) == TrimStart(s) == s;
    assert TrimEnd(s) == s;
  }

  /** Trimming twice is trimming once. */
  lemma TrimIdempotent(s: string)
    ensures Trim(Trim(s)) == Trim(s)
  {
    TrimNoop(Trim(s));
  }

  predicate StartsWith(s: string, prefix: string) {
    |prefix| <= |s| && s[..|prefix|] == prefix
  }

  predicate EndsWith(s: string, suffix: string) {
    |suffix| <= |s| && s[|s| - |suffix|..] == suffix
  }

  /** `s.includes(sub)`: `sub` occurs somewhere in `s`. */
  predicate Contains(s: string, sub: string) {
    exists i :: 0 <= i <= |s| && StartsWith(s[i..], sub)
  }

  /** A string occurs in any string built around it. */
  lemma ContainsInfix(a: string, x: string, b: string)
    ensures Contains(a + x + b, x)
  {
    var s := a + x + b;
    assert s[|a|..][..|x|] == x;
    assert StartsWith(s[|a|..], x);
  }

  /** Every string contains the empty string. */
  lemma ContainsEmpty(s: string)
    ensures Contains(s, "")
  {
    assert StartsWith(s[0..], "");
  }

  /** A substring is never longer than the string holding it. */
  lemma ContainsLength(s: string, sub: string)
    requires Contains(s, sub)
    ensures |sub| <= |s|
  {
  }

  /** `parts.join(sep)`. */
  function Join(parts: seq<string>, sep: string): string {
    if |parts| == 0 then ""
    else if |parts| == 1 then parts[0]
    else parts[0] + sep + Join(parts[1..], sep)
  }

  /** Position of the first `c` in `s`, if any. */
  function IndexOf(s: string, c: char): (r: Option<nat>)
    ensures r.None? <==> c !in s
    ensures r.Some? ==> r.value < |s| && s[r.value] == c && c !in s[..r.value]
  {
    if |s| == 0 then None
    else if s[0] == c then Some(0)
    else
      match IndexOf(s[1..], c)
      case None => None
      case Some(i) => assert s[..i + 1] == [s[0]] + s[1..][..i]; Some(i + 1)
  }

  /** `s.split(c)` for a one-character separator. */
  function Split(s: string, c: char): (r: seq<string>)
    ensures |r| >= 1
    ensures forall i :: 0 <= i < |r| ==> c !in r[i]
    decreases |s|
  {
    match IndexOf(s, c)
    case None => [s]
    case Some(i) => [s[..i]] + Split(s[i + 1..], c)
  }

  /** Number of occurrences of `c` in `s`. */
  function Count(s: string, c: char): nat {
    if |s| == 0 then 0 else (if s[0] == c then 1 else 0) + Count(s[1..], c)
  }

  lemma CountConcat(a: string, b: string, c: char)
    ensures Count(a + b, c) == Count(a, c) + Count(b, c)
  {
    if |a| > 0 {
      assert (a + b)[0] == a[0] && (a + b)[1..] == a[1..] + b;
      CountConcat(a[1..], b, c);
      calc {
        Count(a + b, c);
        (if a[0] == c then 1 else 0) + Count(a[1..] + b, c);
      }
    } else {
      assert a + b == b;
    }
  }

  lemma CountAbsent(s: string, c: char)
    requires c !in s
    ensures Count(s, c) == 0
  {
    if |s| > 0 {
      CountAbsent(s[1..], c);
    }
  }

  /** Splitting yields one more piece than there are separators. */
  lemma {:induction false} SplitLength(s: string, c: char)
    ensures |Split(s, c)| == Count(s, c) + 1
    decreases |s|
  {
    match IndexOf(s, c)
    case None =>
      CountAbsent(s, c);
    case Some(i) =>
      assert s == s[..i] + [c] + s[i + 1..];
      CountConcat(s[..i] + [c], s[i + 1..], c);
      CountConcat(s[..i], [c], c);
      CountAbsent(s[..i], c);
      SplitLength(s[i + 1..], c);
  }

  /** Joining the pieces of a split with the separator gives the string back. */
  lemma {:induction false} SplitJoin(s: string, c: char)
    ensures Join(Split(s, c), [c]) == s
    decreases |s|
  {
    match IndexOf(s, c)
    case None =>
    case Some(i) =>
      var rest := Split(s[i + 1..], c);
      SplitJoin(s[i + 1..], c);
      assert Split(s, c) == [s[..i]] + rest;
      assert (Split(s, c))[1..] == rest;
      assert s == s[..i] + [c] + s[i + 1..];
  }

  predicate IsDigit(c: char) {
    '0' <= c <= '9'
  }

  predicate AllDigits(s: string) {
    forall i :: 0 <= i < |s| ==> IsDigit(s[i])
  }

  function DigitChar(d: nat): char
    requires d < 10
  {
    ['0', '1', '2', '3', '4', '5', '6', '7', '8', '9'][d]
  }

  function DigitValue(c: char): nat
    requires IsDigit(c)
  {
    (c as int - '0' as int) as nat
  }

  /** `String(n)` for a non-negative integer: its shortest decimal spelling. */
  function NatToString(n: nat): (r: string)
    ensures |r| >= 1 && AllDigits(r)
    ensures |r| > 1 ==> r[0] != '0'
    ensures n < 10 <==> |r| == 1
  {
    if n < 10 then [DigitChar(n)] else NatToString(n / 10) + [DigitChar(n % 10)]
  }

  /** `String(i)` for any integer. */
  function IntToString(i: int): string {
    if i < 0 then "-" + NatToString(-i) else NatToString(i)
  }

  /** The value of a string of decimal digits (`parseInt(s, 10)`). */
  function DigitsToNat(s: string): nat
    requires AllDigits(s)
  {
    if |s| == 0 then 0 else 10 * DigitsToNat(s[..|s| - 1]) + DigitValue(s[|s| - 1])
  }

  lemma DigitRoundTrip(d: nat)
    requires d < 10
    ensures IsDigit(DigitChar(d)) && DigitValue(DigitChar(d)) == d
  {
  }

  /** Reading back a printed number yields the number. */
  lemma {:induction false} NatToStringRoundTrip(n: nat)
    ensures DigitsToNat(NatToString(n)) == n
  {
    DigitRoundTrip(n % 10);
    if n >= 10 {
      var s := NatToString(n);
      assert s[..|s| - 1] == NatToString(n / 10);
      NatToStringRoundTrip(n / 10);
    }
  }

  /** `s.padStart(width, pad)`. */
  function PadStart(s: string, width: nat, pad: char): (r: string)
    ensures |r| == if |s| >= width then |s| else width
    ensures EndsWith(r, s)
    ensures forall i :: 0 <= i < |r| - |s| ==> r[i] == pad
  {
    if |s| >= width then s else seq(width - |s|, _ => pad) + s
  }

  /** Per-character lower-casing: ASCII, Latin-1, Greek and Cyrillic capitals. */
  function LowerChar(c: char): char {
    if 'A' <= c <= 'Z' then (c as int + 32) as char
    else if '\U{00C0}' <= c <= '\U{00DE}' && c != '\U{00D7}' then (c as int + 32) as char
    else if '\U{0391}' <= c <= '\U{03A9}' && c != '\U{03A2}' then (c as int + 32) as char
    else if '\U{0410}' <= c <= '\U{042F}' then (c as int + 32) as char
    else if '\U{0400}' <= c <= '\U{040F}' then (c as int + 80) as char
    else c
  }

  /** Upper-case letters (general category Lu) of the same scripts. */
  predicate IsUpper(c: char) {
    || 'A' <= c <= 'Z'
    || ('\U{00C0}' <= c <= '\U{00DE}' && c != '\U{00D7}')
    || ('\U{0391}' <= c <= '\U{03A9}' && c != '\U{03A2}')
    || '\U{0400}' <= c <= '\U{042F}'
  }

  /** `s.toLowerCase()`, character by character. */
  function ToLower(s: string): (r: string)
    ensures |r| == |s|
    ensures forall i :: 0 <= i < |s| ==> r[i] == LowerChar(s[i])
  {
    seq(|s|, i requires 0 <= i < |s| => LowerChar(s[i]))
  }

  /** No phrase occurs in a string that lacks its first character. */
  lemma AbsentFirstCharacter(s: string, p: string)
    requires |p| > 0 && p[0] !in s
    ensures !Contains(s, p)
  {
  }

  /** Splitting at the first separator: the piece before it, then the split of the rest. */
  lemma SplitAtFirst(a: string, c: char, b: string)
    requires c !in a
    ensures Split(a + [c] + b, c) == [a] + Split(b, c)
  {
    var s := a + [c] + b;
    assert s[|a|] == c;
    assert s[..|a|] == a;
    assert s[|a| + 1..] == b;
  }

  /** The end of the white-space run starting at `i`. */
  function SkipWhitespace(s: string, i: nat): (j: nat)
    requires i <= |s|
    ensures i <= j <= |s|
    ensures forall k :: i <= k < j ==> IsWhitespace(s[k])
    ensures j < |s| ==> !IsWhitespace(s[j])
    decreases |s| - i
  {
    if i < |s| && IsWhitespace(s[i]) then SkipWhitespace(s, i + 1) else i
  }

  /** The end of the decimal-digit run starting at `i`. */
  function SkipDigits(s: string, i: nat): (j: nat)
    requires i <= |s|
    ensures i <= j <= |s|
    ensures forall k :: i <= k < j ==> IsDigit(s[k])
    ensures j < |s| ==> !IsDigit(s[j])
    decreases |s| - i
  {
    if i < |s| && IsDigit(s[i]) then SkipDigits(s, i + 1) else i
  }

  /** The leftmost position at or after `i` where the anchored matcher `m`
      succeeds, with its result: how an unanchored regular-expression
      search reports its first match. */
  function LeftmostFrom<T>(s: string, i: nat, m: (string, nat) -> Option<T>): (r: Option<T>)
    requires i <= |s|
    ensures r.None? <==> forall j :: i <= j <= |s| ==> m(s, j).None?
    ensures r.Some? ==> exists j :: i <= j <= |s| && m(s, j) == r && forall k :: i <= k < j ==> m(s, k).None?
    decreases |s| - i
  {
    match m(s, i)
    case Some(v) => Some(v)
    case None =>
      if i == |s| then None
      else
        var r := LeftmostFrom(s, i + 1, m);
        assert forall k :: i <= k < i + 1 ==> m(s, k).None? by {
          forall k | i <= k < i + 1 ensures m(s, k).None? {
            assert k == i;
          }
        }
        r
  }

  /** The result of the leftmost match of `m` anywhere in `s`. */
  function Leftmost<T>(s: string, m: (string, nat) -> Option<T>): (r: Option<T>)
    ensures r.None? <==> forall j :: 0 <= j <= |s| ==> m(s, j).None?
    ensures r.Some? ==> exists j :: 0 <= j <= |s| && m(s, j) == r && forall k :: 0 <= k < j ==> m(s, k).None?
  {
    LeftmostFrom(s, 0, m)
  }

  /** The end of a digit run that is followed by a non-digit. */
  lemma SkipDigitsOverRun(s: string, c: nat, m: nat)
    requires c + m < |s|
    requires forall k :: c <= k < c + m ==> IsDigit(s[k])
    requires !IsDigit(s[c + m])
    ensures SkipDigits(s, c) == c + m
    decreases m
  {
    if m > 0 {
      SkipDigitsOverRun(s, c + 1, m - 1);
    }
  }

  /** Text in front never hides an occurrence. */
  lemma ContainsExtendLeft(prefix: string, s: string, sub: string)
    requires Contains(s, sub)
    ensures Contains(prefix + s, sub)
  {
    var i :| 0 <= i <= |s| && StartsWith(s[i..], sub);
    assert (prefix + s)[|prefix| + i..] == s[i..];
  }

  /** Every part occurs in the joined string. */
  lemma {:induction false} JoinContainsPart(parts: seq<string>, sep: string, k: nat)
    requires k < |parts|
    ensures Contains(Join(parts, sep), parts[k])
  {
    if |parts| == 1 {
      ContainsInfix("", parts[0], "");
      assert "" + parts[0] + "" == parts[0];
    } else if k == 0 {
      var rest := sep + Join(parts[1..], sep);
      ContainsInfix("", parts[0], rest);
      assert "" + parts[0] + rest == Join(parts, sep);
    } else {
      JoinContainsPart(parts[1..], sep, k - 1);
      assert parts[1..][k - 1] == parts[k];
      ContainsExtendLeft(parts[0] + sep, Join(parts[1..], sep), parts[k]);
      assert (parts[0] + sep) + Join(parts[1..], sep) == Join(parts, sep);
    }
  }

  /** An occurrence inside an occurrence is an occurrence. */
  lemma ContainsTransitive(s: string, mid: string, sub: string)
    requires Contains(s, mid) && Contains(mid, sub)
    ensures Contains(s, sub)
  {
    var i :| 0 <= i <= |s| && StartsWith(s[i..], mid);
    var j :| 0 <= j <= |mid| && StartsWith(mid[j..], sub);
    assert s[i + j..][..|sub|] == mid[j..][..|sub|];
  }

  /** 10 to the power `n`. */
  function Pow10(n: nat): (r: nat)
    ensures r >= 1
  {
    if n == 0 then 1 else 10 * Pow10(n - 1)
  }

  /** The exact value of the decimal numeral `whole.fraction` (an empty
      fraction is a whole number): what `parseFloat` and `Number` give,
      except that the program rounds to the nearest double. */
  function DecimalValue(whole: string, fraction: string): real
    requires AllDigits(whole) && AllDigits(fraction)
  {
    DigitsToNat(whole) as real + DigitsToNat(fraction) as real / Pow10(|fraction|) as real
  }

  /** A number below `10^k` is spelled with at most `k` digits. */
  lemma {:induction false} NatToStringLength(n: nat, k: nat)
    requires 1 <= k && n < Pow10(k)
    ensures |NatToString(n)| <= k
  {
    if n >= 10 {
      NatToStringLength(n / 10, k - 1);
    }
  }

  /** A joined string starts with its first part. */
  lemma JoinStartsWithFirst(parts: seq<string>, sep: string)
    requires |parts| > 0
    ensures StartsWith(Join(parts, sep), parts[0])
  {
    var j := Join(parts, sep);
    if |parts| > 1 {
      assert j == parts[0] + (sep + Join(parts[1..], sep));
    }
    assert j[..|parts[0]|] == parts[0];
  }

  /** Gluing two adjacent parts together does not change an empty-separator join. */
  lemma {:induction false} JoinGlue(parts: seq<string>, k: nat)
    requires k + 1 < |parts|
    ensures Join(parts[..k] + [parts[k] + parts[k + 1]] + parts[k + 2..], "") == Join(parts, "")
  {
    var glued := parts[..k] + [parts[k] + parts[k + 1]] + parts[k + 2..];
    if k == 0 {
      if |parts| == 2 {
        assert glued == [parts[0] + parts[1]];
        assert Join(parts, "") == parts[0] + "" + Join(parts[1..], "");
        assert Join(parts[1..], "") == parts[1];
      } else {
        assert glued[1..] == parts[2..];
        assert Join(parts[1..], "") == parts[1] + "" + Join(parts[2..], "");
        assert parts[1..][1..] == parts[2..];
      }
    } else {
      JoinGlue(parts[1..], k - 1);
      assert glued[1..] == parts[1..][..k - 1] + [parts[1..][k - 1] + parts[1..][k]] + parts[1..][k + 1..];
      assert glued[0] == parts[0];
    }
  }
}

=== FILE: transcribe_command.dfy ===
/** `tolmach transcribe <url>`: the configuration is loaded with the
    command-line overrides, the external programs are checked, and then
    either the full pipeline runs or, with `--no-llm`, the transcript alone
    is produced: detect, download, transcribe (through the cache when it is
    enabled), and save the plain text.

    The collaborators are values as in the pipeline model; the cache is the
    store of the cache module; effects on the filesystem are recorded in
    order; the clock readings are parameters. */
module TranscribeCommand {

  import opened Wrappers
  import opened Text
  import opened Errors
  import opened Events
  import opened Paths
  import opened Transcript
  import opened Video
  import opened Registry
  import opened Filesystem
  import opened Json
  import opened Config
  import opened Llm
  import Cache
  import Dependency
  import Router
  import MockProvider
  import Prompt
  import R = Report
  import W = WhisperTranscriber
  import O = Orchestrator

  /** The command's flags. */
  datatype TranscribeOptions = TranscribeOptions(
    provider: Option<string>,
    model: Option<string>,
    output: Option<string>,
    lang: Option<string>,
    llmProvider: Option<string>,
    noLlm: bool)

  /** The overrides handed to `load`: `--llm-provider`, else `--provider`,
      for the provider; the model, language and output flags as given. */
  function Overrides(options: TranscribeOptions): (o: CliOverrides)
    ensures o.llmProvider == if options.llmProvider.Some? then options.llmProvider else options.provider
    ensures o.llmModel.None?
  {
    CliOverrides(if options.llmProvider.Some? then options.llmProvider else options.provider,
                 None, options.model, options.lang, options.output)
  }

  /** The cache as the command sees it: the stored entries, the digest and
      the record codec, its directory, and the time stamp and outcome of
      the next write. */
  datatype CacheStore = CacheStore(
    files: Files,
    hash: string -> string,
    codec: Cache.Codec,
    dir: string,
    cachedAt: string,
    writeSucceeds: bool)

  /** An effect on the filesystem or on a collaborator. */
  datatype Effect =
    | EnsureDir(path: string)
    | DownloadVideo(provider: string, url: string, outputDir: string)
    | TranscribeAudio(audioPath: string, transcriberOptions: W.TranscriptionOptions)
    | WriteFile(path: string, content: string)
    | RemoveDir(path: string)

  /** What the summary line reports. */
  datatype Summary = Summary(totalDurationMs: int, videoDuration: string, model: string, outputPath: string)

  /** One transcript-only run as observed: the events in emission order,
      the effects in order, the cache afterwards, and how it ended (a
      summary, or nothing when a stage failed and the exit code was set). */
  datatype OnlyTrace = OnlyTrace(
    events: seq<ProgressEvent>,
    effects: seq<Effect>,
    cache: Option<CacheStore>,
    outcome: Outcome<Option<Summary>>)

  const FromCacheMessage := "из кэша"

  predicate EndedInFailure(t: OnlyTrace) {
    t.outcome == Returned(None)
  }

  predicate Finished(t: OnlyTrace) {
    t.outcome.Returned? && t.outcome.value.Some?
  }

  function ExitCode(t: OnlyTrace): nat {
    if EndedInFailure(t) then 1 else 0
  }

  /** Nothing written and nothing removed. */
  predicate NoOutput(effects: seq<Effect>) {
    forall i :: 0 <= i < |effects| ==> !effects[i].WriteFile? && !effects[i].RemoveDir?
  }

  predicate Writes(effects: seq<Effect>) {
    exists i :: 0 <= i < |effects| && effects[i].WriteFile?
  }

  predicate RemovesDir(effects: seq<Effect>) {
    exists i :: 0 <= i < |effects| && effects[i].RemoveDir?
  }

  predicate Transcribes(effects: seq<Effect>) {
    exists i :: 0 <= i < |effects| && effects[i].TranscribeAudio?
  }

  /** The working directory of the run, named after the clock. */
  function TempDir(env: O.Environment): string {
    JoinPath(env.tmpRoot, "tolmach-" + NatToString(env.tempStamp))
  }

  /** The transcriber options of this command: the configured model and
      language, the working directory, and the configured model directory
      with `~` expanded. */
  function TranscriberOptions(config: TolmachConfig, env: O.Environment): (o: W.TranscriptionOptions)
    ensures o.model == config.whisper.model && o.language == config.whisper.language
    ensures o.outputDir == TempDir(env)
    ensures o.modelDir == Some(ResolvePath(env.home, config.whisper.modelDir))
  {
    W.TranscriptionOptions(config.whisper.model, config.whisper.language, TempDir(env),
                           Some(ResolvePath(env.home, config.whisper.modelDir)))
  }

  /** The transcript's file name: the date, the title's slug, `.txt`. */
  function TranscriptFileName(title: string, today: R.CalendarDate): string {
    R.IsoDate(today) + "-" + R.Slug(title) + ".txt"
  }

  /** The transcript is named like the report of the same video on the
      same day, with `.txt` in place of `.md`. */
  lemma NamedLikeReport(r: R.PipelineReport)
    ensures var stem := R.IsoDate(r.generatedAt) + "-" + R.Slug(r.metadata.title);
            && TranscriptFileName(r.metadata.title, r.generatedAt) == stem + ".txt"
            && R.OutputFileName(r) == stem + ".md"
  {
  }

  /** The header lines in front of the text. */
  function HeaderPieces(metadata: VideoMetadata, transcription: TranscriptionResult): seq<string> {
    ["Транскрипция: ", metadata.title,
     "\nАвтор: ", metadata.author,
     "\nДлительность: ", FormattedDuration(metadata.durationSeconds),
     "\nЯзык: ", transcription.language,
     "\nСегментов: ", NatToString(|transcription.segments|),
     "\n\n---\n\n"]
  }

  /** The written file: the header, then the full text. */
  function TranscriptText(metadata: VideoMetadata, transcription: TranscriptionResult): (text: string)
    ensures EndsWith(text, transcription.FullText())
    ensures StartsWith(text, "Транскрипция: ")
  {
    var header := Join(HeaderPieces(metadata, transcription), "");
    JoinStartsWithFirst(HeaderPieces(metadata, transcription), "");
    var text := header + transcription.FullText();
    assert text[|header|..] == transcription.FullText();
    assert text[..|"Транскрипция: "|] == header[..|"Транскрипция: "|];
    text
  }

  /** Every header value is in the file: title, author, duration, language
      and the number of segments. */
  lemma HeaderShown(metadata: VideoMetadata, transcription: TranscriptionResult, k: nat)
    requires k < 11
    ensures Contains(TranscriptText(metadata, transcription), HeaderPieces(metadata, transcription)[k])
  {
    var pieces := HeaderPieces(metadata, transcription);
    assert TranscriptText(metadata, transcription) == Join(pieces, "") + transcription.FullText();
    R.PieceShown(pieces, transcription.FullText(), k, pieces[k]);
  }

  /** The cached result for the downloaded audio and the configured model;
      nothing without a cache. */
  function CachedResult(cache: Option<CacheStore>, audioPath: string, model: string): (r: Option<TranscriptionResult>)
    ensures cache.None? ==> r.None?
    ensures cache.Some? ==> r == Cache.Get(cache.value.files, cache.value.hash, cache.value.codec, cache.value.dir, audioPath, model)
  {
    match cache
    case None => None
    case Some(c) => Cache.Get(c.files, c.hash, c.codec, c.dir, audioPath, model)
  }

  /** Stores a fresh result; without a cache nothing happens. */
  function StoreResult(cache: Option<CacheStore>, audioPath: string, model: string, result: TranscriptionResult): (r: Option<CacheStore>)
    ensures r.Some? <==> cache.Some?
    ensures cache.Some? ==> r == Some(cache.value.(files := Cache.Set(
              cache.value.files, cache.value.hash, cache.value.codec, cache.value.dir, audioPath, model,
              result, cache.value.cachedAt, cache.value.writeSucceeds)))
  {
    match cache
    case None => None
    case Some(c) => Some(c.(files := Cache.Set(c.files, c.hash, c.codec, c.dir, audioPath, model, result, c.cachedAt, c.writeSucceeds)))
  }

  /** The last effects of a finished run: the transcript written to the
      reported path, then the working directory removed, with nothing
      written or removed before. */
  predicate SavedLast(effects: seq<Effect>, env: O.Environment, path: string) {
    && |effects| >= 3
    && NoOutput(effects[..|effects| - 3])
    && effects[|effects| - 2].WriteFile? && effects[|effects| - 2].path == path
    && effects[|effects| - 1] == RemoveDir(TempDir(env))
  }

  /** The text a finished run wrote: the content of its next-to-last effect. */
  predicate SavedText(effects: seq<Effect>, text: string) {
    |effects| >= 2 && effects[|effects| - 2].WriteFile? && effects[|effects| - 2].content == text
  }

  /** What every run satisfies: events in stage order; a failure ends with
      a `failed` event; a run that did not finish wrote and removed
      nothing; a finished one ends by writing and then removing. */
  predicate Settled(t: OnlyTrace, env: O.Environment) {
    && O.EventsOrdered(t.events)
    && (EndedInFailure(t) ==> |t.events| > 0 && t.events[|t.events| - 1].status == Failed)
    && (!Finished(t) ==> NoOutput(t.effects))
    && (Finished(t) ==> SavedLast(t.effects, env, t.outcome.value.value.outputPath))
  }

  /** In a settled run, a file is written, and the working directory
      removed, exactly when the run finished. */
  lemma SettledOutput(t: OnlyTrace, env: O.Environment)
    requires Settled(t, env)
    ensures Writes(t.effects) <==> Finished(t)
    ensures RemovesDir(t.effects) <==> Finished(t)
  {
    if Finished(t) {
      assert t.effects[|t.effects| - 2].WriteFile?;
      assert t.effects[|t.effects| - 1].RemoveDir?;
    }
  }

  /** `runTranscriptionOnly`.  A failed stage ends the run with a `failed`
      event and exit code 1 before anything is written, leaving the working
      directory in place; a finished run writes the transcript and only
      then removes the working directory. */
  function RunTranscriptionOnly(url: string, config: TolmachConfig, env: O.Environment, providers: seq<VideoProvider>,
                                transcribe: (string, W.TranscriptionOptions) -> O.TranscriberRun,
                                cache: Option<CacheStore>): (t: OnlyTrace)
    ensures Settled(t, env)
    ensures t.cache.Some? <==> cache.Some?
    ensures Writes(t.effects) <==> Finished(t)
    ensures RemovesDir(t.effects) <==> Finished(t)
    ensures ExitCode(t) == 1 <==> EndedInFailure(t)
  {
    var started := [Event(Detect, Started)];
    match FindProvider(providers, url)
    case Err(e) =>
      var t := OnlyTrace(started + [EventWithMessage(Detect, Failed, e.message)], [], cache, Returned(None));
      O.AppendEvents(started, [EventWithMessage(Detect, Failed, e.message)], Detect);
      SettledOutput(t, env);
      t
    case Ok(provider) =>
      var events := started + [EventWithMessage(Detect, Completed, provider.name)] + [Event(Download, Started)];
      O.AppendEvents(started, [EventWithMessage(Detect, Completed, provider.name)], Detect);
      O.AppendEvents(started + [EventWithMessage(Detect, Completed, provider.name)], [Event(Download, Started)], Download);
      var t := DownloadPart(url, config, env, provider, transcribe, cache, events);
      SettledOutput(t, env);
      t
  }

  /** Download: the working directory is created and the provider downloads into it. */
  function DownloadPart(url: string, config: TolmachConfig, env: O.Environment, provider: VideoProvider,
                        transcribe: (string, W.TranscriptionOptions) -> O.TranscriberRun,
                        cache: Option<CacheStore>, events: seq<ProgressEvent>): (t: OnlyTrace)
    requires O.EventsOrdered(events) && O.EventsWithin(events, Download)
    ensures Settled(t, env)
    ensures t.cache.Some? <==> cache.Some?
  {
    var tempDir := TempDir(env);
    var run := provider.download(url, tempDir);
    var forwarded := events + Relabel(run.events, Download);
    var effects := [EnsureDir(tempDir), DownloadVideo(provider.name, url, tempDir)];
    O.AppendEvents(events, Relabel(run.events, Download), Download);
    match run.result
    case Err(e) =>
      O.AppendEvents(forwarded, [EventWithMessage(Download, Failed, e.message)], Download);
      OnlyTrace(forwarded + [EventWithMessage(Download, Failed, e.message)], effects, cache, Returned(None))
    case Ok(video) =>
      O.AppendEvents(forwarded, [Event(Download, Completed)], Download);
      O.AppendEvents(forwarded + [Event(Download, Completed)], [Event(Transcribe, Started)], Transcribe);
      TranscribePart(config, env, video, transcribe, cache, forwarded + [Event(Download, Completed)] + [Event(Transcribe, Started)], effects)
  }

  /** Transcribe: the cache is consulted first; on a hit the stage
      completes at once, on a miss the transcriber runs and a fresh result
      is stored. */
  function TranscribePart(config: TolmachConfig, env: O.Environment, video: DownloadedVideo,
                          transcribe: (string, W.TranscriptionOptions) -> O.TranscriberRun,
                          cache: Option<CacheStore>, events: seq<ProgressEvent>, effects: seq<Effect>): (t: OnlyTrace)
    requires O.EventsOrdered(events) && O.EventsWithin(events, Transcribe)
    requires NoOutput(effects)
    ensures Settled(t, env)
    ensures t.cache.Some? <==> cache.Some?
  {
    match CachedResult(cache, video.audioPath, config.whisper.model)
    case Some(hit) =>
      O.AppendEvents(events, [EventWithMessage(Transcribe, Completed, FromCacheMessage)], Transcribe);
      SavePart(config, env, video, hit, events + [EventWithMessage(Transcribe, Completed, FromCacheMessage)], effects, cache)
    case None =>
      var options := TranscriberOptions(config, env);
      var run := transcribe(video.audioPath, options);
      var forwarded := events + Relabel(run.events, Transcribe);
      var effects' := effects + [TranscribeAudio(video.audioPath, options)];
      O.AppendEvents(events, Relabel(run.events, Transcribe), Transcribe);
      assert NoOutput(effects');
      match run.outcome
      case Thrown(m) => OnlyTrace(forwarded, effects', cache, Thrown(m))
      case Returned(Err(e)) =>
        O.AppendEvents(forwarded, [EventWithMessage(Transcribe, Failed, e.message)], Transcribe);
        OnlyTrace(forwarded + [EventWithMessage(Transcribe, Failed, e.message)], effects', cache, Returned(None))
      case Returned(Ok(result)) =>
        O.AppendEvents(forwarded, [Event(Transcribe, Completed)], Transcribe);
        SavePart(config, env, video, result, forwarded + [Event(Transcribe, Completed)], effects',
                 StoreResult(cache, video.audioPath, config.whisper.model, result))
  }

  /** Where the transcript goes: the configured output directory with `~`
      expanded. */
  function OutputDir(config: TolmachConfig, env: O.Environment): string {
    ResolvePath(env.home, config.output.dir)
  }

  /** The effects of saving, in order: the output directory is created,
      the transcript written, the working directory removed. */
  function SaveEffects(config: TolmachConfig, env: O.Environment, video: DownloadedVideo,
                       transcription: TranscriptionResult): seq<Effect> {
    var path := JoinPath(OutputDir(config, env), TranscriptFileName(video.metadata.title, env.today));
    [EnsureDir(OutputDir(config, env)), WriteFile(path, TranscriptText(video.metadata, transcription)), RemoveDir(TempDir(env))]
  }

  /** Save: the stage always completes, since a write's result is not inspected. */
  function SavePart(config: TolmachConfig, env: O.Environment, video: DownloadedVideo, transcription: TranscriptionResult,
                    events: seq<ProgressEvent>, effects: seq<Effect>, cache: Option<CacheStore>): (t: OnlyTrace)
    requires O.EventsOrdered(events) && O.EventsWithin(events, Transcribe)
    requires NoOutput(effects)
    ensures O.EventsOrdered(t.events)
    ensures t.events == events + [Event(Save, Started), Event(Save, Completed)]
    ensures t.effects == effects + SaveEffects(config, env, video, transcription)
    ensures t.cache == cache
    ensures Finished(t) && Settled(t, env)
    ensures t.outcome.value.value.outputPath
         == JoinPath(OutputDir(config, env), TranscriptFileName(video.metadata.title, env.today))
    ensures t.outcome.value.value.model == config.whisper.model
  {
    var saveEvents := [Event(Save, Started), Event(Save, Completed)];
    O.AppendEvents(events, saveEvents, Save);
    var path := JoinPath(OutputDir(config, env), TranscriptFileName(video.metadata.title, env.today));
    var all := effects + SaveEffects(config, env, video, transcription);
    assert all[..|all| - 3] == effects;
    OnlyTrace(events + saveEvents, all, cache,
              Returned(Some(Summary(env.finishedAt - env.startedAt, FormattedDuration(video.metadata.durationSeconds),
                                    config.whisper.model, path))))
  }

  // ---------------------------------------------------------------------
  // The cache in the transcribe stage

  /** A hit: the stage completes with the from-cache message right after
      it started, the transcriber is not called, the cache is not written,
      and the cached result is what gets saved. */
  lemma CacheHit(config: TolmachConfig, env: O.Environment, video: DownloadedVideo,
                 transcribe: (string, W.TranscriptionOptions) -> O.TranscriberRun,
                 cache: Option<CacheStore>, events: seq<ProgressEvent>, effects: seq<Effect>, hit: TranscriptionResult)
    requires O.EventsOrdered(events) && O.EventsWithin(events, Transcribe)
    requires NoOutput(effects) && !Transcribes(effects)
    requires CachedResult(cache, video.audioPath, config.whisper.model) == Some(hit)
    ensures var t := TranscribePart(config, env, video, transcribe, cache, events, effects);
            && cache.Some?
            && t.events[|events|] == EventWithMessage(Transcribe, Completed, FromCacheMessage)
            && !Transcribes(t.effects)
            && t.cache == cache
            && SavedText(t.effects, TranscriptText(video.metadata, hit))
  {
    var hitEvent := EventWithMessage(Transcribe, Completed, FromCacheMessage);
    O.AppendEvents(events, [hitEvent], Transcribe);
    var t := SavePart(config, env, video, hit, events + [hitEvent], effects, cache);
    assert TranscribePart(config, env, video, transcribe, cache, events, effects) == t;
    assert t.events[|events|] == hitEvent;
    NoTranscribeInSave(effects, SaveEffects(config, env, video, hit));
  }

  lemma NoTranscribeInSave(effects: seq<Effect>, saved: seq<Effect>)
    requires !Transcribes(effects) && |saved| == 3
    requires saved[0].EnsureDir? && saved[1].WriteFile? && saved[2].RemoveDir?
    ensures !Transcribes(effects + saved)
  {
    var all := effects + saved;
    forall i | 0 <= i < |all| ensures !all[i].TranscribeAudio? {
      if i >= |effects| {
        assert all[i] == saved[i - |effects|];
      }
    }
  }

  /** The trace of a miss begins with the given events followed by the
      transcriber's own events under the stage's label, and its effects
      continue with the call to the transcriber. */
  predicate ForwardsRun(t: OnlyTrace, events: seq<ProgressEvent>, effects: seq<Effect>, run: O.TranscriberRun, call: Effect) {
    && |effects| < |t.effects| && t.effects[|effects|] == call
    && |events| + |run.events| <= |t.events|
    && t.events[..|events| + |run.events|] == events + Relabel(run.events, Transcribe)
  }

  /** A miss: the transcriber is called on the downloaded audio with the
      command's options, and the stage's events are forwarded under its label. */
  lemma CacheMissTranscribes(config: TolmachConfig, env: O.Environment, video: DownloadedVideo,
                             transcribe: (string, W.TranscriptionOptions) -> O.TranscriberRun,
                             cache: Option<CacheStore>, events: seq<ProgressEvent>, effects: seq<Effect>)
    requires O.EventsOrdered(events) && O.EventsWithin(events, Transcribe)
    requires NoOutput(effects)
    requires CachedResult(cache, video.audioPath, config.whisper.model).None?
    ensures ForwardsRun(TranscribePart(config, env, video, transcribe, cache, events, effects), events, effects,
                        transcribe(video.audioPath, TranscriberOptions(config, env)),
                        TranscribeAudio(video.audioPath, TranscriberOptions(config, env)))
  {
    match transcribe(video.audioPath, TranscriberOptions(config, env)).outcome
    case Thrown(m) => ThrownForwards(config, env, video, transcribe, cache, events, effects, m);
    case Returned(Err(e)) => FailedForwards(config, env, video, transcribe, cache, events, effects, e);
    case Returned(Ok(result)) => SucceededForwards(config, env, video, transcribe, cache, events, effects, result);
  }

  lemma ThrownForwards(config: TolmachConfig, env: O.Environment, video: DownloadedVideo,
                       transcribe: (string, W.TranscriptionOptions) -> O.TranscriberRun,
                       cache: Option<CacheStore>, events: seq<ProgressEvent>, effects: seq<Effect>, m: string)
    requires O.EventsOrdered(events) && O.EventsWithin(events, Transcribe)
    requires NoOutput(effects)
    requires CachedResult(cache, video.audioPath, config.whisper.model).None?
    requires transcribe(video.audioPath, TranscriberOptions(config, env)).outcome == Thrown(m)
    ensures ForwardsRun(TranscribePart(config, env, video, transcribe, cache, events, effects), events, effects,
                        transcribe(video.audioPath, TranscriberOptions(config, env)),
                        TranscribeAudio(video.audioPath, TranscriberOptions(config, env)))
  {
    var run := transcribe(video.audioPath, TranscriberOptions(config, env));
    var call := TranscribeAudio(video.audioPath, TranscriberOptions(config, env));
    var t := TranscribePart(config, env, video, transcribe, cache, events, effects);
    MissThrown(config, env, video, transcribe, cache, events, effects, m);
    ForwardedThenCalled(t.events, events + Relabel(run.events, Transcribe), [], t.effects, effects, call, []);
  }

  lemma FailedForwards(config: TolmachConfig, env: O.Environment, video: DownloadedVideo,
                       transcribe: (string, W.TranscriptionOptions) -> O.TranscriberRun,
                       cache: Option<CacheStore>, events: seq<ProgressEvent>, effects: seq<Effect>, e: Error)
    requires O.EventsOrdered(events) && O.EventsWithin(events, Transcribe)
    requires NoOutput(effects)
    requires CachedResult(cache, video.audioPath, config.whisper.model).None?
    requires transcribe(video.audioPath, TranscriberOptions(config, env)).outcome == Returned(Err(e))
    ensures ForwardsRun(TranscribePart(config, env, video, transcribe, cache, events, effects), events, effects,
                        transcribe(video.audioPath, TranscriberOptions(config, env)),
                        TranscribeAudio(video.audioPath, TranscriberOptions(config, env)))
  {
    var run := transcribe(video.audioPath, TranscriberOptions(config, env));
    var call := TranscribeAudio(video.audioPath, TranscriberOptions(config, env));
    var t := TranscribePart(config, env, video, transcribe, cache, events, effects);
    MissFailed(config, env, video, transcribe, cache, events, effects, e);
    ForwardedThenCalled(t.events, events + Relabel(run.events, Transcribe), [EventWithMessage(Transcribe, Failed, e.message)],
                        t.effects, effects, call, []);
  }

  lemma SucceededForwards(config: TolmachConfig, env: O.Environment, video: DownloadedVideo,
                          transcribe: (string, W.TranscriptionOptions) -> O.TranscriberRun,
                          cache: Option<CacheStore>, events: seq<ProgressEvent>, effects: seq<Effect>, result: TranscriptionResult)
    requires O.EventsOrdered(events) && O.EventsWithin(events, Transcribe)
    requires NoOutput(effects)
    requires CachedResult(cache, video.audioPath, config.whisper.model).None?
    requires transcribe(video.audioPath, TranscriberOptions(config, env)).outcome == Returned(Ok(result))
    ensures ForwardsRun(TranscribePart(config, env, video, transcribe, cache, events, effects), events, effects,
                        transcribe(video.audioPath, TranscriberOptions(config, env)),
                        TranscribeAudio(video.audioPath, TranscriberOptions(config, env)))
  {
    MissSucceeded(config, env, video, transcribe, cache, events, effects, result);
    ForwardedThenSaved(TranscribePart(config, env, video, transcribe, cache, events, effects), events, effects,
                       transcribe(video.audioPath, TranscriberOptions(config, env)),
                       TranscribeAudio(video.audioPath, TranscriberOptions(config, env)),
                       [Event(Transcribe, Completed)], [Event(Save, Started), Event(Save, Completed)],
                       SaveEffects(config, env, video, result));
  }

  /** A trace that starts with the forwarded events, and effects that
      continue with one call, show both at their positions. */
  lemma ForwardedThenCalled(events: seq<ProgressEvent>, forwarded: seq<ProgressEvent>, later: seq<ProgressEvent>,
                            effects: seq<Effect>, before: seq<Effect>, call: Effect, after: seq<Effect>)
    requires events == forwarded + later
    requires effects == before + [call] + after
    ensures events[..|forwarded|] == forwarded
    ensures effects[|before|] == call
  {
  }

  lemma ForwardedThenSaved(t: OnlyTrace, events: seq<ProgressEvent>, effects: seq<Effect>, run: O.TranscriberRun,
                           call: Effect, closed: seq<ProgressEvent>, saved: seq<ProgressEvent>, after: seq<Effect>)
    requires t.events == events + Relabel(run.events, Transcribe) + closed + saved
    requires t.effects == effects + [call] + after
    ensures ForwardsRun(t, events, effects, run, call)
  {
    var forwarded := events + Relabel(run.events, Transcribe);
    assert t.events == forwarded + (closed + saved);
    ForwardedThenCalled(t.events, forwarded, closed + saved, t.effects, effects, call, after);
  }

  lemma MissThrown(config: TolmachConfig, env: O.Environment, video: DownloadedVideo,
                   transcribe: (string, W.TranscriptionOptions) -> O.TranscriberRun,
                   cache: Option<CacheStore>, events: seq<ProgressEvent>, effects: seq<Effect>, m: string)
    requires O.EventsOrdered(events) && O.EventsWithin(events, Transcribe)
    requires NoOutput(effects)
    requires CachedResult(cache, video.audioPath, config.whisper.model).None?
    requires transcribe(video.audioPath, TranscriberOptions(config, env)).outcome == Thrown(m)
    ensures TranscribePart(config, env, video, transcribe, cache, events, effects)
         == OnlyTrace(events + Relabel(transcribe(video.audioPath, TranscriberOptions(config, env)).events, Transcribe),
                      effects + [TranscribeAudio(video.audioPath, TranscriberOptions(config, env))], cache, Thrown(m))
  {
  }

  lemma MissFailed(config: TolmachConfig, env: O.Environment, video: DownloadedVideo,
                   transcribe: (string, W.TranscriptionOptions) -> O.TranscriberRun,
                   cache: Option<CacheStore>, events: seq<ProgressEvent>, effects: seq<Effect>, e: Error)
    requires O.EventsOrdered(events) && O.EventsWithin(events, Transcribe)
    requires NoOutput(effects)
    requires CachedResult(cache, video.audioPath, config.whisper.model).None?
    requires transcribe(video.audioPath, TranscriberOptions(config, env)).outcome == Returned(Err(e))
    ensures TranscribePart(config, env, video, transcribe, cache, events, effects)
         == OnlyTrace(events + Relabel(transcribe(video.audioPath, TranscriberOptions(config, env)).events, Transcribe)
                        + [EventWithMessage(Transcribe, Failed, e.message)],
                      effects + [TranscribeAudio(video.audioPath, TranscriberOptions(config, env))], cache, Returned(None))
  {
  }

  lemma MissSucceeded(config: TolmachConfig, env: O.Environment, video: DownloadedVideo,
                      transcribe: (string, W.TranscriptionOptions) -> O.TranscriberRun,
                      cache: Option<CacheStore>, events: seq<ProgressEvent>, effects: seq<Effect>, result: TranscriptionResult)
    requires O.EventsOrdered(events) && O.EventsWithin(events, Transcribe)
    requires NoOutput(effects)
    requires CachedResult(cache, video.audioPath, config.whisper.model).None?
    requires transcribe(video.audioPath, TranscriberOptions(config, env)).outcome == Returned(Ok(result))
    ensures var forwarded := events + Relabel(transcribe(video.audioPath, TranscriberOptions(config, env)).events, Transcribe);
            var t := TranscribePart(config, env, video, transcribe, cache, events, effects);
            && t.events == forwarded + [Event(Transcribe, Completed)] + [Event(Save, Started), Event(Save, Completed)]
            && t.effects == effects + [TranscribeAudio(video.audioPath, TranscriberOptions(config, env))]
                            + SaveEffects(config, env, video, result)
            && t.cache == StoreResult(cache, video.audioPath, config.whisper.model, result)
  {
  }

  /** A fresh result is stored under the audio path and the configured
      model, and is the one saved. */
  lemma MissStores(config: TolmachConfig, env: O.Environment, video: DownloadedVideo,
                   transcribe: (string, W.TranscriptionOptions) -> O.TranscriberRun,
                   cache: Option<CacheStore>, events: seq<ProgressEvent>, effects: seq<Effect>, result: TranscriptionResult)
    requires O.EventsOrdered(events) && O.EventsWithin(events, Transcribe)
    requires NoOutput(effects)
    requires CachedResult(cache, video.audioPath, config.whisper.model).None?
    requires transcribe(video.audioPath, TranscriberOptions(config, env)).outcome == Returned(Ok(result))
    ensures var t := TranscribePart(config, env, video, transcribe, cache, events, effects);
            && t.cache == StoreResult(cache, video.audioPath, config.whisper.model, result)
            && Finished(t)
            && SavedText(t.effects, TranscriptText(video.metadata, result))
  {
  }

  /** A failing transcriber: nothing is stored, the stage's last event is
      `failed` with the error's message, and the exit code is 1. */
  lemma MissFailureStoresNothing(config: TolmachConfig, env: O.Environment, video: DownloadedVideo,
                                 transcribe: (string, W.TranscriptionOptions) -> O.TranscriberRun,
                                 cache: Option<CacheStore>, events: seq<ProgressEvent>, effects: seq<Effect>, e: Error)
    requires O.EventsOrdered(events) && O.EventsWithin(events, Transcribe)
    requires NoOutput(effects)
    requires CachedResult(cache, video.audioPath, config.whisper.model).None?
    requires transcribe(video.audioPath, TranscriberOptions(config, env)).outcome == Returned(Err(e))
    ensures var t := TranscribePart(config, env, video, transcribe, cache, events, effects);
            && t.cache == cache
            && t.events[|t.events| - 1] == EventWithMessage(Transcribe, Failed, e.message)
            && ExitCode(t) == 1
            && !RemovesDir(t.effects)
  {
  }

  /** Without a cache the transcriber always runs and nothing is stored. */
  lemma NoCacheAlwaysTranscribes(config: TolmachConfig, env: O.Environment, video: DownloadedVideo,
                                 transcribe: (string, W.TranscriptionOptions) -> O.TranscriberRun,
                                 events: seq<ProgressEvent>, effects: seq<Effect>)
    requires O.EventsOrdered(events) && O.EventsWithin(events, Transcribe)
    requires NoOutput(effects)
    ensures var t := TranscribePart(config, env, video, transcribe, None, events, effects);
            && Transcribes(t.effects) && t.cache.None?
  {
    CacheMissTranscribes(config, env, video, transcribe, None, events, effects);
    var t := TranscribePart(config, env, video, transcribe, None, events, effects);
    assert t.effects[|effects|].TranscribeAudio?;
  }

  /** A second run on the same audio with the same model, after a first
      run stored its result, is a hit: the transcriber is not called again
      and the same transcript text is saved. */
  lemma SecondRunHits(config: TolmachConfig, env1: O.Environment, env2: O.Environment, video: DownloadedVideo,
                      transcribe1: (string, W.TranscriptionOptions) -> O.TranscriberRun,
                      transcribe2: (string, W.TranscriptionOptions) -> O.TranscriberRun,
                      store: CacheStore, events1: seq<ProgressEvent>, effects1: seq<Effect>,
                      events2: seq<ProgressEvent>, effects2: seq<Effect>, result: TranscriptionResult)
    requires Cache.RoundTrips(store.codec) && store.writeSucceeds && AllValid(result.segments)
    requires O.EventsOrdered(events1) && O.EventsWithin(events1, Transcribe) && NoOutput(effects1)
    requires O.EventsOrdered(events2) && O.EventsWithin(events2, Transcribe) && NoOutput(effects2) && !Transcribes(effects2)
    requires CachedResult(Some(store), video.audioPath, config.whisper.model).None?
    requires transcribe1(video.audioPath, TranscriberOptions(config, env1)).outcome == Returned(Ok(result))
    ensures var t1 := TranscribePart(config, env1, video, transcribe1, Some(store), events1, effects1);
            var t2 := TranscribePart(config, env2, video, transcribe2, t1.cache, events2, effects2);
            && !Transcribes(t2.effects)
            && SavedText(t1.effects, TranscriptText(video.metadata, result))
            && SavedText(t2.effects, TranscriptText(video.metadata, result))
  {
    var t1 := TranscribePart(config, env1, video, transcribe1, Some(store), events1, effects1);
    MissStores(config, env1, video, transcribe1, Some(store), events1, effects1, result);
    StoredIsFound(store, video.audioPath, config.whisper.model, result);
    CacheHit(config, env2, video, transcribe2, t1.cache, events2, effects2, result);
  }

  /** What a working cache stores under an audio path and a model is found
      there. */
  lemma StoredIsFound(store: CacheStore, audioPath: string, model: string, result: TranscriptionResult)
    requires Cache.RoundTrips(store.codec) && store.writeSucceeds && AllValid(result.segments)
    ensures CachedResult(StoreResult(Some(store), audioPath, model, result), audioPath, model) == Some(result)
  {
    Cache.SetThenGet(store.files, store.hash, store.codec, store.dir, audioPath, model, result, store.cachedAt);
  }

  // ---------------------------------------------------------------------
  // The command

  /** The pieces of the environment the command reads: the stored files,
      the home directory, the configuration file's codec, the environment
      variables, the probe the dependency check runs, and the cache's
      digest and codec. */
  datatype Machine = Machine(
    files: Files,
    home: string,
    configCodec: JsonCodec,
    envVars: Env,
    probe: Dependency.Probe,
    hash: string -> string,
    cacheCodec: Cache.Codec,
    cachedAt: string,
    cacheWriteSucceeds: bool)

  /** The cache exists exactly when the configuration enables it, in the
      configured directory with `~` expanded. */
  function CacheFor(config: TolmachConfig, m: Machine): (c: Option<CacheStore>)
    ensures c.Some? <==> config.cache.enabled
    ensures c.Some? ==> c.value.dir == ResolvePath(m.home, config.cache.dir) && c.value.files == m.files
  {
    if config.cache.enabled
    then Some(CacheStore(m.files, m.hash, m.cacheCodec, ResolvePath(m.home, config.cache.dir), m.cachedAt, m.cacheWriteSucceeds))
    else None
  }

  /** The language-model providers the command registers: the Claude
      agent, whose completion is a parameter, and a fresh mock. */
  function LlmProviders(claude: (string, Option<CompletionOptions>) -> Outcome<Result<LlmResponse, Error>>): (ps: seq<LlmProvider>)
    ensures |ps| == 2 && ps[0].name == ProviderNameString(ClaudeAgent) && ps[1].name == ProviderNameString(Mock)
  {
    [LlmProvider("claude-agent", claude), MockProvider.AsProvider(MockProvider.DefaultResponse)]
  }

  /** Every provider name the configuration schema admits is registered,
      so building the router never throws here. */
  lemma RouterAlwaysBuilt(config: TolmachConfig, claude: (string, Option<CompletionOptions>) -> Outcome<Result<LlmResponse, Error>>)
    ensures Router.NewRouter(LlmProviders(claude), Some(ProviderNameString(config.llm.provider))).Ok?
  {
    var ps := LlmProviders(claude);
    var name := ProviderNameString(config.llm.provider);
    if config.llm.provider == ClaudeAgent {
      assert ps[0].name == name;
    } else {
      assert ps[1].name == name;
    }
  }

  /** The router the command builds: both providers, the configured one
      as the default. */
  function CommandRouter(config: TolmachConfig, claude: (string, Option<CompletionOptions>) -> Outcome<Result<LlmResponse, Error>>)
    : (r: Router.LlmRouter)
    ensures Router.NewRouter(LlmProviders(claude), Some(ProviderNameString(config.llm.provider))) == Ok(r)
  {
    RouterAlwaysBuilt(config, claude);
    Router.NewRouter(LlmProviders(claude), Some(ProviderNameString(config.llm.provider))).value
  }

  /** The options the pipeline receives.  The command also passes the
      model directory, the report language and the output directory, but
      the pipeline's options have no such fields, so they have no effect. */
  function PipelineOptionsFor(url: string, config: TolmachConfig, options: TranscribeOptions): (p: O.PipelineOptions)
    ensures p.url == url && p.outputPath == options.output
    ensures p.whisperModel == Some(config.whisper.model) && p.language == Some(config.whisper.language)
    ensures p.llmProvider == Some(ProviderNameString(config.llm.provider)) && p.llmModel.None?
  {
    O.PipelineOptions(url, Some(config.whisper.model), Some(config.whisper.language),
                      Some(ProviderNameString(config.llm.provider)), None, options.output)
  }

  /** With the report generated, the configured output directory plays no
      part: the report goes to `--output` when given, else to the default
      reports directory. */
  lemma ReportDirIgnoresConfig(env: O.Environment, url: string, c1: TolmachConfig, c2: TolmachConfig, options: TranscribeOptions)
    requires c1.whisper == c2.whisper && c1.llm.provider == c2.llm.provider
    ensures PipelineOptionsFor(url, c1, options) == PipelineOptionsFor(url, c2, options)
    ensures options.output.None? ==> O.OutputDir(env, PipelineOptionsFor(url, c1, options)) == ResolvePath(env.home, O.DefaultReportsDir)
  {
  }

  /** How the command ends: `load` threw, a required program is missing
      (exit code 1), or the transcript-only run or the pipeline ran. */
  datatype CommandResult =
    | ConfigRejected(error: string)
    | MissingDependencies(message: string)
    | TranscriptOnly(trace: OnlyTrace)
    | Pipeline(run: O.RunTrace)

  /** The status the process exits with.  A failure the command reports
      sets `process.exitCode` to 1 (`ExitCode`); anything thrown (by `load`,
      a collaborator or a directory creation) rejects the command's promise,
      which the command-line entry point does not handle, so the process
      exits with status 1 as well.  Only a finished run exits with 0. */
  function ExitStatus(r: CommandResult): (code: nat)
    ensures code <= 1
    ensures code == 0 <==> || (r.TranscriptOnly? && Finished(r.trace))
                           || (r.Pipeline? && r.run.outcome.Returned? && r.run.outcome.value.Ok?)
  {
    match r
    case ConfigRejected(_) => 1
    case MissingDependencies(_) => 1
    case TranscriptOnly(t) => if t.outcome.Thrown? then 1 else ExitCode(t)
    case Pipeline(t) => if t.outcome.Returned? && t.outcome.value.Ok? then 0 else 1
  }

  /** The command exits with status 0 exactly when the configuration
      loads, every required program is present, and the chosen run
      (transcript only, or the full pipeline) finishes. */
  lemma CommandExitStatus(url: string, options: TranscribeOptions, m: Machine, env: O.Environment,
                          providers: seq<VideoProvider>, transcribe: (string, W.TranscriptionOptions) -> O.TranscriberRun,
                          claude: (string, Option<CompletionOptions>) -> Outcome<Result<LlmResponse, Error>>,
                          render: Prompt.PromptContext -> string)
    ensures var r := RunCommand(url, options, m, env, providers, transcribe, claude, render);
            var loaded := Resolve(FileConfig(m.files, m.home, m.configCodec), m.envVars, Some(Overrides(options)));
            ExitStatus(r) == 0 <==>
              && loaded.Ok? && Dependency.EnsureRequired(m.probe).Ok?
              && (options.noLlm ==> r.TranscriptOnly? && Finished(r.trace))
              && (!options.noLlm ==> r.Pipeline? && r.run.outcome.Returned? && r.run.outcome.value.Ok?)
  {
  }

  /** `transcribeCommand`. */
  function RunCommand(url: string, options: TranscribeOptions, m: Machine, env: O.Environment,
                      providers: seq<VideoProvider>, transcribe: (string, W.TranscriptionOptions) -> O.TranscriberRun,
                      claude: (string, Option<CompletionOptions>) -> Outcome<Result<LlmResponse, Error>>,
                      render: Prompt.PromptContext -> string): (r: CommandResult)
    ensures var loaded := Resolve(FileConfig(m.files, m.home, m.configCodec), m.envVars, Some(Overrides(options)));
            && (r.ConfigRejected? <==> loaded.Err?)
            && (r.MissingDependencies? <==> loaded.Ok? && Dependency.EnsureRequired(m.probe).Err?)
            && (r.TranscriptOnly? <==> loaded.Ok? && Dependency.EnsureRequired(m.probe).Ok? && options.noLlm)
            && (r.TranscriptOnly? ==> (r.trace.cache.Some? <==> loaded.value.cache.enabled))
            && (r.Pipeline? ==> r.run == O.Run(O.Collaborators(providers, transcribe, CommandRouter(loaded.value, claude), render),
                                               env, PipelineOptionsFor(url, loaded.value, options)))
  {
    match Resolve(FileConfig(m.files, m.home, m.configCodec), m.envVars, Some(Overrides(options)))
    case Err(e) => ConfigRejected(e)
    case Ok(config) => RunConfigured(url, options, config, m, env, providers, transcribe, claude, render)
  }

  /** The command once the configuration is loaded: the dependency check,
      then the transcript-only run or the pipeline. */
  function RunConfigured(url: string, options: TranscribeOptions, config: TolmachConfig, m: Machine, env: O.Environment,
                         providers: seq<VideoProvider>, transcribe: (string, W.TranscriptionOptions) -> O.TranscriberRun,
                         claude: (string, Option<CompletionOptions>) -> Outcome<Result<LlmResponse, Error>>,
                         render: Prompt.PromptContext -> string): (r: CommandResult)
    ensures !r.ConfigRejected?
    ensures r.MissingDependencies? <==> Dependency.EnsureRequired(m.probe).Err?
    ensures r.TranscriptOnly? <==> Dependency.EnsureRequired(m.probe).Ok? && options.noLlm
    ensures r.TranscriptOnly? ==> (r.trace.cache.Some? <==> config.cache.enabled)
    ensures r.Pipeline? ==> r.run == O.Run(O.Collaborators(providers, transcribe, CommandRouter(config, claude), render),
                                           env, PipelineOptionsFor(url, config, options))
  {
    match Dependency.EnsureRequired(m.probe)
    case Err(message) => MissingDependencies(message)
    case Ok(_) =>
      if options.noLlm then
        TranscriptOnly(RunTranscriptionOnly(url, config, env, providers, transcribe, CacheFor(config, m)))
      else
        Pipeline(O.Run(O.Collaborators(providers, transcribe, CommandRouter(config, claude), render),
                       env, PipelineOptionsFor(url, config, options)))
  }
}

=== FILE: transcript.dfy ===
/** Transcript values: a timed, scored segment of recognised text and the
    aggregate transcription result with its derived full text, duration and
    duration-weighted confidence. */
module Transcript {

  import opened Wrappers
  import opened Text

  /** A time-bounded span of text; times in milliseconds, confidence a real
      standing for the original's floating-point number. */
  datatype Segment = Segment(text: string, startMs: int, endMs: int, confidence: real)

  /** The invariant every constructed segment satisfies. */
  predicate ValidSegment(s: Segment) {
    s.startMs >= 0 && s.endMs >= s.startMs && 0.0 <= s.confidence <= 1.0
  }

  predicate AllValid(segments: seq<Segment>) {
    forall i :: 0 <= i < |segments| ==> ValidSegment(segments[i])
  }

  const StartNegativeMessage := "Start time must be non-negative"
  const EndBeforeStartMessage := "End time must be >= start time"
  const ConfidenceRangeMessage := "Confidence must be between 0 and 1"

  /** The segment constructor: checks start, then end, then confidence, and
      the first violated check decides the (thrown) error.  The text is
      stored as given, neither validated nor trimmed. */
  function NewSegment(text: string, startMs: int, endMs: int, confidence: real): (r: Result<Segment, string>)
    ensures r.Ok? <==> ValidSegment(Segment(text, startMs, endMs, confidence))
    ensures r.Ok? ==> r.value == Segment(text, startMs, endMs, confidence)
    ensures startMs < 0 ==> r == Err(StartNegativeMessage)
    ensures startMs >= 0 && endMs < startMs ==> r == Err(EndBeforeStartMessage)
    ensures startMs >= 0 && endMs >= startMs && !(0.0 <= confidence <= 1.0) ==> r == Err(ConfidenceRangeMessage)
  {
    if startMs < 0 then Err(StartNegativeMessage)
    else if endMs < startMs then Err(EndBeforeStartMessage)
    else if confidence < 0.0 || confidence > 1.0 then Err(ConfidenceRangeMessage)
    else Ok(Segment(text, startMs, endMs, confidence))
  }

  /** Rebuilding a segment from its own fields succeeds exactly for valid
      segments and then gives the same segment back. */
  lemma NewSegmentRebuilds(s: Segment)
    ensures NewSegment(s.text, s.startMs, s.endMs, s.confidence).Ok? <==> ValidSegment(s)
    ensures ValidSegment(s) ==> NewSegment(s.text, s.startMs, s.endMs, s.confidence) == Ok(s)
  {
  }

  /** `durationMs` of a segment. */
  function SegmentDuration(s: Segment): (d: int)
    ensures ValidSegment(s) ==> d >= 0 && s.startMs + d == s.endMs
  {
    s.endMs - s.startMs
  }

  function Texts(segments: seq<Segment>): (r: seq<string>)
    ensures |r| == |segments|
    ensures forall i :: 0 <= i < |r| ==> r[i] == segments[i].text
  {
    seq(|segments|, i requires 0 <= i < |segments| => segments[i].text)
  }

  /** A segment's confidence weighted by its duration. */
  function SegmentWeight(s: Segment): real {
    s.confidence * SegmentDuration(s) as real
  }

  /** Sum of confidence times duration over the segments. */
  function WeightedSum(segments: seq<Segment>): real {
    if |segments| == 0 then 0.0
    else WeightedSum(segments[..|segments| - 1]) + SegmentWeight(segments[|segments| - 1])
  }

  /** Sum of durations over the segments. */
  function TotalWeight(segments: seq<Segment>): int {
    if |segments| == 0 then 0
    else TotalWeight(segments[..|segments| - 1]) + SegmentDuration(segments[|segments| - 1])
  }

  /** The duration-weighted mean confidence: 0 for no segments and for a
      total duration of 0. */
  function WeightedMean(segments: seq<Segment>): real {
    if |segments| == 0 then 0.0
    else if TotalWeight(segments) == 0 then 0.0
    else WeightedSum(segments) / TotalWeight(segments) as real
  }

  /** For valid segments the weighted sum lies between 0 and the total weight. */
  lemma {:induction false} WeightedSumBounds(segments: seq<Segment>)
    requires AllValid(segments)
    ensures 0.0 <= WeightedSum(segments) <= TotalWeight(segments) as real
    ensures TotalWeight(segments) >= 0
  {
    if |segments| > 0 {
      var init := segments[..|segments| - 1];
      var last := segments[|segments| - 1];
      assert AllValid(init) by {
        forall i | 0 <= i < |init| ensures ValidSegment(init[i]) {
          assert init[i] == segments[i];
        }
      }
      WeightedSumBounds(init);
      SegmentWeightBounds(last);
    }
  }

  /** A valid segment's weight lies between 0 and its duration. */
  lemma SegmentWeightBounds(s: Segment)
    requires ValidSegment(s)
    ensures 0.0 <= SegmentWeight(s) <= SegmentDuration(s) as real
  {
    var c, d := s.confidence, SegmentDuration(s) as real;
    ScaledWeightBounds(c, d);
    assert SegmentWeight(s) == c * d;
  }

  lemma ScaledWeightBounds(c: real, d: real)
    requires 0.0 <= c <= 1.0 && d >= 0.0
    ensures 0.0 <= c * d <= d
  {
    assert c * d <= 1.0 * d;
  }

  lemma RatioBounds(a: real, w: real)
    requires 0.0 <= a <= w && w > 0.0
    ensures 0.0 <= a / w <= 1.0
  {
    assert a / w * w == a;
  }

  /** The mean confidence of valid segments lies in [0, 1]. */
  lemma AverageConfidenceInUnitInterval(segments: seq<Segment>)
    requires AllValid(segments)
    ensures 0.0 <= WeightedMean(segments) <= 1.0
  {
    WeightedSumBounds(segments);
    if |segments| > 0 && TotalWeight(segments) != 0 {
      RatioBounds(WeightedSum(segments), TotalWeight(segments) as real);
    }
  }

  /** When every segment has the same confidence `c` and some duration, the
      weighted mean is `c`: it is a mean, not some other statistic. */
  lemma WeightedMeanOfConstant(segments: seq<Segment>, c: real)
    requires forall i :: 0 <= i < |segments| ==> segments[i].confidence == c
    ensures WeightedSum(segments) == c * TotalWeight(segments) as real
    ensures TotalWeight(segments) != 0 ==> WeightedMean(segments) == c
  {
    WeightedSumOfConstant(segments, c);
    if |segments| > 0 && TotalWeight(segments) != 0 {
      ScaleThenDivide(c, TotalWeight(segments) as real);
    }
  }

  lemma {:induction false} WeightedSumOfConstant(segments: seq<Segment>, c: real)
    requires forall i :: 0 <= i < |segments| ==> segments[i].confidence == c
    ensures WeightedSum(segments) == c * TotalWeight(segments) as real
  {
    if |segments| > 0 {
      var init := segments[..|segments| - 1];
      var last := segments[|segments| - 1];
      assert forall i :: 0 <= i < |init| ==> init[i].confidence == c by {
        forall i | 0 <= i < |init| ensures init[i].confidence == c {
          assert init[i] == segments[i];
        }
      }
      WeightedSumOfConstant(init, c);
      var w, d := TotalWeight(init) as real, SegmentDuration(last) as real;
      assert SegmentWeight(last) == c * d;
      assert TotalWeight(segments) as real == w + d;
      Distribute(c, w, d);
    }
  }

  lemma Distribute(c: real, w: real, d: real)
    ensures c * (w + d) == c * w + c * d
  {
  }

  lemma ScaleThenDivide(c: real, t: real)
    requires t != 0.0
    ensures (c * t) / t == c
  {
  }

  /** `calculateAverageConfidence`: one pass accumulating the weighted sum
      and the total weight, then one division. */
  method CalculateAverageConfidence(segments: seq<Segment>) returns (r: real)
    ensures r == WeightedMean(segments)
    ensures AllValid(segments) ==> 0.0 <= r <= 1.0
  {
    if |segments| == 0 {
      return 0.0;
    }
    var totalWeight := 0;
    var weightedSum := 0.0;
    var i := 0;
    while i < |segments|
      invariant 0 <= i <= |segments|
      invariant totalWeight == TotalWeight(segments[..i])
      invariant weightedSum == WeightedSum(segments[..i])
    {
      var weight := SegmentDuration(segments[i]);
      weightedSum := weightedSum + SegmentWeight(segments[i]);
      totalWeight := totalWeight + weight;
      i := i + 1;
      assert segments[..i][..i - 1] == segments[..i - 1];
    }
    assert segments[..i] == segments;
    if AllValid(segments) {
      AverageConfidenceInUnitInterval(segments);
    }
    if totalWeight == 0 {
      return 0.0;
    }
    return weightedSum / totalWeight as real;
  }

  /** A transcription result.  Its derived fields are functions of the
      segment sequence alone, so equal sequences give equal fields. */
  datatype TranscriptionResult = TranscriptionResult(segments: seq<Segment>, language: string) {

    /** Segment texts joined by single spaces, trimmed at both ends. */
    function FullText(): string {
      Trim(Join(Texts(segments), " "))
    }

    /** The end time of the last segment (not the largest end time), 0 when empty. */
    function DurationMs(): int {
      if |segments| > 0 then segments[|segments| - 1].endMs else 0
    }

    function AverageConfidence(): real {
      WeightedMean(segments)
    }
  }

  /** Segments in chronological order: end times never decrease. */
  predicate Chronological(segments: seq<Segment>) {
    forall i, j :: 0 <= i <= j < |segments| ==> segments[i].endMs <= segments[j].endMs
  }

  /** The result's duration is the last end time; for chronological segments
      that is the largest end time, but not for segments out of order. */
  lemma DurationIsLastEnd(r: TranscriptionResult)
    ensures |r.segments| == 0 ==> r.DurationMs() == 0
    ensures |r.segments| > 0 ==> r.DurationMs() == r.segments[|r.segments| - 1].endMs
    ensures Chronological(r.segments) ==>
              forall i :: 0 <= i < |r.segments| ==> r.segments[i].endMs <= r.DurationMs()
  {
  }

  /** Two out-of-order segments: the duration is 1000 although a segment ends at 5000. */
  lemma DurationIsNotMaximum()
    ensures var r := TranscriptionResult([Segment("a", 0, 5000, 1.0), Segment("b", 0, 1000, 1.0)], "en");
            r.DurationMs() == 1000 && r.segments[0].endMs == 5000
  {
  }

  /** A text that neither is empty nor starts or ends with white space. */
  predicate Clean(t: string) {
    |t| > 0 && !IsWhitespace(t[0]) && !IsWhitespace(t[|t| - 1])
  }

  lemma {:induction false} JoinEnds(parts: seq<string>, sep: string)
    requires |parts| > 0 && forall i :: 0 <= i < |parts| ==> |parts[i]| > 0
    ensures var j := Join(parts, sep);
            |j| > 0 && j[0] == parts[0][0] && j[|j| - 1] == parts[|parts| - 1][|parts[|parts| - 1]| - 1]
  {
    if |parts| > 1 {
      JoinEnds(parts[1..], sep);
    }
  }

  /** When every segment text is clean (as after the parser's trimming and
      the filter's removal of blank texts), the full text is exactly the
      space-joined texts: the final trim removes nothing. */
  lemma FullTextOfCleanSegments(r: TranscriptionResult)
    requires forall i :: 0 <= i < |r.segments| ==> Clean(r.segments[i].text)
    ensures r.FullText() == Join(Texts(r.segments), " ")
    ensures |r.segments| == 0 ==> r.FullText() == ""
  {
    var texts := Texts(r.segments);
    if |texts| > 0 {
      JoinEnds(texts, " ");
    }
    TrimNoop(Join(texts, " "));
  }
}

=== FILE: video.dfy ===
/** Video values: the metadata of a video (validated on construction, with
    a clock-style rendering of its duration) and a downloaded audio track. */
module Video {

  import opened Wrappers
  import opened Text

  /** Validated metadata; the duration is a whole, non-negative number of
      seconds, as the constructor guarantees. */
  datatype VideoMetadata = VideoMetadata(
    title: string,
    author: string,
    durationSeconds: nat,
    description: string,
    url: string,
    provider: string)

  const EmptyTitleMessage := "Title must not be empty"
  const NegativeDurationMessage := "Duration must be non-negative"
  const EmptyUrlMessage := "URL must not be empty"

  /** What every constructed metadata value satisfies. */
  predicate ValidMetadata(m: VideoMetadata) {
    && m.title != "" && Trim(m.title) == m.title
    && Trim(m.author) == m.author
    && Trim(m.url) != ""
  }

  /** The metadata constructor: title, then duration, then URL are checked
      (the first failure decides the thrown message); title and author are
      stored trimmed, everything else as given. */
  function NewVideoMetadata(title: string, author: string, durationSeconds: int,
                            description: string, url: string, provider: string): (r: Result<VideoMetadata, string>)
    ensures r.Ok? <==> Trim(title) != "" && durationSeconds >= 0 && Trim(url) != ""
    ensures Trim(title) == "" ==> r == Err(EmptyTitleMessage)
    ensures Trim(title) != "" && durationSeconds < 0 ==> r == Err(NegativeDurationMessage)
    ensures Trim(title) != "" && durationSeconds >= 0 && Trim(url) == "" ==> r == Err(EmptyUrlMessage)
    ensures r.Ok? ==> ValidMetadata(r.value)
    ensures r.Ok? ==> r.value.title == Trim(title) && r.value.author == Trim(author)
                      && r.value.durationSeconds == durationSeconds && r.value.description == description
                      && r.value.url == url && r.value.provider == provider
  {
    if Trim(title) == "" then Err(EmptyTitleMessage)
    else if durationSeconds < 0 then Err(NegativeDurationMessage)
    else if Trim(url) == "" then Err(EmptyUrlMessage)
    else
      TrimIdempotent(title);
      TrimIdempotent(author);
      Ok(VideoMetadata(Trim(title), Trim(author), durationSeconds, description, url, provider))
  }

  /** Constructing from a valid value's own fields gives it back: valid
      metadata is exactly what the constructor produces. */
  lemma NewVideoMetadataRebuilds(m: VideoMetadata)
    requires ValidMetadata(m)
    ensures NewVideoMetadata(m.title, m.author, m.durationSeconds, m.description, m.url, m.provider) == Ok(m)
  {
  }

  /** A number as at least two digits, zero-padded. */
  function TwoDigits(n: nat): string {
    PadStart(NatToString(n), 2, '0')
  }

  /** `formattedDuration`: `H:MM:SS` when there is at least one hour,
      otherwise `M:SS`. */
  function FormattedDuration(seconds: nat): string {
    var hours := seconds / 3600;
    var minutes := (seconds % 3600) / 60;
    var secs := seconds % 60;
    if hours > 0 then NatToString(hours) + ":" + TwoDigits(minutes) + ":" + TwoDigits(secs)
    else NatToString(minutes) + ":" + TwoDigits(secs)
  }

  /** A non-empty run of decimal digits. */
  predicate Numeral(s: string) {
    |s| > 0 && AllDigits(s)
  }

  /** A two-digit field below 60. */
  predicate SexagesimalField(s: string) {
    |s| == 2 && AllDigits(s) && DigitsToNat(s) < 60
  }

  /** The seconds denoted by the colon-separated fields of a clock reading. */
  function ClockFieldsValue(parts: seq<string>): Option<nat> {
    if |parts| == 2 && Numeral(parts[0]) && SexagesimalField(parts[1]) then
      Some(DigitsToNat(parts[0]) * 60 + DigitsToNat(parts[1]))
    else if |parts| == 3 && Numeral(parts[0]) && SexagesimalField(parts[1]) && SexagesimalField(parts[2]) then
      Some(DigitsToNat(parts[0]) * 3600 + DigitsToNat(parts[1]) * 60 + DigitsToNat(parts[2]))
    else None
  }

  /** Reads a clock-style duration back into seconds: `M:SS` or `H:MM:SS`
      with two-digit minutes and seconds fields below 60. */
  function ParseDuration(s: string): Option<nat> {
    ClockFieldsValue(Split(s, ':'))
  }

  lemma TwoDigitsValue(n: nat)
    requires n < 100
    ensures |TwoDigits(n)| == 2 && AllDigits(TwoDigits(n)) && ':' !in TwoDigits(n)
    ensures DigitsToNat(TwoDigits(n)) == n
  {
    NatToStringRoundTrip(n);
    var s := NatToString(n);
    if n < 10 {
      assert TwoDigits(n) == "0" + s;
      assert TwoDigits(n)[..1] == "0";
    } else {
      assert NatToString(n / 10) == [DigitChar(n / 10)];
    }
  }

  lemma NumeralHasNoColon(s: string)
    requires AllDigits(s)
    ensures ':' !in s
  {
  }

  /** The seconds split into hours, minutes below 60 and seconds below 60. */
  lemma ClockDecomposition(seconds: nat)
    ensures (seconds % 3600) / 60 < 60 && seconds % 60 < 60
    ensures seconds == (seconds / 3600) * 3600 + ((seconds % 3600) / 60) * 60 + seconds % 60
  {
    var q := seconds / 3600;
    var r := seconds % 3600;
    var m := r / 60;
    var s := r % 60;
    assert seconds == q * 3600 + r && r < 3600;
    assert r == m * 60 + s && s < 60;
    assert m < 60;
    assert seconds == (q * 60 + m) * 60 + s;
    RemainderOfSixty(q * 60 + m, s);
  }

  lemma RemainderOfSixty(k: nat, s: nat)
    requires s < 60
    ensures (k * 60 + s) % 60 == s
  {
  }

  lemma SplitTwoFields(a: string, b: string)
    requires ':' !in a && ':' !in b
    ensures Split(a + ":" + b, ':') == [a, b]
  {
    assert a + ":" + b == a + [':'] + b;
    SplitAtFirst(a, ':', b);
  }

  lemma SplitThreeFields(a: string, b: string, c: string)
    requires ':' !in a && ':' !in b && ':' !in c
    ensures Split(a + ":" + b + ":" + c, ':') == [a, b, c]
  {
    assert a + ":" + b + ":" + c == a + [':'] + (b + ":" + c);
    SplitAtFirst(a, ':', b + ":" + c);
    SplitTwoFields(b, c);
  }

  /** A clock reading `M:SS` is read field by field. */
  lemma ParseTwoFields(m: string, ss: string)
    requires ':' !in m && ':' !in ss
    ensures ParseDuration(m + ":" + ss) == ClockFieldsValue([m, ss])
  {
    SplitTwoFields(m, ss);
  }

  /** A clock reading `H:MM:SS` is read field by field. */
  lemma ParseThreeFields(h: string, mm: string, ss: string)
    requires ':' !in h && ':' !in mm && ':' !in ss
    ensures ParseDuration(h + ":" + mm + ":" + ss) == ClockFieldsValue([h, mm, ss])
  {
    SplitThreeFields(h, mm, ss);
  }

  lemma ClockTwoFields(m: string, ss: string, minutes: nat, secs: nat, total: nat)
    requires Numeral(m) && SexagesimalField(ss)
    requires DigitsToNat(m) == minutes && DigitsToNat(ss) == secs && total == minutes * 60 + secs
    ensures ClockFieldsValue([m, ss]) == Some(total)
  {
  }

  lemma ClockThreeFields(h: string, mm: string, ss: string, hours: nat, minutes: nat, secs: nat, total: nat)
    requires Numeral(h) && SexagesimalField(mm) && SexagesimalField(ss)
    requires DigitsToNat(h) == hours && DigitsToNat(mm) == minutes && DigitsToNat(ss) == secs
    requires total == hours * 3600 + minutes * 60 + secs
    ensures ClockFieldsValue([h, mm, ss]) == Some(total)
  {
  }

  /** A printed number is a numeral without colons that reads back as the number. */
  lemma PrintedNumeral(n: nat)
    ensures Numeral(NatToString(n)) && DigitsToNat(NatToString(n)) == n && ':' !in NatToString(n)
  {
    NatToStringRoundTrip(n);
    NumeralHasNoColon(NatToString(n));
  }

  /** A padded field below 60 is a two-digit field that reads back as the number. */
  lemma PrintedField(n: nat)
    requires n < 60
    ensures SexagesimalField(TwoDigits(n)) && DigitsToNat(TwoDigits(n)) == n && ':' !in TwoDigits(n)
  {
    TwoDigitsValue(n);
  }

  lemma ParseMinutesSeconds(minutes: nat, secs: nat, total: nat)
    requires secs < 60 && total == minutes * 60 + secs
    ensures ParseDuration(NatToString(minutes) + ":" + TwoDigits(secs)) == Some(total)
  {
    PrintedNumeral(minutes);
    PrintedField(secs);
    ParseTwoFields(NatToString(minutes), TwoDigits(secs));
    ClockTwoFields(NatToString(minutes), TwoDigits(secs), minutes, secs, total);
  }

  lemma ParseHoursMinutesSeconds(hours: nat, minutes: nat, secs: nat, total: nat)
    requires minutes < 60 && secs < 60 && total == hours * 3600 + minutes * 60 + secs
    ensures ParseDuration(NatToString(hours) + ":" + TwoDigits(minutes) + ":" + TwoDigits(secs)) == Some(total)
  {
    PrintedNumeral(hours);
    PrintedField(minutes);
    PrintedField(secs);
    ParseThreeFields(NatToString(hours), TwoDigits(minutes), TwoDigits(secs));
    ClockThreeFields(NatToString(hours), TwoDigits(minutes), TwoDigits(secs), hours, minutes, secs, total);
  }

  /** Reading a formatted duration gives the duration back: the rendering
      loses nothing. */
  lemma FormattedDurationRoundTrip(seconds: nat)
    ensures ParseDuration(FormattedDuration(seconds)) == Some(seconds)
  {
    var hours := seconds / 3600;
    var minutes := (seconds % 3600) / 60;
    var secs := seconds % 60;
    ClockDecomposition(seconds);
    if hours > 0 {
      assert FormattedDuration(seconds) == NatToString(hours) + ":" + TwoDigits(minutes) + ":" + TwoDigits(secs);
      ParseHoursMinutesSeconds(hours, minutes, secs, seconds);
    } else {
      assert FormattedDuration(seconds) == NatToString(minutes) + ":" + TwoDigits(secs);
      ParseMinutesSeconds(minutes, secs, seconds);
    }
  }

  /** The renderings the program's own examples expect. */
  lemma FormattedDurationExamples()
    ensures FormattedDuration(45) == "0:45"
    ensures FormattedDuration(754) == "12:34"
    ensures FormattedDuration(3661) == "1:01:01"
    ensures FormattedDuration(0) == "0:00"
  {
    SecondsOnlyExample();
    MinutesExample();
    HoursExample();
    ZeroExample();
  }

  /** A number below 100 renders as two digits, padded with a zero. */
  lemma FieldDigits(n: nat)
    requires n < 100
    ensures TwoDigits(n) == [DigitChar(n / 10), DigitChar(n % 10)]
  {
    if n < 10 {
      assert NatToString(n) == [DigitChar(n)];
      assert TwoDigits(n) == ['0'] + [DigitChar(n)];
    } else {
      assert NatToString(n) == NatToString(n / 10) + [DigitChar(n % 10)];
      assert NatToString(n / 10) == [DigitChar(n / 10)];
    }
  }

  lemma SecondsOnlyExample()
    ensures FormattedDuration(45) == "0:45"
  {
    assert 45 / 3600 == 0 && (45 % 3600) / 60 == 0 && 45 % 60 == 45;
    assert FormattedDuration(45) == NatToString(0) + ":" + TwoDigits(45);
    FieldDigits(0);
    FieldDigits(45);
    assert NatToString(0) == [DigitChar(0)];
  }

  lemma MinutesExample()
    ensures FormattedDuration(754) == "12:34"
  {
    assert 754 / 3600 == 0 && (754 % 3600) / 60 == 12 && 754 % 60 == 34;
    assert FormattedDuration(754) == NatToString(12) + ":" + TwoDigits(34);
    FieldDigits(12);
    FieldDigits(34);
    assert NatToString(12) == TwoDigits(12);
  }

  lemma HoursExample()
    ensures FormattedDuration(3661) == "1:01:01"
  {
    assert 3661 / 3600 == 1 && (3661 % 3600) / 60 == 1 && 3661 % 60 == 1;
    assert FormattedDuration(3661) == NatToString(1) + ":" + TwoDigits(1) + ":" + TwoDigits(1);
    assert NatToString(1) == [DigitChar(1)];
    FieldDigits(1);
  }

  lemma ZeroExample()
    ensures FormattedDuration(0) == "0:00"
  {
    assert FormattedDuration(0) == NatToString(0) + ":" + TwoDigits(0);
    FieldDigits(0);
    assert NatToString(0) == [DigitChar(0)];
  }

  /** A downloaded audio track with the metadata of its video. */
  datatype DownloadedVideo = DownloadedVideo(audioPath: string, metadata: VideoMetadata, fileSizeBytes: int)

  const EmptyAudioPathMessage := "Audio path must not be empty"
  const NegativeSizeMessage := "File size must be non-negative"

  /** The downloaded-video constructor: a blank audio path, then a negative
      size, is rejected; the path is stored untrimmed. */
  function NewDownloadedVideo(audioPath: string, metadata: VideoMetadata, fileSizeBytes: int): (r: Result<DownloadedVideo, string>)
    ensures r.Ok? <==> Trim(audioPath) != "" && fileSizeBytes >= 0
    ensures Trim(audioPath) == "" ==> r == Err(EmptyAudioPathMessage)
    ensures Trim(audioPath) != "" && fileSizeBytes < 0 ==> r == Err(NegativeSizeMessage)
    ensures r.Ok? ==> r.value.audioPath == audioPath && r.value.metadata == metadata && r.value.fileSizeBytes == fileSizeBytes
  {
    if Trim(audioPath) == "" then Err(EmptyAudioPathMessage)
    else if fileSizeBytes < 0 then Err(NegativeSizeMessage)
    else Ok(DownloadedVideo(audioPath, metadata, fileSizeBytes))
  }
}

=== FILE: whisper_output.dfy ===
/** The recogniser's full JSON output and its conversion into transcript
    segments.  Decoding the JSON text and checking its shape are taken as
    given: the parser receives the decoded document, classified as invalid
    JSON, structurally invalid, or well-formed. */
module WhisperOutput {

  import opened Wrappers
  import opened Text
  import opened Errors
  import opened Transcript

  /** A recognised token with its probability `p`. */
  datatype WhisperToken = WhisperToken(text: string, p: real)

  /** One recognised segment: textual and numeric (millisecond) time span,
      its text, and optionally its tokens. */
  datatype WhisperSegment = WhisperSegment(
    timestampFrom: string, timestampTo: string,
    offsetFrom: int, offsetTo: int,
    text: string,
    tokens: Option<seq<WhisperToken>>)

  /** The well-formed document: the segments and the optional detected language. */
  datatype WhisperDocument = WhisperDocument(transcription: seq<WhisperSegment>, language: Option<string>)

  /** What decoding and shape-checking the file contents produced. */
  datatype Decoded =
    | InvalidJson(syntaxError: string)
    | InvalidStructure(issues: string)
    | WellFormed(document: WhisperDocument)

  datatype ParsedWhisperOutput = ParsedWhisperOutput(segments: seq<Segment>, language: string)

  const InvalidJsonMessage := "Invalid JSON in whisper output"
  const InvalidStructurePrefix := "Invalid whisper output structure: "
  const UnknownLanguage := "unknown"

  function SumP(tokens: seq<WhisperToken>): real {
    if |tokens| == 0 then 0.0 else SumP(tokens[..|tokens| - 1]) + tokens[|tokens| - 1].p
  }

  predicate ProbabilitiesInUnitInterval(tokens: seq<WhisperToken>) {
    forall i :: 0 <= i < |tokens| ==> 0.0 <= tokens[i].p <= 1.0
  }

  predicate AllProbabilitiesAre(tokens: seq<WhisperToken>, v: real) {
    forall i :: 0 <= i < |tokens| ==> tokens[i].p == v
  }

  lemma {:induction false} SumPBounds(tokens: seq<WhisperToken>)
    requires ProbabilitiesInUnitInterval(tokens)
    ensures 0.0 <= SumP(tokens) <= |tokens| as real
  {
    if |tokens| > 0 {
      var init := tokens[..|tokens| - 1];
      assert ProbabilitiesInUnitInterval(init) by {
        forall i | 0 <= i < |init| ensures 0.0 <= init[i].p <= 1.0 {
          assert init[i] == tokens[i];
        }
      }
      SumPBounds(init);
    }
  }

  lemma {:induction false} SumPConstant(tokens: seq<WhisperToken>, c: real)
    requires forall i :: 0 <= i < |tokens| ==> tokens[i].p == c
    ensures SumP(tokens) == c * |tokens| as real
  {
    if |tokens| > 0 {
      var init := tokens[..|tokens| - 1];
      assert forall i :: 0 <= i < |init| ==> init[i].p == c by {
        forall i | 0 <= i < |init| ensures init[i].p == c {
          assert init[i] == tokens[i];
        }
      }
      SumPConstant(init, c);
    }
  }

  /** A segment's confidence: the arithmetic mean of its token
      probabilities, 0 without tokens.  The mean of probabilities is a
      probability, and the mean of equal values is that value. */
  function SegmentConfidence(tokens: seq<WhisperToken>): (c: real)
    ensures |tokens| == 0 ==> c == 0.0
    ensures ProbabilitiesInUnitInterval(tokens) ==> 0.0 <= c <= 1.0
    ensures forall v :: |tokens| > 0 && AllProbabilitiesAre(tokens, v) ==> c == v
  {
    if |tokens| == 0 then 0.0
    else
      MeanProperties(tokens);
      SumP(tokens) / |tokens| as real
  }

  lemma MeanProperties(tokens: seq<WhisperToken>)
    requires |tokens| > 0
    ensures ProbabilitiesInUnitInterval(tokens) ==> 0.0 <= SumP(tokens) / |tokens| as real <= 1.0
    ensures forall v :: AllProbabilitiesAre(tokens, v) ==> SumP(tokens) / |tokens| as real == v
  {
    if ProbabilitiesInUnitInterval(tokens) {
      SumPBounds(tokens);
      MeanBounds(SumP(tokens), |tokens| as real);
    }
    forall v | AllProbabilitiesAre(tokens, v)
      ensures SumP(tokens) / |tokens| as real == v
    {
      MeanOfEqual(tokens, v);
    }
  }

  lemma MeanOfEqual(tokens: seq<WhisperToken>, v: real)
    requires |tokens| > 0 && AllProbabilitiesAre(tokens, v)
    ensures SumP(tokens) / |tokens| as real == v
  {
    var n := |tokens| as real;
    SumPConstant(tokens, v);
    assert SumP(tokens) == v * n;
    DivideBack(v, n);
  }

  lemma DivideBack(v: real, n: real)
    requires n > 0.0
    ensures v * n / n == v
  {
  }

  lemma MeanBounds(sum: real, n: real)
    requires n > 0.0 && 0.0 <= sum <= n
    ensures 0.0 <= sum / n <= 1.0
  {
    assert sum / n * n == sum;
  }

  /** The segment built from a recognised segment: trimmed text, the
      numeric offsets as times, the mean token probability as confidence.
      Construction fails (throws) as the segment constructor does. */
  function ToSegment(w: WhisperSegment): Result<Segment, string> {
    NewSegment(Trim(w.text), w.offsetFrom, w.offsetTo, SegmentConfidence(w.tokens.GetOr([])))
  }

  /** `parse`: invalid JSON and an invalid structure are returned as parse
      failures; a segment the constructor rejects makes the call throw;
      otherwise the segments in order and the language, "unknown" when absent. */
  function Parse(input: Decoded): (r: Outcome<Result<ParsedWhisperOutput, Error>>)
    ensures input.InvalidJson? ==>
              r == Returned(Err(TranscriptionError(ParseFailed, InvalidJsonMessage,
                                                   Some(Plain("SyntaxError", input.syntaxError, None)))))
    ensures input.InvalidStructure? ==>
              r == Returned(Err(TranscriptionError(ParseFailed, InvalidStructurePrefix + input.issues, None)))
    ensures input.WellFormed? ==>
              var ws := input.document.transcription;
              && (r.Thrown? <==> exists i :: 0 <= i < |ws| && ToSegment(ws[i]).Err?)
              && (r.Thrown? ==> MapUntilError(ws, ToSegment) == Err(r.message))
              && (r.Returned? ==> r.value.Ok?)
              && (r.Returned? ==>
                    && |r.value.value.segments| == |ws|
                    && r.value.value.language == input.document.language.GetOr(UnknownLanguage)
                    && forall i :: 0 <= i < |ws| ==> ToSegment(ws[i]) == Ok(r.value.value.segments[i]))
  {
    match input
    case InvalidJson(e) =>
      Returned(Err(TranscriptionError(ParseFailed, InvalidJsonMessage, Some(Plain("SyntaxError", e, None)))))
    case InvalidStructure(issues) =>
      Returned(Err(TranscriptionError(ParseFailed, InvalidStructurePrefix + issues, None)))
    case WellFormed(doc) =>
      match MapUntilError(doc.transcription, ToSegment)
      case Err(message) => Thrown(message)
      case Ok(segments) => Returned(Ok(ParsedWhisperOutput(segments, doc.language.GetOr(UnknownLanguage))))
  }

  /** The document the recogniser would write for given segments: one token
      per segment carrying the segment's confidence (textual timestamps are
      not reproduced). */
  function Describe(segments: seq<Segment>, language: string): (d: WhisperDocument)
    ensures |d.transcription| == |segments|
  {
    WhisperDocument(
      seq(|segments|, i requires 0 <= i < |segments| =>
        WhisperSegment("", "", segments[i].startMs, segments[i].endMs, segments[i].text,
                       Some([WhisperToken(segments[i].text, segments[i].confidence)]))),
      Some(language))
  }

  lemma DescribedSegmentRebuilds(s: Segment)
    requires ValidSegment(s) && Trim(s.text) == s.text
    ensures ToSegment(WhisperSegment("", "", s.startMs, s.endMs, s.text, Some([WhisperToken(s.text, s.confidence)])))
            == Ok(s)
  {
    var tokens := [WhisperToken(s.text, s.confidence)];
    assert AllProbabilitiesAre(tokens, s.confidence);
    assert SegmentConfidence(tokens) == s.confidence;
  }

  /** A document whose segments all convert parses to them. */
  lemma ParseWellFormed(doc: WhisperDocument, segments: seq<Segment>)
    requires MapUntilError(doc.transcription, ToSegment) == Ok(segments)
    ensures Parse(WellFormed(doc)) == Returned(Ok(ParsedWhisperOutput(segments, doc.language.GetOr(UnknownLanguage))))
  {
  }

  /** Parsing the document that describes valid segments with trimmed texts
      gives back exactly those segments and the language. */
  lemma ParseDescribeRoundTrip(segments: seq<Segment>, language: string)
    requires AllValid(segments)
    requires forall i :: 0 <= i < |segments| ==> Trim(segments[i].text) == segments[i].text
    ensures Parse(WellFormed(Describe(segments, language)))
            == Returned(Ok(ParsedWhisperOutput(segments, language)))
  {
    var d := Describe(segments, language);
    forall i | 0 <= i < |segments| ensures ToSegment(d.transcription[i]) == Ok(segments[i]) {
      DescribedSegmentRebuilds(segments[i]);
    }
    MapUntilErrorOk(d.transcription, ToSegment, segments);
    ParseWellFormed(d, segments);
  }

  /** A segment without tokens gets confidence 0, its text is trimmed of
      the blank the recogniser puts in front, and a document without a
      language reports "unknown". */
  lemma MinimalDocumentExample(text: string, from: string, to: string)
    requires |text| > 0 && !IsWhitespace(text[0]) && !IsWhitespace(text[|text| - 1])
    ensures Parse(WellFormed(WhisperDocument([WhisperSegment(from, to, 0, 5000, [' '] + text, None)], None)))
            == Returned(Ok(ParsedWhisperOutput([Segment(text, 0, 5000, 0.0)], "unknown")))
  {
    var w := WhisperSegment(from, to, 0, 5000, [' '] + text, None);
    var segment := Segment(text, 0, 5000, 0.0);
    TrimLeadingBlank(text);
    assert SegmentConfidence([]) == 0.0;
    assert ToSegment(w) == Ok(segment);
    MapUntilErrorOk([w], ToSegment, [segment]);
    ParseWellFormed(WhisperDocument([w], None), [segment]);
  }

  /** A segment whose end precedes its start makes parsing throw with the
      constructor's message instead of returning a parse failure. */
  lemma ReversedSegmentThrows()
    ensures Parse(WellFormed(WhisperDocument([WhisperSegment("", "", 5000, 1000, "x", None)], None)))
            == Thrown(EndBeforeStartMessage)
  {
    var w := WhisperSegment("", "", 5000, 1000, "x", None);
    assert ToSegment(w) == Err(EndBeforeStartMessage);
  }
}

=== FILE: whisper_transcriber.dfy ===
/** The speech-recognition adapter: builds the recogniser's command line,
    turns its progress output into progress events, and turns its output
    file into a filtered transcription result.  The external process and
    the filesystem are parameters: what the process printed and whether it
    failed, whether a path exists, and what reading a path yields. */
module WhisperTranscriber {

  import opened Wrappers
  import opened Text
  import opened Errors
  import opened Events
  import opened Paths
  import opened Transcript
  import opened Hallucination
  import opened WhisperOutput
  import opened Process

  const DefaultBinary := "whisper-cli"
  const DefaultModelDir := "~/.tolmach/models"

  datatype TranscriptionOptions = TranscriptionOptions(
    model: string,
    language: string,
    outputDir: string,
    modelDir: Option<string>)

  /** `resolveModelPath`: an absolute path or a `.bin` file name is used as
      given; any other name is the conventional model file in the model
      directory. */
  function ResolveModelPath(model: string, modelDir: Option<string>): (r: string)
    ensures IsAbsolute(model) || EndsWith(model, ".bin") ==> r == model
    ensures !(IsAbsolute(model) || EndsWith(model, ".bin")) ==>
              && r == JoinPrefix(modelDir.GetOr(DefaultModelDir)) + "ggml-" + model + ".bin"
              && EndsWith(r, ".bin") && EndsWith(r, "ggml-" + model + ".bin")
  {
    if IsAbsolute(model) || EndsWith(model, ".bin") then model
    else
      ModelFileJoined(modelDir.GetOr(DefaultModelDir), model);
      JoinPath(modelDir.GetOr(DefaultModelDir), "ggml-" + model + ".bin")
  }

  /** The conventional model file joined onto a directory. */
  lemma ModelFileJoined(dir: string, model: string)
    ensures var r := JoinPath(dir, "ggml-" + model + ".bin");
            && r == JoinPrefix(dir) + "ggml-" + model + ".bin"
            && EndsWith(r, ".bin") && EndsWith(r, "ggml-" + model + ".bin")
  {
    var file := "ggml-" + model + ".bin";
    JoinPathSplits(dir, file);
    JoinEndsWith(dir, file);
    assert file[|file| - 4..] == ".bin";
    assert JoinPrefix(dir) + file == JoinPrefix(dir) + "ggml-" + model + ".bin";
  }

  /** Resolving an already resolved model path changes nothing. */
  lemma ResolveModelPathIdempotent(model: string, modelDir: Option<string>)
    ensures ResolveModelPath(ResolveModelPath(model, modelDir), modelDir) == ResolveModelPath(model, modelDir)
  {
  }

  /** A bare model name resolves into the given model directory; an
      absolute path is kept. */
  lemma ModelNameExample()
    ensures ResolveModelPath("large-v3-turbo", Some("/home/user/models"))
            == "/home/user/models/ggml-large-v3-turbo.bin"
    ensures ResolveModelPath("/custom/path/ggml-large-v3-turbo.bin", None)
            == "/custom/path/ggml-large-v3-turbo.bin"
  {
    BareModelName();
    var path := "/custom/path/ggml-large-v3-turbo.bin";
    assert IsAbsolute(path);
  }

  lemma BareModelName()
    ensures ResolveModelPath("large-v3-turbo", Some("/home/user/models"))
            == "/home/user/models/ggml-large-v3-turbo.bin"
  {
    var model := "large-v3-turbo";
    var dir := "/home/user/models";
    assert model[|model| - 1] == 'o';
    assert dir[|dir| - 1] == 's';
    BareNameResolves(model, dir);
    ModelPathSpelled();
  }

  lemma ModelPathSpelled()
    ensures "/home/user/models" + "/" + ("ggml-" + "large-v3-turbo" + ".bin") == "/home/user/models/ggml-large-v3-turbo.bin"
  {
  }

  lemma BareNameResolves(model: string, dir: string)
    requires |model| > 0 && model[0] != '/' && model[|model| - 1] != 'n'
    requires |dir| > 0 && dir[|dir| - 1] != '/'
    ensures ResolveModelPath(model, Some(dir)) == dir + "/" + ("ggml-" + model + ".bin")
  {
    assert !EndsWith(model, ".bin");
    assert !EndsWith(dir, "/");
  }

  /** Where the recogniser writes its output, without extension. */
  function OutputPrefix(audioPath: string, outputDir: string): string {
    JoinPath(outputDir, Basename(audioPath, ".wav"))
  }

  /** The audio saved by the download stage as `<title>.wav` in the working
      directory yields the prefix `<title>` in that same directory. */
  lemma OutputPrefixOfRecording(dir: string, title: string)
    requires dir != "" && title != "" && '/' !in title
    ensures OutputPrefix(JoinPath(dir, title + ".wav"), dir) == JoinPath(dir, title)
  {
    BasenameOfJoin(dir, title, ".wav");
  }

  function BaseArgs(audioPath: string, prefix: string): seq<string> {
    ["-f", audioPath, "--output-json-full", "-pp", "-of", prefix]
  }

  /** Whether the language must be passed: set, and not automatic detection. */
  predicate PassesLanguage(language: string) {
    language != "" && language != "auto"
  }

  /** `buildArgs`: the fixed input/output arguments, then `-m` with the
      resolved model when a model is named, then `-l` with the language when
      one is chosen. */
  function BuildArgs(audioPath: string, options: TranscriptionOptions, prefix: string): (r: seq<string>)
    ensures |r| == 6 + (if options.model != "" then 2 else 0) + (if PassesLanguage(options.language) then 2 else 0)
    ensures r[..6] == BaseArgs(audioPath, prefix)
    ensures options.model != "" ==> r[6] == "-m" && r[7] == ResolveModelPath(options.model, options.modelDir)
    ensures PassesLanguage(options.language) ==> r[|r| - 2] == "-l" && r[|r| - 1] == options.language
    ensures options.model == "" && !PassesLanguage(options.language) ==> r == BaseArgs(audioPath, prefix)
  {
    var withModel :=
      BaseArgs(audioPath, prefix)
      + (if options.model != "" then ["-m", ResolveModelPath(options.model, options.modelDir)] else []);
    withModel + (if PassesLanguage(options.language) then ["-l", options.language] else [])
  }

  /** Automatic language detection adds no language flag. */
  lemma AutoLanguageOmitted(audioPath: string, model: string, outputDir: string, modelDir: Option<string>, prefix: string)
    ensures "-l" !in BuildArgs(audioPath, TranscriptionOptions(model, "auto", outputDir, modelDir), prefix)[6..]
  {
    var r := BuildArgs(audioPath, TranscriptionOptions(model, "auto", outputDir, modelDir), prefix);
    if model != "" {
      assert r[6..] == ["-m", ResolveModelPath(model, modelDir)];
    } else {
      assert r[6..] == [];
    }
  }

  /** The progress pattern anchored at `i`: the word `progress`, optional
      white space, an optional `=`, optional white space, one or more
      digits and a percent sign; the value of the digits when it matches. */
  function MatchProgressAt(s: string, i: nat): Option<nat> {
    if i > |s| || !StartsWith(s[i..], "progress") then None
    else
      var a := SkipWhitespace(s, i + 8);
      var b := if a < |s| && s[a] == '=' then a + 1 else a;
      var c := SkipWhitespace(s, b);
      var d := SkipDigits(s, c);
      if c < d < |s| && s[d] == '%' then Some(DigitsToNat(s[c..d])) else None
  }

  /** The progress callback's line parser: the percentage of the leftmost
      match of the progress pattern in the line, if any. */
  function ProgressPercent(line: string): Option<nat> {
    Leftmost(line, MatchProgressAt)
  }

  /** The line the recogniser prints for `n` percent. */
  function ProgressLine(n: nat): string {
    "progress = " + NatToString(n) + "%"
  }

  /** Reading a printed progress line gives back its percentage. */
  lemma ProgressLineRoundTrip(n: nat)
    ensures ProgressPercent(ProgressLine(n)) == Some(n)
  {
    var digits := NatToString(n);
    var s := ProgressLine(n);
    assert s[..8] == "progress";
    assert s[0..][..8] == "progress";
    assert SkipWhitespace(s, 9) == 9;
    assert SkipWhitespace(s, 8) == 9;
    assert SkipWhitespace(s, 10) == 11 by {
      assert s[10] == ' ';
      assert s[11] == digits[0];
    }
    assert s[11 + |digits|] == '%';
    assert forall k :: 11 <= k < 11 + |digits| ==> s[k] == digits[k - 11];
    SkipDigitsOverRun(s, 11, |digits|);
    assert s[11..11 + |digits|] == digits;
    NatToStringRoundTrip(n);
    assert MatchProgressAt(s, 0) == Some(n);
  }

  /** A line without the word `progress` reports nothing. */
  lemma NoProgressWordNoPercent(line: string)
    requires !Contains(line, "progress")
    ensures ProgressPercent(line).None?
  {
  }

  /** The percentage as the progress callback reports it. */
  function ProgressValue(line: string): Option<real> {
    match ProgressPercent(line)
    case Some(n) => Some(n as real)
    case None => None
  }

  /** What one call made and produced: the command and arguments run, the
      progress events forwarded, and the outcome. */
  datatype TranscribeRun = TranscribeRun(
    command: string,
    args: seq<string>,
    events: seq<ProgressEvent>,
    outcome: Outcome<Result<TranscriptionResult, Error>>)

  const WhisperFailedPrefix := "Whisper failed: "
  const OutputNotFoundPrefix := "Whisper output file not found: "
  const ReadFailedPrefix := "Failed to read whisper output: "

  /** The outcome once the process has ended: each failure of the process,
      the file lookup, the read and the parse, in that order, and otherwise
      the parsed segments with hallucinations removed. */
  function TranscribeOutcome(
    filter: Filter,
    decode: string -> Decoded,
    jsonPath: string,
    failure: Option<Error>,
    fileExists: string -> bool,
    readFile: string -> Result<string, Error>): (r: Outcome<Result<TranscriptionResult, Error>>)
    ensures failure.Some? ==>
              r == Returned(Err(TranscriptionError(TranscriptionFailed, WhisperFailedPrefix + failure.value.message,
                                                   Some(failure.value))))
    ensures failure.None? && !fileExists(jsonPath) ==>
              r == Returned(Err(TranscriptionError(ParseFailed, OutputNotFoundPrefix + jsonPath, None)))
    ensures failure.None? && fileExists(jsonPath) && readFile(jsonPath).Err? ==>
              var e := readFile(jsonPath).error;
              r == Returned(Err(TranscriptionError(ParseFailed, ReadFailedPrefix + e.message, Some(e))))
    ensures failure.None? && fileExists(jsonPath) && readFile(jsonPath).Ok? ==>
              var parsed := Parse(decode(readFile(jsonPath).value));
              && (parsed.Thrown? ==> r == Thrown(parsed.message))
              && (parsed.Returned? && parsed.value.Err? ==> r == Returned(Err(parsed.value.error)))
              && (parsed.Returned? && parsed.value.Ok? ==>
                    && r.Returned? && r.value.Ok?
                    && r.value.value.segments == FilterSegments(filter, parsed.value.value.segments)
                    && r.value.value.language == parsed.value.value.language
                    && IsSubsequence(r.value.value.segments, parsed.value.value.segments)
                    && forall s :: s in r.value.value.segments <==>
                                     s in parsed.value.value.segments && !IsHallucination(filter, s.text))
    ensures r.Returned? && r.value.Ok? ==>
              forall i :: 0 <= i < |r.value.value.segments| ==> !IsHallucination(filter, r.value.value.segments[i].text)
    ensures r.Returned? && r.value.Err? ==> r.value.error.TranscriptionError?
  {
    if failure.Some? then
      Returned(Err(TranscriptionError(TranscriptionFailed, WhisperFailedPrefix + failure.value.message, Some(failure.value))))
    else if !fileExists(jsonPath) then
      Returned(Err(TranscriptionError(ParseFailed, OutputNotFoundPrefix + jsonPath, None)))
    else
      match readFile(jsonPath)
      case Err(e) => Returned(Err(TranscriptionError(ParseFailed, ReadFailedPrefix + e.message, Some(e))))
      case Ok(content) =>
        match Parse(decode(content))
        case Thrown(m) => Thrown(m)
        case Returned(Err(e)) => Returned(Err(e))
        case Returned(Ok(parsed)) =>
          FilterIsSubsequence(filter, parsed.segments);
          Returned(Ok(TranscriptionResult(FilterSegments(filter, parsed.segments), parsed.language)))
  }

  /** `transcribe`: runs the recogniser on the audio with output next to the
      working directory, forwarding its progress, then reads the output. */
  function Transcribe(
    binary: string,
    filter: Filter,
    decode: string -> Decoded,
    audioPath: string,
    options: TranscriptionOptions,
    run: ProcessRun,
    fileExists: string -> bool,
    readFile: string -> Result<string, Error>): (t: TranscribeRun)
    ensures t.command == binary
    ensures t.args == BuildArgs(audioPath, options, OutputPrefix(audioPath, options.outputDir))
    ensures t.events == ChunkEvents(binary, run.chunks, ProgressValue)
    ensures t.outcome == TranscribeOutcome(filter, decode, OutputPrefix(audioPath, options.outputDir) + ".json",
                                           run.failure, fileExists, readFile)
  {
    var prefix := OutputPrefix(audioPath, options.outputDir);
    TranscribeRun(
      binary,
      BuildArgs(audioPath, options, prefix),
      ChunkEvents(binary, run.chunks, ProgressValue),
      TranscribeOutcome(filter, decode, prefix + ".json", run.failure, fileExists, readFile))
  }
  /** The recogniser's command line for one call: the audio, full JSON
      output, progress printing and the output prefix in the working
      directory first, then the resolved model when one is named, and the
      language last when one is chosen. */
  lemma TranscribeArguments(
    binary: string, filter: Filter, decode: string -> Decoded, audioPath: string, options: TranscriptionOptions,
    run: ProcessRun, fileExists: string -> bool, readFile: string -> Result<string, Error>)
    ensures var t := Transcribe(binary, filter, decode, audioPath, options, run, fileExists, readFile);
            && t.command == binary
            && |t.args| >= 6
            && t.args[..6] == ["-f", audioPath, "--output-json-full", "-pp", "-of", OutputPrefix(audioPath, options.outputDir)]
            && (options.model != "" ==> t.args[6] == "-m" && t.args[7] == ResolveModelPath(options.model, options.modelDir))
            && (PassesLanguage(options.language) ==> t.args[|t.args| - 2] == "-l" && t.args[|t.args| - 1] == options.language)
            && forall i :: 0 <= i < |t.events| ==> t.events[i].stage == binary && t.events[i].status == Progress
  {
    var t := Transcribe(binary, filter, decode, audioPath, options, run, fileExists, readFile);
    ArgsShape(audioPath, options, OutputPrefix(audioPath, options.outputDir), t.args);
  }

  lemma ArgsShape(audioPath: string, options: TranscriptionOptions, prefix: string, args: seq<string>)
    requires args == BuildArgs(audioPath, options, prefix)
    ensures |args| >= 6
    ensures args[..6] == ["-f", audioPath, "--output-json-full", "-pp", "-of", prefix]
    ensures options.model != "" ==> args[6] == "-m" && args[7] == ResolveModelPath(options.model, options.modelDir)
    ensures PassesLanguage(options.language) ==> args[|args| - 2] == "-l" && args[|args| - 1] == options.language
  {
  }

  /** How one call ends: a failed process is a transcription-failed error
      wrapping the process error; a missing output file is a parse-failed
      error naming `<prefix>.json`; a parsed output gives its segments with
      hallucinations removed, every copy of a kept segment included, and
      its language; every returned error is a transcription error. */
  lemma TranscribeEnds(
    binary: string, filter: Filter, decode: string -> Decoded, audioPath: string, options: TranscriptionOptions,
    run: ProcessRun, fileExists: string -> bool, readFile: string -> Result<string, Error>)
    ensures var t := Transcribe(binary, filter, decode, audioPath, options, run, fileExists, readFile);
            var json := OutputPrefix(audioPath, options.outputDir) + ".json";
            && (run.failure.Some? ==>
                  t.outcome == Returned(Err(TranscriptionError(TranscriptionFailed, WhisperFailedPrefix + run.failure.value.message,
                                                               run.failure))))
            && (run.failure.None? && !fileExists(json) ==>
                  t.outcome == Returned(Err(TranscriptionError(ParseFailed, OutputNotFoundPrefix + json, None))))
            && (run.failure.None? && fileExists(json) && readFile(json).Ok? ==>
                  var parsed := Parse(decode(readFile(json).value));
                  parsed.Returned? && parsed.value.Ok? ==>
                    t.outcome == Returned(Ok(TranscriptionResult(FilterSegments(filter, parsed.value.value.segments),
                                                                 parsed.value.value.language))))
            && (t.outcome.Returned? && t.outcome.value.Err? ==> t.outcome.value.error.TranscriptionError?)
  {
    var json := OutputPrefix(audioPath, options.outputDir) + ".json";
    OutcomeEnds(filter, decode, json, run.failure, fileExists, readFile,
                TranscribeOutcome(filter, decode, json, run.failure, fileExists, readFile));
  }

  lemma OutcomeEnds(
    filter: Filter, decode: string -> Decoded, json: string, failure: Option<Error>,
    fileExists: string -> bool, readFile: string -> Result<string, Error>, o: Outcome<Result<TranscriptionResult, Error>>)
    requires o == TranscribeOutcome(filter, decode, json, failure, fileExists, readFile)
    ensures failure.Some? ==>
              o == Returned(Err(TranscriptionError(TranscriptionFailed, WhisperFailedPrefix + failure.value.message, failure)))
    ensures failure.None? && !fileExists(json) ==>
              o == Returned(Err(TranscriptionError(ParseFailed, OutputNotFoundPrefix + json, None)))
    ensures failure.None? && fileExists(json) && readFile(json).Ok? ==>
              var parsed := Parse(decode(readFile(json).value));
              parsed.Returned? && parsed.value.Ok? ==>
                o == Returned(Ok(TranscriptionResult(FilterSegments(filter, parsed.value.value.segments),
                                                     parsed.value.value.language)))
    ensures o.Returned? && o.value.Err? ==> o.value.error.TranscriptionError?
  {
  }
}

=== FILE: wrappers.dfy ===
/** Failure-compatible outcome types shared by every other module.
    `Result` mirrors the two-variant `ok`/`err` value of the shared result
    helper; `Option` stands for an optional (possibly `undefined`) value. */
module Wrappers {

  datatype Option<+T> = None | Some(value: T) {

    /** The value, or `default` when absent (the `??` operator). */
    function GetOr(default: T): T {
      match this
      case Some(v) => v
      case None => default
    }
  }

  datatype Result<+T, +E> = Ok(value: T) | Err(error: E) {

    predicate IsFailure() {
      Err?
    }

    function PropagateFailure<U>(): Result<U, E>
      requires Err?
    {
      Err(error)
    }

    function Extract(): T
      requires Ok?
    {
      value
    }
  }

  /** How a call that may throw ends: it returns a value, or an exception
      with the given message escapes it. */
  datatype Outcome<+T> = Returned(value: T) | Thrown(message: string)

  /** Applies `f` to a success value; an error passes through untouched. */
  function MapResult<T, U, E>(r: Result<T, E>, f: T -> U): (m: Result<U, E>)
    ensures m.Ok? <==> r.Ok?
    ensures r.Ok? ==> m.value == f(r.value)
    ensures r.Err? ==> m.error == r.error
  {
    match r
    case Ok(v) => Ok(f(v))
    case Err(e) => Err(e)
  }

  /** Chains a fallible step after a success; the first error wins. */
  function FlatMapResult<T, U, E>(r: Result<T, E>, f: T -> Result<U, E>): (m: Result<U, E>)
    ensures r.Err? ==> m.Err? && m.error == r.error
    ensures r.Ok? ==> m == f(r.value)
  {
    match r
    case Ok(v) => f(v)
    case Err(e) => Err(e)
  }

  /** `mapResult` is `flatMapResult` followed by `ok`. */
  lemma MapIsFlatMapOk<T, U, E>(r: Result<T, E>, f: T -> U)
    ensures MapResult(r, f) == FlatMapResult(r, (x: T) => Ok(f(x)))
  {
  }

  /** Chaining is associative, so a pipeline of fallible steps may be grouped freely. */
  lemma FlatMapAssociative<T, U, V, E>(r: Result<T, E>, f: T -> Result<U, E>, g: U -> Result<V, E>)
    ensures FlatMapResult(FlatMapResult(r, f), g)
         == FlatMapResult(r, (x: T) => FlatMapResult(f(x), g))
  {
  }

  /** Applies a fallible step to each element in order; the first error
      aborts the whole mapping and is the result. */
  function MapUntilError<A, B, E>(xs: seq<A>, f: A -> Result<B, E>): (r: Result<seq<B>, E>)
    ensures r.Ok? <==> forall i :: 0 <= i < |xs| ==> f(xs[i]).Ok?
    ensures r.Ok? ==> |r.value| == |xs| && forall i :: 0 <= i < |xs| ==> f(xs[i]) == Ok(r.value[i])
    ensures r.Err? ==> exists i :: 0 <= i < |xs| && f(xs[i]) == Err(r.error)
                                   && forall j :: 0 <= j < i ==> f(xs[j]).Ok?
  {
    if |xs| == 0 then Ok([])
    else
      match f(xs[0])
      case Err(e) => Err(e)
      case Ok(y) =>
        match MapUntilError(xs[1..], f)
        case Err(e) =>
          ghost var i :| 0 <= i < |xs[1..]| && f(xs[1..][i]) == Err(e)
                         && forall j :: 0 <= j < i ==> f(xs[1..][j]).Ok?;
          assert f(xs[i + 1]) == Err(e);
          assert forall j :: 0 <= j < i + 1 ==> f(xs[j]).Ok? by {
            forall j | 0 <= j < i + 1 ensures f(xs[j]).Ok? {
              if j > 0 {
                assert xs[j] == xs[1..][j - 1];
              }
            }
          }
          Err(e)
        case Ok(rest) =>
          assert forall i :: 0 <= i < |xs| ==> f(xs[i]).Ok? by {
            forall i | 0 <= i < |xs| ensures f(xs[i]).Ok? {
              if i > 0 {
                assert xs[i] == xs[1..][i - 1];
              }
            }
          }
          Ok([y] + rest)
  }

  /** When every step succeeds, the mapping is the sequence of their values. */
  lemma MapUntilErrorOk<A, B, E>(xs: seq<A>, f: A -> Result<B, E>, ys: seq<B>)
    requires |ys| == |xs|
    requires forall i :: 0 <= i < |xs| ==> f(xs[i]) == Ok(ys[i])
    ensures MapUntilError(xs, f) == Ok(ys)
  {
    var r := MapUntilError(xs, f);
    assert r.Ok?;
    assert r.value == ys;
  }
}

=== FILE: youtube.dfy ===
/** The YouTube provider: recognises YouTube URLs, reads a video's metadata
    from the downloader's JSON dump, and downloads the audio track as WAV
    with progress read from the downloader's output lines.  The downloader
    runs and the file-size lookup are parameters; decoding the JSON dump is
    taken as given and classified as not JSON, mistyped, or the fields. */
module YouTube {

  import opened Wrappers
  import opened Text
  import opened Errors
  import opened Events
  import opened Paths
  import opened Video
  import opened Process
  import opened Registry

  const Name := "youtube"
  const Downloader := "yt-dlp"

  /** The alternatives of the URL pattern: a watch, shorts, live or embed
      page on youtube.com, or a youtu.be short link. */
  const UrlNeedles: seq<string> :=
    ["youtube.com/watch", "youtube.com/shorts", "youtube.com/live", "youtube.com/embed", "youtu.be/"]

  /** `canHandle`: the URL contains one of the pattern's alternatives anywhere. */
  predicate CanHandle(url: string) {
    exists i :: 0 <= i < |UrlNeedles| && Contains(url, UrlNeedles[i])
  }

  /** A URL holding any alternative of the pattern anywhere is handled. */
  lemma AlternativeAnywhere(prefix: string, k: nat, suffix: string)
    requires k < |UrlNeedles|
    ensures CanHandle(prefix + UrlNeedles[k] + suffix)
  {
    ContainsInfix(prefix, UrlNeedles[k], suffix);
  }

  lemma WatchUrlHandled()
    ensures CanHandle("https://www.youtube.com/watch?v=abc123")
  {
    var url := "https://www.youtube.com/watch?v=abc123";
    assert url[12..][..|UrlNeedles[0]|] == UrlNeedles[0];
    assert StartsWith(url[12..], UrlNeedles[0]);
  }

  lemma OtherSitesRejected()
    ensures !CanHandle("https://vimeo.com/123")
    ensures !CanHandle("https://example.com/video")
  {
    NoYNoYouTube("https://vimeo.com/123");
    NoYNoYouTube("https://example.com/video");
  }

  /** Every alternative starts with `y`, so a URL without one is rejected. */
  lemma NoYNoYouTube(url: string)
    requires 'y' !in url
    ensures !CanHandle(url)
  {
    forall i | 0 <= i < |UrlNeedles| ensures !Contains(url, UrlNeedles[i]) {
      AbsentFirstCharacter(url, UrlNeedles[i]);
    }
  }

  /** The download-progress pattern anchored at `i`: `[download]`, white
      space, digits with an optional fractional part, and a percent sign. */
  function MatchDownloadAt(s: string, i: nat): Option<real> {
    if i > |s| || !StartsWith(s[i..], "[download]") then None
    else
      var b := SkipWhitespace(s, i + 10);
      var c := SkipDigits(s, b);
      if b == i + 10 || c == b || c == |s| then None
      else if s[c] == '%' then Some(DecimalValue(s[b..c], ""))
      else if s[c] != '.' then None
      else
        var d := SkipDigits(s, c + 1);
        if c + 1 < d < |s| && s[d] == '%' then Some(DecimalValue(s[b..c], s[c + 1..d])) else None
  }

  /** The download progress callback's line parser. */
  function DownloadPercent(line: string): Option<real> {
    Leftmost(line, MatchDownloadAt)
  }

  /** The line the downloader prints for `whole.fraction` percent. */
  function DownloadLine(whole: nat, fraction: string, rest: string): string {
    "[download]  " + NatToString(whole) + "." + fraction + "%" + rest
  }

  /** Reading a printed progress line gives back its percentage. */
  lemma DownloadLineRoundTrip(whole: nat, fraction: string, rest: string)
    requires |fraction| > 0 && AllDigits(fraction)
    ensures DownloadPercent(DownloadLine(whole, fraction, rest)) == Some(DecimalValue(NatToString(whole), fraction))
  {
    var digits := NatToString(whole);
    DownloadLineShape(digits, fraction, rest);
    MatchDecimalAt("[download]  " + digits + "." + fraction + "%" + rest, digits, fraction);
  }

  /** Where the parts of a printed progress line sit. */
  lemma DownloadLineShape(digits: string, fraction: string, rest: string)
    requires |digits| > 0 && AllDigits(digits) && |fraction| > 0 && AllDigits(fraction)
    ensures var s := "[download]  " + digits + "." + fraction + "%" + rest;
            var c := 12 + |digits|;
            var d := c + 1 + |fraction|;
            && d < |s| && StartsWith(s[0..], "[download]") && s[10] == ' ' && s[11] == ' '
            && s[12..c] == digits && s[c] == '.' && s[c + 1..d] == fraction && s[d] == '%'
  {
    var s := "[download]  " + digits + "." + fraction + "%" + rest;
    assert s[0..][..10] == "[download]";
  }

  /** The pattern matches `[download]`, two spaces, digits, a point,
      digits and a percent sign at the start of a line. */
  lemma MatchDecimalAt(s: string, digits: string, fraction: string)
    requires |digits| > 0 && AllDigits(digits) && |fraction| > 0 && AllDigits(fraction)
    requires 12 + |digits| + 1 + |fraction| < |s|
    requires StartsWith(s[0..], "[download]") && s[10] == ' ' && s[11] == ' '
    requires s[12..12 + |digits|] == digits && s[12 + |digits|] == '.'
    requires s[12 + |digits| + 1..12 + |digits| + 1 + |fraction|] == fraction
    requires s[12 + |digits| + 1 + |fraction|] == '%'
    ensures DownloadPercent(s) == Some(DecimalValue(digits, fraction))
  {
    var c := 12 + |digits|;
    var d := c + 1 + |fraction|;
    assert forall k :: 12 <= k < c ==> s[k] == digits[k - 12];
    assert forall k :: c + 1 <= k < d ==> s[k] == fraction[k - c - 1];
    assert SkipWhitespace(s, 10) == 12 by {
      assert IsDigit(digits[0]);
    }
    SkipDigitsOverRun(s, 12, c - 12);
    SkipDigitsOverRun(s, c + 1, d - c - 1);
    assert MatchDownloadAt(s, 0) == Some(DecimalValue(digits, fraction));
  }

  /** A line without `[download]` reports no progress. */
  lemma NoDownloadTagNoPercent(line: string)
    requires !Contains(line, "[download]")
    ensures DownloadPercent(line).None?
  {
  }

  /** The percentage of an actual downloader line. */
  lemma DownloadPercentExample()
    ensures DownloadPercent("[download]  45.2% of 10.00MiB") == Some(45.2)
  {
    DownloadLineExample();
    DecimalExample();
    DownloadLineRoundTrip(45, "2", " of 10.00MiB");
  }

  lemma DownloadLineExample()
    ensures DownloadLine(45, "2", " of 10.00MiB") == "[download]  45.2% of 10.00MiB"
  {
    assert NatToString(45) == "45";
  }

  lemma DecimalExample()
    ensures DecimalValue(NatToString(45), "2") == 45.2
  {
    NatToStringRoundTrip(45);
    assert DigitsToNat("2") == 2;
    assert Pow10(1) == 10;
  }

  /** The decoded JSON dump: not JSON at all, fields of the wrong type (the
      metadata constructor then fails on them), or the fields used. */
  datatype MetadataJson =
    | NotJson(syntaxError: string)
    | Mistyped(typeError: string)
    | Fields(title: string, uploader: string, duration: int, description: string, webpageUrl: string)

  const ExtractFailedPrefix := "Failed to extract metadata: "
  const MetadataJsonMessage := "Failed to parse yt-dlp metadata JSON"
  const DownloadFailedPrefix := "Failed to download: "

  function MetadataCommand(url: string): Command {
    Command(Downloader, ["--dump-json", "--no-download", url], None)
  }

  /** The error for anything thrown while reading the dump: the fixed
      message, with what was thrown as the cause. */
  function MetadataJsonError(cause: Error): (e: Error)
    ensures e.VideoError? && e.videoCode == MetadataFailed && e.cause == Some(cause)
  {
    VideoError(MetadataFailed, MetadataJsonMessage, Some(cause))
  }

  /** `extractMetadata`, given what the metadata command returned (its
      standard output, or the process error). */
  function ExtractMetadata(url: string, dump: Result<string, Error>, decode: string -> MetadataJson): (r: Result<VideoMetadata, Error>)
    ensures dump.Err? ==> r == Err(VideoError(MetadataFailed, ExtractFailedPrefix + dump.error.message, Some(dump.error)))
    ensures dump.Ok? && decode(dump.value).NotJson? ==>
              r == Err(MetadataJsonError(Plain("SyntaxError", decode(dump.value).syntaxError, None)))
    ensures dump.Ok? && decode(dump.value).Mistyped? ==>
              r == Err(MetadataJsonError(Plain("TypeError", decode(dump.value).typeError, None)))
    ensures r.Err? ==> r.error.VideoError? && r.error.videoCode == MetadataFailed
    ensures r.Ok? <==>
              && dump.Ok? && decode(dump.value).Fields?
              && var f := decode(dump.value);
                 NewVideoMetadata(f.title, f.uploader, f.duration, f.description, f.webpageUrl, Name).Ok?
    ensures r.Ok? ==>
              var f := decode(dump.value);
              && ValidMetadata(r.value) && r.value.provider == Name
              && r.value.title == Trim(f.title) && r.value.author == Trim(f.uploader)
              && r.value.durationSeconds == f.duration && r.value.url == f.webpageUrl
  {
    match dump
    case Err(e) => Err(VideoError(MetadataFailed, ExtractFailedPrefix + e.message, Some(e)))
    case Ok(stdout) =>
      match decode(stdout)
      case NotJson(m) => Err(MetadataJsonError(Plain("SyntaxError", m, None)))
      case Mistyped(m) => Err(MetadataJsonError(Plain("TypeError", m, None)))
      case Fields(title, uploader, duration, description, webpageUrl) =>
        match NewVideoMetadata(title, uploader, duration, description, webpageUrl, Name)
        case Err(m) => Err(MetadataJsonError(Plain("Error", m, None)))
        case Ok(metadata) => Ok(metadata)
  }

  /** The downloader's output template in the output directory. */
  function OutputTemplate(outputDir: string): string {
    JoinPath(outputDir, "%(title)s.%(ext)s")
  }

  function DownloadCommand(url: string, outputDir: string): (c: Command)
    ensures c.program == Downloader && c.cwd == Some(outputDir)
    ensures |c.args| == 11 && c.args[9] == OutputTemplate(outputDir) && c.args[10] == url
    ensures c.args[..9] == ["-x", "--audio-format", "wav", "--audio-quality", "5", "-f", "worstaudio", "--newline", "-o"]
  {
    Command(Downloader,
            ["-x", "--audio-format", "wav", "--audio-quality", "5", "-f", "worstaudio", "--newline", "-o",
             OutputTemplate(outputDir), url],
            Some(outputDir))
  }

  /** Where the audio track is expected: `<title>.wav` in the output directory. */
  function AudioPath(outputDir: string, title: string): string {
    JoinPath(outputDir, title + ".wav")
  }

  /** `download`: the metadata first (its error is returned unchanged and
      nothing is downloaded), then the audio download with progress, then
      the file size, 0 when it cannot be read. */
  function Download(
    url: string,
    outputDir: string,
    dump: Result<string, Error>,
    decode: string -> MetadataJson,
    run: ProcessRun,
    fileSize: string -> Result<nat, Error>): (d: DownloadRun)
    ensures var meta := ExtractMetadata(url, dump, decode);
            && (meta.Err? ==> d == DownloadRun([MetadataCommand(url)], [], Err(meta.error)))
            && (meta.Ok? ==>
                  && d.calls == [MetadataCommand(url), DownloadCommand(url, outputDir)]
                  && d.events == ChunkEvents(Downloader, run.chunks, DownloadPercent)
                  && (run.failure.Some? ==>
                        d.result == Err(VideoError(DownloadFailed, DownloadFailedPrefix + run.failure.value.message,
                                                   run.failure)))
                  && (run.failure.None? ==>
                        var path := AudioPath(outputDir, meta.value.title);
                        && d.result.Ok?
                        && d.result.value.audioPath == path
                        && d.result.value.metadata == meta.value
                        && d.result.value.fileSizeBytes == (if fileSize(path).Ok? then fileSize(path).value else 0)))
  {
    match ExtractMetadata(url, dump, decode)
    case Err(e) => DownloadRun([MetadataCommand(url)], [], Err(e))
    case Ok(metadata) =>
      var calls := [MetadataCommand(url), DownloadCommand(url, outputDir)];
      var events := ChunkEvents(Downloader, run.chunks, DownloadPercent);
      match run.failure
      case Some(e) => DownloadRun(calls, events, Err(VideoError(DownloadFailed, DownloadFailedPrefix + e.message, Some(e))))
      case None =>
        var path := AudioPath(outputDir, metadata.title);
        var size := match fileSize(path) case Ok(n) => n case Err(_) => 0;
        DownloadRun(calls, events, Ok(DownloadedVideo(path, metadata, size)))
  }

  /** The audio path of a video is never blank: it ends with `.wav`. */
  lemma AudioPathNotBlank(outputDir: string, title: string)
    ensures Trim(AudioPath(outputDir, title)) != ""
  {
    var p := AudioPath(outputDir, title);
    JoinEndsWith(outputDir, title + ".wav");
    assert p[|p| - 4] == '.';
  }

  /** The downloaded-video constructor accepts what a successful download
      builds (the audio path in the output directory and a size that is a
      measurement or 0), so `download` never throws after the metadata
      succeeded. */
  lemma DownloadedVideoAccepted(outputDir: string, metadata: VideoMetadata, size: nat)
    ensures var path := AudioPath(outputDir, metadata.title);
            NewDownloadedVideo(path, metadata, size) == Ok(DownloadedVideo(path, metadata, size))
  {
    AudioPathNotBlank(outputDir, metadata.title);
  }

  /** The recording is saved as `<title>.wav`: its base name without the
      extension is the title, which is what names the transcript files. */
  lemma AudioPathNamesTitle(outputDir: string, title: string)
    requires outputDir != "" && title != "" && '/' !in title
    ensures Basename(AudioPath(outputDir, title), ".wav") == title
  {
    BasenameOfJoin(outputDir, title, ".wav");
  }

  /** The provider as registered: its downloads use the given downloader
      runs and file-size lookup. */
  function Provider(
    dumpOf: string -> Result<string, Error>,
    decode: string -> MetadataJson,
    runOf: (string, string) -> ProcessRun,
    fileSize: string -> Result<nat, Error>): (p: VideoProvider)
    ensures p.name == Name
    ensures forall url :: p.canHandle(url) == CanHandle(url)
    ensures forall url, dir :: p.download(url, dir) == Download(url, dir, dumpOf(url), decode, runOf(url, dir), fileSize)
  {
    VideoProvider(Name, url => CanHandle(url), (url, dir) => Download(url, dir, dumpOf(url), decode, runOf(url, dir), fileSize))
  }
  /** The registered provider is named `youtube`, accepts watch URLs and
      rejects URLs without any alternative of the pattern. */
  lemma ProviderAccepts(
    dumpOf: string -> Result<string, Error>,
    decode: string -> MetadataJson,
    runOf: (string, string) -> ProcessRun,
    fileSize: string -> Result<nat, Error>,
    url: string)
    ensures var p := Provider(dumpOf, decode, runOf, fileSize);
            && p.name == Name
            && (Contains(url, "youtube.com/watch") ==> p.canHandle(url))
            && ('y' !in url ==> !p.canHandle(url))
  {
    if Contains(url, "youtube.com/watch") {
      assert UrlNeedles[0] == "youtube.com/watch";
    }
    if 'y' !in url {
      NoYNoYouTube(url);
    }
  }

  /** What the registered provider's download does for one URL and output
      directory: it asks for the metadata before anything else, fails only
      with metadata-failed or download-failed errors, and on success
      delivers valid metadata and a recording named `<title>.wav` in the
      output directory that the downloaded-video constructor accepts. */
  lemma ProviderDownloads(
    dumpOf: string -> Result<string, Error>,
    decode: string -> MetadataJson,
    runOf: (string, string) -> ProcessRun,
    fileSize: string -> Result<nat, Error>,
    url: string,
    dir: string)
    ensures var d := Provider(dumpOf, decode, runOf, fileSize).download(url, dir);
            && |d.calls| > 0 && d.calls[0] == MetadataCommand(url)
            && (d.result.Err? ==>
                  d.result.error.VideoError?
                  && (d.result.error.videoCode == MetadataFailed || d.result.error.videoCode == DownloadFailed))
            && (d.result.Ok? ==>
                  var v := d.result.value;
                  && d.calls == [MetadataCommand(url), DownloadCommand(url, dir)]
                  && v.audioPath == AudioPath(dir, v.metadata.title)
                  && ValidMetadata(v.metadata) && v.metadata.provider == Name
                  && NewDownloadedVideo(v.audioPath, v.metadata, v.fileSizeBytes) == Ok(v))
  {
    DownloadFacts(url, dir, dumpOf(url), decode, runOf(url, dir), fileSize,
                  Download(url, dir, dumpOf(url), decode, runOf(url, dir), fileSize));
  }

  lemma DownloadFacts(
    url: string,
    dir: string,
    dump: Result<string, Error>,
    decode: string -> MetadataJson,
    run: ProcessRun,
    fileSize: string -> Result<nat, Error>,
    d: DownloadRun)
    requires d == Download(url, dir, dump, decode, run, fileSize)
    ensures |d.calls| > 0 && d.calls[0] == MetadataCommand(url)
    ensures d.result.Err? ==>
              d.result.error.VideoError?
              && (d.result.error.videoCode == MetadataFailed || d.result.error.videoCode == DownloadFailed)
    ensures d.result.Ok? ==>
              var v := d.result.value;
              && d.calls == [MetadataCommand(url), DownloadCommand(url, dir)]
              && v.audioPath == AudioPath(dir, v.metadata.title)
              && ValidMetadata(v.metadata) && v.metadata.provider == Name
              && NewDownloadedVideo(v.audioPath, v.metadata, v.fileSizeBytes) == Ok(v)
  {
    var meta := ExtractMetadata(url, dump, decode);
    if meta.Err? {
      assert d == DownloadRun([MetadataCommand(url)], [], Err(meta.error));
    } else if run.failure.Some? {
      assert d.calls[0] == MetadataCommand(url);
      assert d.result.error.videoCode == DownloadFailed;
    } else {
      SuccessfulDownload(url, dir, meta.value, fileSize, d);
    }
  }

  /** The successful branch of `download`, over any extracted metadata. */
  lemma SuccessfulDownload(url: string, dir: string, m: VideoMetadata, fileSize: string -> Result<nat, Error>, d: DownloadRun)
    requires ValidMetadata(m) && m.provider == Name
    requires d.calls == [MetadataCommand(url), DownloadCommand(url, dir)]
    requires d.result.Ok?
    requires d.result.value.audioPath == AudioPath(dir, m.title) && d.result.value.metadata == m
    requires d.result.value.fileSizeBytes == (if fileSize(AudioPath(dir, m.title)).Ok? then fileSize(AudioPath(dir, m.title)).value else 0)
    ensures |d.calls| > 0 && d.calls[0] == MetadataCommand(url)
    ensures var v := d.result.value;
            && v.audioPath == AudioPath(dir, v.metadata.title)
            && ValidMetadata(v.metadata) && v.metadata.provider == Name
            && NewDownloadedVideo(v.audioPath, v.metadata, v.fileSizeBytes) == Ok(v)
  {
    var v := d.result.value;
    assert v.fileSizeBytes >= 0;
    DownloadedVideoAccepted(dir, m, v.fileSizeBytes);
  }
}
